=== FILE: README.md ===
# MoltChat request/response over MQTT, modelled in Dafny

MoltChat is an instant-messaging system that runs a request/response protocol over MQTT.

- A client publishes a JSON envelope `{action, …}` on `mchat/msg/req/<clientId>/<seqId>`.
- The server's gateway answers with `{code, message, data}` on `mchat/msg/resp/<clientId>/<seqId>`.
- Pushes arrive on `mchat/inbox/<employeeId>` and `mchat/group/<groupId>`.

The server implements the protocol once, and each client implements it again.

## What the model covers

- **Server pipeline.** The pipeline is in `gateway.dfy`, `router.dfy` and `session.dfy`. The handlers are in `auth.dfy`, `msg.dfy`, `group.dfy`, `employee.dfy`, `department.dfy` and `agent.dfy`, and the configuration check is in `config.dfy`.
  - The gateway is a `Server` object. Its message callback checks the topic, the JSON and the action, in that order. It then routes the request and appends every publication to a `Broker` log.
  - The router checks the session before it looks up the action in the static table. As written, that lookup also finds the members every object inherits, and the model routes such actions as the code does.
  - The session directory is a map from client id to employee.
  - The SQL tables are maps in `tables.dfy`.
  - The clock and the UUID generator are parameters (`Protocol.Entropy`).
  - The gateway always writes `data` into its reply envelope. It uses an empty object when the handler gave none, and the model keeps this.
- **Correlation tables.** `correlation.dfy` holds what the Node client (`node_client.dfy`) and the admin console (`admin_api.dfy`) share: a pending table whose promises settle at most once, and the choice of client id.
  - `python_client.dfy` models the Python client. Its callers block on a per-request event.
  - A reply, a timeout, a failed publish and a disconnect are separate atomic steps.
- **Mobile connections.**
  - `ios_connection.dfy` models the iOS `MChatConnection`: the pending map, the reconnect backoff, and the hand-written reply scanners.
  - `android_connection.dfy` models the Android `MChatConnection`: the pending map, the single-flight connect, the hand-written JSON payload builder, and the scanners.
  - `scan.dfy` holds the depth-counting `data` scan that both apps share, and the layout of the replies the server writes.
  - `mqtt_gateway.dfy` models the Android connection that several role transports share, and its per-role demultiplexing.
- **Chat state.**
  - `chat_model.dfy` holds the message maps shared by the two chat controllers, which are modelled in `android_chat.dfy` and `ios_chat.dfy`.
  - `history_cache.dfy`, `android_history.dfy` and `ios_history.dfy` model the history cache: the 500-message trim, the eviction down to 100 peers, and the file-name sanitiser.
  - `android_runtime.dfy` and `ios_runtime.dfy` model the runtimes: broker-URL parsing and the checks made before connecting.
  - `debug_log.dfy` models the bounded debug log.
  - `device_identity.dfy` models the device identity store.
- **Plugin.** `openclaw_plugin.dfy` models the OpenClaw channel plugin: configuration merging and precedence, the account list, the start and send guards, and inbound addressing.
- **Foundations.**
  - `json.dfy` holds JSON values and the JavaScript operations the server applies to them: lookup, assignment, spread, `??` and `String(…)`. It also holds `JSON.stringify`'s string escaping, with a proof that it can be read back.
  - `strings.dfy` holds trimming, searching, splitting and decimal numbers.
  - `wrappers.dfy` holds `Option` and `Result`.

## Differences between the two apps

Where the Kotlin and Swift versions of the same logic disagree, both are modelled, and a lemma exhibits an input on which they differ:

- the port digits of a broker URL (`IosRuntime.PortReadingDiffers`);
- a broker URL that starts with a colon (`IosRuntime.ColonFirst`);
- a history file holding an empty map (`IosHistory.EmptyFileDiffers`);
- the sanitiser on non-ASCII letters (`IosHistory.SanitizeAgreesOnAscii` states the ASCII agreement).

## Model

| member | source | states |
|---|---|---|
| Config.Validate | server/src/config.ts:25-43 | the configuration is accepted exactly when it is a truthy object with string `broker.host`, numeric `broker.port`, string `mysql.host`/`mysql.database` and string `storage.endpoint`/`storage.bucket`; each error is reported exactly when its section is the first to fail, in the order object, broker, mysql, storage, and a read failure is never reported here |
| Config.BrokerOf | server/src/config.ts:29-32 | in a validated configuration the broker section exists and its host is the string the model reads |
| Config.ConfigLoader.constructor | server/src/config.ts:45 | the cache starts empty |
| Config.ConfigLoader.LoadConfig | server/src/config.ts:47-53 | once cached, every call returns the cached configuration unchanged; otherwise an unreadable file or a failed check is reported and nothing is cached, and a valid configuration is cached and returned |
| Session.SessionStore.EmployeeIdOf | server/src/db/session.ts:7-14 | the lookup finds nothing exactly for an unknown client, and otherwise the employee of that client's row |
| Session.SessionStore.Upsert | server/src/db/session.ts:16-28 | the client's row is inserted or overwritten, the client now maps to the employee, and every other client's lookup is unchanged |
| Auth.HandleAuthBind | server/src/handlers/auth.ts:11-28 | a missing or empty `employee_id` gives 400 and an inactive or unknown employee 404, both leaving the sessions untouched; otherwise only the requesting client's session row changes, to that employee and device info, and the reply is 0 with empty data |
| Auth.HandleAuthChallenge | server/src/handlers/auth.ts:30-51 | a new challenge `ch_` + 16 hex digits stores the SHA-256 of the token (not the token), the bound employee and an expiry five minutes after now; the reply carries id, token and expiry; an id that is already taken makes the handler throw and stores nothing |
| Msg.ContentOf | server/src/handlers/msg.ts:36 | `content ?? ''`: the request's content unless it is absent or null, then the empty string |
| Msg.PrivatePushFields | server/src/handlers/msg.ts:32-39 | the private push names the caller as sender, the type `private`, the message id, the content, and a `quote_msg_id` exactly when the request had a non-nullish one |
| Msg.GroupPushFields | server/src/handlers/msg.ts:67-74 | the group push names the caller, the group, the message id, the content, and a `quote_msg_id` exactly when the request had a non-nullish one |
| Msg.HandleSendPrivate | server/src/handlers/msg.ts:19-49 | a missing target gives 400 and an inactive or unknown target 404, publishing nothing; otherwise exactly one push is handed to the broker on `mchat/inbox/<to>`, and the handler replies with the new `msg_` id, the target and the send time when the broker accepts it and throws when the broker refuses it |
| Msg.HandleSendGroup | server/src/handlers/msg.ts:51-84 | a missing group gives 400 and a caller who is not a member 403, publishing nothing; otherwise exactly one push is handed to the broker on `mchat/group/<gid>`, and the handler replies with id, group and send time when the broker accepts it and throws when the broker refuses it |
| Msg.HandleReadAck | server/src/handlers/msg.ts:86-91 | the reply is 0 with empty data exactly when `msg_id` is a non-empty string, and otherwise 400 "Missing msg_id" |
| Agents.CapabilityMatch | server/src/handlers/agent.ts:25 | a string capability matches when it contains the skill or the skill contains it; only strings and arrays have `includes`, any other element throws |
| Agents.SomeCapabilityFirstMatch | server/src/handlers/agent.ts:25 | `some` answers true exactly when some capability matches and every capability before it answered false without throwing |
| Agents.Filter | server/src/handlers/agent.ts:19-30 | the filter keeps exactly the rows whose profile parses, has a capabilities array and matches the skill, and never more rows than it was given |
| Agents.FilterAppend | server/src/handlers/agent.ts:20-29 | filtering distributes over concatenation, so the kept rows stay in the query's order |
| Agents.ParseColumn | server/src/handlers/agent.ts:36-37 | a NULL column reads as `null`; a stored text reads as its parse, nothing when `JSON.parse` throws |
| Agents.Projection | server/src/handlers/agent.ts:33-38 | a profile entry exists exactly when both JSON columns parse; it is an object of exactly four distinct keys carrying the row's id, name, parsed profile and parsed skills badge |
| Agents.Projections | server/src/handlers/agent.ts:33-38 | the mapping succeeds exactly when every row's entry exists, and then yields one entry per row, index for index |
| Agents.Ids | server/src/handlers/agent.ts:32 | one id per listed row, index for index |
| Agents.HandleAgentCapabilityList | server/src/handlers/agent.ts:9-45 | the handler throws exactly when a listed row's JSON does not parse; otherwise it answers 0 with the skill (`null` unless a string), the listed ids, and profiles whose ids match the ids index for index |
| Agents.CapabilityData | server/src/handlers/agent.ts:43 | the reply data carries `skill`, `agent_ids` and `agent_profiles` as given |
| Agents.ProjectionsMatch | server/src/handlers/agent.ts:32-38 | the profiles array has one entry per listed row, each naming that row's employee id |
| Agents.NoSkillListsAll | server/src/handlers/agent.ts:13-19 | without a non-empty string skill, an id is listed exactly when it is an active AI agent |
| Agents.SkillFilter | server/src/handlers/agent.ts:13-29 | with a skill, an id is listed exactly when it is an active AI agent whose profile parses to a capabilities array in which some entry matches and none before it throws |
| Departments.SortOrderOf | server/src/handlers/department.ts:14 | the sort order is always a number: the request's when it is a number, 0 otherwise |
| Departments.HandleDepartmentCreate | server/src/handlers/department.ts:11-27 | a missing name gives 400 and stores nothing; otherwise a department `dept_` + 8 hex digits is inserted with the name, a string-or-null parent and the sort order, and echoed back; a taken id makes the insert, and so the handler, throw |
| Departments.ApplyDepartmentColumns | server/src/handlers/department.ts:37-45 | after the SET list each column holds the value assigned to it last, or keeps its old value |
| Departments.DepartmentUpdateColumns | server/src/handlers/department.ts:34-45 | `department.update` sets exactly name, parent_id and sort_order when present in `updates`, to the request's values as given |
| Departments.HandleDepartmentUpdate | server/src/handlers/department.ts:29-49 | a missing id or updates object gives 400, no allowed key gives 400 "No valid updates", both writing nothing; otherwise the row, if it exists, gets the assignments and the reply is 0 even for an absent row |
| Departments.HandleDepartmentDelete | server/src/handlers/department.ts:51-56 | a missing id gives 400 and deletes nothing; otherwise the department is removed and the reply is 0 whether or not it existed |
| Employees.MqttConnection | server/src/handlers/employee.ts:84-94 | the connection object has distinct keys: broker host and port, `use_tls` only when the broker defines it, the employee id as user name, the password, and the client id scheme `<id>_{device_id}_{uuid}` |
| Employees.NewEmployee | server/src/handlers/employee.ts:13-39 | the inserted row is active with the given name and password; it is an AI agent iff `is_ai_agent` is truthy; it has a profile text iff it is an AI agent with a truthy object profile, and a badge text iff the badge is not nullish; department and manager are string-or-null |
| Employees.CreatedId | server/src/handlers/employee.ts:17-23 | the id is the requested non-empty string id, or else `emp_` followed by 12 hex digits |
| Employees.HandleEmployeeCreate | server/src/handlers/employee.ts:12-50 | a missing name gives 400; a requested id that exists gives 400; a generated id that exists makes the insert throw; all three store nothing; otherwise exactly the new row is added and the reply carries id, name, time and MQTT connection |
| Employees.ApplyEmployeePlain | server/src/handlers/employee.ts:61-76 | after the SET list, name, department, manager and status each hold the value assigned last, or keep their old value |
| Employees.ApplyEmployeeEncoded | server/src/handlers/employee.ts:61-76 | after the SET list, profile and badge hold the JSON text of the value assigned last, or keep their old text; the agent flag and the password never change |
| Employees.EmployeeUpdateColumns | server/src/handlers/employee.ts:58-76 | `employee.update` sets exactly the allowed columns present in `updates` (JSON text for profile and badge) and leaves every other column, including `is_ai_agent` and the password, as it was |
| Employees.HandleEmployeeUpdate | server/src/handlers/employee.ts:52-82 | a missing id or updates object gives 400, no allowed key gives 400 "No valid updates", both writing nothing; otherwise the row, if it exists, gets the assignments and the reply is 0 |
| Group.StringItems | server/src/handlers/group.ts:14 | the kept elements are exactly the string elements of the array, never more than it has |
| Group.MemberIds | server/src/handlers/group.ts:11-15 | `parseMemberIds` yields exactly the strings of a `member_ids` array, and nothing when `member_ids` is not an array |
| Group.Distinct | server/src/handlers/group.ts:33 | `[...new Set(xs)]` has no duplicates, the same elements as `xs`, and keeps `xs`'s first element first |
| Group.DistinctCount | server/src/handlers/group.ts:33 | a list without duplicates has as many distinct members as entries |
| Group.InsertMembers | server/src/handlers/group.ts:34-40 | the INSERT loop adds rows for a prefix of the list, the first as owner and the rest as members; it stops exactly at the first id that already had a row |
| Group.HandleGroupCreate | server/src/handlers/group.ts:17-48 | a missing name gives 400 and writes nothing; otherwise the group is stored with the caller as creator and the string description and avatar of `opts`; the call fails exactly when some member row already existed, and on success the members are the caller (owner) followed by the distinct requested ids (members), as echoed in the reply |
| Group.HandleGroupDismiss | server/src/handlers/group.ts:50-70 | missing id 400, unknown group 404, caller not the creator 403, all writing nothing; otherwise the group and all its member rows are removed |
| Group.Added | server/src/handlers/group.ts:85-94 | the added ids have no duplicates and are exactly the requested ids that had no row yet |
| Group.AddMembers | server/src/handlers/group.ts:85-94 | the add loop reports exactly `Added` and inserts exactly those ids as plain members |
| Group.InAddedRows | server/src/handlers/group.ts:85-94 | after the add loop an id has a row exactly when it had one before or was added |
| Group.AddedRowsSnoc | server/src/handlers/group.ts:89-93 | inserting one more id adds exactly its plain member row |
| Group.AddedRowsKeys | server/src/handlers/group.ts:89-93 | the inserted rows belong exactly to the added ids |
| Group.AddedMembers | server/src/handlers/group.ts:85-94 | after the loop the group's members are the old ones plus every requested id |
| Group.AddedCount | server/src/handlers/group.ts:85-96 | the member count grows by exactly the number of ids reported as added |
| Group.HandleGroupMemberAdd | server/src/handlers/group.ts:72-103 | missing group or empty list 400, caller not a member 403, both writing nothing; otherwise exactly the new ids are inserted, reported in request order, with the count read after the inserts |
| Group.HandleGroupMemberRemove | server/src/handlers/group.ts:105-124 | missing group or empty list 400, a group without creator 404; otherwise the listed members are deleted except the creator, whatever the caller's own membership, and the count is read afterwards |
| Router.HandlerFor | server/src/mqtt/router.ts:55-79 | a found handler carries the action's name; nothing is found only when no handler has that name |
| Router.HandlerLookupAsWritten | server/src/mqtt/router.ts:77-79 | property lookup on the table as written also finds `Object.prototype` members such as "toString" |
| Router.HandlerForActionName | server/src/mqtt/router.ts:55-76 | every table entry is found under its own action name |
| Router.AdminOnlyActionsUnknown | server/src/mqtt/router.ts:55-79 | `employee.get`, `employee.delete`, `employee.list` and `config.server` are not in the table |
| Router.Route | server/src/mqtt/router.ts:40-53 | with the table's own entries only: an unbound client gets 401 for every action except `auth.bind`, before any lookup; a bound client (or `auth.bind`) gets 400 "Unknown action: …" exactly when the table has no entry; a dispatched handler matches the action, and only `auth.bind` runs without a session |
| Router.RouteAsWritten | server/src/mqtt/router.ts:40-53 | as written, a session-checked action that names an `Object.prototype` member calls that member; every other action is decided exactly as by `Router.Route`, and such a member would have got 400 there |
| Router.InheritedOutcome | server/src/mqtt/router.ts:52 | calling an inherited member as a handler never returns a reply: `constructor` and `toString` resolve with a value that is not one, every other member throws |
| Router.Context | server/src/mqtt/router.ts:40-41 | the handler context carries the request's client id, seq id, action and payload unchanged, with the employee id exactly when the lookup found one |
| Router.RouteRequest | server/src/mqtt/router.ts:35-53 | decided by the lookup as written: a rejected request, or one that reaches an inherited member, touches no table and publishes nothing; a dispatched one has exactly its handler's result and effects (the handler's own contract), writes no table the handler does not write, changes the sessions only for `auth.bind` and publishes only for the two send handlers |
| Router.Handle | server/src/mqtt/router.ts:52 | the dispatched handler's result and effects are exactly those its own contract states; the tables outside the handler's own stay as they were, only `auth.bind` changes the sessions, and only the two send handlers publish |
| Router.HandleTables | server/src/mqtt/router.ts:52 | a handler that writes only tables has exactly its own contract's result and effects and leaves every other table as it was |
| Router.HandleGroups | server/src/mqtt/router.ts:52 | a group or membership handler has exactly its own contract's result and effects and leaves the other tables as they were |
| Gateway.RespTopic | server/src/mqtt/gateway.ts:85-87 | the response topic is the request topic with the `mchat/msg/req/` prefix replaced by `mchat/msg/resp/` |
| Gateway.ParseReqTopic | server/src/mqtt/gateway.ts:46-51 | a topic is answered only when it starts with the request prefix and its first two following segments are non-empty and contain no `/` |
| Gateway.ParseReqTopicRoundTrip | server/src/mqtt/gateway.ts:46-51 | a request topic built from a client id and a seq id parses back to exactly those two |
| Gateway.RequestFilterLevels | server/src/mqtt/gateway.ts:19 | the filter `mchat/msg/req/+/+` has five levels, the last two wildcards |
| Gateway.ReqTopicJoin | server/src/mqtt/gateway.ts:9 | a request topic is its five levels joined by `/` |
| Gateway.ReqTopicLevels | server/src/mqtt/gateway.ts:46-50 | a request topic splits into exactly `mchat`, `msg`, `req`, the client id and the seq id |
| Gateway.ParseReqTopicLevels | server/src/mqtt/gateway.ts:46-51 | the gateway answers a request topic exactly when its client and seq levels are non-empty |
| Gateway.MatchedIsReqTopic | server/src/mqtt/gateway.ts:19 | a topic the filter matches level by level (section 4.7.1.3 of MQTT 3.1.1) is a request topic |
| Gateway.ReqTopicDelivered | server/src/mqtt/gateway.ts:19 | the request filter delivers every request topic whose client and seq ids hold no `/` |
| Gateway.RequestFilterDelivers | server/src/mqtt/gateway.ts:19-51 | whatever the filter delivers is `mchat/msg/req/<c>/<s>`, and the gateway answers it exactly when both levels are non-empty |
| Gateway.SubscribeFilter | server/src/mqtt/gateway.ts:17-19 | without a truthy `shareSubscription` the filter is `mchat/msg/req/+/+`; with one it is `$share/<group>/` in front of it |
| Gateway.SharedSubscriptionFilter | server/src/mqtt/gateway.ts:17-19 | a shared subscription (section 4.8.2 of MQTT 5.0) receives the same topics as the plain filter |
| Gateway.Envelope | server/src/mqtt/gateway.ts:89-102 | the published object always has `data` (an empty object when the result has none or null) besides the code and message |
| Gateway.Reply | server/src/mqtt/gateway.ts:67-74 | a handler's result is published unchanged; a thrown handler becomes 500 "Server error"; a result that is not a reply is published with `data` `{}` and neither `code` nor `message` |
| Gateway.Admit | server/src/mqtt/gateway.ts:45-66 | a bad topic is dropped silently; otherwise malformed JSON gets 400 "Invalid JSON" and an object without a non-empty string `action` 400 "Missing action", both on the response topic; exactly the remaining requests are forwarded, with their body and action |
| Gateway.InheritedActionFinding | server/src/mqtt/router.ts:77-79 | the action "toString" reaches an inherited member through the table as written and gets a reply without a code; the corrected lookup answers 400 "Unknown action: toString" |
| Gateway.Server.OnMessage | server/src/mqtt/gateway.ts:39-78 | a dropped request changes nothing; an answered one publishes exactly its one envelope; a forwarded one publishes the router's result (routed by the lookup as written) as the last publication on its response topic; a rejected one, or one that reaches an inherited member, touches no table and publishes exactly once; a dispatched one has, before that reply, exactly its handler's result and effects, and a handler that throws is answered 500 |
| Tables.MembersOf | server/src/handlers/group.ts:95-96 | the counted members of a group are exactly the employees with a `group_member` row for it |
| Tables.SetList | server/src/handlers/department.ts:34-42 | the SET list holds only allowed entries of `updates`, in order; it is empty exactly when no key is allowed |
| Tables.GetSetList | server/src/handlers/employee.ts:58-70 | a column in the SET list takes the value the request gave it last; a key outside the allow-list is not set |
| Tables.UpdateRequest | server/src/handlers/department.ts:30-32 | an update is considered exactly when the id is a non-empty string and `updates` is a truthy object; then its entries are the SET candidates |
| Tables.CollectSetList | server/src/handlers/employee.ts:59-70 | the loop pushes exactly the allowed entries, in order |
| Protocol.Dashed | server/src/handlers/auth.ts:40 | the dashed UUID text has 36 characters with dashes at 8, 13, 18 and 23 |
| Protocol.NewId | server/src/handlers/msg.ts:11-13 | a generated id is the prefix followed by exactly `n` hex digits of a UUID |
| Protocol.Broker.Publish | server/src/handlers/msg.ts:40-42 | a publication is appended to the broker log and nothing else changes |
| Correlation.PromiseTable.constructor | client/node/src/client.ts:43-48 | a new client starts with no request waiting and none settled |
| Correlation.PromiseTable.Register | client/node/src/client.ts:142 | a new sequence id joins the waiting set; no settled promise changes |
| Correlation.PromiseTable.Settle | client/node/src/client.ts:155-169 | a promise settles only while its id is waiting, and then exactly once: the id leaves the waiting set and its completion is recorded; a settled promise never changes again |
| Correlation.PromiseTable.RejectAll | client/node/src/client.ts:214-225 | every waiting promise is rejected with the given reason, the waiting set empties, and earlier settlements are kept |
| Correlation.ChooseClientId | client/node/src/client.ts:62 | a trimmed non-blank override wins; a missing or blank one falls back to the generated id |
| Correlation.GeneratedClientId | client/node/src/client.ts:24-28 | the generated id is `<employeeId>_<device>_<random>`, where an absent or empty device id becomes the client's default device |
| Correlation.RequestBody | client/node/src/client.ts:135 | the request body carries every parameter unchanged and `action` set to the action, unless a parameter named `action` overrides it |
| NodeClient.Classify | client/node/src/client.ts:154-184 | a topic is a reply exactly when it starts with `mchat/msg/resp/<clientId>/`, the rest being the sequence id; the inbox only on its exact topic; a group push only under `mchat/group/` |
| NodeClient.RequestOutcome | client/node/src/client.ts:187-192 | a reply with code 0 resolves with the body; any other code rejects, with the message when it is truthy; a rejection passes through |
| NodeClient.Client.constructor | client/node/src/client.ts:43-48 | the request timeout defaults to 30000 ms; nothing is waiting, nothing published, not connected |
| Protocol.OnlineStatus | client/node/src/client.ts:124-130 | the online announcement goes to `mchat/status/<employeeId>` with status "online" and the given time |
| NodeClient.Client.Connect | client/node/src/client.ts:60-92 | the client id is the trimmed override or `<employee>_<device or "node">_<random>`; the client is connected, publishes its online status and then, unless `skipAuthBind`, registers and publishes one `auth.bind` request carrying the employee id; with `skipAuthBind` nothing is registered |
| NodeClient.Client.RequestOnce | client/node/src/client.ts:132-152 | the request is registered as waiting before its body is published on `mchat/msg/req/<clientId>/<seqId>` |
| NodeClient.Client.Request | client/node/src/client.ts:187-192 | when not connected nothing is registered or published; otherwise exactly one request is registered and published |
| NodeClient.Client.TimeoutFired | client/node/src/client.ts:139-141 | a timer rejects its request with "Request timeout" only while it is still waiting; otherwise nothing changes |
| NodeClient.Client.PublishFailed | client/node/src/client.ts:144-150 | a refused publication rejects its request with the broker's error only while it is still waiting |
| NodeClient.Client.HandleMessage | client/node/src/client.ts:154-184 | a reply settles its waiting request, with the parsed body or "Invalid response JSON", and no other; a late reply changes nothing; inbox and group pushes become events only when they parse |
| NodeClient.Client.Disconnect | client/node/src/client.ts:214-225 | every waiting call rejects with "Disconnected", the table empties, earlier settlements stay and the client is no longer connected |
| AdminApi.DefaultClientId | admin/src/mqtt/api.ts:25-28 | the default id is never empty, at most 64 characters, all of them from `[A-Za-z0-9_.-]`; it is the user name with other characters replaced by '_' and cut to 64, or "admin" for an empty name |
| AdminApi.Api.constructor | admin/src/mqtt/api.ts:30-33 | a new console client is not connected and has nothing waiting |
| AdminApi.Api.Connect | admin/src/mqtt/api.ts:43-44 | a non-blank override, trimmed, wins over the default derived from the user name |
| AdminApi.Api.Request | admin/src/mqtt/api.ts:81-99 | when not connected nothing is registered or published; otherwise the request is registered and its body published on its request topic |
| AdminApi.Api.Abandon | admin/src/mqtt/api.ts:87-96 | the timer or a refused publication rejects the request with its reason only while it is still waiting |
| AdminApi.Api.HandleMessage | admin/src/mqtt/api.ts:63-76 | only replies to this client matter; a reply settles its waiting request with the body, whatever its code, or with "Invalid response JSON"; other ids are untouched |
| AdminApi.Api.Disconnect | admin/src/mqtt/api.ts:101-109 | every waiting call rejects with "Disconnected", the table empties and the client is no longer connected |
| PythonClient.Collect | client/python/src/mchat_client/client.py:216-220 | the caller's record answers exactly when no error is stored and the result is not `None`; an error wins; otherwise "No response" |
| PythonClient.CollectAsWritten | client/python/src/mchat_client/client.py:214-220 | the end of the request as written reads the record from the pending table again; when it is gone the call raises "No response" |
| PythonClient.PyStr | client/python/src/mchat_client/client.py:229 | Python `str()` of a JSON scalar: `None` for null or a missing key, the text itself for a string, `True`/`False` for a boolean |
| PythonClient.Checked | client/python/src/mchat_client/client.py:228-230 | a body with code 0 is returned; any other code raises the message when it is truthy, else `code <code>`; an error passes through |
| PythonClient.Client.constructor | client/python/src/mchat_client/client.py:34-69 | a stripped non-blank `client_id` wins, else `<employee>_<device or "py">_<uid>`; the five listener lists start empty and nothing is pending |
| PythonClient.Client.Connect | client/python/src/mchat_client/client.py:108-146 | a refused connection leaves the client unconnected with nothing published; an accepted one is connected, announces the employee online and then, unless `skip_auth_bind`, records and publishes one `auth.bind` request carrying the employee id |
| PythonClient.Client.On | client/python/src/mchat_client/client.py:243-246 | a callback for one of the five known events is added to that event's list; any other event name changes nothing |
| PythonClient.Client.Begin | client/python/src/mchat_client/client.py:201-208 | a fresh unsignalled record is stored as pending before the body is published on the request topic |
| PythonClient.Client.Request | client/python/src/mchat_client/client.py:222-227 | "Not connected" is raised with nothing recorded or published; otherwise exactly one request is recorded and published |
| PythonClient.Client.OnMessage | client/python/src/mchat_client/client.py:148-188 | a reply pops its pending record, signals it and stores the body or "Invalid response JSON"; a reply for an id no longer pending changes nothing; inbox and group pushes become events only when they parse |
| PythonClient.Client.PendingEntry | client/python/src/mchat_client/client.py:215 | the lookup finds a record exactly when its id is still pending |
| PythonClient.Client.AwaitAsWritten | client/python/src/mchat_client/client.py:209-220 | as written, a signalled call always raises "No response", because the reply handler already removed its record; an unsignalled one raises "Request timeout" and leaves the table |
| PythonClient.Client.Await | client/python/src/mchat_client/client.py:209-220 | the corrected wait reads the caller's own record: a timeout raises "Request timeout", a signalled call returns what the reply stored |
| PythonClient.Client.Disconnect | client/python/src/mchat_client/client.py:248-258 | every pending call is signalled with "Disconnected", the table empties and the client is dropped; without a client nothing changes |
| PythonClient.ParsedReplyAnswers | client/python/src/mchat_client/client.py:157-162 | a parsed reply stored by the reply handler is what the corrected wait returns, while the as-written wait raises "No response" |
| IosConnection.TopicPrefixCases | client/ios/MoltChat/MChat/MChatConnection.swift:20-25 | the topic prefix is `mchat` exactly when the service id is missing or blank, and `<trimmed service id>/mchat` otherwise |
| IosConnection.ParseCodeAsWritten | client/ios/MoltChat/MChat/MChatConnection.swift:207-213 | without a `"code"` key the code is 500 |
| IosConnection.CodeSampleAsWritten | client/ios/MoltChat/MChat/MChatConnection.swift:207-213 | as written, `{"code":0,"d":1}` reads as code 1, because the digits of the next ten characters after the colon are glued together |
| IosConnection.ReplyCodeAsWritten | client/ios/MoltChat/MChat/MChatConnection.swift:207-213 | as written, a gateway reply head still reads back its own code when the code has at most ten characters |
| IosConnection.ParseCode | client/ios/MoltChat/MChat/MChatConnection.swift:207-213 | the corrected scan gives 500 without a `"code"` key |
| IosConnection.ParseCodeAt | client/ios/MoltChat/MChat/MChatConnection.swift:207-213 | the corrected scan reads the integer right after the colon that follows the key, or 500 |
| IosConnection.ParseCodeFinding | client/ios/MoltChat/MChat/MChatConnection.swift:207-213 | on `{"code":0,"d":1}` the scan as written gives 1 while the corrected scan gives 0 |
| IosConnection.ReplyCodeRead | client/ios/MoltChat/MChat/MChatConnection.swift:207-213 | the corrected scan reads back the code of every gateway reply head |
| IosConnection.ParseMessage | client/ios/MoltChat/MChat/MChatConnection.swift:215-221 | without a `"message"` key the message is empty; it never contains a quote |
| IosConnection.ReplyMessageRead | client/ios/MoltChat/MChat/MChatConnection.swift:215-221 | the message of a gateway reply without quotes or escapes is read back unchanged |
| IosConnection.DataStart | client/ios/MoltChat/MChat/MChatConnection.swift:223-229 | the data scan starts only after a `"data"` key and a colon, at an opening brace or bracket |
| IosConnection.ParseData | client/ios/MoltChat/MChat/MChatConnection.swift:223-240 | the data text is the shortest prefix at which the bracket depth returns to zero, the depth positive before it; none when it never closes |
| IosConnection.NextBackoff | client/ios/MoltChat/MChat/MChatConnection.swift:196-199 | the next delay doubles the current one, capped at 30 seconds |
| IosConnection.BackoffSchedule | client/ios/MoltChat/MChat/MChatConnection.swift:46-53 | the reconnect delays run 2, 4, 8, 16 seconds and then stay at 30, never shrinking |
| IosConnection.NextBackoffStep | client/ios/MoltChat/MChat/MChatConnection.swift:196-199 | doubling keeps the delay among 2, 4, 8, 16 and 30 and never decreases it |
| IosConnection.Connection.constructor | client/ios/MoltChat/MChat/MChatConnection.swift:65-79 | the employee id is trimmed, the client id is the trimmed override or `<employee>_ios_<8 characters>`, the prefix follows the service id; nothing pending, backoff 2 s, disconnected |
| IosConnection.Connection.CancelReconnect | client/ios/MoltChat/MChat/MChatConnection.swift:91-92 | an armed reconnect timer is cancelled (it will wake early and find nothing to do); nothing else changes |
| IosConnection.Connection.ScheduleReconnect | client/ios/MoltChat/MChat/MChatConnection.swift:196-205 | the timer is armed with the current delay and the delay doubles up to 30 s |
| IosConnection.Connection.PerformConnect | client/ios/MoltChat/MChat/MChatConnection.swift:133-153 | a new client is made; when it does not start the state is "Connect failed" and a reconnect is scheduled |
| IosConnection.Connection.Connect | client/ios/MoltChat/MChat/MChatConnection.swift:89-94 | a user connect clears the user-disconnect flag and any armed timer, then connects |
| IosConnection.Connection.ReconnectWake | client/ios/MoltChat/MChat/MChatConnection.swift:200-204 | a timer that wakes after a user disconnect does nothing; otherwise it connects again |
| IosConnection.Connection.ConnAck | client/ios/MoltChat/MChat/MChatConnection.swift:248-258 | a rejected acknowledgement sets "Connect rejected"; an accepted one subscribes to the reply wildcard and the inbox |
| IosConnection.Connection.Request | client/ios/MoltChat/MChat/MChatConnection.swift:109-130 | without a live connection the call returns 500 "Not connected" at once; otherwise it is registered and its body published on its request topic |
| IosConnection.Connection.TimeoutFired | client/ios/MoltChat/MChat/MChatConnection.swift:124-129 | the timer resumes its call with 504 "Request timeout" only while it is still pending |
| IosConnection.Connection.ResumeAllDisconnected | client/ios/MoltChat/MChat/MChatConnection.swift:102-105 | every pending call resumes with 500 "Disconnected" and the table empties |
| IosConnection.Connection.Disconnect | client/ios/MoltChat/MChat/MChatConnection.swift:96-107 | a user disconnect sets the flag, cancels the timer, drops the client, resumes every pending call with "Disconnected" and leaves the state disconnected |
| IosConnection.Connection.DidDisconnect | client/ios/MoltChat/MChat/MChatConnection.swift:170-178 | a lost connection resumes every pending call with "Disconnected" and schedules a reconnect unless the user disconnected |
| IosConnection.Connection.BindAnswered | client/ios/MoltChat/MChat/MChatConnection.swift:158-167 | a non-zero bind code sets `auth.bind: <message>`; code 0 connects and resets the backoff to 2 s |
| IosConnection.Connection.MessageArrived | client/ios/MoltChat/MChat/MChatConnection.swift:180-194 | an empty cleaned payload is ignored; a reply resumes only its own pending call with the code as the ten-character scan as written reads it, the message, and as data the shortest balanced object or array after the data key (none without the key or when it never closes); the inbox topic hands the cleaned payload on |
| AndroidConnection.BrokerUrl | client/android/app/src/main/java/com/clawdbot/android/mchat/MChatConnection.kt:61-66 | the broker URL is `ssl://` or `tcp://`, the trimmed host, ':' and the port clamped into 1..65535 |
| AndroidConnection.AndroidClientId | client/android/app/src/main/java/com/clawdbot/android/mchat/MChatConnection.kt:58-59 | a trimmed non-blank client id wins; otherwise `<employeeId>_android_<8 random characters>` |
| AndroidConnection.ThreePasses | client/android/app/src/main/java/com/clawdbot/android/mchat/MChatConnection.kt:262-263 | the three chained `replace` passes escape each character independently: backslash, quote and newline, in that order, never re-escape what an earlier pass produced |
| AndroidConnection.JsonEscapeAgrees | client/android/app/src/main/java/com/clawdbot/android/mchat/MChatConnection.kt:262-263 | on text without a raw control character other than newline, `jsonEscape` gives exactly the JSON string literal |
| AndroidConnection.JsonEscapeFinding | client/android/app/src/main/java/com/clawdbot/android/mchat/MChatConnection.kt:262-263 | a tab is left raw inside the quotes, which no JSON reader accepts, while the JSON literal escapes it as `\t` and reads back |
| AndroidConnection.BuildPayload | client/android/app/src/main/java/com/clawdbot/android/mchat/MChatConnection.kt:105-117 | the payload is built parameter by parameter into the request text |
| AndroidConnection.PayloadIsJson | client/android/app/src/main/java/com/clawdbot/android/mchat/MChatConnection.kt:105-117 | for a plain action and serialisable parameters the hand-built text is exactly the JSON object `{"action": action, ...params}` in order |
| AndroidConnection.ParamObj | client/android/app/src/main/java/com/clawdbot/android/mchat/MChatConnection.kt:107-115 | each parameter becomes one member with its own key and JSON value, in order |
| AndroidConnection.ToIntOrNull | client/android/app/src/main/java/com/clawdbot/android/mchat/MChatConnection.kt:226 | `toIntOrNull` gives the decimal value only when it is within 32-bit range |
| AndroidConnection.ToIntOrNullOfPrinted | client/android/app/src/main/java/com/clawdbot/android/mchat/MChatConnection.kt:226 | every 32-bit integer printed in decimal reads back as itself |
| AndroidConnection.ParseCodeKt | client/android/app/src/main/java/com/clawdbot/android/mchat/MChatConnection.kt:220-227 | without a `"code"` key the code is 500 |
| AndroidConnection.ParseCodeKtAt | client/android/app/src/main/java/com/clawdbot/android/mchat/MChatConnection.kt:220-227 | with the key, a ':' and a following ',' the code is the trimmed text between them read as an integer, or 500 |
| AndroidConnection.ReplyCodeReadKt | client/android/app/src/main/java/com/clawdbot/android/mchat/MChatConnection.kt:220-227 | the code of a reply the gateway writes (`{"code":N,"message":…`) is read back as N |
| AndroidConnection.ParseMessageKt | client/android/app/src/main/java/com/clawdbot/android/mchat/MChatConnection.kt:229-236 | without a `"message"` key the message is empty; the message never contains a quote |
| AndroidConnection.ReplyMessageReadKt | client/android/app/src/main/java/com/clawdbot/android/mchat/MChatConnection.kt:229-236 | the message of a gateway reply without quotes or escapes in it is read back unchanged |
| AndroidConnection.DataStartKt | client/android/app/src/main/java/com/clawdbot/android/mchat/MChatConnection.kt:238-246 | the data scan starts only after a `"data"` key, at an opening brace or bracket |
| AndroidConnection.ParseDataKt | client/android/app/src/main/java/com/clawdbot/android/mchat/MChatConnection.kt:238-260 | the data text is the shortest prefix after the key at which the bracket depth returns to zero, with the depth positive before that; none when it never closes or no key or opener is present |
| AndroidConnection.ReadReply | client/android/app/src/main/java/com/clawdbot/android/mchat/MChatConnection.kt:176-183 | a reply whose code scan throws completes as 500 with the error text; otherwise code, message and data are the three scans' results |
| AndroidConnection.Settle | client/android/app/src/main/java/com/clawdbot/android/mchat/MChatConnection.kt:95-96 | every call still waiting gets the same ending; calls already finished keep theirs |
| AndroidConnection.CallOutcome | client/android/app/src/main/java/com/clawdbot/android/mchat/MChatConnection.kt:124-126 | a call that never got a reply returns 504 "Request timeout"; a completed one its reply; a failed one raises; a cancelled one is cancelled |
| Strings.AfterPrefix | client/android/app/src/main/java/com/clawdbot/android/mchat/MChatConnection.kt:173-174 | a topic names a sequence id exactly when it starts with the client's reply prefix, and prefix plus id give the topic back; both mobile connections read reply topics this way |
| AndroidConnection.Connection.constructor | client/android/app/src/main/java/com/clawdbot/android/mchat/MChatConnection.kt:44-77 | the client id, trimmed employee id and broker URL are fixed; no client, no call pending, state Disconnected |
| AndroidConnection.Connection.Connect | client/android/app/src/main/java/com/clawdbot/android/mchat/MChatConnection.kt:139-155 | an already connected client changes nothing; otherwise a new connection gate opens, a new client is set and the state is Connecting |
| AndroidConnection.Connection.ConnectResult | client/android/app/src/main/java/com/clawdbot/android/mchat/MChatConnection.kt:193-200 | a failed connect sets the state to "Connect failed" and fails the gate with "Not connected"; a successful one subscribes to the reply wildcard and the inbox |
| AndroidConnection.Connection.BindAnswered | client/android/app/src/main/java/com/clawdbot/android/mchat/MChatConnection.kt:202-210 | a non-zero `auth.bind` code sets the state to `auth.bind: <message>` and fails the gate; code 0 makes the connection Connected |
| AndroidConnection.Connection.ConnectThrew | client/android/app/src/main/java/com/clawdbot/android/mchat/MChatConnection.kt:211-217 | an exception during connect sets the error state, drops the client and the gate, and fails the gate with the error |
| AndroidConnection.Connection.Send | client/android/app/src/main/java/com/clawdbot/android/mchat/MChatConnection.kt:118-123 | only a connected client registers the call as waiting and publishes the payload on its request topic; otherwise "Not connected" with nothing changed |
| AndroidConnection.Connection.Request | client/android/app/src/main/java/com/clawdbot/android/mchat/MChatConnection.kt:101-137 | a connected client sends at once; otherwise the call waits on the connection gate, or fails with "Not connected" or the gate's error |
| AndroidConnection.Connection.Resume | client/android/app/src/main/java/com/clawdbot/android/mchat/MChatConnection.kt:119-137 | after the gate settles, a failed gate raises its error and a completed one sends only when the client is connected |
| AndroidConnection.Connection.Finish | client/android/app/src/main/java/com/clawdbot/android/mchat/MChatConnection.kt:124-129 | the call's ending is decided by its slot, and the call always leaves the pending table |
| AndroidConnection.Connection.Disconnect | client/android/app/src/main/java/com/clawdbot/android/mchat/MChatConnection.kt:87-99 | the client and gate are dropped, every waiting call fails with "Disconnected", the table empties and the state is Disconnected |
| AndroidConnection.Connection.ConnectionLost | client/android/app/src/main/java/com/clawdbot/android/mchat/MChatConnection.kt:158-165 | the client and gate are dropped, every waiting call is cancelled, the table empties and the state is Disconnected |
| AndroidConnection.Connection.MessageArrived | client/android/app/src/main/java/com/clawdbot/android/mchat/MChatConnection.kt:167-187 | an empty payload after stripping NULs and trimming is ignored; a reply completes only its own waiting call with the scanned code, the message and as data the shortest balanced object or array after the data key, or with 500 and the exception text when the code scan throws; the inbox topic hands the cleaned payload on |
| Json.Quote | client/android/app/src/main/java/com/clawdbot/android/mchat/MChatConnection.kt:262-263 | the corrected string literal: quotes around a body in which every character is printable, every control character being escaped |
| Json.UnescapeEscapeBody | client/android/app/src/main/java/com/clawdbot/android/mchat/MChatConnection.kt:262-263 | the corrected escaping is lossless: decoding the escaped body gives the original text back |
| EnvelopeScan.BalancedPrefix | client/ios/MoltChat/MChat/MChatConnection.swift:229-239 | the depth-counting loop returns the prefix up to the first closing bracket that brings the depth back to zero, or nothing when no such bracket exists |
| EnvelopeScan.ShortestBalanced | client/ios/MoltChat/MChat/MChatConnection.swift:229-239 | for a value opening with a bracket, the returned prefix is balanced and no shorter non-empty prefix is |
| IosConnection.CodeSampleCorrected | client/ios/MoltChat/MChat/MChatConnection.swift:207-213 | the corrected scan reads `{"code":0,"d":1}` as code 0 |
| Session.SessionStore.constructor | server/src/db/session.ts:1-14 | the `client_session` table starts with no rows |
| Gateway.Server.constructor | server/src/mqtt/gateway.ts:12-27 | a new gateway has no publications and no client sessions |
| Protocol.Broker.constructor | server/src/mqtt/gateway.ts:21-27 | a new broker connection has published nothing |
| MqttGateway.SanitizePayload | client/android/app/src/main/java/com/clawdbot/android/gateway/MqttGatewayConnection.kt:33 | a sanitized payload holds no NUL, neither starts nor ends with a blank, and has only characters of the raw text |
| MqttGateway.RoleTopicJoin | client/android/app/src/main/java/com/clawdbot/android/gateway/MqttGatewayConnection.kt:90-92 | a role topic is the five levels `moltbot/gw/<topicClientId>/<role>/<kind>` joined by '/' |
| MqttGateway.RoleOfRoleTopic | client/android/app/src/main/java/com/clawdbot/android/gateway/MqttGatewayConnection.kt:279-281 | splitting a role topic gives back five levels whose fourth is the role, when no part holds a '/' |
| MqttGateway.TopicRole | client/android/app/src/main/java/com/clawdbot/android/gateway/MqttGatewayConnection.kt:279-281 | a topic names a role exactly when it has at least four levels; the role holds no '/' |
| MqttGateway.Inbound | client/android/app/src/main/java/com/clawdbot/android/gateway/MqttGatewayConnection.kt:266-288 | a message is delivered only under `moltbot/gw` with at least four levels and a sanitized payload that starts with '{' or '['; it goes to the role in the fourth level |
| MqttGateway.ResponseReachesRole | client/android/app/src/main/java/com/clawdbot/android/gateway/MqttGatewayConnection.kt:266-288 | a JSON frame published on a role's `res` topic reaches that role with its sanitized payload |
| MqttGateway.GatewayConnection.constructor | client/android/app/src/main/java/com/clawdbot/android/gateway/MqttGatewayConnection.kt:52-75 | a new shared connection has no client, no role transports and state Disconnected |
| MqttGateway.GatewayConnection.CreateTransport | client/android/app/src/main/java/com/clawdbot/android/gateway/MqttGatewayConnection.kt:195-197 | each call makes a new transport for the role |
| MqttGateway.GatewayConnection.SignalClose | client/android/app/src/main/java/com/clawdbot/android/gateway/MqttGatewayConnection.kt:186-189 | a transport is closed with the given reason |
| MqttGateway.GatewayConnection.EnsureConnected | client/android/app/src/main/java/com/clawdbot/android/gateway/MqttGatewayConnection.kt:203-234 | a live client returns at once; an attempt in progress is awaited; otherwise exactly one new attempt starts, with a new client and state Connecting |
| MqttGateway.GatewayConnection.OpenBegin | client/android/app/src/main/java/com/clawdbot/android/gateway/MqttGatewayConnection.kt:105-113 | the transport registers under its role, then the shared connection is ensured: a connected client or an attempt in progress is reused and changes no connection state; otherwise a new attempt starts with a new connecting client held as the deferred connection |
| MqttGateway.GatewayConnection.OpenEnd | client/android/app/src/main/java/com/clawdbot/android/gateway/MqttGatewayConnection.kt:113-126 | after the wait a failed attempt rethrows its error; otherwise the transport opens only when the client is connected, and a failed open unregisters the role |
| MqttGateway.GatewayConnection.Send | client/android/app/src/main/java/com/clawdbot/android/gateway/MqttGatewayConnection.kt:129-167 | without a live client the transport closes with "MQTT client not connected"; an empty sanitized frame is dropped; otherwise it is published on the role's request topic, and a publish error closes the transport with its message |
| MqttGateway.GatewayConnection.Close | client/android/app/src/main/java/com/clawdbot/android/gateway/MqttGatewayConnection.kt:169-176 | closing unregisters the role and completes the transport's close |
| MqttGateway.GatewayConnection.ConnectSucceeded | client/android/app/src/main/java/com/clawdbot/android/gateway/MqttGatewayConnection.kt:296-297 | a successful connect sets the state to Connected |
| MqttGateway.GatewayConnection.SubscribeAnswered | client/android/app/src/main/java/com/clawdbot/android/gateway/MqttGatewayConnection.kt:299-335 | success or failure of the unified subscription both complete the attempt and clear the pending attempt; only success adds the four topics |
| MqttGateway.GatewayConnection.ConnectFailed | client/android/app/src/main/java/com/clawdbot/android/gateway/MqttGatewayConnection.kt:339-349 | a failed connect sets the error state with the exception's message or "MQTT connect failed", drops the client and fails the attempt |
| MqttGateway.GatewayConnection.ConnectionLost | client/android/app/src/main/java/com/clawdbot/android/gateway/MqttGatewayConnection.kt:252-264 | a lost connection drops the client and closes every registered transport with "MQTT connection lost: <cause or unknown>" |
| MqttGateway.GatewayConnection.MessageArrived | client/android/app/src/main/java/com/clawdbot/android/gateway/MqttGatewayConnection.kt:266-288 | an inbound frame goes to the transport registered for its role, and nothing is delivered when the frame is filtered or no transport holds the role |
| ChatModel.TextMessage | client/android/app/src/main/java/com/clawdbot/android/mchat/MChatChatController.kt:73-78 | a chat message holds exactly one text part with the given text, and the given id, role and time |
| ChatModel.AppendTo | client/android/app/src/main/java/com/clawdbot/android/mchat/MChatChatController.kt:80-84 | the message is added at the end of its peer's list, creating the list when needed; every other peer's list is unchanged |
| ChatModel.CurrentMessages | client/android/app/src/main/java/com/clawdbot/android/mchat/MChatChatController.kt:183-186 | the messages shown are the selected peer's list, or none when no peer is selected or the peer has no list |
| ChatModel.AppendThenCurrent | client/android/app/src/main/java/com/clawdbot/android/mchat/MChatChatController.kt:80-85 | adding a message to the selected peer shows it last; adding to another peer changes nothing shown |
| ChatModel.NameFor | client/android/app/src/main/java/com/clawdbot/android/mchat/MChatChatController.kt:189-191 | a session's name is the name of the last employee entry with that id (`associateBy` keeps the last), or the id itself when there is none |
| ChatModel.Sessions | client/android/app/src/main/java/com/clawdbot/android/mchat/MChatChatController.kt:188-194 | there is one session per peer with messages, named as above |
| ChatModel.SessionNameUnique | client/android/app/src/main/java/com/clawdbot/android/mchat/MChatChatController.kt:188-194 | with distinct employee ids, a peer that is a known employee is shown under that employee's name |
| AndroidChat.Primitive | client/android/app/src/main/java/com/clawdbot/android/mchat/MChatChatController.kt:64 | `jsonPrimitive.content`: a string's text, `null` for JSON null, nothing for a missing key, and a failure for an object or array |
| AndroidChat.PrimitiveOr | client/android/app/src/main/java/com/clawdbot/android/mchat/MChatChatController.kt:109 | a missing key falls back to the default; an object or array makes the read fail |
| AndroidChat.InboxText | client/android/app/src/main/java/com/clawdbot/android/mchat/MChatChatController.kt:65-70 | the text is a primitive's content, an object's `text` field, or the whole object as JSON when it has none; a missing content gives "" |
| AndroidChat.InboxMessage | client/android/app/src/main/java/com/clawdbot/android/mchat/MChatChatController.kt:61-78 | an inbox payload becomes a message only when it is an object whose `from_employee_id` reads as text; the message is an assistant text message under that peer |
| AndroidChat.IsAiAgentKt | client/android/app/src/main/java/com/clawdbot/android/mchat/MChatChatController.kt:111 | the agent flag holds for `true` or `"true"` and not for a missing, false or null value |
| AndroidChat.EmployeeOf | client/android/app/src/main/java/com/clawdbot/android/mchat/MChatChatController.kt:105-113 | an element without `employee_id` is skipped; a kept entry carries that id and the flag read as above |
| AndroidChat.EntryFields | client/android/app/src/main/java/com/clawdbot/android/mchat/MChatChatController.kt:107-112 | an entry's name is the `name` field or "" and its flag is read as above |
| AndroidChat.EmployeeList | client/android/app/src/main/java/com/clawdbot/android/mchat/MChatChatController.kt:105-113 | the list read from `org.tree` is never longer than the array it came from |
| AndroidChat.EmployeeListKeeps | client/android/app/src/main/java/com/clawdbot/android/mchat/MChatChatController.kt:105-113 | the list keeps exactly one entry per element with an `employee_id`, each carrying an id that appears in the array |
| AndroidChat.ReadEmployees | client/android/app/src/main/java/com/clawdbot/android/mchat/MChatChatController.kt:101-118 | data that does not parse makes the read throw; data without `employees` leaves the list alone |
| AndroidChat.GetEmployee | client/android/app/src/main/java/com/clawdbot/android/mchat/MChatChatController.kt:157-180 | a non-zero code or missing data gives nothing; a returned entry without `employee_id` takes the requested id |
| AndroidChat.AgentFlagFromServer | client/android/app/src/main/java/com/clawdbot/android/mchat/MChatChatController.kt:111 | an employee object with `is_ai_agent: true` (a JSON boolean) is read as an AI agent |
| AndroidChat.ChatController.constructor | client/android/app/src/main/java/com/clawdbot/android/mchat/MChatChatController.kt:23-48 | the controller starts from the cached messages, with sessions for their peers and no selection or error |
| AndroidChat.ChatController.FileMessage | client/android/app/src/main/java/com/clawdbot/android/mchat/MChatChatController.kt:80-86 | the message goes last in its peer's list, sessions follow the peers with messages, and the new list is written to the cache when there is one |
| AndroidChat.ChatController.HandleInboxMessage | client/android/app/src/main/java/com/clawdbot/android/mchat/MChatChatController.kt:61-91 | a payload that does not make a message changes nothing; otherwise the message goes last under the sender, the sessions are rebuilt from the peers, and the sender's list is saved when a cache is attached |
| AndroidChat.ChatController.LoadEmployees | client/android/app/src/main/java/com/clawdbot/android/mchat/MChatChatController.kt:93-96 | loading clears the error and sends `org.tree` with no parameters |
| AndroidChat.ChatController.EmployeesAnswered | client/android/app/src/main/java/com/clawdbot/android/mchat/MChatChatController.kt:97-118 | a non-zero code shows the message; a list read replaces the employees and renames the sessions; a parse failure shows the exception's message; missing data or list changes nothing |
| AndroidChat.ChatController.SelectPeer | client/android/app/src/main/java/com/clawdbot/android/mchat/MChatChatController.kt:122-124 | the selected peer becomes the given id |
| AndroidChat.ChatController.SendMessage | client/android/app/src/main/java/com/clawdbot/android/mchat/MChatChatController.kt:126-150 | blank text changes nothing; otherwise the error clears, the trimmed text goes last under the peer as a user message, the sessions are rebuilt, the peer's list is saved when a cache is attached, and `msg.send_private` is sent with the peer and the trimmed text |
| AndroidChat.ChatController.SendAnswered | client/android/app/src/main/java/com/clawdbot/android/mchat/MChatChatController.kt:151-153 | a non-zero code shows the message; code 0 leaves the error as it is |
| IosChat.StringField | client/ios/MoltChat/MChat/MChatChatController.swift:37 | `as? String` gives a value exactly when the key holds a JSON string, and then that string |
| IosChat.InboxText | client/ios/MoltChat/MChat/MChatChatController.swift:38-42 | the text is a string content, or an object content's string `text`; anything else, or no content, gives "" |
| IosChat.InboxMessage | client/ios/MoltChat/MChat/MChatChatController.swift:34-51 | an inbox payload makes a message exactly when it is an object with a string `from_employee_id`; the message is an assistant text message with `msg_id` or a fresh id |
| IosChat.IsAiAgent | client/ios/MoltChat/MChat/MChatChatController.swift:84 | the corrected flag holds for JSON `true` and for `"true"`, and not for a missing, false or null value |
| IosChat.IsAiAgentAsWritten | client/ios/MoltChat/MChat/MChatChatController.swift:84 | the flag as read with `as? String` holds only for a string, so a JSON `true` reads as not an agent (the same read at :139) |
| IosChat.AgentFlagFinding | client/ios/MoltChat/MChat/MChatChatController.swift:84 | the cast as written reads the server's JSON `true` as not an agent; the corrected flag reads it as an agent |
| IosChat.AgentFlagAgrees | client/ios/MoltChat/MChat/MChatChatController.swift:84 | the corrected flag agrees with the Android reading on every scalar value |
| IosChat.EntryOf | client/ios/MoltChat/MChat/MChatChatController.swift:80-85 | an entry carries the id, the string `name` or "", the string `department_id` and the flag as the `as? String` cast reads it, so only the string "true" marks an agent |
| IosChat.Employees | client/ios/MoltChat/MChat/MChatChatController.swift:77-86 | the list is never longer than the array |
| IosChat.EmployeesKeep | client/ios/MoltChat/MChat/MChatChatController.swift:77-86 | the list keeps one entry per element with a string `employee_id`, each built from its element |
| IosChat.LoadEmployeeList | client/ios/MoltChat/MChat/MChatChatController.swift:77-86 | the `for` loop appends exactly the entries `Employees` describes: one per element with a string `employee_id`, in order |
| IosChat.EmployeeObjects | client/ios/MoltChat/MChat/MChatChatController.swift:74-76 | the array is read only from parsed data whose `employees` is an array of objects, and keeps every element |
| IosChat.GetEmployee | client/ios/MoltChat/MChat/MChatChatController.swift:131-141 | an entry is returned exactly for code 0 with data that parses to an object; its id is the string `employee_id` or the requested one, and its flag is the `as? String` reading of `is_ai_agent` |
| IosChat.SwiftSessions | client/ios/MoltChat/MChat/MChatChatController.swift:148-153 | building the session names traps exactly when two employees share an id; otherwise there is one session per peer, named after its employee |
| IosChat.ChatController.constructor | client/ios/MoltChat/MChat/MChatChatController.swift:21-28 | the controller starts from the cached messages, with sessions for their peers and no selection or error |
| IosChat.ChatController.UpdateSessions | client/ios/MoltChat/MChat/MChatChatController.swift:148-153 | the sessions are rebuilt, or the program traps on duplicate employee ids |
| IosChat.ChatController.FileMessage | client/ios/MoltChat/MChat/MChatChatController.swift:52-61 | the message goes last in its peer's list, then the sessions follow the peers or the process traps on duplicate employee ids, and without a trap the list is written to the cache when there is one |
| IosChat.ChatController.HandleInboxMessage | client/ios/MoltChat/MChat/MChatChatController.swift:34-62 | a payload that does not make a message changes nothing; otherwise the message goes last under its sender, then the sessions are rebuilt, or the process traps on duplicate employee ids, and without a trap the sender's list is saved when a cache is attached |
| IosChat.ChatController.LoadEmployees | client/ios/MoltChat/MChat/MChatChatController.swift:64-68 | loading clears the error and sends `org.tree` with no parameters |
| IosChat.ChatController.EmployeesAnswered | client/ios/MoltChat/MChat/MChatChatController.swift:69-89 | a non-zero code only shows the message, with no trap; an unreadable answer changes nothing; otherwise the employees are replaced, and the sessions are renamed without a trap, or the process traps on duplicate employee ids (:148-149) with the sessions left as they were |
| IosChat.ChatController.SelectPeer | client/ios/MoltChat/MChat/MChatChatController.swift:93-96 | the selected peer becomes the given id |
| IosChat.ChatController.SendMessage | client/ios/MoltChat/MChat/MChatChatController.swift:98-123 | blank text changes nothing; otherwise the error clears, the trimmed text goes last under the peer as a user message, and the sessions are rebuilt; duplicate employee ids trap there, otherwise the list is saved when a cache is attached and `msg.send_private` is sent with the peer and the trimmed text |
| IosChat.ChatController.SendAnswered | client/ios/MoltChat/MChat/MChatChatController.swift:124-127 | a non-zero code shows the message; code 0 leaves the error as it is |
| HistoryCache.Lookup | client/android/app/src/main/java/com/clawdbot/android/mchat/ChatHistoryCache.kt:35 | a peer's list is found exactly when the peer is in the map, and it is the list stored with it |
| HistoryCache.Put | client/android/app/src/main/java/com/clawdbot/android/mchat/ChatHistoryCache.kt:89 | `current[peerId] = trimmed`: the peer maps to the new list, every other peer keeps its list, and keys stay distinct |
| HistoryCache.RemoveKey | client/android/app/src/main/java/com/clawdbot/android/mchat/ChatHistoryCache.kt:95 | removing a peer leaves every other peer's list and shortens a map holding it by one |
| HistoryCache.RemoveKeys | client/android/app/src/main/java/com/clawdbot/android/mchat/ChatHistoryCache.kt:94-95 | exactly the listed peers are removed; every other peer keeps its list |
| HistoryCache.RemoveKeysCount | client/android/app/src/main/java/com/clawdbot/android/mchat/ChatHistoryCache.kt:94-95 | removing distinct peers that are all present shortens the map by their number |
| HistoryCache.TakeLast | client/android/app/src/main/java/com/clawdbot/android/mchat/ChatHistoryCache.kt:88 | `takeLast(n)` keeps the last min(n, length) items, in order |
| HistoryCache.FirstMin | client/android/app/src/main/java/com/clawdbot/android/mchat/ChatHistoryCache.kt:93-94 | the first candidate with the smallest newest-timestamp, which a stable sort puts first |
| HistoryCache.StrictMinEvictedFirst | client/android/app/src/main/java/com/clawdbot/android/mchat/ChatHistoryCache.kt:91-94 | the peer whose newest message is strictly the oldest is the first evicted |
| HistoryCache.StrictMinEvicted | client/android/app/src/main/java/com/clawdbot/android/mchat/ChatHistoryCache.kt:90-95 | above the peer limit, the peer whose newest message is strictly the oldest is always evicted |
| HistoryCache.EvictedLength | client/android/app/src/main/java/com/clawdbot/android/mchat/ChatHistoryCache.kt:94 | `take(k)` of the sorted candidates yields min(k, number of candidates) peers |
| HistoryCache.EvictedFrom | client/android/app/src/main/java/com/clawdbot/android/mchat/ChatHistoryCache.kt:93-94 | every evicted peer is a candidate |
| HistoryCache.EvictedSmallest | client/android/app/src/main/java/com/clawdbot/android/mchat/ChatHistoryCache.kt:93-94 | no evicted peer has a newer newest-message than a kept candidate |
| HistoryCache.EvictedUnique | client/android/app/src/main/java/com/clawdbot/android/mchat/ChatHistoryCache.kt:93-94 | distinct candidates give distinct evicted peers |
| HistoryCache.EvictOver | client/android/app/src/main/java/com/clawdbot/android/mchat/ChatHistoryCache.kt:90-96 | at or below 100 peers nothing is evicted |
| HistoryCache.EvictOverCount | client/android/app/src/main/java/com/clawdbot/android/mchat/ChatHistoryCache.kt:90-96 | above 100 peers, as many peers are removed as exceed the limit, or every candidate when there are fewer |
| HistoryCache.EvictOverKeeps | client/android/app/src/main/java/com/clawdbot/android/mchat/ChatHistoryCache.kt:94-95 | eviction removes exactly the evicted peers and keeps every other list unchanged |
| HistoryCache.EvictOverSmallest | client/android/app/src/main/java/com/clawdbot/android/mchat/ChatHistoryCache.kt:90-96 | every evicted peer's newest message is no newer than that of any candidate kept |
| AndroidHistory.SanitizeEmployeeId | client/android/app/src/main/java/com/clawdbot/android/mchat/ChatHistoryCache.kt:20-21 | the file-name part is never empty and holds only `[A-Za-z0-9_.-]`; a blank id gives "default"; otherwise it is as long as the trimmed id |
| AndroidHistory.SanitizeKeepsSafe | client/android/app/src/main/java/com/clawdbot/android/mchat/ChatHistoryCache.kt:20-21 | an id already made of safe characters is kept as it is |
| AndroidHistory.SanitizeIdempotent | client/android/app/src/main/java/com/clawdbot/android/mchat/ChatHistoryCache.kt:20-21 | sanitising twice gives the same name as once |
| AndroidHistory.FileFor | client/android/app/src/main/java/com/clawdbot/android/mchat/ChatHistoryCache.kt:37-38 | an employee's cache file is `mchat_history_<sanitised id>.json`, never the legacy file name |
| AndroidHistory.Newest | client/android/app/src/main/java/com/clawdbot/android/mchat/ChatHistoryCache.kt:92 | a list's newest timestamp (missing ones counting 0) is at least every message's and is one of them; an empty list has none |
| AndroidHistory.Candidates | client/android/app/src/main/java/com/clawdbot/android/mchat/ChatHistoryCache.kt:91-92 | each non-empty list gives one candidate, its peer and newest timestamp; empty lists give none |
| AndroidHistory.CandidatesCover | client/android/app/src/main/java/com/clawdbot/android/mchat/ChatHistoryCache.kt:91-92 | every peer with a non-empty list is a candidate with its newest timestamp |
| AndroidHistory.LoadResult | client/android/app/src/main/java/com/clawdbot/android/mchat/ChatHistoryCache.kt:44-76 | the employee's readable file is returned as it is; otherwise a non-empty legacy file is migrated into it and deleted; no other file changes |
| AndroidHistory.LoadTwice | client/android/app/src/main/java/com/clawdbot/android/mchat/ChatHistoryCache.kt:44-76 | loading again after a load returns the same peers and changes no file, so migration happens once |
| AndroidHistory.Saved | client/android/app/src/main/java/com/clawdbot/android/mchat/ChatHistoryCache.kt:87-96 | saving keeps peer ids distinct |
| AndroidHistory.SaveResult | client/android/app/src/main/java/com/clawdbot/android/mchat/ChatHistoryCache.kt:83-98 | an empty list changes nothing; otherwise the employee's file holds the loaded map with this peer's list saved |
| AndroidHistory.SavedLists | client/android/app/src/main/java/com/clawdbot/android/mchat/ChatHistoryCache.kt:87-96 | the saved peer holds its last 500 messages unless evicted, other peers keep their lists, and evicted peers are gone |
| AndroidHistory.SavedCount | client/android/app/src/main/java/com/clawdbot/android/mchat/ChatHistoryCache.kt:90-96 | above 100 peers, exactly the excess (or every candidate) is removed; when no list is empty the map ends at most 100 peers or one more than before |
| AndroidHistory.EmptyListsStay | client/android/app/src/main/java/com/clawdbot/android/mchat/ChatHistoryCache.kt:92 | a peer with an empty list is never a candidate, so it is never evicted |
| AndroidHistory.EvictedAreOldest | client/android/app/src/main/java/com/clawdbot/android/mchat/ChatHistoryCache.kt:90-96 | every evicted peer's newest message is no newer than any kept candidate's |
| AndroidHistory.SavedPeerEvictable | client/android/app/src/main/java/com/clawdbot/android/mchat/ChatHistoryCache.kt:87-96 | the peer just saved is itself evicted when its newest message is strictly the oldest |
| AndroidHistory.ChatHistoryCache.constructor | client/android/app/src/main/java/com/clawdbot/android/mchat/ChatHistoryCache.kt:27-32 | the store starts on the given files |
| AndroidHistory.ChatHistoryCache.LoadAll | client/android/app/src/main/java/com/clawdbot/android/mchat/ChatHistoryCache.kt:44-76 | the load returns the peers `LoadResult` describes (the employee's file, else the migrated legacy file) and performs that migration on the files, keeping the cache well formed |
| AndroidHistory.ChatHistoryCache.Save | client/android/app/src/main/java/com/clawdbot/android/mchat/ChatHistoryCache.kt:83-102 | the files become what `SaveResult` describes (the peer's last 500 messages stored, peers above 100 evicted), and the cache stays well formed |
| IosHistory.SanitizeEmployeeId | client/ios/MoltChat/MChat/ChatHistoryCache.swift:4-10 | the file-name part is never empty and holds only alphanumerics and `_.-`; a blank id gives "default"; otherwise it is as long as the trimmed id |
| IosHistory.ReplaceUnsafe | client/ios/MoltChat/MChat/ChatHistoryCache.swift:7 | each unsafe character becomes '_' and each safe one is kept, position by position |
| IosHistory.SanitizeAgreesOnAscii | client/ios/MoltChat/MChat/ChatHistoryCache.swift:4-10 | on ASCII ids the Swift and Kotlin file names agree |
| IosHistory.FileFor | client/ios/MoltChat/MChat/ChatHistoryCache.swift:30-32 | an employee's cache file is never the legacy file |
| IosHistory.NewestOrZero | client/ios/MoltChat/MChat/ChatHistoryCache.swift:88 | a list's newest timestamp is at least every present timestamp and is one of them, or 0 when none is present |
| IosHistory.Candidates | client/ios/MoltChat/MChat/ChatHistoryCache.swift:87-90 | every peer is a candidate, empty lists included, with its newest timestamp or 0 |
| IosHistory.CandidatesUnique | client/ios/MoltChat/MChat/ChatHistoryCache.swift:87-90 | distinct peers give distinct candidates |
| IosHistory.LoadResult | client/ios/MoltChat/MChat/ChatHistoryCache.swift:40-67 | a readable non-empty file is returned; otherwise a readable non-empty legacy file is copied into it and deleted; with nothing to load no file changes |
| IosHistory.LoadTwice | client/ios/MoltChat/MChat/ChatHistoryCache.swift:40-67 | loading again after a load returns the same peers and changes no file |
| IosHistory.EmptyFileDiffers | client/ios/MoltChat/MChat/ChatHistoryCache.swift:44-47 | a current file holding an empty map does not stop the legacy migration on iOS, while on Android it does |
| IosHistory.StoredPeers | client/ios/MoltChat/MChat/ChatHistoryCache.swift:78-83 | the map `save` starts from is the decoded current file, or empty; its keys are distinct |
| IosHistory.Saved | client/ios/MoltChat/MChat/ChatHistoryCache.swift:84-93 | saving keeps peer ids distinct |
| IosHistory.SaveResult | client/ios/MoltChat/MChat/ChatHistoryCache.swift:73-97 | an empty list changes nothing; otherwise only the employee's file is written, with the stored map and this peer's list saved |
| IosHistory.SavedLists | client/ios/MoltChat/MChat/ChatHistoryCache.swift:84-93 | the saved peer holds its last 500 messages unless evicted, other peers keep their lists, and evicted peers are gone |
| IosHistory.SavedCount | client/ios/MoltChat/MChat/ChatHistoryCache.swift:86-93 | above 100 peers the map is cut to exactly 100; at or below it nothing is evicted |
| IosHistory.EvictedAreOldest | client/ios/MoltChat/MChat/ChatHistoryCache.swift:86-93 | every evicted peer's newest message is no newer than any kept peer's |
| IosHistory.ChatHistoryCache.constructor | client/ios/MoltChat/MChat/ChatHistoryCache.swift:26-28 | the store starts on the given files |
| IosHistory.ChatHistoryCache.LoadAll | client/ios/MoltChat/MChat/ChatHistoryCache.swift:40-67 | the load returns the peers `LoadResult` describes (the employee's file, else the migrated legacy file) and performs that migration on the files, keeping the cache well formed |
| IosHistory.ChatHistoryCache.Save | client/ios/MoltChat/MChat/ChatHistoryCache.swift:73-101 | the files become what `SaveResult` describes (the peer's last 500 messages stored, peers above 100 evicted), and the cache stays well formed |
| Protocol.ClampPort | client/android/app/src/main/java/com/clawdbot/android/mchat/MChatConnection.kt:65 | `coerceIn(1, 65535)`: the port is always in 1..65535, kept when already in range, and otherwise the nearer bound |
| AndroidRuntime.Scheme | client/android/app/src/main/java/com/clawdbot/android/MChatRuntime.kt:145-147 | a URL is TLS exactly when it starts with `ssl://` ignoring case, plain when it starts with `tcp://` instead, and rejected otherwise |
| AndroidRuntime.HostPort | client/android/app/src/main/java/com/clawdbot/android/MChatRuntime.kt:148-154 | a host, when given, is non-empty and trimmed; a port, when given, is in 1..65535 and comes with a host holding no ':'; no colon, or a leading one, gives the whole rest as host and no port |
| AndroidRuntime.ParseBrokerUrl | client/android/app/src/main/java/com/clawdbot/android/MChatRuntime.kt:143-155 | the TLS flag follows the `ssl://` prefix; a URL with neither prefix gives nothing; a port is in range and comes with a host |
| AndroidRuntime.ValidateAgrees | client/android/app/src/main/java/com/clawdbot/android/MChatRuntime.kt:64-86 | `connect` goes ahead exactly when `hasRequiredConfig` holds |
| AndroidRuntime.ValidateMissing | client/android/app/src/main/java/com/clawdbot/android/MChatRuntime.kt:74-81 | `connect` reports the missing-fields error exactly when the URL, the user name or the employee id is blank |
| AndroidRuntime.ValidateReady | client/android/app/src/main/java/com/clawdbot/android/MChatRuntime.kt:74-86 | an accepted configuration uses the trimmed user name and employee id, the password as typed, and a trimmed host without ':' with a port in range |
| AndroidRuntime.SchemeOf | client/android/app/src/main/java/com/clawdbot/android/MChatRuntime.kt:145-147 | a URL built with either prefix is read with that prefix's TLS flag |
| AndroidRuntime.HostPortOf | client/android/app/src/main/java/com/clawdbot/android/MChatRuntime.kt:148-154 | `host:port` with a trimmed host without ':' and a port in range reads back as that host and port |
| AndroidRuntime.ParseOfParts | client/android/app/src/main/java/com/clawdbot/android/MChatRuntime.kt:143-155 | `<scheme>host:port` parses back to its host, port and TLS flag |
| AndroidRuntime.ParseBuiltUrl | client/android/app/src/main/java/com/clawdbot/android/MChatRuntime.kt:143-155 | the URL the connection builds from a host and port parses back to the trimmed host, the clamped port and the TLS flag |
| AndroidRuntime.AcceptedUrlRoundTrip | client/android/app/src/main/java/com/clawdbot/android/MChatRuntime.kt:82-99 | the URL built from an accepted configuration parses back to the same host, port and TLS flag |
| AndroidRuntime.ColonFirst | client/android/app/src/main/java/com/clawdbot/android/MChatRuntime.kt:149-150 | a rest that starts with ':' is taken whole as the host, with no port |
| AndroidRuntime.Runtime.constructor | client/android/app/src/main/java/com/clawdbot/android/MChatRuntime.kt:20-62 | the runtime connects at start exactly when the saved configuration is complete; otherwise it stays disconnected and touches no file |
| AndroidRuntime.Runtime.Connect | client/android/app/src/main/java/com/clawdbot/android/MChatRuntime.kt:73-126 | missing fields and a malformed URL set their error states and change nothing else; otherwise the old connection is closed, the state is Connecting, the history is loaded and a new controller starts from it |
| AndroidRuntime.Runtime.Start | client/android/app/src/main/java/com/clawdbot/android/MChatRuntime.kt:89-108 | the new connection uses the validated endpoint and the controller starts from the loaded history with the cache attached |
| AndroidRuntime.Runtime.Disconnect | client/android/app/src/main/java/com/clawdbot/android/MChatRuntime.kt:128-132 | the current connection, if any, is closed and dropped together with the controller |
| AndroidRuntime.Runtime.ConnectionStateChanged | client/android/app/src/main/java/com/clawdbot/android/MChatRuntime.kt:110-117 | the runtime mirrors the connection state; on Connected it clears the selected peer and loads the employees |
| IosRuntime.HostPort | client/ios/MoltChat/MChatRuntime.swift:125-130 | a host, when given, is non-empty, trimmed and without ':'; a port, when given, is in 1..65535 and follows a colon; without a colon the whole rest is the host |
| IosRuntime.ParseBrokerUrl | client/ios/MoltChat/MChatRuntime.swift:120-131 | the TLS flag follows the case-insensitive `ssl://` prefix; a URL with neither prefix gives nothing; a port is in range |
| IosRuntime.ValidateMissing | client/ios/MoltChat/MChatRuntime.swift:47-55 | the missing-fields error is reported exactly when the URL, user name or employee id is blank, as on Android |
| IosRuntime.ValidateReady | client/ios/MoltChat/MChatRuntime.swift:47-60 | an accepted configuration uses the trimmed user name and employee id, the password as typed, and a trimmed host without ':' with a port in range |
| IosRuntime.HostPortOf | client/ios/MoltChat/MChatRuntime.swift:125-130 | `host:port` with a trimmed host without ':' and a port in range reads back as that host and port |
| IosRuntime.PortOf | client/ios/MoltChat/MChatRuntime.swift:128-129 | the first five characters of a printed port, digits kept, read back as the port |
| IosRuntime.ParseAfterScheme | client/ios/MoltChat/MChatRuntime.swift:120-131 | after a scheme prefix, the rest is split into host and port |
| IosRuntime.ParseOfParts | client/ios/MoltChat/MChatRuntime.swift:120-131 | `<scheme>host:port` parses back to its host, port and TLS flag, exactly as on Android |
| IosRuntime.SameEndpointOnBothApps | client/ios/MoltChat/MChatRuntime.swift:47-60 | a well-formed configuration gives the same endpoint on iOS and Android |
| IosRuntime.ValidateParsed | client/ios/MoltChat/MChatRuntime.swift:47-60 | when both apps parse the URL alike, both validations accept the same endpoint |
| IosRuntime.ColonFirst | client/ios/MoltChat/MChatRuntime.swift:126-130 | a rest starting with ':' has no host on iOS, while Android takes it whole as the host with no port |
| IosRuntime.PortReadingDiffers | client/ios/MoltChat/MChatRuntime.swift:128 | `tcp://h:1a2` gives port 12 on iOS (digits filtered out of five characters) and port 1 on Android (digits up to the first non-digit) |
| IosRuntime.Runtime.constructor | client/ios/MoltChat/MChatRuntime.swift:40-45 | the runtime starts disconnected, with no connection, on the given files |
| IosRuntime.Runtime.Connect | client/ios/MoltChat/MChatRuntime.swift:47-103 | missing fields and a malformed URL set their error states and change nothing else; otherwise the old connection is closed, the state is Connecting, the history is loaded and a new controller starts from it |
| IosRuntime.Runtime.Start | client/ios/MoltChat/MChatRuntime.swift:71-101 | the new connection uses the validated endpoint and the controller starts from the loaded history with the cache attached |
| IosRuntime.Runtime.Disconnect | client/ios/MoltChat/MChatRuntime.swift:105-111 | the current connection, if any, is closed and dropped together with the controller |
| IosRuntime.Runtime.ConnectionStateChanged | client/ios/MoltChat/MChatRuntime.swift:91-97 | the runtime mirrors the connection state; on Connected it clears the selected peer and loads the employees |
| DebugLog.Append | client/android/app/src/main/java/com/clawdbot/android/DebugLog.kt:42-47 | the new entry goes last; the oldest entry is dropped only when the list would exceed `maxSize`; a list within capacity stays within it; increasing ids stay increasing |
| DebugLog.AppendKeepsNewest | client/android/app/src/main/java/com/clawdbot/android/DebugLog.kt:42-47 | adding to the newest `maxSize` entries of a history gives the newest `maxSize` entries of the longer history |
| DebugLog.ReplayKeepsNewest | client/android/app/src/main/java/com/clawdbot/android/DebugLog.kt:26-49 | after any sequence of `add` calls the store holds exactly the newest `maxSize` of them, oldest first |
| DebugLog.DebugLogStore.constructor | client/android/app/src/main/java/com/clawdbot/android/DebugLog.kt:26-31 | a new store is empty and its id counter starts at 0 |
| DebugLog.DebugLogStore.Add | client/android/app/src/main/java/com/clawdbot/android/DebugLog.kt:33-49 | the entry takes the next id, the counter grows by one, and the store still holds the newest `maxSize` entries with increasing ids |
| DebugLog.DebugLogStore.Clear | client/android/app/src/main/java/com/clawdbot/android/DebugLog.kt:51-55 | the list is emptied and the id counter is not reset |
| DeviceIdentities.StripSpkiPrefix | client/android/app/src/main/java/com/clawdbot/android/gateway/DeviceIdentityStore.kt:182-189 | an Ed25519 SPKI encoding (the 12-byte header followed by 32 bytes) gives its 32-byte raw key; anything else is returned unchanged |
| DeviceIdentities.StripWrapped | client/android/app/src/main/java/com/clawdbot/android/gateway/DeviceIdentityStore.kt:182-189 | wrapping a 32-byte key in the header and stripping it gives the key back |
| DeviceIdentities.HexByte | client/android/app/src/main/java/com/clawdbot/android/gateway/DeviceIdentityStore.kt:195 | `%02x` gives two lower-case hex digits, high nibble first, which read back as the byte |
| DeviceIdentities.Hex | client/android/app/src/main/java/com/clawdbot/android/gateway/DeviceIdentityStore.kt:191-198 | the hex text has two lower-case hex digits per byte |
| DeviceIdentities.UnhexHex | client/android/app/src/main/java/com/clawdbot/android/gateway/DeviceIdentityStore.kt:191-198 | the hex text of a digest reads back as that digest, so different digests give different device ids |
| DeviceIdentities.HexOf | client/android/app/src/main/java/com/clawdbot/android/gateway/DeviceIdentityStore.kt:193-197 | the builder loop produces the hex text of the digest |
| DeviceIdentities.Load | client/android/app/src/main/java/com/clawdbot/android/gateway/DeviceIdentityStore.kt:100-116 | a stored identity is accepted exactly when its id and both keys are non-blank, and is then returned unchanged |
| DeviceIdentities.Fallback | client/android/app/src/main/java/com/clawdbot/android/gateway/DeviceIdentityStore.kt:161-170 | when Ed25519 is unavailable the identity has a random id and empty keys |
| DeviceIdentities.FallbackNotReloaded | client/android/app/src/main/java/com/clawdbot/android/gateway/DeviceIdentityStore.kt:100-116 | a saved fallback identity is rejected when read back |
| DeviceIdentities.Fixed | client/android/app/src/main/java/com/clawdbot/android/gateway/DeviceIdentityStore.kt:65-74 | the derived id replaces the stored one when there is one; the keys and creation time are kept; the identity is unchanged exactly when nothing was derived or the ids already match |
| DeviceIdentities.FixedIdempotent | client/android/app/src/main/java/com/clawdbot/android/gateway/DeviceIdentityStore.kt:65-74 | repairing a repaired identity changes nothing |
| DeviceIdentities.DeviceIdentityStore.constructor | client/android/app/src/main/java/com/clawdbot/android/gateway/DeviceIdentityStore.kt:23-28 | a new store has no cached identity |
| DeviceIdentities.DeviceIdentityStore.Derive | client/android/app/src/main/java/com/clawdbot/android/gateway/DeviceIdentityStore.kt:173-180 | an id is derived exactly when the public key decodes, and it is the hex text of the key's SHA-256 digest |
| DeviceIdentities.DeviceIdentityStore.MaybeFixDeviceId | client/android/app/src/main/java/com/clawdbot/android/gateway/DeviceIdentityStore.kt:65-74 | the result is the repaired identity; the file is rewritten only when the id changed |
| DeviceIdentities.DeviceIdentityStore.Settle | client/android/app/src/main/java/com/clawdbot/android/gateway/DeviceIdentityStore.kt:50-61 | under the lock: a cached identity wins; otherwise a valid identity on disk is repaired and cached; otherwise the generated identity is saved and cached |
| DeviceIdentities.DeviceIdentityStore.LoadOrCreate | client/android/app/src/main/java/com/clawdbot/android/gateway/DeviceIdentityStore.kt:34-62 | the identity is the cached one, else the valid one on disk after repair, else the generated one, which is saved; afterwards it is cached |
| OpenClawPlugin.MergeKeepsOptOut | plugin/openclaw/channel/moltchat/src/index.ts:125-131 | a configuration with `blockStreaming: false` on the channel is returned untouched |
| OpenClawPlugin.MergeTurnsOnStreaming | plugin/openclaw/channel/moltchat/src/index.ts:125-131 | otherwise the merged configuration has `channels.moltchat.blockStreaming` set to true |
| OpenClawPlugin.MergeKeepsOtherKeys | plugin/openclaw/channel/moltchat/src/index.ts:130 | every top-level key other than `channels` is kept |
| OpenClawPlugin.MergeKeepsOtherChannels | plugin/openclaw/channel/moltchat/src/index.ts:129 | other channels, and the channel's other settings, are kept |
| OpenClawPlugin.ConfigCandidates | plugin/openclaw/channel/moltchat/src/index.ts:186-193 | the configuration is looked up in six places |
| OpenClawPlugin.FirstDefined | plugin/openclaw/channel/moltchat/src/index.ts:186-193 | `??` picks the first candidate that is neither null nor missing, or the last one |
| OpenClawPlugin.ConfigPrecedence | plugin/openclaw/channel/moltchat/src/index.ts:181-194 | the configuration is the first defined of `account`, `config.channels.moltchat`, `config.channels.mchat`, `cfg.channels.moltchat`, `cfg.channels.mchat` and `cfg.plugins.entries.moltchat.config` |
| OpenClawPlugin.ListAccountIds | plugin/openclaw/channel/moltchat/src/index.ts:211-212 | the account list is either empty or just "default" |
| OpenClawPlugin.ResolveAccount | plugin/openclaw/channel/moltchat/src/index.ts:213-217 | the resolved account is never null; it falls back to `{}` |
| OpenClawPlugin.MchatOnlyListsNoAccount | plugin/openclaw/channel/moltchat/src/index.ts:211-217 | a configuration only under `channels.mchat` lists no account, although `resolveAccount` would find it |
| OpenClawPlugin.ListedAccountResolves | plugin/openclaw/channel/moltchat/src/index.ts:211-217 | a configuration under `channels.moltchat` lists "default" and resolves to that configuration |
| OpenClawPlugin.BodyText | plugin/openclaw/channel/moltchat/src/index.ts:56-57 | a string body is itself, a missing or null one is "" |
| OpenClawPlugin.AddressRoundTrip | plugin/openclaw/channel/moltchat/src/index.ts:69-70 | the `To` and `From` addresses read back as the conversation kind and thread, and as the sender or the thread |
| OpenClawPlugin.Context | plugin/openclaw/channel/moltchat/src/index.ts:65-82 | the inbound context's `OriginatingTo` equals `To`, its label is the thread, its chat type follows the group flag, and its addresses read back |
| OpenClawPlugin.Gateway.constructor | plugin/openclaw/channel/moltchat/src/index.ts:16-22 | the plugin starts with no provider and account "default" |
| OpenClawPlugin.Gateway.StartWithConfig | plugin/openclaw/channel/moltchat/src/index.ts:134-168 | a configuration with `enabled: false` changes nothing; otherwise the account id is set and a provider is running |
| OpenClawPlugin.Gateway.Start | plugin/openclaw/channel/moltchat/src/index.ts:234-242 | without a configuration nothing starts; otherwise the account is started as "default" |
| OpenClawPlugin.Gateway.StartAccount | plugin/openclaw/channel/moltchat/src/index.ts:247-265 | without a configuration or a string `brokerHost` nothing starts; otherwise the account starts under the given id or "default" |
| OpenClawPlugin.Gateway.Stop | plugin/openclaw/channel/moltchat/src/index.ts:171-178 | a running provider is stopped and cleared |
| OpenClawPlugin.Gateway.SendText | plugin/openclaw/channel/moltchat/src/index.ts:221-230 | without a connected provider it throws "MoltChat channel not connected" and sends nothing; otherwise it sends the text to the thread or "" |
| OpenClawPlugin.Gateway.Deliver | plugin/openclaw/channel/moltchat/src/index.ts:103-108 | a reply block is sent to its thread only when a provider is connected and the block has non-empty text |

## Left out

- MQTT client libraries (mqtt.js, paho-mqtt, Paho, CocoaMQTT): connecting, subscribing, keep-alive and TLS are not modelled. A broker delivery, a publish outcome and a connect outcome are inputs of the methods that react to them. On the server, `accepted` is the broker's answer to a send handler's push, and a refusal makes the handler throw.
- Gateway.Server.OnMessage: a refused reply publication (server/src/mqtt/gateway.ts:69), which the catch at :70-74 answers with a second, 500 reply, is not modelled; every reply is taken to be published.
- Concurrency: coroutines, threads, locks, `@MainActor` and `ConcurrentHashMap` are not modelled. Each method is one atomic step, and interleavings inside a step are not modelled.
- Timers (`setTimeout`, `Task.sleep`, `withTimeoutOrNull`, `event.wait`, `delay`): a timeout is a separate method, such as `TimeoutFired`, `Abandon` or `Finish`.
- Clock and randomness: `Date.now`, ISO timestamps, UUIDs, and sequence and message ids are parameters.
- JSON and date libraries: parsing is an outcome, `Raw`, that is either malformed or a parsed value. ISO-8601 parsing is a function parameter. Numbers are integers, so floating-point values and their printing are not modelled.
- SQL: the statement texts, row ordering and database failures are not modelled. The tables are maps, and each handler's writes are map updates.
- `org.tree`, `group.list`, `config.storage`, `file.upload_url` and `file.download_url` (server/src/handlers/org.ts, group.ts:126-165, config.ts, file.ts): these handlers only read. `Router.RouteRequest` takes their result as its `elsewhere` parameter.
- File, Keychain and preference I/O: history files and the identity file are maps that do not fail, and `SecurePrefs` values and saved settings are parameters.
- Cryptography: SHA-256, Base64 and Ed25519 are function parameters of `DeviceIdentities.DeviceIdentityStore`. `signPayload` and `publicKeyBase64Url` are not modelled, because they consist only of those primitives. `hashToken` in server/src/handlers/auth.ts is a parameter.
- Key generation in `generate`: its retries with waits are not modelled. The generated identity, or the fallback one, is a parameter of `LoadOrCreate`.
- Text: whitespace, digits and case are the ASCII ones. Swift grapheme clusters are taken to be single characters. Swift `CharacterSet.alphanumerics` is a predicate parameter of the iOS history cache.
- Integer widths: Kotlin `Long` ids and counters and JavaScript numbers are unbounded integers, so their overflow is not modelled.
- Logging (`console.log`, `Log.w`, debug-log calls from connections) and exception message texts beyond the protocol's own error strings are not modelled.
- The listener lists of `on` in client/node/src/client.ts: `NodeClient.Client.HandleMessage` returns the event a listener would receive. The Python `on` records only the event name.
- `subscribeGroup` and `unsubscribeGroup` in Node and `subscribe_group` and `unsubscribe_group` in Python are not modelled, because they only call the MQTT library. The same holds for the subscriptions each client's connect makes, and for the Python `get_client_id` accessor.
- NodeClient.Client.Connect: a failing subscription or publication, which rejects `connect`, is not modelled. The `auth.bind` reply only logs a warning in client/node/src/client.ts:89, so it is handled by `HandleMessage` like any other reply.
- PythonClient.Client.Connect: only the start of `auth.bind` is modelled. The wait for its reply inside `_on_connect` and the 15-second wait of `connect` (client/python/src/mchat_client/client.py:112-113, 131-137) are thread and timer behaviour.
- UI flows, runtime delegates and preference setters of the mobile apps are not modelled.
- `dispatchMoltChatInbound`'s calls into the OpenClaw runtime (route resolution, envelope formatting, session recording, reply dispatch) are not modelled. `OpenClawPlugin.Context` builds the inbound context up to the point where those calls start.
- `CHANNEL_ID` is taken as "moltchat", because plugin/openclaw/channel/moltchat/src/types.ts is not part of this model.
- Auth.HandleAuthChallenge: `expires_at` is returned as the expiry in milliseconds rather than as its ISO-8601 text, because the date library is left out.
- AndroidConnection.BuildPayload: its contract only equates the builder's output with `PayloadText`. `AndroidConnection.PayloadIsJson` proves this text is the JSON of `{action, …params}` only when the action and the keys have no quote, backslash or control character, because the builder writes those unescaped. In the model, string values are escaped as `Json.Quote` does, which is the corrected `jsonEscape`.
- IosHistory.Saved: peers with equal newest timestamps are evicted in map order, as a stable sort would do. Swift does not promise a stable `sorted(by:)`, so the tie order there may differ.

## Findings

The operations follow each of these defects as written, and the corrected definition is proved beside them. The one exception is the Android payload builder, whose string values are escaped as corrected (see `AndroidConnection.BuildPayload` above).

| source | as written | input that shows it | evidently intended | confidence | as-written member | corrected member |
|---|---|---|---|---|---|---|
| server/src/mqtt/router.ts:77-79 | `map[action] ?? null` on an object literal also finds members inherited from `Object.prototype` | a bound client sends action `toString`; the reply has `data` but no `code` or `message` | only the table's own actions are found, and any other action gets 400 "Unknown action: toString" | medium, not executed | Gateway.InheritedActionFinding | Router.Route |
| client/python/src/mchat_client/client.py:209-220 | the reply handler pops the pending record, and `_request_impl` then looks the record up again | any request whose reply arrives before the timeout; it raises "No response" | the caller reads its own record and returns the reply body | high, not executed | PythonClient.Client.AwaitAsWritten | PythonClient.Client.Await |
| client/ios/MoltChat/MChat/MChatConnection.swift:207-213 | all digits and minus signs in the ten characters after the colon are glued together | `{"code":0,"d":1}` reads as code 1 | the integer right after the colon | high, not executed | IosConnection.CodeSampleAsWritten | IosConnection.CodeSampleCorrected |
| client/ios/MoltChat/MChat/MChatChatController.swift:84 | `is_ai_agent` is read with `as? String`, so a JSON boolean is never a string | an employee entry with `"is_ai_agent": true` is shown as not an agent | JSON `true` marks an agent | high, not executed | IosChat.AgentFlagFinding | IosChat.IsAiAgent |
| client/android/app/src/main/java/com/clawdbot/android/mchat/MChatConnection.kt:262-263 | `jsonEscape` escapes only backslash, quote and newline | a parameter value holding a tab is written raw inside the quotes, which RFC 8259 section 7 forbids | every control character is escaped | high, not executed | AndroidConnection.JsonEscapeFinding | Json.UnescapeEscapeBody |

=== FILE: admin_api.dfy ===
/** The admin console's `MqttApi`: the same request/response correlation, seen from the browser. */
module AdminApi {
  import opened Wrappers
  import opened Strings
  import opened Json
  import opened Protocol
  import opened Correlation

  const REQUEST_TIMEOUT_MS := 30000
  const MAX_CLIENT_ID := 64

  /**
   * The client id used when none is typed in: the user name with every
   * character outside `[A-Za-z0-9_.-]` replaced by '_', cut to 64
   * characters, or "admin" when that leaves nothing.
   */
  function DefaultClientId(username: string): (r: string)
    ensures 0 < |r| <= MAX_CLIENT_ID
    ensures forall i :: 0 <= i < |r| ==> IsIdChar(r[i])
    ensures username == [] ==> r == "admin"
    ensures username != [] ==> |r| == if |username| < MAX_CLIENT_ID then |username| else MAX_CLIENT_ID
    ensures username != [] ==> forall i :: 0 <= i < |r| ==> r[i] == if IsIdChar(username[i]) then username[i] else '_'
  {
    var sanitized := Take(SanitizeId(username), MAX_CLIENT_ID);
    assert username != [] ==> sanitized[0] == SanitizeId(username)[0];
    if sanitized != [] then sanitized else "admin"
  }

  class Api {
    const table: PromiseTable
    var clientId: string
    /** `client?.connected`: a client exists and the broker accepted it. */
    var connected: bool
    var published: seq<Publication>

    ghost predicate Valid()
      reads this, table
    {
      table.Valid()
    }

    constructor ()
      ensures Valid() && fresh(table) && table.pending == {} && table.settled == map[]
      ensures clientId == "" && !connected && published == []
    {
      table := new PromiseTable();
      clientId := "";
      connected := false;
      published := [];
    }

    /** `connect`: a non-blank override (trimmed) wins over the user-name default. */
    method Connect(username: string, clientIdOverride: Option<string>)
      modifies this
      ensures clientId == ChooseClientId(clientIdOverride, DefaultClientId(username))
      ensures connected && published == old(published)
    {
      clientId := ChooseClientId(clientIdOverride, DefaultClientId(username));
      connected := true;
    }

    /** `request`: "Not connected" at once (`sent` false), else register and publish `{action, ...params}`. */
    method Request(action: string, params: Obj, seqId: string) returns (sent: bool)
      requires Valid() && seqId !in table.pending && seqId !in table.settled
      modifies this, table
      ensures Valid() && sent == old(connected) && clientId == old(clientId) && connected == old(connected)
      ensures !sent ==> table.pending == old(table.pending) && table.settled == old(table.settled) && published == old(published)
      ensures sent ==> table.pending == old(table.pending) + {seqId} && table.settled == old(table.settled)
      ensures sent ==> published == old(published) + [Publication(REQ_TOPIC_PREFIX + clientId + "/" + seqId, JObj(RequestBody(action, params)))]
    {
      if !connected {
        return false;
      }
      table.Register(seqId);
      published := published + [Publication(REQ_TOPIC_PREFIX + clientId + "/" + seqId, JObj(RequestBody(action, params)))];
      sent := true;
    }

    /** The timer or a refused publication: only a request still waiting is rejected, with `reason`. */
    method Abandon(seqId: string, reason: string)
      requires Valid()
      modifies table
      ensures Valid()
      ensures seqId in old(table.pending) ==>
        table.pending == old(table.pending) - {seqId} && table.settled == old(table.settled)[seqId := Rejected(reason)]
      ensures seqId !in old(table.pending) ==> table.pending == old(table.pending) && table.settled == old(table.settled)
    {
      var _ := table.Settle(seqId, Rejected(reason));
    }

    /**
     * The message callback: only replies to this client matter. The body
     * resolves the call whatever its `code`; an unparsable one rejects it.
     */
    method HandleMessage(topic: string, payload: Raw)
      requires Valid()
      modifies table
      ensures Valid()
      ensures !StartsWith(topic, RESP_TOPIC_PREFIX + clientId + "/") ==>
        table.pending == old(table.pending) && table.settled == old(table.settled)
      ensures StartsWith(topic, RESP_TOPIC_PREFIX + clientId + "/") ==>
        var s := topic[|RESP_TOPIC_PREFIX + clientId + "/"|..];
        (s in old(table.pending) ==>
          table.pending == old(table.pending) - {s} &&
          table.settled == old(table.settled)[s := if payload.Parsed? then Resolved(payload.value) else Rejected(INVALID_RESPONSE)]) &&
        (s !in old(table.pending) ==> table.pending == old(table.pending) && table.settled == old(table.settled))
    {
      var prefix := RESP_TOPIC_PREFIX + clientId + "/";
      if StartsWith(topic, prefix) {
        var c := if payload.Parsed? then Resolved(payload.value) else Rejected(INVALID_RESPONSE);
        var _ := table.Settle(topic[|prefix|..], c);
      }
    }

    /** `disconnect`: every waiting call rejects with "Disconnected" and the client is dropped. */
    method Disconnect()
      requires Valid()
      modifies this, table
      ensures Valid() && !connected && published == old(published) && clientId == old(clientId)
      ensures table.pending == {}
      ensures table.settled.Keys == old(table.settled).Keys + old(table.pending)
      ensures forall s :: s in old(table.settled) ==> table.settled[s] == old(table.settled)[s]
      ensures forall s :: s in old(table.pending) ==> table.settled[s] == Rejected(DISCONNECTED)
    {
      table.RejectAll(DISCONNECTED);
      connected := false;
    }
  }
}

=== FILE: agent.dfy ===
/** The `agent.capability_list` handler. */
module Agents {
  import opened Wrappers
  import opened Strings
  import opened Json
  import opened Protocol
  import opened Tables

  /** A row of `SELECT employee_id, name, agent_profile, skills_badge FROM employee`. */
  datatype AgentRow = AgentRow(employeeId: string, name: Json, agentProfile: Option<Doc>, skillsBadge: Option<Doc>)

  predicate IsActiveAgent(employees: map<string, Employee>, id: string) {
    IsActive(employees, id) && employees[id].isAiAgent
  }

  /**
   * What the query `WHERE is_ai_agent = 1 AND status = 'active'` returns:
   * every active AI agent exactly once, in an order the database chooses.
   */
  ghost predicate AgentQuery(employees: map<string, Employee>, rows: seq<AgentRow>) {
    (forall i :: 0 <= i < |rows| ==>
      var id := rows[i].employeeId;
      IsActiveAgent(employees, id) &&
      rows[i] == AgentRow(id, employees[id].name, employees[id].agentProfile, employees[id].skillsBadge)) &&
    (forall i, j :: 0 <= i < j < |rows| ==> rows[i].employeeId != rows[j].employeeId) &&
    (forall id :: IsActiveAgent(employees, id) ==> exists i :: 0 <= i < |rows| && rows[i].employeeId == id)
  }

  /**
   * `c.includes(skill) || skill.includes(c)` for one capability: a string
   * matches when either contains the other; an array when it holds the
   * skill or its `String(…)` form occurs in the skill; any other value has
   * no `includes` method and throws (`None`).
   */
  function CapabilityMatch(c: Json, skill: string): (r: Option<bool>)
    ensures r.Some? <==> c.JStr? || c.JArr?
    ensures c.JStr? ==> r == Some(Contains(c.s, skill) || Contains(skill, c.s))
  {
    match c
    case JStr(s) => Some(Includes(s, skill) || Includes(skill, s))
    case JArr(items) => Some(JStr(skill) in items || Includes(skill, JsString(c)))
    case _ => None
  }

  /** `caps.some(…)`: scans left to right and stops at the first match; a throwing capability ends the scan with `None`. */
  function SomeCapability(caps: seq<Json>, skill: string): Option<bool>
    decreases |caps|
  {
    if caps == [] then Some(false)
    else match CapabilityMatch(caps[0], skill)
      case None => None
      case Some(true) => Some(true)
      case Some(false) => SomeCapability(caps[1..], skill)
  }

  /** `some` is true exactly when some capability matches and none before it throws. */
  lemma {:induction false} SomeCapabilityFirstMatch(caps: seq<Json>, skill: string)
    ensures SomeCapability(caps, skill) == Some(true) <==>
      exists k :: 0 <= k < |caps| && CapabilityMatch(caps[k], skill) == Some(true) &&
        forall j :: 0 <= j < k ==> CapabilityMatch(caps[j], skill) == Some(false)
    decreases |caps|
  {
    if caps != [] {
      SomeCapabilityFirstMatch(caps[1..], skill);
      if CapabilityMatch(caps[0], skill) == Some(false) {
        if SomeCapability(caps[1..], skill) == Some(true) {
          var k :| 0 <= k < |caps[1..]| && CapabilityMatch(caps[1..][k], skill) == Some(true) &&
            forall j :: 0 <= j < k ==> CapabilityMatch(caps[1..][j], skill) == Some(false);
          assert forall j :: 0 <= j < k + 1 ==> CapabilityMatch(caps[j], skill) == Some(false) by {
            forall j | 0 <= j < k + 1 ensures CapabilityMatch(caps[j], skill) == Some(false) {
              if j > 0 {
                assert caps[j] == caps[1..][j - 1];
              }
            }
          }
          assert CapabilityMatch(caps[k + 1], skill) == Some(true);
        }
        if exists k :: 0 <= k < |caps| && CapabilityMatch(caps[k], skill) == Some(true) &&
            forall j :: 0 <= j < k ==> CapabilityMatch(caps[j], skill) == Some(false) {
          var k :| 0 <= k < |caps| && CapabilityMatch(caps[k], skill) == Some(true) &&
            forall j :: 0 <= j < k ==> CapabilityMatch(caps[j], skill) == Some(false);
          assert k != 0;
          assert CapabilityMatch(caps[1..][k - 1], skill) == Some(true);
          assert forall j :: 0 <= j < k - 1 ==> CapabilityMatch(caps[1..][j], skill) == Some(false) by {
            forall j | 0 <= j < k - 1 ensures CapabilityMatch(caps[1..][j], skill) == Some(false) {
              assert caps[1..][j] == caps[j + 1];
            }
          }
        }
      }
    }
  }

  /**
   * The filter callback: the row is kept when its profile is present, parses,
   * has an array `capabilities`, and `some` finds a match. A missing or
   * unparseable profile, and a capability that throws, drop the row
   * instead of failing the request.
   */
  predicate Keeps(row: AgentRow, skill: string) {
    row.agentProfile.Some? && row.agentProfile.value.parsed.Some? &&
    var caps := Prop(row.agentProfile.value.parsed, "capabilities");
    caps.Some? && caps.value.JArr? && SomeCapability(caps.value.items, skill) == Some(true)
  }

  /** `list.filter(…)`. */
  function Filter(rows: seq<AgentRow>, skill: string): (r: seq<AgentRow>)
    ensures forall x :: x in r <==> x in rows && Keeps(x, skill)
    ensures |r| <= |rows|
    decreases |rows|
  {
    if rows == [] then []
    else (if Keeps(rows[0], skill) then [rows[0]] else []) + Filter(rows[1..], skill)
  }

  /** The filter keeps the rows' relative order. */
  lemma {:induction false} FilterAppend(a: seq<AgentRow>, b: seq<AgentRow>, skill: string)
    ensures Filter(a + b, skill) == Filter(a, skill) + Filter(b, skill)
    decreases |a|
  {
    if a == [] {
      assert a + b == b;
    } else {
      assert (a + b)[0] == a[0];
      assert (a + b)[1..] == a[1..] + b;
      FilterAppend(a[1..], b, skill);
    }
  }

  /** `doc ? JSON.parse(doc) : null`; `None` when the parse throws. */
  function ParseColumn(doc: Option<Doc>): (r: Option<Json>)
    ensures doc.None? ==> r == Some(JNull)
    ensures doc.Some? ==> r == doc.value.parsed
  {
    match doc
    case None => Some(JNull)
    case Some(d) => d.parsed
  }

  /** One element of `agent_profiles`; `None` when one of the JSON columns does not parse. */
  function Projection(row: AgentRow): (r: Option<Json>)
    ensures r.Some? <==> ParseColumn(row.agentProfile).Some? && ParseColumn(row.skillsBadge).Some?
    ensures r.Some? ==> r.value.JObj? && DistinctKeys(r.value.fields)
    ensures r.Some? ==> Get(r.value.fields, "employee_id") == Some(JStr(row.employeeId))
    ensures r.Some? ==> Get(r.value.fields, "agent_profile") == ParseColumn(row.agentProfile)
    ensures r.Some? ==> Get(r.value.fields, "name") == Some(row.name)
    ensures r.Some? ==> Get(r.value.fields, "skills_badge") == ParseColumn(row.skillsBadge)
    ensures r.Some? ==> |r.value.fields| == 4
  {
    var profile := ParseColumn(row.agentProfile);
    var badge := ParseColumn(row.skillsBadge);
    if profile.None? || badge.None? then None
    else
      var f := [("employee_id", JStr(row.employeeId)), ("name", row.name), ("agent_profile", profile.value), ("skills_badge", badge.value)];
      assert DistinctKeys(f);
      GetDistinct(f, 0);
      GetDistinct(f, 1);
      GetDistinct(f, 2);
      GetDistinct(f, 3);
      Some(JObj(f))
  }

  /** `list.map(…)` building `agent_profiles`; the first row whose JSON does not parse makes the handler throw. */
  function Projections(rows: seq<AgentRow>): (r: Option<seq<Json>>)
    ensures r.Some? <==> forall i :: 0 <= i < |rows| ==> Projection(rows[i]).Some?
    ensures r.Some? ==> |r.value| == |rows| && forall i :: 0 <= i < |rows| ==> r.value[i] == Projection(rows[i]).value
  {
    if forall i :: 0 <= i < |rows| ==> Projection(rows[i]).Some? then
      Some(seq(|rows|, i requires 0 <= i < |rows| => Projection(rows[i]).value))
    else None
  }

  function Ids(rows: seq<AgentRow>): (r: seq<Json>)
    ensures |r| == |rows| && forall i :: 0 <= i < |rows| ==> r[i] == JStr(rows[i].employeeId)
  {
    seq(|rows|, i requires 0 <= i < |rows| => JStr(rows[i].employeeId))
  }

  /** The rows that survive the optional skill filter: all of them unless the skill is a non-empty string. */
  function Listed(payload: Obj, rows: seq<AgentRow>): seq<AgentRow> {
    var skill := AsString(Get(payload, "skill"));
    if skill.Some? && skill.value != [] then Filter(rows, skill.value) else rows
  }

  /**
   * `handleAgentCapabilityList` over the rows the query returned. The reply
   * carries `agent_ids` and `agent_profiles`, index for index the same
   * rows, and echoes the skill (`null` when it is not a string).
   */
  function HandleAgentCapabilityList(payload: Obj, rows: seq<AgentRow>): (o: Outcome)
    ensures o.Threw? <==> exists i :: 0 <= i < |Listed(payload, rows)| && Projection(Listed(payload, rows)[i]).None?
    ensures o.Returned? ==> o.resp.code == OK && o.resp.data.Some? && o.resp.data.value.JObj?
    ensures o.Returned? ==> Get(o.resp.data.value.fields, "skill") == Some(StringOrNull(Get(payload, "skill")))
    ensures o.Returned? ==> Get(o.resp.data.value.fields, "agent_ids") == Some(JArr(Ids(Listed(payload, rows))))
    ensures o.Returned? ==> ProfilesMatch(Listed(payload, rows), Get(o.resp.data.value.fields, "agent_profiles"))
  {
    var list := Listed(payload, rows);
    match Projections(list)
    case None => Threw
    case Some(profiles) =>
      ProjectionsMatch(list, profiles);
      Returned(Ok(CapabilityData(StringOrNull(Get(payload, "skill")), Ids(list), profiles)))
  }

  /** The fields of the capability-list reply. */
  function CapabilityData(skill: Json, ids: seq<Json>, profiles: seq<Json>): (data: Obj)
    ensures Get(data, "skill") == Some(skill)
    ensures Get(data, "agent_ids") == Some(JArr(ids))
    ensures Get(data, "agent_profiles") == Some(JArr(profiles))
  {
    var data := [("skill", skill), ("agent_ids", JArr(ids)), ("agent_profiles", JArr(profiles))];
    assert DistinctKeys(data);
    GetDistinct(data, 0);
    GetDistinct(data, 1);
    GetDistinct(data, 2);
    data
  }

  lemma ProjectionsMatch(list: seq<AgentRow>, profiles: seq<Json>)
    requires Projections(list) == Some(profiles)
    ensures ProfilesMatch(list, Some(JArr(profiles)))
  {
    forall i | 0 <= i < |list|
      ensures Prop(Some(profiles[i]), "employee_id") == Some(JStr(list[i].employeeId))
    {
      assert profiles[i] == Projection(list[i]).value;
    }
  }

  /** `agent_profiles` is an array with one object per listed row, in the same order, each naming its row's employee. */
  predicate ProfilesMatch(list: seq<AgentRow>, v: Option<Json>) {
    v.Some? && v.value.JArr? && |v.value.items| == |list| &&
    forall i :: 0 <= i < |list| ==> Prop(Some(v.value.items[i]), "employee_id") == Some(JStr(list[i].employeeId))
  }

  /** Without a non-empty string skill, the reply lists every active AI agent. */
  lemma NoSkillListsAll(employees: map<string, Employee>, payload: Obj, rows: seq<AgentRow>)
    requires AgentQuery(employees, rows)
    requires AsString(Get(payload, "skill")).None? || AsString(Get(payload, "skill")) == Some([])
    ensures forall id :: (exists i :: 0 <= i < |Listed(payload, rows)| && Listed(payload, rows)[i].employeeId == id) <==> IsActiveAgent(employees, id)
  {
    assert Listed(payload, rows) == rows;
  }

  /**
   * With a skill, an agent is listed iff its profile parses to an object
   * whose capabilities array has an entry containing the skill or contained
   * in it, before any entry that is neither a string nor an array.
   */
  lemma SkillFilter(employees: map<string, Employee>, skill: string, rows: seq<AgentRow>, id: string)
    requires AgentQuery(employees, rows)
    requires skill != []
    ensures (exists i :: 0 <= i < |Filter(rows, skill)| && Filter(rows, skill)[i].employeeId == id) <==>
      IsActiveAgent(employees, id) &&
      var row := AgentRow(id, employees[id].name, employees[id].agentProfile, employees[id].skillsBadge);
      row.agentProfile.Some? && row.agentProfile.value.parsed.Some? &&
      var caps := Prop(row.agentProfile.value.parsed, "capabilities");
      caps.Some? && caps.value.JArr? &&
      exists k :: 0 <= k < |caps.value.items| && CapabilityMatch(caps.value.items[k], skill) == Some(true) &&
        forall j :: 0 <= j < k ==> CapabilityMatch(caps.value.items[j], skill) == Some(false)
  {
    var kept := Filter(rows, skill);
    if IsActiveAgent(employees, id) {
      var row := AgentRow(id, employees[id].name, employees[id].agentProfile, employees[id].skillsBadge);
      var i :| 0 <= i < |rows| && rows[i].employeeId == id;
      assert rows[i] == row;
      if Keeps(row, skill) {
        assert row in kept;
        var k :| 0 <= k < |kept| && kept[k] == row;
      }
      if row.agentProfile.Some? && row.agentProfile.value.parsed.Some? {
        var caps := Prop(row.agentProfile.value.parsed, "capabilities");
        if caps.Some? && caps.value.JArr? {
          SomeCapabilityFirstMatch(caps.value.items, skill);
        }
      }
    }
    if exists i :: 0 <= i < |kept| && kept[i].employeeId == id {
      var i :| 0 <= i < |kept| && kept[i].employeeId == id;
      assert kept[i] in rows && Keeps(kept[i], skill);
      var j :| 0 <= j < |rows| && rows[j] == kept[i];
      var row := rows[j];
      assert IsActiveAgent(employees, id);
      assert row.agentProfile.Some? && row.agentProfile.value.parsed.Some?;
      var caps := Prop(row.agentProfile.value.parsed, "capabilities");
      SomeCapabilityFirstMatch(caps.value.items, skill);
    }
  }
}

=== FILE: android_chat.dfy ===
/**
 * The Android `MChatChatController`: inbox messages filed under their
 * sender, optimistic sends, the employee list from `org.tree`, and the
 * session list derived from the peers. kotlinx.serialization's
 * `jsonPrimitive.content` is modelled as `Primitive`: it throws on
 * objects and arrays, and gives `"null"` for a JSON null.
 */
module AndroidChat {
  import opened Wrappers
  import opened Strings
  import opened Json
  import opened ChatModel
  import AndroidConnection

  /** `element?.jsonPrimitive?.content`: absent, the primitive's content, or a throw. */
  datatype Prim = Absent | Content(text: string) | NotPrimitive

  function Primitive(v: Option<Json>): (r: Prim)
    ensures r == NotPrimitive <==> v.Some? && (v.value.JObj? || v.value.JArr?)
    ensures r == Absent <==> v.None?
    ensures v.Some? && v.value.JStr? ==> r == Content(v.value.s)
    ensures v == Some(JNull) ==> r == Content("null")
  {
    match v
    case None => Absent
    case Some(JNull) => Content("null")
    case Some(JBool(b)) => Content(if b then "true" else "false")
    case Some(JNum(n)) => Content(IntToString(n))
    case Some(JStr(s)) => Content(s)
    case Some(_) => NotPrimitive
  }

  /** `content?.jsonPrimitive?.content ?: default`, with `None` for a throw. */
  function PrimitiveOr(v: Option<Json>, default: string): (r: Option<string>)
    ensures r.None? <==> Primitive(v) == NotPrimitive
    ensures Primitive(v) == Absent ==> r == Some(default)
  {
    match Primitive(v)
    case Absent => Some(default)
    case Content(t) => Some(t)
    case NotPrimitive => None
  }

  /**
   * The text of an inbox message: a primitive's content; for an object
   * its `text` content, else the object's JSON; an array's JSON; and
   * `""` when there is no content. `None` when reading it throws.
   */
  function InboxText(content: Option<Json>): (r: Option<string>)
    ensures content.None? ==> r == Some("")
    ensures content.Some? && content.value.JStr? ==> r == Some(content.value.s)
    ensures content.Some? && content.value.JObj? && Get(content.value.fields, "text").None? ==> r == Some(Stringify(content.value))
    ensures content.Some? && content.value.JObj? && Primitive(Get(content.value.fields, "text")).Content? ==>
      r == Some(Primitive(Get(content.value.fields, "text")).text)
  {
    match content
    case None => Some("")
    case Some(JObj(f)) => PrimitiveOr(Get(f, "text"), Stringify(content.value))
    case Some(JArr(_)) => Some(Stringify(content.value))
    case Some(_) => PrimitiveOr(content, "")
  }

  /**
   * The message `handleInboxMessage` files, with its sender: `None`
   * when the payload is not an object, has no `from_employee_id`, or a
   * read throws. `freshId` stands for the random id used without
   * `msg_id`; `iso` for the ISO-8601 parser and `nowMs` for the clock
   * used when it fails.
   */
  function InboxMessage(payload: Raw, freshId: string, nowMs: int, iso: string -> Option<int>): (r: Option<(string, ChatMessage)>)
    ensures r.Some? ==> payload.Parsed? && payload.value.JObj?
    ensures r.Some? ==> Primitive(Get(payload.value.fields, "from_employee_id")) == Content(r.value.0)
    ensures r.Some? ==> r.value.1.role == ASSISTANT
    ensures r.Some? ==> |r.value.1.content| == 1 && r.value.1.content[0].kind == "text"
    ensures r.Some? ==> InboxText(Get(payload.value.fields, "content")) == Some(r.value.1.content[0].text)
    ensures payload.Parsed? && payload.value.JObj? && Get(payload.value.fields, "from_employee_id").None? ==> r.None?
  {
    if payload.Malformed? || !payload.value.JObj? then None
    else
      var o := payload.value.fields;
      var from := Primitive(Get(o, "from_employee_id"));
      var text := InboxText(Get(o, "content"));
      var msgId := PrimitiveOr(Get(o, "msg_id"), freshId);
      var sentAt := PrimitiveOr(Get(o, "sent_at"), "");
      if !from.Content? || text.None? || msgId.None? || sentAt.None? then None
      else Some((from.text, TextMessage(msgId.value, ASSISTANT, text.value, iso(sentAt.value).GetOr(nowMs))))
  }

  /** How `org.tree` data is read: no list, a list, or a throw. */
  datatype EmployeesRead = NoList | Loaded(list: seq<EmployeeEntry>) | ReadThrew

  /** `is_ai_agent` as read: its primitive content is `"true"`, so both a JSON `true` and the string `"true"` count. */
  function IsAiAgentKt(v: Option<Json>): (r: bool)
    ensures v == Some(JBool(true)) || v == Some(JStr("true")) ==> r
    ensures v.None? || v == Some(JBool(false)) || v == Some(JNull) ==> !r
  {
    Primitive(v) == Content("true")
  }

  /** One element of the `mapNotNull`: skipped (`Some(None)`) without `employee_id`; `None` when a read throws. */
  function EmployeeOf(el: Json): (r: Option<Option<EmployeeEntry>>)
    ensures r.Some? && r.value.Some? ==> el.JObj? && Primitive(Get(el.fields, "employee_id")) == Content(r.value.value.employeeId)
    ensures r.Some? && r.value.Some? ==> r.value.value.isAiAgent == IsAiAgentKt(Get(el.fields, "is_ai_agent"))
    ensures el.JObj? && Get(el.fields, "employee_id").None? ==> r == Some(None)
  {
    if !el.JObj? then None
    else
      var o := el.fields;
      var id := Primitive(Get(o, "employee_id"));
      if id.Absent? then Some(None)
      else if id.NotPrimitive? then None
      else
        match EntryFields(o, id.text)
        case Some(e) => Some(Some(e))
        case None => None
  }

  /** The optional text of a primitive: `None` when absent. */
  function OptionalText(p: Prim): Option<string> {
    if p.Content? then Some(p.text) else None
  }

  /** The entry read from an object whose `employee_id` gave `id`; `None` when a read throws. */
  function EntryFields(o: Obj, id: string): (r: Option<EmployeeEntry>)
    ensures r.Some? ==> r.value.employeeId == id && r.value.isAiAgent == IsAiAgentKt(Get(o, "is_ai_agent"))
    ensures r.Some? ==> PrimitiveOr(Get(o, "name"), "") == Some(r.value.name)
  {
    var name := PrimitiveOr(Get(o, "name"), "");
    var dept := Primitive(Get(o, "department_id"));
    var ai := Primitive(Get(o, "is_ai_agent"));
    if name.None? || dept.NotPrimitive? || ai.NotPrimitive? then None
    else Some(EmployeeEntry(id, name.value, OptionalText(dept), IsAiAgentKt(Get(o, "is_ai_agent"))))
  }

  /** `empArray.mapNotNull { ... }`: the entries with an `employee_id`, in order; `None` when any read throws. */
  function EmployeeList(items: seq<Json>): (r: Option<seq<EmployeeEntry>>)
    ensures r.Some? ==> |r.value| <= |items|
  {
    if items == [] then Some([])
    else
      match (EmployeeOf(items[0]), EmployeeList(items[1..]))
      case (Some(None), Some(rest)) => Some(rest)
      case (Some(Some(e)), Some(rest)) => Some([e] + rest)
      case _ => None
  }

  /** The count of elements that are objects with an `employee_id`. */
  function CountWithId(items: seq<Json>): nat {
    if items == [] then 0
    else (if items[0].JObj? && Get(items[0].fields, "employee_id").Some? then 1 else 0) + CountWithId(items[1..])
  }

  /** Without a throw, `mapNotNull` keeps exactly the elements with an `employee_id`, each once, in order. */
  lemma {:induction false} EmployeeListKeeps(items: seq<Json>)
    requires EmployeeList(items).Some?
    ensures |EmployeeList(items).value| == CountWithId(items)
    ensures forall e :: e in EmployeeList(items).value ==>
      exists i :: 0 <= i < |items| && items[i].JObj? && Primitive(Get(items[i].fields, "employee_id")) == Content(e.employeeId)
  {
    if items != [] {
      EmployeeListKeeps(items[1..]);
      var rest := EmployeeList(items[1..]).value;
      forall e | e in EmployeeList(items).value
        ensures exists i :: 0 <= i < |items| && items[i].JObj? && Primitive(Get(items[i].fields, "employee_id")) == Content(e.employeeId)
      {
        if e in rest {
          var i :| 0 <= i < |items[1..]| && items[1..][i].JObj? && Primitive(Get(items[1..][i].fields, "employee_id")) == Content(e.employeeId);
          assert items[i + 1] == items[1..][i];
        } else {
          assert EmployeeOf(items[0]) == Some(Some(e));
        }
      }
    }
  }

  /** The `org.tree` data read: not an object, or a non-array `employees`, throws; a missing `employees` is no list. */
  function ReadEmployees(data: Raw): (r: EmployeesRead)
    ensures data.Malformed? ==> r == ReadThrew
    ensures data.Parsed? && data.value.JObj? && Get(data.value.fields, "employees").None? ==> r == NoList
  {
    match data
    case Malformed => ReadThrew
    case Parsed(v) =>
      if !v.JObj? then ReadThrew
      else
        match Get(v.fields, "employees")
        case None => NoList
        case Some(JArr(items)) =>
          (match EmployeeList(items)
           case Some(list) => Loaded(list)
           case None => ReadThrew)
        case Some(_) => ReadThrew
  }

  /**
   * `getEmployee`: `None` on a non-zero code, without data, or when a
   * read throws; otherwise the entry, with the requested id when the
   * data has no `employee_id`.
   */
  function GetEmployee(requested: string, code: int, data: Option<Raw>): (r: Option<EmployeeEntry>)
    ensures code != 0 || data.None? ==> r.None?
    ensures r.Some? ==> data.value.Parsed? && data.value.value.JObj?
    ensures r.Some? && Get(data.value.value.fields, "employee_id").None? ==> r.value.employeeId == requested
  {
    if code != 0 || data.None? || data.value.Malformed? || !data.value.value.JObj? then None
    else
      var o := data.value.value.fields;
      var id := PrimitiveOr(Get(o, "employee_id"), requested);
      if id.None? then None else EntryFields(o, id.value)
  }

  /**
   * `MChatChatController`. `hasCache` says whether a history cache is
   * attached; `cacheWrites` records the saves it was asked for and
   * `requests` the requests made through the connection.
   */
  class ChatController {
    const hasCache: bool
    var employees: seq<EmployeeEntry>
    var messagesByPeer: ByPeer
    var currentPeerId: Option<string>
    var errorText: Option<string>
    var sessions: map<string, string>
    var cacheWrites: seq<(string, seq<ChatMessage>)>
    var requests: seq<(string, seq<(string, AndroidConnection.Param)>)>

    ghost predicate Valid()
      reads this
    {
      sessions.Keys == messagesByPeer.Keys
    }

    /** The constructor: the initial lists, and sessions for their peers. */
    constructor (initialMessagesByPeer: Option<ByPeer>, withCache: bool)
      ensures Valid()
      ensures hasCache == withCache && employees == [] && currentPeerId.None? && errorText.None?
      ensures messagesByPeer == initialMessagesByPeer.GetOr(map[])
      ensures sessions == Sessions([], messagesByPeer.Keys)
      ensures cacheWrites == [] && requests == []
    {
      employees := [];
      messagesByPeer := initialMessagesByPeer.GetOr(map[]);
      currentPeerId := None;
      errorText := None;
      sessions := Sessions([], initialMessagesByPeer.GetOr(map[]).Keys);
      cacheWrites := [];
      requests := [];
      hasCache := withCache;
    }

    /** The common tail of receiving and sending: `m` last in `peer`'s list, sessions rebuilt, a save requested. */
    method FileMessage(peer: string, m: ChatMessage)
      requires Valid()
      modifies this`messagesByPeer, this`sessions, this`cacheWrites
      ensures Valid()
      ensures messagesByPeer == AppendTo(old(messagesByPeer), peer, m)
      ensures sessions == Sessions(employees, messagesByPeer.Keys)
      ensures cacheWrites == old(cacheWrites) + if hasCache then [(peer, messagesByPeer[peer])] else []
    {
      messagesByPeer := AppendTo(messagesByPeer, peer, m);
      sessions := Sessions(employees, messagesByPeer.Keys);
      if hasCache {
        cacheWrites := cacheWrites + [(peer, messagesByPeer[peer])];
      }
    }

    /**
     * `handleInboxMessage`: an accepted message goes last in its sender's
     * list, the sessions are rebuilt and the list is saved when a cache is
     * attached; anything else changes nothing.
     */
    method HandleInboxMessage(payload: Raw, freshId: string, nowMs: int, iso: string -> Option<int>)
      requires Valid()
      modifies this`messagesByPeer, this`sessions, this`cacheWrites
      ensures Valid()
      ensures InboxMessage(payload, freshId, nowMs, iso).None? ==>
        messagesByPeer == old(messagesByPeer) && sessions == old(sessions) && cacheWrites == old(cacheWrites)
      ensures InboxMessage(payload, freshId, nowMs, iso).Some? ==>
        var (from, m) := InboxMessage(payload, freshId, nowMs, iso).value;
        messagesByPeer == AppendTo(old(messagesByPeer), from, m) && sessions == Sessions(employees, messagesByPeer.Keys)
        && cacheWrites == old(cacheWrites) + if hasCache then [(from, messagesByPeer[from])] else []
    {
      match InboxMessage(payload, freshId, nowMs, iso)
      case None =>
      case Some((from, m)) =>
        FileMessage(from, m);
    }

    /** `loadEmployees` up to the request: the error is cleared and `org.tree` is requested. */
    method LoadEmployees()
      requires Valid()
      modifies this`errorText, this`requests
      ensures Valid()
      ensures errorText.None? && requests == old(requests) + [("org.tree", [])]
    {
      errorText := None;
      requests := requests + [("org.tree", [])];
    }

    /**
     * The `org.tree` reply: a non-zero code shows its message and keeps
     * the list; a read that throws shows the exception's message
     * (`thrownMessage`); a loaded list replaces the employees and renames
     * the sessions.
     */
    method EmployeesAnswered(code: int, message: string, data: Option<Raw>, thrownMessage: Option<string>)
      requires Valid()
      modifies this`errorText, this`employees, this`sessions
      ensures Valid()
      ensures code != 0 ==> errorText == Some(message) && employees == old(employees) && sessions == old(sessions)
      ensures code == 0 && data.Some? && ReadEmployees(data.value).Loaded? ==>
        employees == ReadEmployees(data.value).list && sessions == Sessions(employees, messagesByPeer.Keys) && errorText == old(errorText)
      ensures code == 0 && data.Some? && ReadEmployees(data.value) == ReadThrew ==>
        errorText == thrownMessage && employees == old(employees) && sessions == old(sessions)
      ensures code == 0 && (data.None? || ReadEmployees(data.value) == NoList) ==>
        errorText == old(errorText) && employees == old(employees) && sessions == old(sessions)
    {
      if code != 0 {
        errorText := Some(message);
        return;
      }
      if data.None? {
        return;
      }
      match ReadEmployees(data.value)
      case NoList =>
      case ReadThrew =>
        errorText := thrownMessage;
      case Loaded(list) =>
        employees := list;
        sessions := Sessions(employees, messagesByPeer.Keys);
    }

    /** `selectPeer`. */
    method SelectPeer(employeeId: Option<string>)
      modifies this`currentPeerId
      ensures currentPeerId == employeeId
    {
      currentPeerId := employeeId;
    }

    /**
     * `sendMessage`: blank text does nothing; otherwise the error is
     * cleared, a "user" message with the trimmed text goes last in the
     * peer's list, the sessions are rebuilt, the peer's list is saved when
     * a cache is attached, and `msg.send_private` is requested with the
     * peer and the trimmed text.
     */
    method SendMessage(peer: string, text: string, freshId: string, nowMs: int)
      requires Valid()
      modifies this`errorText, this`messagesByPeer, this`sessions, this`cacheWrites, this`requests
      ensures Valid()
      ensures IsBlank(text) ==> unchanged(this)
      ensures !IsBlank(text) ==> errorText.None?
      ensures !IsBlank(text) ==> messagesByPeer == AppendTo(old(messagesByPeer), peer, TextMessage(freshId, USER, Trim(text), nowMs))
      ensures !IsBlank(text) ==> sessions == Sessions(employees, messagesByPeer.Keys)
      ensures !IsBlank(text) ==> cacheWrites == old(cacheWrites) + if hasCache then [(peer, messagesByPeer[peer])] else []
      ensures !IsBlank(text) ==>
        requests == old(requests) + [("msg.send_private", [("to_employee_id", AndroidConnection.PStr(peer)), ("content", AndroidConnection.PStr(Trim(text)))])]
    {
      var trimmed := Trim(text);
      if trimmed == [] {
        return;
      }
      errorText := None;
      FileMessage(peer, TextMessage(freshId, USER, trimmed, nowMs));
      requests := requests + [("msg.send_private", [("to_employee_id", AndroidConnection.PStr(peer)), ("content", AndroidConnection.PStr(trimmed))])];
    }

    /** The `msg.send_private` reply: a non-zero code shows its message. */
    method SendAnswered(code: int, message: string)
      modifies this`errorText
      ensures code != 0 ==> errorText == Some(message)
      ensures code == 0 ==> errorText == old(errorText)
    {
      if code != 0 {
        errorText := Some(message);
      }
    }

    /** `currentMessages`. */
    function Current(): seq<ChatMessage>
      reads this
    {
      CurrentMessages(messagesByPeer, currentPeerId)
    }
  }

  /** A JSON `true` under `is_ai_agent`, as the server writes it, marks an agent on Android. */
  lemma AgentFlagFromServer(o: Obj)
    requires Get(o, "employee_id") == Some(JStr("e1")) && Get(o, "is_ai_agent") == Some(JBool(true))
    requires Get(o, "name").None? && Get(o, "department_id").None?
    ensures EmployeeOf(JObj(o)) == Some(Some(EmployeeEntry("e1", "", None, true)))
  {
  }
}

=== FILE: android_connection.dfy ===
/**
 * The Android client's `MChatConnection`: the broker URL and client id,
 * the hand-written request payload builder and its string escaping, the
 * reply scanners, and the pending table of deferred replies.
 */
module AndroidConnection {
  import opened Wrappers
  import opened Strings
  import opened Json
  import opened Protocol
  import opened Correlation
  import opened EnvelopeScan

  const INT_MIN := -0x8000_0000
  const INT_MAX := 0x7FFF_FFFF

  /** `MqttResponse`. */
  datatype Response = Response(code: int, message: string, data: Option<string>)

  datatype State = Disconnected | Connecting | Connected | Error(message: string)

  /** The outcome of a scanner that can throw (`substring` with a negative end). */
  datatype Scan<T> = Value(value: T) | Throws

  // ------------------------------------------------------- identity

  /** `brokerUrl`: the scheme, the trimmed host, a colon and the port clamped to 1..65535. */
  function BrokerUrl(useTls: bool, host: string, port: int): (r: string)
    ensures StartsWith(r, if useTls then "ssl://" else "tcp://")
    ensures r == (if useTls then "ssl://" else "tcp://") + Trim(host) + ":" + IntToString(ClampPort(port))
  {
    (if useTls then "ssl://" else "tcp://") + Trim(host) + ":" + IntToString(ClampPort(port))
  }

  /** `clientIdValue`: the trimmed, non-blank override, or `<employeeId>_android_<uid8>` with the employee id as given. */
  function AndroidClientId(clientIdOption: Option<string>, employeeId: string, uid8: string): (r: string)
    ensures clientIdOption.Some? && !IsBlank(clientIdOption.value) ==> r == Trim(clientIdOption.value)
    ensures clientIdOption.None? || IsBlank(clientIdOption.value) ==> r == employeeId + "_android_" + uid8
  {
    ChooseClientId(clientIdOption, employeeId + "_android_" + uid8)
  }

  // ------------------------------------------------------- escaping

  /** `replace(c, r)` for a one-character pattern: every occurrence of `c` replaced by `r`. */
  function ReplaceChar(s: string, c: char, r: string): string {
    if s == [] then [] else (if s[0] == c then r else [s[0]]) + ReplaceChar(s[1..], c, r)
  }

  lemma {:induction false} ReplaceCharAppend(a: string, b: string, c: char, r: string)
    ensures ReplaceChar(a + b, c, r) == ReplaceChar(a, c, r) + ReplaceChar(b, c, r)
  {
    if a != [] {
      ReplaceCharAppend(a[1..], b, c, r);
      assert (a + b)[1..] == a[1..] + b;
    } else {
      assert a + b == b;
    }
  }

  /** `jsonEscape` as written: backslashes, then quotes, then newlines escaped, and the result quoted. */
  function JsonEscapeKt(s: string): string {
    "\"" + ReplaceChar(ReplaceChar(ReplaceChar(s, '\\', "\\\\"), '"', "\\\""), '\n', "\\n") + "\""
  }

  /** What the three passes do to one character. */
  function KtEscapeChar(c: char): string {
    if c == '\\' then "\\\\" else if c == '"' then "\\\"" else if c == '\n' then "\\n" else [c]
  }

  function KtEscapeBody(s: string): string {
    if s == [] then [] else KtEscapeChar(s[0]) + KtEscapeBody(s[1..])
  }

  /** One character through the three passes. */
  lemma ThreePassesChar(c: char)
    ensures ReplaceChar(ReplaceChar(ReplaceChar([c], '\\', "\\\\"), '"', "\\\""), '\n', "\\n") == KtEscapeChar(c)
  {
    assert [c][1..] == [];
    if c == '\\' {
      assert ReplaceChar("\\\\", '"', "\\\"") == "\\\\" by {
        assert "\\\\"[1..] == "\\";
        assert "\\"[1..] == [];
      }
      assert ReplaceChar("\\\\", '\n', "\\n") == "\\\\" by {
        assert "\\\\"[1..] == "\\";
        assert "\\"[1..] == [];
      }
    } else if c == '"' {
      assert ReplaceChar("\\\"", '\n', "\\n") == "\\\"" by {
        assert "\\\""[1..] == "\"";
        assert "\""[1..] == [];
      }
    }
  }

  /** The three `replace` passes escape character by character: no pass touches what an earlier one wrote. */
  lemma {:induction false} ThreePasses(s: string)
    ensures ReplaceChar(ReplaceChar(ReplaceChar(s, '\\', "\\\\"), '"', "\\\""), '\n', "\\n") == KtEscapeBody(s)
  {
    if s != [] {
      ThreePasses(s[1..]);
      var a := [s[0]];
      assert s == a + s[1..];
      ReplaceCharAppend(a, s[1..], '\\', "\\\\");
      var p1a := ReplaceChar(a, '\\', "\\\\");
      var p1b := ReplaceChar(s[1..], '\\', "\\\\");
      ReplaceCharAppend(p1a, p1b, '"', "\\\"");
      var p2a := ReplaceChar(p1a, '"', "\\\"");
      var p2b := ReplaceChar(p1b, '"', "\\\"");
      ReplaceCharAppend(p2a, p2b, '\n', "\\n");
      ThreePassesChar(s[0]);
    }
  }

  /** A character `jsonEscape` leaves raw although RFC 8259 section 7 requires an escape. */
  predicate RawControl(c: char) {
    c < ' ' && c != '\n'
  }

  /** Without control characters other than newline, `jsonEscape` writes what the standard escaping writes. */
  lemma {:induction false} JsonEscapeAgrees(s: string)
    requires forall i :: 0 <= i < |s| ==> !RawControl(s[i])
    ensures JsonEscapeKt(s) == Quote(s)
  {
    ThreePasses(s);
    KtBodyAgrees(s);
  }

  lemma {:induction false} KtBodyAgrees(s: string)
    requires forall i :: 0 <= i < |s| ==> !RawControl(s[i])
    ensures KtEscapeBody(s) == EscapeBody(s)
  {
    if s != [] {
      KtBodyAgrees(s[1..]);
      assert !RawControl(s[0]);
    }
  }

  /** A tab, which `jsonEscape` leaves raw. */
  const TAB_TEXT := "\t"

  /**
   * `jsonEscape("\t")` is a quoted raw tab, which is not a valid JSON
   * string body; the standard escaping writes `\t`, which decodes back.
   */
  lemma JsonEscapeFinding()
    ensures JsonEscapeKt(TAB_TEXT) == "\"" + TAB_TEXT + "\""
    ensures Unescape(TAB_TEXT).None?
    ensures Quote(TAB_TEXT) == "\"\\t\""
    ensures Unescape(EscapeBody(TAB_TEXT)) == Some(TAB_TEXT)
  {
    ThreePasses(TAB_TEXT);
    assert TAB_TEXT[1..] == [];
    UnescapeEscapeBody(TAB_TEXT);
  }

  // -------------------------------------------------- request payload

  /** A parameter value as `request` sees it: `null`, a `String`, a `Number` (its `toString`), a `Boolean`, or anything else (its `toString`). */
  datatype Param = PNull | PStr(s: string) | PInt(n: int) | PNumber(text: string) | PBool(b: bool) | POther(text: string)

  /** The text after the colon: strings escaped (by the standard escaping, see `JsonEscapeFinding`), other values literally, anything else quoted raw. */
  function ParamText(v: Param): string {
    match v
    case PNull => "null"
    case PStr(s) => Quote(s)
    case PInt(n) => IntToString(n)
    case PNumber(t) => t
    case PBool(b) => if b then "true" else "false"
    case POther(t) => "\"" + t + "\""
  }

  /** One `,"<k>":<v>` piece; the key is written unescaped. */
  function FieldText(kv: (string, Param)): string {
    ",\"" + kv.0 + "\":" + ParamText(kv.1)
  }

  function Fields(params: seq<(string, Param)>): string {
    if params == [] then "" else FieldText(params[0]) + Fields(params[1..])
  }

  lemma {:induction false} FieldsAppend(params: seq<(string, Param)>, kv: (string, Param))
    ensures Fields(params + [kv]) == Fields(params) + FieldText(kv)
  {
    if params == [] {
      assert params + [kv] == [kv];
      assert [kv][1..] == [];
    } else {
      var rest := params[1..];
      FieldsAppend(rest, kv);
      assert (params + [kv])[0] == params[0] && (params + [kv])[1..] == rest + [kv];
      Assoc(FieldText(params[0]), Fields(rest), FieldText(kv));
    }
  }

  /** The payload opens with the action, unescaped. */
  function PayloadHead(action: string): string {
    "{\"action\":\"" + action + "\""
  }

  function PayloadText(action: string, params: seq<(string, Param)>): string {
    PayloadHead(action) + Fields(params) + "}"
  }

  /** The `buildString` loop over the parameters, in the map's order. */
  method BuildPayload(action: string, params: seq<(string, Param)>) returns (s: string)
    ensures s == PayloadText(action, params)
  {
    var head := PayloadHead(action);
    s := head;
    var i := 0;
    while i < |params|
      invariant 0 <= i <= |params|
      invariant s == head + Fields(params[..i])
    {
      var piece := FieldText(params[i]);
      FieldsAppend(params[..i], params[i]);
      assert params[..i + 1] == params[..i] + [params[i]];
      Assoc(head, Fields(params[..i]), piece);
      s := s + piece;
      i := i + 1;
    }
    assert params[..i] == params;
    s := s + "}";
  }

  lemma Assoc(a: string, b: string, c: string)
    ensures (a + b) + c == a + (b + c)
  {
  }

  /** The JSON value a parameter stands for, when it has a literal form. */
  function ParamJson(v: Param): Option<Json> {
    match v
    case PNull => Some(JNull)
    case PStr(s) => Some(JStr(s))
    case PInt(n) => Some(JNum(n))
    case PBool(b) => Some(JBool(b))
    case _ => None
  }

  /** The keys of the parameters are plain and every value has a JSON literal form. */
  predicate Serialisable(params: seq<(string, Param)>) {
    forall i :: 0 <= i < |params| ==> Plain(params[i].0) && ParamJson(params[i].1).Some?
  }

  function ParamObj(params: seq<(string, Param)>): (r: Obj)
    requires Serialisable(params)
    ensures |r| == |params|
    ensures forall i :: 0 <= i < |r| ==> r[i] == (params[i].0, ParamJson(params[i].1).value)
  {
    if params == [] then [] else [(params[0].0, ParamJson(params[0].1).value)] + ParamObj(params[1..])
  }

  /** A plain text is its own escaped body. */
  lemma {:induction false} EscapeBodyPlain(s: string)
    requires Plain(s)
    ensures EscapeBody(s) == s
  {
    if s != [] {
      EscapeBodyPlain(s[1..]);
      assert [s[0]] + s[1..] == s;
    }
  }

  /** Each comma-prefixed member, concatenated. */
  function CommaEach(xs: seq<string>): string {
    if xs == [] then "" else "," + xs[0] + CommaEach(xs[1..])
  }

  lemma {:induction false} JoinCommaSplit(xs: seq<string>)
    requires xs != []
    ensures JoinComma(xs) == xs[0] + CommaEach(xs[1..])
  {
    if |xs| > 1 {
      JoinCommaSplit(xs[1..]);
      assert xs[1..][1..] == xs[2..];
    } else {
      assert xs[1..] == [];
    }
  }

  /** A value with a literal form is written as its JSON text. */
  lemma ParamStringify(v: Param)
    requires ParamJson(v).Some?
    ensures Stringify(ParamJson(v).value) == ParamText(v)
  {
    match v
    case PNull =>
    case PStr(s) =>
    case PInt(n) =>
    case PBool(b) =>
  }

  /** One parameter with a plain key is written as its JSON member. */
  lemma FieldTextJson(kv: (string, Param))
    requires Plain(kv.0) && ParamJson(kv.1).Some?
    ensures "," + (Quote(kv.0) + ":" + Stringify(ParamJson(kv.1).value)) == FieldText(kv)
  {
    EscapeBodyPlain(kv.0);
    ParamStringify(kv.1);
  }

  lemma {:induction false} CommaEachFields(params: seq<(string, Param)>, xs: seq<string>)
    requires Serialisable(params) && |xs| == |params|
    requires forall j :: 0 <= j < |xs| ==> xs[j] == Quote(params[j].0) + ":" + Stringify(ParamJson(params[j].1).value)
    ensures CommaEach(xs) == Fields(params)
  {
    if params != [] {
      CommaEachFields(params[1..], xs[1..]);
      FieldTextJson(params[0]);
    }
  }

  /**
   * With plain keys and literal values, the hand-built payload is exactly
   * the compact JSON text of the object `{action, ...params}` with the
   * members in the same order.
   */
  lemma PayloadIsJson(action: string, params: seq<(string, Param)>)
    requires Plain(action) && Serialisable(params)
    ensures PayloadText(action, params) == Stringify(JObj([("action", JStr(action))] + ParamObj(params)))
  {
    var f := [("action", JStr(action))] + ParamObj(params);
    var xs := seq(|f|, i requires 0 <= i < |f| => Quote(f[i].0) + ":" + Stringify(f[i].1));
    assert Stringify(JObj(f)) == "{" + JoinComma(xs) + "}";
    MembersText(action, params, f, xs);
  }

  /** The member texts of `{action, ...params}`: the action first, then one per parameter. */
  lemma MembersText(action: string, params: seq<(string, Param)>, f: Obj, xs: seq<string>)
    requires Plain(action) && Serialisable(params)
    requires f == [("action", JStr(action))] + ParamObj(params)
    requires |xs| == |f| && forall i :: 0 <= i < |f| ==> xs[i] == Quote(f[i].0) + ":" + Stringify(f[i].1)
    ensures "{" + JoinComma(xs) + "}" == PayloadText(action, params)
  {
    JoinCommaSplit(xs);
    ActionMember(action);
    ParamMembers(action, params, f, xs);
    CommaEachFields(params, xs[1..]);
    Enclose(xs[0], CommaEach(xs[1..]), PayloadHead(action), Fields(params));
  }

  lemma ParamMembers(action: string, params: seq<(string, Param)>, f: Obj, xs: seq<string>)
    requires Serialisable(params)
    requires f == [("action", JStr(action))] + ParamObj(params)
    requires |xs| == |f| && forall i :: 0 <= i < |f| ==> xs[i] == Quote(f[i].0) + ":" + Stringify(f[i].1)
    ensures xs[0] == Quote("action") + ":" + Stringify(JStr(action))
    ensures forall j :: 0 <= j < |xs| - 1 ==> xs[1..][j] == Quote(params[j].0) + ":" + Stringify(ParamJson(params[j].1).value)
  {
    forall j | 0 <= j < |xs| - 1
      ensures xs[1..][j] == Quote(params[j].0) + ":" + Stringify(ParamJson(params[j].1).value)
    {
      assert xs[1..][j] == xs[j + 1];
      assert f[j + 1] == ParamObj(params)[j];
    }
  }

  lemma Enclose(a: string, b: string, h: string, fl: string)
    requires "{" + a == h && b == fl
    ensures "{" + (a + b) + "}" == h + fl + "}"
  {
  }

  /** The `action` member, written as JSON, is the head the builder writes. */
  lemma ActionMember(action: string)
    requires Plain(action)
    ensures "{" + (Quote("action") + ":" + Stringify(JStr(action))) == PayloadHead(action)
  {
    QuotedPlain("action");
    QuotedPlain(action);
    OpenLiteral();
    Regroup(Quote("action"), Stringify(JStr(action)), action, "{\"action\":\"");
  }

  /** A plain text is written as a JSON string by quoting it and nothing else. */
  lemma QuotedPlain(a: string)
    requires Plain(a)
    ensures Stringify(JStr(a)) == Quote(a) == "\"" + a + "\""
  {
    EscapeBodyPlain(a);
  }

  lemma OpenLiteral()
    ensures "{" + ("\"" + "action" + "\"") + ":" + "\"" == "{\"action\":\""
  {
  }

  lemma Regroup(q: string, v: string, a: string, open: string)
    requires v == "\"" + a + "\"" && "{" + q + ":" + "\"" == open
    ensures "{" + (q + ":" + v) == open + a + "\""
  {
  }

  // ------------------------------------------------------------ scanners

  /** `toIntOrNull`: decimal syntax with an optional sign, within the 32-bit range. */
  function ToIntOrNull(t: string): (r: Option<int>)
    ensures r.Some? ==> INT_MIN <= r.value <= INT_MAX && ParseDecimal(t) == r
    ensures ParseDecimal(t).Some? && INT_MIN <= ParseDecimal(t).value <= INT_MAX ==> r == ParseDecimal(t)
  {
    match ParseDecimal(t)
    case Some(v) => if INT_MIN <= v <= INT_MAX then Some(v) else None
    case None => None
  }

  /**
   * `parseCode`: the trimmed text between the first colon after `"code"`
   * and the next comma (else the next closing brace), as an integer; 500
   * when the key or colon is missing or the text is not an integer. With
   * neither a comma nor a brace after the colon, `substring` throws.
   */
  function ParseCodeKt(payload: string): (r: Scan<int>)
    ensures FindFrom(payload, CODE_KEY, 0).None? ==> r == Value(500)
  {
    match FindFrom(payload, CODE_KEY, 0)
    case None => Value(500)
    case Some(i) =>
      match IndexOfFrom(payload, ':', i)
      case None => Value(500)
      case Some(start) =>
        var end := match IndexOfFrom(payload, ',', start)
          case Some(e) => Some(e)
          case None => IndexOfFrom(payload, '}', start);
        match end
        case None => Throws
        case Some(e) =>
          assert start < e by { assert payload[start] == ':'; }
          Value(ToIntOrNull(Trim(payload[start + 1..e])).GetOr(500))
  }

  /** `parseMessage`: the text between the first quote from ten characters past `"message"` and the next quote. */
  function ParseMessageKt(payload: string): (r: string)
    ensures FindFrom(payload, MESSAGE_KEY, 0).None? ==> r == ""
    ensures '"' !in r
  {
    match FindFrom(payload, MESSAGE_KEY, 0)
    case None => ""
    case Some(i) =>
      match IndexOfFrom(payload, '"', i + 10)
      case None => ""
      case Some(start) =>
        match IndexOfFrom(payload, '"', start + 1)
        case None => ""
        case Some(end) => payload[start + 1..end]
  }

  /**
   * Where `parseData` starts its scan: the trimmed text after the first
   * colon after `"data"`; `None` for a missing key or colon, a value
   * starting with `null`, or a scalar.
   */
  function DataStartKt(payload: string): (rest: Option<string>)
    ensures rest.Some? ==> rest.value != [] && IsOpener(rest.value[0])
    ensures FindFrom(payload, DATA_KEY, 0).None? ==> rest.None?
  {
    match FindFrom(payload, DATA_KEY, 0)
    case None => None
    case Some(i) =>
      match IndexOfFrom(payload, ':', i)
      case None => None
      case Some(colon) =>
        var rest := Trim(payload[colon + 1..]);
        if StartsWith(rest, "null") then None
        else if rest != [] && IsOpener(rest[0]) then Some(rest)
        else None
  }

  /** `parseData`: the bracket-balanced prefix of the value, by the depth-counting loop. */
  method ParseDataKt(payload: string) returns (r: Option<string>)
    ensures DataStartKt(payload).None? ==> r.None?
    ensures DataStartKt(payload).Some? ==> FirstBalanced(DataStartKt(payload).value, r)
    ensures r.Some? ==> Depth(r.value) == 0 && forall k :: 1 <= k < |r.value| ==> Depth(r.value[..k]) > 0
  {
    match DataStartKt(payload)
    case None =>
      r := None;
    case Some(rest) =>
      r := BalancedPrefix(rest);
      if r.Some? {
        ShortestBalanced(rest, r.value);
      }
  }

  // ----------------------------------------------- scanners on replies

  /** A printed integer of the 32-bit range reads back through `toIntOrNull`. */
  lemma ToIntOrNullOfPrinted(n: int)
    requires INT_MIN <= n <= INT_MAX
    ensures ToIntOrNull(IntToString(n)) == Some(n)
  {
    ParseIntToString(n);
  }

  /** How `parseCode` reads once the key, the colon and the end of the number are found. */
  lemma ParseCodeKtAt(payload: string, i: nat, start: nat, end: nat)
    requires FindFrom(payload, CODE_KEY, 0) == Some(i)
    requires IndexOfFrom(payload, ':', i) == Some(start)
    requires IndexOfFrom(payload, ',', start) == Some(end)
    ensures start < end
    ensures ParseCodeKt(payload) == Value(ToIntOrNull(Trim(payload[start + 1..end])).GetOr(500))
  {
  }

  /** In a reply head the first colon after index 1 is at 7, and the first comma after it ends the code. */
  lemma ReplyCodeBoundsKt(code: int, message: string, tail: string, s: string)
    requires Plain(message) && s == ReplyHead(code, message) + tail
    ensures IndexOfFrom(s, ':', 1) == Some(7)
    ensures IndexOfFrom(s, ',', 7) == Some(8 + |IntToString(code)|)
    ensures s[8..8 + |IntToString(code)|] == IntToString(code)
  {
    var d := IntToString(code);
    ReplyLayout(code, message, tail, s);
    IntToStringShape(code);
    var h := s[..8];
    assert s[7] == h[7] == ':';
    forall j | 1 <= j < 7
      ensures s[j] != ':'
    {
      assert s[j] == h[j];
    }
    forall j | 8 <= j < 8 + |d|
      ensures s[j] != ','
    {
      assert s[j] == s[8..8 + |d|][j - 8] == d[j - 8];
    }
  }

  /** On a reply the server writes, with a code in the 32-bit range, `parseCode` reads the code back. */
  lemma ReplyCodeReadKt(code: int, message: string, tail: string)
    requires Plain(message) && INT_MIN <= code <= INT_MAX
    ensures ParseCodeKt(ReplyHead(code, message) + tail) == Value(code)
  {
    var s := ReplyHead(code, message) + tail;
    var d := IntToString(code);
    ReplyCodeKey(code, message, tail, s);
    ReplyCodeBoundsKt(code, message, tail, s);
    ParseCodeKtAt(s, 1, 7, 8 + |d|);
    IntToStringShape(code);
    TrimUntouched(d);
    ToIntOrNullOfPrinted(code);
  }

  /** On a reply the server writes, `parseMessage` reads a plain message back. */
  lemma ReplyMessageReadKt(code: int, message: string, tail: string)
    requires Plain(message)
    ensures ParseMessageKt(ReplyHead(code, message) + tail) == message
  {
    var s := ReplyHead(code, message) + tail;
    ReplyMessageKey(code, message, tail, s);
    MessageQuotesKt(code, message, tail, s);
  }

  /** The quotes around the message: the first right after the key's colon, the second right after the message. */
  lemma MessageQuotesKt(code: int, message: string, tail: string, s: string)
    requires Plain(message) && s == ReplyHead(code, message) + tail
    ensures var k := 9 + |IntToString(code)|;
      IndexOfFrom(s, '"', k + 10) == Some(k + 10) && IndexOfFrom(s, '"', k + 11) == Some(k + 11 + |message|) &&
      s[k + 11..k + 11 + |message|] == message
  {
    var k := 9 + |IntToString(code)|;
    ReplyLayout(code, message, tail, s);
    IndexOfFromAt(s, '"', k + 10, k + 10);
    var e := k + 11 + |message|;
    assert s[e] == s[e..][0] == '"';
    forall j | k + 11 <= j < e
      ensures s[j] != '"'
    {
      assert s[j] == s[k + 11..e][j - k - 11] == message[j - k - 11];
    }
    IndexOfFromAt(s, '"', k + 11, e);
  }

  // ------------------------------------------------------------ the connection

  const CONNECT_FAILED := "Connect failed"

  /** A text message published on a topic, as the payload bytes' text. */
  datatype TextPublication = TextPublication(topic: string, payload: string)

  /** The `connectionDeferred` of one connect attempt: in progress, completed, or completed with an error. */
  datatype Gate = GateOpen | GateDone | GateFailed(error: string)

  /** The deferred reply of one request. */
  datatype Slot = Waiting | Completed(response: Response) | Failed(error: string) | Cancelled

  /** How a call of `request` goes on: published and awaiting its reply, suspended on a connect attempt, or thrown. */
  datatype Started = Sent | AwaitGate(attempt: nat) | Thrown(error: string)

  /** How a request that was sent ends. */
  datatype Finished = Replied(response: Response) | Raised(error: string) | WasCancelled

  /** Every call still waiting settled to `slot`; the others are kept. */
  function Settle(calls: map<string, Slot>, slot: Slot): (r: map<string, Slot>)
    requires slot != Waiting
    ensures r.Keys == calls.Keys
    ensures forall s :: s in r ==> r[s] != Waiting
    ensures forall s :: s in r && calls[s] != Waiting ==> r[s] == calls[s]
    ensures forall s :: s in r && calls[s] == Waiting ==> r[s] == slot
  {
    map s | s in calls :: if calls[s] == Waiting then slot else calls[s]
  }

  /** What `request` returns for a call that ends in `slot`: a timeout when no reply came. */
  function CallOutcome(slot: Slot): (r: Finished)
    ensures slot == Waiting ==> r == Replied(Response(504, REQUEST_TIMEOUT, None))
    ensures slot.Completed? ==> r == Replied(slot.response)
    ensures slot.Failed? ==> r == Raised(slot.error)
    ensures slot == Cancelled ==> r == WasCancelled
  {
    match slot
    case Waiting => Replied(Response(504, REQUEST_TIMEOUT, None))
    case Completed(resp) => Replied(resp)
    case Failed(e) => Raised(e)
    case Cancelled => WasCancelled
  }

  /**
   * The `try` block of `messageArrived`: the scanned code, message and
   * data, or 500 with the exception's text when the code scanner throws.
   */
  method ReadReply(payload: string, errorText: string) returns (r: Response)
    ensures ParseCodeKt(payload).Throws? ==> r == Response(500, errorText, None)
    ensures ParseCodeKt(payload).Value? ==> r.code == ParseCodeKt(payload).value && r.message == ParseMessageKt(payload)
    ensures ParseCodeKt(payload).Value? && DataStartKt(payload).None? ==> r.data.None?
    ensures ParseCodeKt(payload).Value? && DataStartKt(payload).Some? ==> FirstBalanced(DataStartKt(payload).value, r.data)
  {
    match ParseCodeKt(payload)
    case Throws =>
      r := Response(500, errorText, None);
    case Value(code) =>
      var data := ParseDataKt(payload);
      r := Response(code, ParseMessageKt(payload), data);
  }

  /**
   * `MChatConnection`. Connect attempts are numbered: `gates[a]` is the
   * deferred attempt `a` created, `connectionGate` the attempt held in
   * `connectionDeferred`, and `client` the attempt whose client is held
   * in `client`. `calls` holds every request still inside `request`,
   * `pending` the ids still in the pending table.
   */
  class Connection {
    const clientId: string
    const employeeId: string
    const brokerUrl: string
    var client: Option<nat>
    var linkUp: bool
    var gates: seq<Gate>
    var connectionGate: Option<nat>
    var pending: set<string>
    var calls: map<string, Slot>
    var state: State
    var subscriptions: seq<string>
    var published: seq<TextPublication>

    ghost predicate Valid()
      reads this
    {
      && pending <= calls.Keys
      && (forall s :: s in calls && calls[s] == Waiting ==> s in pending)
      && (linkUp ==> client.Some?)
      && (client.Some? ==> client.value < |gates|)
      && (connectionGate.Some? ==> connectionGate.value < |gates|)
    }

    /** `respTopicPrefix`. */
    function RespTopicPrefix(): string {
      RESP_TOPIC_PREFIX + clientId + "/"
    }

    /** `inboxTopic`: the inbox of the trimmed employee id. */
    function InboxTopic(): string {
      INBOX_TOPIC_PREFIX + employeeId
    }

    /** The topic a request with `seqId` is published on. */
    function RequestTopic(seqId: string): string {
      REQ_TOPIC_PREFIX + clientId + "/" + seqId
    }

    /** The sequence id a topic names under `respTopicPrefix`, if it is under it. */
    function RespSeqId(topic: string): Option<string>
    {
      AfterPrefix(topic, RespTopicPrefix())
    }

    /** The constructor: no client, no attempt, nothing pending, disconnected. */
    constructor (brokerHost: string, brokerPort: int, useTls: bool, employeeIdParam: string, clientIdOption: Option<string>, uid8: string)
      ensures Valid()
      ensures clientId == AndroidClientId(clientIdOption, employeeIdParam, uid8)
      ensures employeeId == Trim(employeeIdParam)
      ensures brokerUrl == BrokerUrl(useTls, brokerHost, brokerPort)
      ensures client.None? && !linkUp && gates == [] && connectionGate.None?
      ensures pending == {} && calls == map[] && state == Disconnected
      ensures subscriptions == [] && published == []
    {
      client := None;
      linkUp := false;
      gates := [];
      connectionGate := None;
      pending := {};
      calls := map[];
      state := Disconnected;
      subscriptions := [];
      published := [];
      clientId := AndroidClientId(clientIdOption, employeeIdParam, uid8);
      employeeId := Trim(employeeIdParam);
      brokerUrl := BrokerUrl(useTls, brokerHost, brokerPort);
    }

    /**
     * `doConnect` up to the broker's answer: nothing when the client is
     * connected; otherwise a new attempt with an open deferred, held in
     * `connectionDeferred`, and a new client that is not yet connected.
     */
    method Connect() returns (attempt: Option<nat>)
      requires Valid()
      modifies this`client, this`linkUp, this`gates, this`connectionGate, this`state
      ensures Valid()
      ensures old(client.Some? && linkUp) ==> attempt.None? && unchanged(this)
      ensures !old(client.Some? && linkUp) ==> attempt == Some(|old(gates)|)
      ensures !old(client.Some? && linkUp) ==> gates == old(gates) + [GateOpen] && connectionGate == attempt && client == attempt
      ensures !old(client.Some? && linkUp) ==> !linkUp && state == Connecting
    {
      if client.Some? && linkUp {
        return None;
      }
      state := Connecting;
      attempt := Some(|gates|);
      gates := gates + [GateOpen];
      connectionGate := attempt;
      client := attempt;
      linkUp := false;
    }

    /**
     * The broker answered attempt `a`. Not connected: the error "Connect
     * failed" and the attempt's deferred fails with "Not connected".
     * Connected: the client, if it is still the one held, is up, and the
     * response wildcard and the inbox are subscribed to.
     */
    method ConnectResult(a: nat, connected: bool)
      requires Valid() && a < |gates| && gates[a] == GateOpen
      modifies this`linkUp, this`gates, this`state, this`subscriptions
      ensures Valid()
      ensures !connected ==> state == Error(CONNECT_FAILED) && gates == old(gates)[a := GateFailed(NOT_CONNECTED)]
      ensures !connected ==> linkUp == old(linkUp) && subscriptions == old(subscriptions)
      ensures connected ==> state == old(state) && gates == old(gates)
      ensures connected ==> linkUp == (old(linkUp) || client == Some(a))
      ensures connected ==> subscriptions == old(subscriptions) + [RespTopicPrefix() + "+", InboxTopic()]
    {
      if !connected {
        state := Error(CONNECT_FAILED);
        gates := gates[a := GateFailed(NOT_CONNECTED)];
        return;
      }
      if client == Some(a) {
        linkUp := true;
      }
      subscriptions := subscriptions + [RespTopicPrefix() + "+", InboxTopic()];
    }

    /**
     * The `auth.bind` request of attempt `a` returned: a non-zero code is
     * the error "auth.bind: <message>" and fails the deferred with the
     * message; code 0 is connected and completes it. The client is kept
     * either way.
     */
    method BindAnswered(a: nat, r: Response)
      requires Valid() && a < |gates| && gates[a] == GateOpen
      modifies this`gates, this`state
      ensures Valid()
      ensures r.code != 0 ==> state == Error("auth.bind: " + r.message) && gates == old(gates)[a := GateFailed(r.message)]
      ensures r.code == 0 ==> state == Connected && gates == old(gates)[a := GateDone]
    {
      if r.code != 0 {
        state := Error("auth.bind: " + r.message);
        gates := gates[a := GateFailed(r.message)];
        return;
      }
      state := Connected;
      gates := gates[a := GateDone];
    }

    /** Attempt `a` threw `e` (from the broker or the `auth.bind` request): the error `e`, no client, no deferred held, and the attempt's deferred fails with `e`. */
    method ConnectThrew(a: nat, e: string)
      requires Valid() && a < |gates| && gates[a] == GateOpen
      modifies this`client, this`linkUp, this`gates, this`connectionGate, this`state
      ensures Valid()
      ensures state == Error(e) && client.None? && !linkUp && connectionGate.None?
      ensures gates == old(gates)[a := GateFailed(e)]
    {
      state := Error(e);
      client := None;
      linkUp := false;
      connectionGate := None;
      gates := gates[a := GateFailed(e)];
    }

    /**
     * The part of `request` after `ensureConnected`: without a connected
     * client it throws "Not connected" and the table is as before (the
     * entry is added and removed again); otherwise the call waits under
     * `seqId` and the payload is published on the request topic.
     */
    method Send(action: string, params: seq<(string, Param)>, seqId: string) returns (r: Started)
      requires Valid() && seqId !in calls
      modifies this`pending, this`calls, this`published
      ensures Valid()
      ensures r == Sent || r == Thrown(NOT_CONNECTED)
      ensures r == Sent <==> old(client.Some? && linkUp)
      ensures r == Sent ==> pending == old(pending) + {seqId} && calls == old(calls)[seqId := Waiting]
      ensures r == Sent ==> published == old(published) + [TextPublication(RequestTopic(seqId), PayloadText(action, params))]
      ensures r != Sent ==> pending == old(pending) && calls == old(calls) && published == old(published)
    {
      if !(client.Some? && linkUp) {
        return Thrown(NOT_CONNECTED);
      }
      var payload := BuildPayload(action, params);
      pending := pending + {seqId};
      calls := calls[seqId := Waiting];
      published := published + [TextPublication(RequestTopic(seqId), payload)];
      r := Sent;
    }

    /**
     * `request` with `ensureConnected`: a connected client sends at once;
     * with no deferred held it throws "Not connected"; an open deferred
     * suspends the call on that attempt; a completed one sends; a failed
     * one rethrows its error.
     */
    method Request(action: string, params: seq<(string, Param)>, seqId: string) returns (r: Started)
      requires Valid() && seqId !in calls
      modifies this`pending, this`calls, this`published
      ensures Valid()
      ensures old(client.Some? && linkUp) ==> r == Sent
      ensures !old(client.Some? && linkUp) && connectionGate.None? ==> r == Thrown(NOT_CONNECTED)
      ensures !old(client.Some? && linkUp) && connectionGate.Some? ==>
        match gates[connectionGate.value]
        case GateOpen => r == AwaitGate(connectionGate.value)
        case GateDone => r == Thrown(NOT_CONNECTED)
        case GateFailed(e) => r == Thrown(e)
      ensures r == Sent ==> pending == old(pending) + {seqId} && calls == old(calls)[seqId := Waiting]
      ensures r == Sent ==> published == old(published) + [TextPublication(RequestTopic(seqId), PayloadText(action, params))]
      ensures r != Sent ==> pending == old(pending) && calls == old(calls) && published == old(published)
    {
      if client.Some? && linkUp {
        r := Send(action, params, seqId);
        return;
      }
      if connectionGate.None? {
        return Thrown(NOT_CONNECTED);
      }
      match gates[connectionGate.value]
      case GateOpen =>
        r := AwaitGate(connectionGate.value);
      case GateDone =>
        r := Send(action, params, seqId);
      case GateFailed(e) =>
        r := Thrown(e);
    }

    /** A call suspended on attempt `a` goes on once that attempt's deferred is completed: it sends, or rethrows the attempt's error. */
    method Resume(action: string, params: seq<(string, Param)>, seqId: string, a: nat) returns (r: Started)
      requires Valid() && seqId !in calls && a < |gates| && gates[a] != GateOpen
      modifies this`pending, this`calls, this`published
      ensures Valid()
      ensures gates[a].GateFailed? ==> r == Thrown(gates[a].error)
      ensures gates[a] == GateDone ==> (r == Sent <==> old(client.Some? && linkUp))
      ensures gates[a] == GateDone && r != Sent ==> r == Thrown(NOT_CONNECTED)
      ensures r == Sent ==> pending == old(pending) + {seqId} && calls == old(calls)[seqId := Waiting]
      ensures r == Sent ==> published == old(published) + [TextPublication(RequestTopic(seqId), PayloadText(action, params))]
      ensures r != Sent ==> pending == old(pending) && calls == old(calls) && published == old(published)
    {
      if gates[a].GateFailed? {
        return Thrown(gates[a].error);
      }
      r := Send(action, params, seqId);
    }

    /**
     * A sent call returns, with its reply, with 504 "Request timeout" when
     * none came in 30 seconds, or by rethrowing; `finally` takes it out of
     * the table.
     */
    method Finish(seqId: string) returns (r: Finished)
      requires Valid() && seqId in calls
      modifies this`pending, this`calls
      ensures Valid()
      ensures r == CallOutcome(old(calls)[seqId])
      ensures pending == old(pending) - {seqId} && calls == old(calls) - {seqId}
    {
      r := CallOutcome(calls[seqId]);
      pending := pending - {seqId};
      calls := calls - {seqId};
    }

    /**
     * `disconnect`: no client and no deferred held; every call in the
     * table fails with "Disconnected", the table is cleared and the
     * state is disconnected.
     */
    method Disconnect()
      requires Valid()
      modifies this`client, this`linkUp, this`connectionGate, this`pending, this`calls, this`state
      ensures Valid()
      ensures client.None? && !linkUp && connectionGate.None? && state == Disconnected
      ensures pending == {} && calls == Settle(old(calls), Failed(DISCONNECTED))
    {
      client := None;
      linkUp := false;
      connectionGate := None;
      calls := Settle(calls, Failed(DISCONNECTED));
      pending := {};
      state := Disconnected;
    }

    /** `connectionLost`: as `disconnect`, but every call in the table is cancelled. */
    method ConnectionLost()
      requires Valid()
      modifies this`client, this`linkUp, this`connectionGate, this`pending, this`calls, this`state
      ensures Valid()
      ensures client.None? && !linkUp && connectionGate.None? && state == Disconnected
      ensures pending == {} && calls == Settle(old(calls), Cancelled)
    {
      client := None;
      linkUp := false;
      connectionGate := None;
      calls := Settle(calls, Cancelled);
      pending := {};
      state := Disconnected;
    }

    /**
     * `messageArrived`: the payload without NUL characters and surrounding
     * blanks; a blank one is dropped. Under this client's response prefix
     * it completes the waiting call in the table named by the rest of the
     * topic with the scanned code, the message and, as data, the first
     * balanced object or array after the data key, or with 500 and the
     * exception's text (`errorText`) when the code scanner throws. On the
     * inbox topic it goes to the inbox callback (`inbox`).
     */
    method MessageArrived(topic: string, payload: string, errorText: string) returns (inbox: Option<string>)
      requires Valid()
      modifies this`calls
      ensures Valid()
      ensures inbox.Some? <==> CleanPayload(payload) != [] && RespSeqId(topic).None? && topic == InboxTopic()
      ensures inbox.Some? ==> inbox.value == CleanPayload(payload)
      ensures var seqId := RespSeqId(topic);
        CleanPayload(payload) == [] || seqId.None? || seqId.value !in pending || old(calls)[seqId.value] != Waiting ==>
        calls == old(calls)
      ensures var seqId := RespSeqId(topic); var cleaned := CleanPayload(payload);
        cleaned != [] && seqId.Some? && seqId.value in pending && old(calls)[seqId.value] == Waiting ==>
        seqId.value in calls && calls == old(calls)[seqId.value := calls[seqId.value]]
        && calls[seqId.value].Completed?
        && (ParseCodeKt(cleaned).Throws? ==> calls[seqId.value].response == Response(500, errorText, None))
        && (ParseCodeKt(cleaned).Value? ==>
              calls[seqId.value].response.code == ParseCodeKt(cleaned).value
              && calls[seqId.value].response.message == ParseMessageKt(cleaned)
              && (DataStartKt(cleaned).None? ==> calls[seqId.value].response.data.None?)
              && (DataStartKt(cleaned).Some? ==> FirstBalanced(DataStartKt(cleaned).value, calls[seqId.value].response.data)))
    {
      inbox := None;
      var cleaned := CleanPayload(payload);
      if cleaned == [] {
        return;
      }
      var seqId := RespSeqId(topic);
      if seqId.Some? {
        if seqId.value in pending && calls[seqId.value] == Waiting {
          var response := ReadReply(cleaned, errorText);
          calls := calls[seqId.value := Completed(response)];
        }
      } else if topic == InboxTopic() {
        inbox := Some(cleaned);
      }
    }
  }
}

=== FILE: android_history.dfy ===
/**
 * The Android `ChatHistoryCache`: one file per signed-in employee,
 * `loadAll` with its one-time migration from the legacy single file, and
 * `save`, which keeps the last 500 messages of a peer and, above 100
 * peers, drops the peers whose newest message is oldest. The files
 * directory is the `files` field; reads and writes do not fail here.
 */
module AndroidHistory {
  import opened Wrappers
  import opened Strings
  import opened ChatModel
  import opened HistoryCache

  /** `sanitizeEmployeeIdForFile`: trimmed, every character outside `[a-zA-Z0-9_.-]` replaced by `_`, `"default"` when empty. */
  function SanitizeEmployeeId(employeeId: string): (r: string)
    ensures r != [] && forall i :: 0 <= i < |r| ==> IsIdChar(r[i])
    ensures IsBlank(employeeId) ==> r == "default"
    ensures !IsBlank(employeeId) ==> |r| == |Trim(employeeId)|
  {
    var t := Trim(employeeId);
    if t == [] then "default" else SanitizeId(t)
  }

  /** A non-empty id made of file characters is its own file name part; so sanitising twice is sanitising once. */
  lemma SanitizeKeepsSafe(employeeId: string)
    requires employeeId != [] && forall i :: 0 <= i < |employeeId| ==> IsIdChar(employeeId[i])
    ensures SanitizeEmployeeId(employeeId) == employeeId
  {
    TrimUntouched(employeeId);
  }

  lemma SanitizeIdempotent(employeeId: string)
    ensures SanitizeEmployeeId(SanitizeEmployeeId(employeeId)) == SanitizeEmployeeId(employeeId)
  {
    SanitizeKeepsSafe(SanitizeEmployeeId(employeeId));
  }

  /** `fileFor`: never the legacy file's name. */
  function FileFor(employeeId: string): (r: string)
    ensures r != LEGACY_FILENAME
    ensures |r| == |FILENAME_PREFIX| + |SanitizeEmployeeId(employeeId)| + |FILENAME_SUFFIX|
  {
    FILENAME_PREFIX + SanitizeEmployeeId(employeeId) + FILENAME_SUFFIX
  }

  /** `timestampMs ?: 0`. */
  function TimestampOrZero(m: ChatMessage): int {
    m.timestampMs.GetOr(0)
  }

  /** `maxOfOrNull { it.timestampMs ?: 0 }`: the largest, `None` for an empty list. */
  function Newest(list: seq<ChatMessage>): (r: Option<int>)
    ensures r.None? <==> list == []
    ensures r.Some? ==> forall i :: 0 <= i < |list| ==> TimestampOrZero(list[i]) <= r.value
    ensures r.Some? ==> exists i :: 0 <= i < |list| && TimestampOrZero(list[i]) == r.value
  {
    if list == [] then None
    else
      var last := TimestampOrZero(list[|list| - 1]);
      var init := Newest(list[..|list| - 1]);
      assert forall i :: 0 <= i < |list| - 1 ==> list[..|list| - 1][i] == list[i];
      if init.None? || init.value <= last then Some(last) else init
  }

  /** `entries.mapNotNull { ... }`: each peer with a non-empty list and its newest timestamp, in map order. */
  function Candidates(p: PeerLists): (c: seq<(string, int)>)
    ensures forall i :: 0 <= i < |c| ==> c[i].0 in KeySet(p)
    ensures UniqueKeys(p) ==> UniqueIds(c)
    ensures UniqueKeys(p) ==> forall x :: x in c ==> Lookup(p, x.0).Some? && Newest(Lookup(p, x.0).value) == Some(x.1)
    ensures (forall i :: 0 <= i < |p| ==> p[i].1 != []) ==> |c| == |p|
  {
    if p == [] then []
    else
      var rest := Candidates(p[1..]);
      if p[0].1 == [] then rest else [(p[0].0, Newest(p[0].1).value)] + rest
  }

  /** Every peer with a non-empty list is a candidate. */
  lemma {:induction false} CandidatesCover(p: PeerLists, k: string)
    requires Lookup(p, k).Some? && Lookup(p, k).value != []
    ensures (k, Newest(Lookup(p, k).value).value) in Candidates(p)
  {
    if p[0].0 != k {
      CandidatesCover(p[1..], k);
    }
  }

  /** What `loadAll` returns and what the files directory holds afterwards. */
  datatype Loaded = Loaded(peers: PeerLists, files: Files)

  /**
   * `loadAll`: the employee's file when it decodes, even to no peers;
   * otherwise a legacy file with peers is copied to the employee's file
   * and deleted; otherwise nothing.
   */
  function LoadResult(files: Files, employeeId: string): (r: Loaded)
    ensures WellFormed(files) ==> WellFormed(r.files) && UniqueKeys(r.peers)
    ensures r.peers != [] ==> FileFor(employeeId) in r.files && r.files[FileFor(employeeId)] == Peers(r.peers)
    ensures forall f :: f != FileFor(employeeId) && f != LEGACY_FILENAME ==> (f in r.files <==> f in files) && (f in files ==> r.files[f] == files[f])
    ensures FileFor(employeeId) in files && files[FileFor(employeeId)].Peers? ==> r == Loaded(files[FileFor(employeeId)].entries, files)
    ensures LEGACY_FILENAME !in r.files <==> LEGACY_FILENAME !in files || r.files != files
  {
    var mine := FileFor(employeeId);
    if mine in files && files[mine].Peers? then Loaded(files[mine].entries, files)
    else if LEGACY_FILENAME in files && files[LEGACY_FILENAME].Peers? && files[LEGACY_FILENAME].entries != [] then
      var peers := files[LEGACY_FILENAME].entries;
      var migrated := files[mine := Peers(peers)] - {LEGACY_FILENAME};
      assert mine in migrated && migrated != files;
      Loaded(peers, migrated)
    else Loaded([], files)
  }

  /** The migration happens once: loading again returns the same peers and changes nothing. */
  lemma LoadTwice(files: Files, employeeId: string)
    ensures LoadResult(LoadResult(files, employeeId).files, employeeId).peers == LoadResult(files, employeeId).peers
    ensures LoadResult(LoadResult(files, employeeId).files, employeeId).files == LoadResult(files, employeeId).files
  {
  }

  /** `current[peerId] = messages.takeLast(500)`. */
  function SaveCurrent(peers: PeerLists, peerId: string, messages: seq<ChatMessage>): PeerLists {
    Put(peers, peerId, TakeLast(messages, MAX_MESSAGES_PER_PEER))
  }

  /** The peer map `save` writes: the peer's last 500 messages put in, then eviction above 100 peers. */
  function Saved(peers: PeerLists, peerId: string, messages: seq<ChatMessage>): (r: PeerLists)
    ensures UniqueKeys(peers) ==> UniqueKeys(r)
  {
    var current := SaveCurrent(peers, peerId, messages);
    EvictOverKeeps(current, Candidates(current));
    EvictOver(current, Candidates(current))
  }

  /** The peers `save` evicts. */
  function SaveEvicted(peers: PeerLists, peerId: string, messages: seq<ChatMessage>): seq<string> {
    var current := SaveCurrent(peers, peerId, messages);
    EvictedIds(current, Candidates(current))
  }

  /** `save`: nothing for an empty list; otherwise `loadAll`, then the employee's file holds the saved map. */
  function SaveResult(files: Files, employeeId: string, peerId: string, messages: seq<ChatMessage>): (r: Files)
    ensures messages == [] ==> r == files
    ensures messages != [] ==> FileFor(employeeId) in r && r[FileFor(employeeId)] == Peers(Saved(LoadResult(files, employeeId).peers, peerId, messages))
    ensures WellFormed(files) ==> WellFormed(r)
  {
    if messages == [] then files
    else
      var loaded := LoadResult(files, employeeId);
      var saved := Saved(loaded.peers, peerId, messages);
      assert WellFormed(files) ==> UniqueKeys(saved);
      loaded.files[FileFor(employeeId) := Peers(saved)]
  }

  /**
   * The saved peer holds its last 500 messages unless evicted; every other
   * peer keeps its list unless evicted; an evicted peer is gone.
   */
  lemma SavedLists(peers: PeerLists, peerId: string, messages: seq<ChatMessage>)
    ensures peerId !in SaveEvicted(peers, peerId, messages) ==>
      Lookup(Saved(peers, peerId, messages), peerId) == Some(TakeLast(messages, MAX_MESSAGES_PER_PEER))
    ensures forall k :: k != peerId && k !in SaveEvicted(peers, peerId, messages) ==> Lookup(Saved(peers, peerId, messages), k) == Lookup(peers, k)
    ensures forall k :: k in SaveEvicted(peers, peerId, messages) ==> Lookup(Saved(peers, peerId, messages), k).None?
  {
    var current := SaveCurrent(peers, peerId, messages);
    EvictOverKeeps(current, Candidates(current));
  }

  /**
   * Above 100 peers, `save` removes `size - 100` peers, or every candidate
   * when there are fewer; a peer with an empty list is never removed, so
   * when no list is empty exactly 100 peers remain.
   */
  lemma SavedCount(peers: PeerLists, peerId: string, messages: seq<ChatMessage>)
    requires UniqueKeys(peers) && messages != []
    ensures var current := SaveCurrent(peers, peerId, messages);
      var n := |Candidates(current)|;
      |current| > MAX_PEERS ==> |Saved(peers, peerId, messages)| == |current| - (if |current| - MAX_PEERS <= n then |current| - MAX_PEERS else n)
    ensures (forall i :: 0 <= i < |peers| ==> peers[i].1 != []) ==> |Saved(peers, peerId, messages)| <= MAX_PEERS || |Saved(peers, peerId, messages)| == |peers| + 1
  {
    var current := SaveCurrent(peers, peerId, messages);
    var c := Candidates(current);
    if |current| > MAX_PEERS {
      EvictOverCount(current, c);
      if forall i :: 0 <= i < |peers| ==> peers[i].1 != [] {
        NoEmptyAfterPut(peers, peerId, TakeLast(messages, MAX_MESSAGES_PER_PEER));
      }
    } else {
      assert Saved(peers, peerId, messages) == current;
    }
  }

  /** Putting a non-empty list into a map without empty lists leaves none. */
  lemma {:induction false} NoEmptyAfterPut(p: PeerLists, k: string, v: seq<ChatMessage>)
    requires v != [] && forall i :: 0 <= i < |p| ==> p[i].1 != []
    ensures forall i :: 0 <= i < |Put(p, k, v)| ==> Put(p, k, v)[i].1 != []
  {
    if p != [] && p[0].0 != k {
      NoEmptyAfterPut(p[1..], k, v);
      assert forall i :: 1 <= i < |Put(p, k, v)| ==> Put(p, k, v)[i] == Put(p[1..], k, v)[i - 1];
    }
  }

  /** Peers with empty lists are never candidates, so never evicted. */
  lemma EmptyListsStay(peers: PeerLists, peerId: string, messages: seq<ChatMessage>, k: string)
    requires UniqueKeys(peers) && k != peerId && Lookup(peers, k) == Some([])
    ensures Lookup(Saved(peers, peerId, messages), k) == Some([])
  {
    var current := SaveCurrent(peers, peerId, messages);
    var c := Candidates(current);
    EvictOverKeeps(current, c);
    EvictedIdsAreCandidates(current, c);
    assert Lookup(current, k) == Some([]);
    assert k !in EvictedIds(current, c);
    assert Saved(peers, peerId, messages) == EvictOver(current, c);
  }

  /** Every evicted peer's newest message is no newer than that of any candidate that stays. */
  lemma EvictedAreOldest(peers: PeerLists, peerId: string, messages: seq<ChatMessage>, current: PeerLists, candidates: seq<(string, int)>)
    requires current == SaveCurrent(peers, peerId, messages) && candidates == Candidates(current)
    requires |current| > MAX_PEERS
    ensures forall e, x :: e in Evicted(candidates, Excess(current)) && x in candidates && x.0 in KeySet(Saved(peers, peerId, messages)) ==> e.1 <= x.1
  {
    forall e, x | e in Evicted(candidates, Excess(current)) && x in candidates && x.0 in KeySet(Saved(peers, peerId, messages))
      ensures e.1 <= x.1
    {
      EvictOverSmallest(current, candidates, e, x);
    }
  }

  /** The peer just saved is a candidate too: over the limit, with the oldest newest message of all, it is the one dropped. */
  lemma SavedPeerEvictable(peers: PeerLists, peerId: string, messages: seq<ChatMessage>)
    requires UniqueKeys(peers) && messages != []
    requires |SaveCurrent(peers, peerId, messages)| > MAX_PEERS
    requires var current := SaveCurrent(peers, peerId, messages);
      forall x :: x in Candidates(current) && x.0 != peerId ==> Newest(TakeLast(messages, MAX_MESSAGES_PER_PEER)).value < x.1
    ensures peerId !in KeySet(Saved(peers, peerId, messages))
  {
    var current := SaveCurrent(peers, peerId, messages);
    CandidatesCover(current, peerId);
    StrictMinEvicted(current, Candidates(current), peerId, Newest(TakeLast(messages, MAX_MESSAGES_PER_PEER)).value);
    SavedLists(peers, peerId, messages);
  }

  /** The files directory with the behaviour of `ChatHistoryCache`. */
  class ChatHistoryCache {
    var files: Files

    ghost predicate Valid()
      reads this
    {
      WellFormed(files)
    }

    constructor (initial: Files)
      requires WellFormed(initial)
      ensures Valid() && files == initial
    {
      files := initial;
    }

    /** `loadAll`. */
    method LoadAll(employeeId: string) returns (peers: PeerLists)
      requires Valid()
      modifies this
      ensures Valid()
      ensures peers == LoadResult(old(files), employeeId).peers && files == LoadResult(old(files), employeeId).files
    {
      var loaded := LoadResult(files, employeeId);
      files := loaded.files;
      peers := loaded.peers;
    }

    /** `save`: the eviction removes the chosen peers one by one, as `forEach` does. */
    method Save(employeeId: string, peerId: string, messages: seq<ChatMessage>)
      requires Valid()
      modifies this
      ensures Valid()
      ensures files == SaveResult(old(files), employeeId, peerId, messages)
    {
      if messages == [] {
        return;
      }
      var loaded := LoadAll(employeeId);
      var current := Put(loaded, peerId, TakeLast(messages, MAX_MESSAGES_PER_PEER));
      ghost var start := current;
      var toRemove := EvictedIds(current, Candidates(current));
      var i := 0;
      while i < |toRemove|
        invariant 0 <= i <= |toRemove|
        invariant RemoveKeys(current, toRemove[i..]) == RemoveKeys(start, toRemove)
      {
        assert toRemove[i..][1..] == toRemove[i + 1..];
        current := RemoveKey(current, toRemove[i]);
        i := i + 1;
      }
      assert current == EvictOver(start, Candidates(start));
      files := files[FileFor(employeeId) := Peers(current)];
    }
  }
}

=== FILE: android_runtime.dfy ===
/**
 * The Android `MChatRuntime`: the saved connection settings, the broker
 * URL parser, the check `connect` makes before it replaces the current
 * connection, and the wiring of a fresh connection to a chat controller
 * started from the history cache. The coroutine `connect` launches is
 * run to its end inside `Connect`.
 */
module AndroidRuntime {
  import opened Wrappers
  import opened Strings
  import opened HistoryCache
  import Protocol
  import AndroidConnection
  import AndroidHistory
  import AndroidChat

  /** The error shown when a field is blank. */
  const MISSING_FIELDS := "请填写 Broker 地址、用户名与员工 ID"
  /** The error shown when the URL gives no host or no port. */
  const MALFORMED_URL := "Broker 地址格式错误，应为 tcp://host:port 或 ssl://host:port"

  /** The four settings kept in `SecurePrefs`. */
  datatype Prefs = Prefs(brokerUrl: string, username: string, password: string, employeeId: string)

  /** `parseBrokerUrl`'s triple: host, port, TLS. */
  datatype Address = Address(host: Option<string>, port: Option<int>, useTls: bool)

  /** The arguments a new `MChatConnection` is built from. */
  datatype Endpoint = Endpoint(host: string, port: int, useTls: bool, username: string, password: string, employeeId: string)

  /** What `connect`'s two guards decide. */
  datatype Validation = MissingField | BadUrl | Ready(endpoint: Endpoint)

  /** `ifEmpty { null }`. */
  function NonEmpty(s: string): Option<string> {
    if s == [] then None else Some(s)
  }

  /** A lower-case scheme prefix, ignoring case: TLS for `ssl://`, plain for `tcp://`, nothing otherwise. */
  function Scheme(trimmed: string): (r: Option<bool>)
    ensures r == Some(true) <==> StartsWithIgnoreCase(trimmed, "ssl://")
    ensures r == Some(false) <==> !StartsWithIgnoreCase(trimmed, "ssl://") && StartsWithIgnoreCase(trimmed, "tcp://")
  {
    var useTls := StartsWithIgnoreCase(trimmed, "ssl://");
    var prefix := if useTls then "ssl://" else "tcp://";
    if StartsWithIgnoreCase(trimmed, prefix) then Some(useTls) else None
  }

  /** The host and port read from the trimmed text after the scheme. */
  function HostPort(rest: string): (r: (Option<string>, Option<int>))
    requires rest != [] ==> !IsSpace(rest[0]) && !IsSpace(rest[|rest| - 1])
    ensures r.0.Some? ==> r.0.value != [] && Trimmed(r.0.value)
    ensures r.1.Some? ==> 1 <= r.1.value <= 65535 && r.0.Some? && ':' !in r.0.value
    ensures ':' !in rest || (rest != [] && rest[0] == ':') ==> r == (NonEmpty(rest), None)
  {
    var colon := IndexOfFrom(rest, ':', 0);
    if colon.None? || colon.value == 0 then
      (NonEmpty(rest), None)
    else
      var before := rest[..colon.value];
      var host := Trim(before);
      assert !IsBlank(before) by {
        assert !IsSpace(before[0]);
      }
      assert forall c :: c in host ==> c in before;
      var port := AndroidConnection.ToIntOrNull(TakeDigits(Trim(rest[colon.value + 1..])));
      (NonEmpty(host), if port.Some? then Some(Protocol.ClampPort(port.value)) else None)
  }

  /**
   * `parseBrokerUrl`: the scheme decides TLS; after it, the text up to the
   * first `:` (when that is not the first character) is the host and the
   * leading digits after it, read as an `Int` and clamped, the port.
   */
  function ParseBrokerUrl(url: string): (r: Address)
    ensures r.useTls <==> StartsWithIgnoreCase(Trim(url), "ssl://")
    ensures !StartsWithIgnoreCase(Trim(url), "ssl://") && !StartsWithIgnoreCase(Trim(url), "tcp://") ==>
      r == Address(None, None, false)
    ensures r.host.Some? ==> r.host.value != [] && Trimmed(r.host.value)
    ensures r.port.Some? ==> 1 <= r.port.value <= 65535 && r.host.Some? && ':' !in r.host.value
  {
    var trimmed := Trim(url);
    match Scheme(trimmed)
    case None => Address(None, None, false)
    case Some(useTls) =>
      var hp := HostPort(Trim(trimmed[6..]));
      Address(hp.0, hp.1, useTls)
  }

  /** `hasRequiredConfig`: the trimmed URL, user name and employee id are non-empty and the URL gives a host and a port. */
  predicate HasRequiredConfig(prefs: Prefs) {
    var url := Trim(prefs.brokerUrl);
    url != [] && Trim(prefs.username) != [] && Trim(prefs.employeeId) != [] &&
    ParseBrokerUrl(url).host.Some? && ParseBrokerUrl(url).port.Some?
  }

  /** `connect`'s guards: blank fields first, then the URL; what passes becomes the new connection's arguments. */
  function Validate(prefs: Prefs): Validation {
    var url := Trim(prefs.brokerUrl);
    var username := Trim(prefs.username);
    var employeeId := Trim(prefs.employeeId);
    if url == [] || username == [] || employeeId == [] then MissingField
    else
      var a := ParseBrokerUrl(url);
      if a.host.None? || a.port.None? then BadUrl
      else Ready(Endpoint(a.host.value, a.port.value, a.useTls, username, prefs.password, employeeId))
  }

  /** `connect` goes ahead exactly when `hasRequiredConfig` holds. */
  lemma ValidateAgrees(prefs: Prefs)
    ensures Validate(prefs).Ready? <==> HasRequiredConfig(prefs)
  {
  }

  /** A blank field is reported before the URL is looked at. */
  lemma ValidateMissing(prefs: Prefs)
    ensures Validate(prefs).MissingField? <==> IsBlank(prefs.brokerUrl) || IsBlank(prefs.username) || IsBlank(prefs.employeeId)
  {
  }

  /**
   * An accepted connection gets the trimmed user name and employee id, the
   * password as typed, and a host and port that can be written back into a URL.
   */
  lemma ValidateReady(prefs: Prefs)
    requires Validate(prefs).Ready?
    ensures var e := Validate(prefs).endpoint;
      e.username == Trim(prefs.username) && e.employeeId == Trim(prefs.employeeId) && e.password == prefs.password
    ensures var e := Validate(prefs).endpoint;
      e.host != [] && Trimmed(e.host) && ':' !in e.host && 1 <= e.port <= 65535
  {
  }

  /** A URL that starts with a lower-case scheme has that scheme. */
  lemma SchemeOf(useTls: bool, rest: string)
    ensures Scheme((if useTls then "ssl://" else "tcp://") + rest) == Some(useTls)
  {
    var scheme := if useTls then "ssl://" else "tcp://";
    var u := scheme + rest;
    var lower := LowerAscii(u);
    forall i | 0 <= i < 6
      ensures lower[i] == scheme[i]
    {
      assert u[i] == scheme[i];
    }
    assert lower[..6] == scheme;
    if !useTls {
      assert lower[0] == 't';
    }
  }

  /** A trimmed host without `:`, a colon and a port's digits read back as that host and port. */
  lemma HostPortOf(h: string, p: int)
    requires h != [] && !IsSpace(h[0]) && !IsSpace(h[|h| - 1]) && ':' !in h
    requires 1 <= p <= 65535
    ensures var rest := h + ":" + IntToString(p);
      !IsSpace(rest[0]) && !IsSpace(rest[|rest| - 1]) && HostPort(rest) == (Some(h), Some(p))
  {
    var d := IntToString(p);
    assert d == NatToString(p);
    var rest := h + ":" + d;
    assert rest[0] == h[0] && rest[|rest| - 1] == d[|d| - 1];
    assert forall j :: 0 <= j < |h| ==> rest[j] == h[j];
    IndexOfFromAt(rest, ':', 0, |h|);
    assert rest[..|h|] == h;
    TrimUntouched(h);
    assert rest[|h| + 1..] == d;
    TrimUntouched(d);
    TakeDigitsAppend(d, []);
    assert d + [] == d;
    AndroidConnection.ToIntOrNullOfPrinted(p);
  }

  /** After a lower-case scheme, the parser reads host and port from the rest alone. */
  lemma ParseAfterScheme(useTls: bool, rest: string)
    requires rest != [] && !IsSpace(rest[0]) && !IsSpace(rest[|rest| - 1])
    ensures var hp := HostPort(rest);
      ParseBrokerUrl((if useTls then "ssl://" else "tcp://") + rest) == Address(hp.0, hp.1, useTls)
  {
    SchemeSplit(useTls, rest);
  }

  /** A lower-case scheme in front of trimmed text: the whole is trimmed, the scheme is recognised, and the text follows it. */
  lemma SchemeSplit(useTls: bool, rest: string)
    requires rest != [] && !IsSpace(rest[0]) && !IsSpace(rest[|rest| - 1])
    ensures var u := (if useTls then "ssl://" else "tcp://") + rest;
      Trim(u) == u && Scheme(u) == Some(useTls) && u[6..] == rest && Trim(rest) == rest
  {
    var scheme := if useTls then "ssl://" else "tcp://";
    var u := scheme + rest;
    assert u[0] == scheme[0] && u[|u| - 1] == rest[|rest| - 1];
    TrimUntouched(u);
    SchemeOf(useTls, rest);
    assert u[6..] == rest;
    TrimUntouched(rest);
  }

  /** Scheme, trimmed host without `:`, colon and port: the parser recovers all three. */
  lemma ParseOfParts(useTls: bool, h: string, p: int)
    requires h != [] && !IsSpace(h[0]) && !IsSpace(h[|h| - 1]) && ':' !in h
    requires 1 <= p <= 65535
    ensures ParseBrokerUrl((if useTls then "ssl://" else "tcp://") + h + ":" + IntToString(p)) == Address(Some(h), Some(p), useTls)
  {
    var scheme := if useTls then "ssl://" else "tcp://";
    var rest := h + ":" + IntToString(p);
    HostPortOf(h, p);
    ParseAfterScheme(useTls, rest);
    Regroup(scheme, h, ":", IntToString(p));
  }

  lemma Regroup(a: string, b: string, c: string, d: string)
    ensures a + (b + c + d) == a + b + c + d
  {
  }

  /** The URL `MChatConnection` builds from a host without `:` parses back to that host, port and scheme. */
  lemma ParseBuiltUrl(useTls: bool, host: string, port: int)
    requires Trim(host) != [] && ':' !in host
    ensures ParseBrokerUrl(AndroidConnection.BrokerUrl(useTls, host, port)) ==
      Address(Some(Trim(host)), Some(Protocol.ClampPort(port)), useTls)
  {
    var h := Trim(host);
    assert ':' !in h;
    ParseOfParts(useTls, h, Protocol.ClampPort(port));
  }

  /** An accepted configuration names the same broker when the connection writes it back out as a URL. */
  lemma AcceptedUrlRoundTrip(prefs: Prefs)
    requires Validate(prefs).Ready?
    ensures var e := Validate(prefs).endpoint;
      ParseBrokerUrl(AndroidConnection.BrokerUrl(e.useTls, e.host, e.port)) == Address(Some(e.host), Some(e.port), e.useTls)
  {
    var e := Validate(prefs).endpoint;
    ValidateReady(prefs);
    TrimUntouched(e.host);
    ParseBuiltUrl(e.useTls, e.host, e.port);
  }

  /** With the colon first after the scheme (`tcp://:1883`), the whole remainder is the host and there is no port. */
  lemma ColonFirst(useTls: bool, rest: string)
    requires rest != [] && rest[0] == ':' && !IsSpace(rest[|rest| - 1])
    ensures ParseBrokerUrl((if useTls then "ssl://" else "tcp://") + rest) == Address(Some(rest), None, useTls)
  {
    ParseAfterScheme(useTls, rest);
    assert IndexOfFrom(rest, ':', 0) == Some(0);
  }

  /** `MChatRuntime`: the connection, its controller, the connection state shown to the UI and the history cache. */
  class Runtime {
    var connectionState: AndroidConnection.State
    var isConnected: bool
    var connection: Option<Endpoint>
    var controller: AndroidChat.ChatController?
    /** The connections `disconnect` was called on, oldest first. */
    var closed: seq<Endpoint>
    const history: AndroidHistory.ChatHistoryCache

    ghost predicate Valid()
      reads this, history, controller
    {
      history.Valid() && (connection.Some? <==> controller != null) && (controller != null ==> controller.Valid())
    }

    /** `init`: connects at once when the saved settings are complete. */
    constructor (saved: Prefs, files: Files)
      requires WellFormed(files)
      ensures Valid() && closed == []
      ensures connection.Some? <==> HasRequiredConfig(saved)
      ensures !HasRequiredConfig(saved) ==> connectionState == AndroidConnection.Disconnected && history.files == files
    {
      connectionState := AndroidConnection.Disconnected;
      isConnected := false;
      connection := None;
      controller := null;
      closed := [];
      history := new AndroidHistory.ChatHistoryCache(files);
      new;
      if HasRequiredConfig(saved) {
        ValidateAgrees(saved);
        Connect(saved);
      }
    }

    /**
     * `connect`: a blank field or a URL without host and port sets the
     * matching error and keeps the current connection; otherwise the
     * current connection is closed, the state is `Connecting`, and a new
     * connection and a controller holding the cached history replace them.
     */
    method Connect(saved: Prefs)
      requires Valid()
      modifies this, history
      ensures Valid()
      ensures Validate(saved).MissingField? ==> connectionState == AndroidConnection.Error(MISSING_FIELDS)
      ensures Validate(saved).BadUrl? ==> connectionState == AndroidConnection.Error(MALFORMED_URL)
      ensures !Validate(saved).Ready? ==>
        connection == old(connection) && controller == old(controller) && closed == old(closed) &&
        history.files == old(history.files) && isConnected == old(isConnected)
      ensures Validate(saved).Ready? ==>
        connectionState == AndroidConnection.Connecting && connection == Some(Validate(saved).endpoint) &&
        closed == old(closed) + (if old(connection).Some? then [old(connection).value] else [])
      ensures Validate(saved).Ready? ==>
        var loaded := AndroidHistory.LoadResult(old(history.files), Validate(saved).endpoint.employeeId);
        controller != null && fresh(controller) && controller.hasCache &&
        controller.messagesByPeer == AsMap(loaded.peers) && history.files == loaded.files
    {
      var v := Validate(saved);
      if v.MissingField? {
        connectionState := AndroidConnection.Error(MISSING_FIELDS);
      } else if v.BadUrl? {
        connectionState := AndroidConnection.Error(MALFORMED_URL);
      } else {
        Disconnect();
        connectionState := AndroidConnection.Connecting;
        Start(v.endpoint);
      }
    }

    /** The launched coroutine: the cached history is loaded and a controller holding it is attached with the new connection. */
    method Start(e: Endpoint)
      requires Valid() && connection.None?
      modifies this`connection, this`controller, history
      ensures Valid() && connection == Some(e)
      ensures var loaded := AndroidHistory.LoadResult(old(history.files), e.employeeId);
        controller != null && fresh(controller) && controller.hasCache &&
        controller.messagesByPeer == AsMap(loaded.peers) && history.files == loaded.files
    {
      var cached := history.LoadAll(e.employeeId);
      controller := new AndroidChat.ChatController(Some(AsMap(cached)), true);
      connection := Some(e);
    }

    /** `disconnect`: the current connection, if any, is closed and dropped with its controller. */
    method Disconnect()
      requires Valid()
      modifies this
      ensures Valid()
      ensures connection.None? && controller == null
      ensures closed == old(closed) + (if old(connection).Some? then [old(connection).value] else [])
      ensures connectionState == old(connectionState) && isConnected == old(isConnected)
    {
      if connection.Some? {
        closed := closed + [connection.value];
      }
      connection := None;
      controller := null;
    }

    /** The connection's state collector: the state is shown, and on `Connected` the controller clears the peer and asks for the employees. */
    method ConnectionStateChanged(s: AndroidConnection.State)
      requires Valid() && controller != null
      modifies this`connectionState, this`isConnected, controller`currentPeerId, controller`errorText, controller`requests
      ensures Valid()
      ensures connectionState == s && (isConnected <==> s.Connected?)
      ensures s.Connected? ==>
        controller.currentPeerId.None? && controller.requests == old(controller.requests) + [("org.tree", [])]
      ensures !s.Connected? ==> controller.currentPeerId == old(controller.currentPeerId) && controller.requests == old(controller.requests)
    {
      connectionState := s;
      isConnected := s.Connected?;
      if s.Connected? {
        controller.SelectPeer(None);
        controller.LoadEmployees();
      }
    }
  }
}

=== FILE: auth.dfy ===
/** The `auth.bind` and `auth.challenge` handlers. */
module Auth {
  import opened Wrappers
  import opened Strings
  import opened Json
  import opened Protocol
  import opened Tables
  import opened Session

  /** Lifetime of a challenge: five minutes. */
  const CHALLENGE_TTL_MS := 5 * 60 * 1000

  /** What `handleAuthBind` leaves behind, as its contract: the reply and the tables afterwards. */
  twostate predicate AuthBindDone(ctx: ReqContext, db: Db, sessions: SessionStore, nowMs: int, r: RespPayload)
    reads db, sessions
  {
    var id := NonEmptyString(ctx.payload, "employee_id");
    if id.None? then
      r == Fail(BAD_REQUEST, "Missing employee_id") && sessions.rows == old(sessions.rows)
    else if !IsActive(db.employees, id.value) then
      r == Fail(NOT_FOUND, "Employee not found or disabled") && sessions.rows == old(sessions.rows)
    else
      r == Ok([]) &&
      sessions.rows == old(sessions.rows)[ctx.clientId := SessionRow(id.value, AsString(Get(ctx.payload, "device_info")), nowMs)]
  }

  /**
   * `handleAuthBind`: binds the requesting client to an active employee.
   * The session table changes only on success, and then only the
   * requesting client's row, which now names that employee.
   */
  method HandleAuthBind(ctx: ReqContext, db: Db, sessions: SessionStore, nowMs: int) returns (r: RespPayload)
    modifies sessions
    ensures AuthBindDone(ctx, db, sessions, nowMs, r)
  {
    var id := NonEmptyString(ctx.payload, "employee_id");
    if id.None? {
      return Fail(BAD_REQUEST, "Missing employee_id");
    }
    if !IsActive(db.employees, id.value) {
      return Fail(NOT_FOUND, "Employee not found or disabled");
    }
    var deviceInfo := AsString(Get(ctx.payload, "device_info"));
    sessions.Upsert(ctx.clientId, id.value, deviceInfo, nowMs);
    r := Ok([]);
  }

  /** What `handleAuthChallenge` leaves behind, as its contract: the reply and the tables afterwards. */
  twostate predicate ChallengeDone(ctx: ReqContext, db: Db, e: Entropy, o: Outcome)
    requires ctx.employeeId.Some?
    reads db
  {
    var challengeId := NewId("ch_", e.uuid1, 16);
    var token := Dashed(e.uuid2) + "-" + IntToString(e.nowMs);
    var expires := e.nowMs + CHALLENGE_TTL_MS;
    if challengeId in old(db.challenges) then
      o == Threw && db.challenges == old(db.challenges)
    else
      db.challenges == old(db.challenges)[challengeId := Challenge(Sha256(token), ctx.employeeId.value, expires)] &&
      o == Returned(Ok([("challenge_id", JStr(challengeId)), ("token", JStr(token)), ("expires_at", JNum(expires))]))
  }

  /**
   * `handleAuthChallenge`: issues a challenge to the bound employee. Only
   * the SHA-256 of the token is stored; the token itself goes back to the
   * caller, with the expiry five minutes after now. An identifier that is
   * already taken makes the INSERT, and so the handler, fail.
   */
  method HandleAuthChallenge(ctx: ReqContext, db: Db, e: Entropy) returns (o: Outcome)
    requires ctx.employeeId.Some?
    modifies db`challenges
    ensures ChallengeDone(ctx, db, e, o)
  {
    var challengeId := NewId("ch_", e.uuid1, 16);
    var token := Dashed(e.uuid2) + "-" + IntToString(e.nowMs);
    var expires := e.nowMs + CHALLENGE_TTL_MS;
    if challengeId in db.challenges {
      return Threw;
    }
    db.challenges := db.challenges[challengeId := Challenge(Sha256(token), ctx.employeeId.value, expires)];
    o := Returned(Ok([("challenge_id", JStr(challengeId)), ("token", JStr(token)), ("expires_at", JNum(expires))]));
  }
}

=== FILE: chat_model.dfy ===
/**
 * What the Android and iOS chat controllers and history caches share:
 * chat messages, employee entries, per-peer message lists and the
 * message shown for the selected peer.
 */
module ChatModel {
  import opened Wrappers

  datatype MessageContent = MessageContent(kind: string, text: string)

  /** `ChatMessage`; the timestamp is optional in the stored form. */
  datatype ChatMessage = ChatMessage(id: string, role: string, content: seq<MessageContent>, timestampMs: Option<int>)

  /** `EmployeeEntry` as both controllers build it from `org.tree` and `employee.get`. */
  datatype EmployeeEntry = EmployeeEntry(employeeId: string, name: string, departmentId: Option<string>, isAiAgent: bool)

  type ByPeer = map<string, seq<ChatMessage>>

  const ASSISTANT := "assistant"
  const USER := "user"

  /** A one-part text message, as the controllers create for received and sent messages. */
  function TextMessage(id: string, role: string, text: string, timestampMs: int): (m: ChatMessage)
    ensures m.content == [MessageContent("text", text)] && m.timestampMs == Some(timestampMs)
    ensures m.id == id && m.role == role
  {
    ChatMessage(id, role, [MessageContent("text", text)], Some(timestampMs))
  }

  /** The list of `peer`, empty when it has none. */
  function ListOf(byPeer: ByPeer, peer: string): seq<ChatMessage> {
    if peer in byPeer then byPeer[peer] else []
  }

  /** The copy-append-reassign of the controllers: `m` goes last in `peer`'s list. */
  function AppendTo(byPeer: ByPeer, peer: string, m: ChatMessage): (r: ByPeer)
    ensures r.Keys == byPeer.Keys + {peer}
    ensures r[peer] == ListOf(byPeer, peer) + [m]
    ensures |r[peer]| == |ListOf(byPeer, peer)| + 1 && r[peer][|r[peer]| - 1] == m
    ensures forall p :: p in byPeer && p != peer ==> r[p] == byPeer[p]
  {
    byPeer[peer := ListOf(byPeer, peer) + [m]]
  }

  /** `currentMessages`: the selected peer's list; empty without a selection or without a list. */
  function CurrentMessages(byPeer: ByPeer, current: Option<string>): (r: seq<ChatMessage>)
    ensures current.None? ==> r == []
    ensures current.Some? && current.value !in byPeer ==> r == []
    ensures current.Some? && current.value in byPeer ==> r == byPeer[current.value]
  {
    match current
    case None => []
    case Some(peer) => ListOf(byPeer, peer)
  }

  /** Whether two entries of the list share an employee id. */
  predicate HasDuplicateIds(employees: seq<EmployeeEntry>) {
    exists i, j :: 0 <= i < j < |employees| && employees[i].employeeId == employees[j].employeeId
  }

  /** Appending to a peer's list and reading the selection back: the selected peer sees its list with the new message last only when it is that peer. */
  lemma AppendThenCurrent(byPeer: ByPeer, peer: string, m: ChatMessage, current: Option<string>)
    ensures current == Some(peer) ==> CurrentMessages(AppendTo(byPeer, peer, m), current) == CurrentMessages(byPeer, current) + [m]
    ensures current != Some(peer) ==> CurrentMessages(AppendTo(byPeer, peer, m), current) == CurrentMessages(byPeer, current)
  {
  }

  /** The session name of `id`: the name of the last entry with that id (Kotlin's `associateBy`), the id itself when none has it. */
  function NameFor(employees: seq<EmployeeEntry>, id: string): (r: string)
    ensures (forall i :: 0 <= i < |employees| ==> employees[i].employeeId != id) ==> r == id
    ensures (exists i :: 0 <= i < |employees| && employees[i].employeeId == id) ==>
      exists i :: 0 <= i < |employees| && employees[i].employeeId == id && r == employees[i].name
        && forall j :: i < j < |employees| ==> employees[j].employeeId != id
  {
    if employees == [] then id
    else
      var last := employees[|employees| - 1];
      if last.employeeId == id then last.name
      else
        var r := NameFor(employees[..|employees| - 1], id);
        assert forall i :: 0 <= i < |employees| - 1 ==> employees[..|employees| - 1][i] == employees[i];
        r
  }

  /** `updateSessionsFromPeers`: one session per peer key, named by the employee's name when known. */
  function Sessions(employees: seq<EmployeeEntry>, peerIds: set<string>): (r: map<string, string>)
    ensures r.Keys == peerIds
    ensures forall id :: id in r ==> r[id] == NameFor(employees, id)
  {
    map id | id in peerIds :: NameFor(employees, id)
  }

  /** With distinct ids, a known peer's session is named by its one entry. */
  lemma SessionNameUnique(employees: seq<EmployeeEntry>, peerIds: set<string>, i: nat)
    requires !HasDuplicateIds(employees) && i < |employees| && employees[i].employeeId in peerIds
    ensures Sessions(employees, peerIds)[employees[i].employeeId] == employees[i].name
  {
    var id := employees[i].employeeId;
    var k :| 0 <= k < |employees| && employees[k].employeeId == id && NameFor(employees, id) == employees[k].name
      && forall j :: k < j < |employees| ==> employees[j].employeeId != id;
    if k < i {
      assert false;
    } else if i < k {
      assert false;
    }
  }
}

=== FILE: config.dfy ===
/** Loading and validating the server configuration (`loadConfig`, `validate`). */
module Config {
  import opened Wrappers
  import opened Json

  /** Why loading failed: the file could not be read or parsed, or a required setting is missing. */
  datatype ConfigError = Unreadable | NotAnObject | MissingBroker | MissingMysql | MissingStorage

  predicate IsStringProp(section: Option<Json>, k: string) {
    var v := Prop(section, k);
    v.Some? && v.value.JStr?
  }

  predicate IsNumberProp(section: Option<Json>, k: string) {
    var v := Prop(section, k);
    v.Some? && v.value.JNum?
  }

  /** `!config || typeof config !== 'object'` fails: the configuration is a non-null object. */
  predicate IsConfigObject(c: Json) {
    Truthy(Some(c)) && IsTypeofObject(Some(c))
  }

  /** The `broker` section is present with a string `host` and a number `port`. */
  predicate BrokerOk(c: Json) {
    var broker := Prop(Some(c), "broker");
    Truthy(broker) && IsStringProp(broker, "host") && IsNumberProp(broker, "port")
  }

  /** The `mysql` section is present with string `host` and `database`. */
  predicate MysqlOk(c: Json) {
    var mysql := Prop(Some(c), "mysql");
    Truthy(mysql) && IsStringProp(mysql, "host") && IsStringProp(mysql, "database")
  }

  /** The `storage` section is present with string `endpoint` and `bucket`. */
  predicate StorageOk(c: Json) {
    var storage := Prop(Some(c), "storage");
    Truthy(storage) && IsStringProp(storage, "endpoint") && IsStringProp(storage, "bucket")
  }

  /**
   * `validate`: the configuration must be an object with `broker.host`
   * (string), `broker.port` (number), `mysql.host`, `mysql.database`,
   * `storage.endpoint` and `storage.bucket` (strings). The first missing
   * section, in that order, is reported.
   */
  function Validate(c: Json): (r: Option<ConfigError>)
    ensures r.None? <==>
      Truthy(Some(c)) && IsTypeofObject(Some(c)) &&
      IsStringProp(Prop(Some(c), "broker"), "host") && IsNumberProp(Prop(Some(c), "broker"), "port") &&
      IsStringProp(Prop(Some(c), "mysql"), "host") && IsStringProp(Prop(Some(c), "mysql"), "database") &&
      IsStringProp(Prop(Some(c), "storage"), "endpoint") && IsStringProp(Prop(Some(c), "storage"), "bucket")
    ensures r == Some(NotAnObject) <==> !IsConfigObject(c)
    ensures r == Some(MissingBroker) <==> IsConfigObject(c) && !BrokerOk(c)
    ensures r == Some(MissingMysql) <==> IsConfigObject(c) && BrokerOk(c) && !MysqlOk(c)
    ensures r == Some(MissingStorage) <==> IsConfigObject(c) && BrokerOk(c) && MysqlOk(c) && !StorageOk(c)
    ensures r != Some(Unreadable)
  {
    if !IsConfigObject(c) then Some(NotAnObject)
    else if !BrokerOk(c) then Some(MissingBroker)
    else if !MysqlOk(c) then Some(MissingMysql)
    else if !StorageOk(c) then Some(MissingStorage)
    else None
  }

  /** The broker settings the server uses. */
  datatype BrokerSettings = BrokerSettings(host: string, port: int, useTls: Option<Json>, shareSubscription: Option<Json>)

  function BrokerOf(c: Json): (b: BrokerSettings)
    requires Validate(c).None?
    ensures Prop(Some(c), "broker").Some? && Prop(Prop(Some(c), "broker"), "host") == Some(JStr(b.host))
  {
    var broker := Prop(Some(c), "broker");
    BrokerSettings(Prop(broker, "host").value.s, Prop(broker, "port").value.n, Prop(broker, "useTls"), Prop(broker, "shareSubscription"))
  }

  /** The module-level cache of `config.ts`. */
  class ConfigLoader {
    var cached: Option<Json>

    ghost predicate Valid()
      reads this
    {
      cached.Some? ==> Validate(cached.value).None?
    }

    constructor ()
      ensures cached.None? && Valid()
    {
      cached := None;
    }

    /**
     * `loadConfig`: once a configuration has been loaded, every later call
     * returns that same configuration without reading the file again;
     * until then, a configuration is cached only if it validates.
     * `raw` is what reading and parsing the file produced.
     */
    method LoadConfig(raw: Raw) returns (r: Result)
      requires Valid()
      modifies this
      ensures Valid()
      ensures old(cached).Some? ==> r == Loaded(old(cached).value) && cached == old(cached)
      ensures old(cached).None? && raw.Malformed? ==> r == Failed(Unreadable) && cached.None?
      ensures old(cached).None? && raw.Parsed? ==>
        match Validate(raw.value)
        case None => r == Loaded(raw.value) && cached == Some(raw.value)
        case Some(err) => r == Failed(err) && cached.None?
    {
      if cached.Some? {
        return Loaded(cached.value);
      }
      if raw.Malformed? {
        return Failed(Unreadable);
      }
      var err := Validate(raw.value);
      if err.Some? {
        return Failed(err.value);
      }
      cached := Some(raw.value);
      r := Loaded(raw.value);
    }
  }

  datatype Result = Loaded(config: Json) | Failed(error: ConfigError)
}

=== FILE: correlation.dfy ===
/**
 * What the JavaScript clients (the Node client and the admin console)
 * share: the table of requests still waiting for a reply, each backed by
 * a promise that settles at most once, and the client-id choice.
 */
module Correlation {
  import opened Wrappers
  import opened Strings
  import opened Json

  /** How the promise of one request settled. */
  datatype Completion = Resolved(body: Json) | Rejected(error: string)

  const REQUEST_TIMEOUT := "Request timeout"
  const INVALID_RESPONSE := "Invalid response JSON"
  const DISCONNECTED := "Disconnected"
  const NOT_CONNECTED := "Not connected"

  /**
   * The `pending` map from sequence id to the promise's callbacks and
   * timer. `pending` holds the ids still waiting; `settled` records how
   * each promise settled, which no later event can change.
   */
  class PromiseTable {
    var pending: set<string>
    var settled: map<string, Completion>

    ghost predicate Valid()
      reads this
    {
      pending !! settled.Keys
    }

    constructor ()
      ensures pending == {} && settled == map[] && Valid()
    {
      pending := {};
      settled := map[];
    }

    /** `pending.set(seqId, …)` for a new request, arming its timer. */
    method Register(seqId: string)
      requires Valid() && seqId !in pending && seqId !in settled
      modifies this
      ensures Valid()
      ensures pending == old(pending) + {seqId} && settled == old(settled)
    {
      pending := pending + {seqId};
    }

    /**
     * Removes a waiting entry, clears its timer and settles its promise;
     * an id that is no longer waiting is left alone. Reply, timeout and
     * publish failure all go through here.
     */
    method Settle(seqId: string, c: Completion) returns (settledNow: bool)
      requires Valid()
      modifies this
      ensures Valid()
      ensures settledNow <==> seqId in old(pending)
      ensures settledNow ==> pending == old(pending) - {seqId} && settled == old(settled)[seqId := c]
      ensures !settledNow ==> pending == old(pending) && settled == old(settled)
      ensures forall s :: s in old(settled) ==> s in settled && settled[s] == old(settled)[s]
    {
      if seqId in pending {
        pending := pending - {seqId};
        settled := settled[seqId := c];
        settledNow := true;
      } else {
        settledNow := false;
      }
    }

    /** `disconnect`: every waiting promise is rejected with `reason` and the table is emptied. */
    method RejectAll(reason: string)
      requires Valid()
      modifies this
      ensures Valid()
      ensures pending == {}
      ensures settled.Keys == old(settled).Keys + old(pending)
      ensures forall s :: s in old(settled) ==> settled[s] == old(settled)[s]
      ensures forall s :: s in old(pending) ==> settled[s] == Rejected(reason)
    {
      settled := settled + map s | s in pending :: Rejected(reason);
      pending := {};
    }
  }

  /** `override?.trim() || fallback`: a trimmed, non-blank override wins. */
  function ChooseClientId(override: Option<string>, fallback: string): (r: string)
    ensures override.Some? && !IsBlank(override.value) ==> r == Trim(override.value)
    ensures override.None? || IsBlank(override.value) ==> r == fallback
  {
    var t := Trim(override.GetOr(""));
    if t != [] then t else fallback
  }

  /** The generated client id `<employeeId>_<device or default>_<random>`; an empty device id counts as none. */
  function GeneratedClientId(employeeId: string, deviceId: Option<string>, defaultDevice: string, uid: string): (r: string)
    ensures deviceId.Some? && deviceId.value != [] ==> r == employeeId + "_" + deviceId.value + "_" + uid
    ensures deviceId.None? || deviceId.value == [] ==> r == employeeId + "_" + defaultDevice + "_" + uid
  {
    var dev := if deviceId.Some? && deviceId.value != [] then deviceId.value else defaultDevice;
    employeeId + "_" + dev + "_" + uid
  }

  /** The request body `{action, ...params}`: a key `action` among the parameters replaces the action. */
  function RequestBody(action: string, params: Obj): (r: Obj)
    ensures Get(r, "action") == if HasKey(params, "action") then Get(params, "action") else Some(JStr(action))
    ensures forall k :: k != "action" ==> Get(r, k) == Get(params, k)
  {
    var r := Spread([("action", JStr(action))], params);
    forall k ensures Get(r, k) == if Get(params, k).Some? then Get(params, k) else Get([("action", JStr(action))], k) {
      GetSpread([("action", JStr(action))], params, k);
    }
    r
  }
}

=== FILE: debug_log.dfy ===
/**
 * The Android `DebugLogStore`: a bounded list of log entries, oldest
 * first, with ids from a counter that only grows. The lock around `add`
 * and `clear` is left out; each call is one atomic step.
 */
module DebugLog {
  import HistoryCache

  datatype LogType = Info | Error | Tx | Rx

  /** `LogEntry`; the timestamp is the clock reading passed to `add`. */
  datatype LogEntry = LogEntry(id: int, timestamp: int, tag: string, message: string, logType: LogType)

  /** The default `maxSize`. */
  const DEFAULT_MAX_SIZE := 200

  /** How many entries a store with this `maxSize` can keep: none when it is negative. */
  function Capacity(maxSize: int): nat {
    if maxSize < 0 then 0 else maxSize
  }

  /** Each entry has a smaller id than every entry after it. */
  predicate IdsIncreasing(s: seq<LogEntry>) {
    forall i, j :: 0 <= i < j < |s| ==> s[i].id < s[j].id
  }

  /**
   * One `add` on the list: the entry goes last and, when that makes the
   * list longer than `maxSize`, the first (oldest) entry is dropped.
   */
  function Append(logs: seq<LogEntry>, e: LogEntry, maxSize: int): (r: seq<LogEntry>)
    ensures |r| == if |logs| + 1 > maxSize then |logs| else |logs| + 1
    ensures r == (logs + [e])[|logs| + 1 - |r|..]
    ensures |logs| <= Capacity(maxSize) ==> |r| <= Capacity(maxSize)
    ensures 1 <= maxSize && |logs| <= maxSize ==> r != [] && r[|r| - 1] == e
    ensures IdsIncreasing(logs) && (forall x :: x in logs ==> x.id < e.id) ==> IdsIncreasing(r)
  {
    var current := logs + [e];
    if |current| > maxSize then current[1..] else current
  }

  /** The list after adding `entries` one by one to an empty store. */
  function Replay(entries: seq<LogEntry>, maxSize: int): seq<LogEntry> {
    if entries == [] then []
    else Append(Replay(entries[..|entries| - 1], maxSize), entries[|entries| - 1], maxSize)
  }

  /** Adding to the newest entries of a history gives the newest entries of the longer history. */
  lemma AppendKeepsNewest(added: seq<LogEntry>, e: LogEntry, maxSize: int)
    ensures Append(HistoryCache.TakeLast(added, Capacity(maxSize)), e, maxSize) ==
      HistoryCache.TakeLast(added + [e], Capacity(maxSize))
  {
    var c := Capacity(maxSize);
    var kept := HistoryCache.TakeLast(added, c);
    var longer := added + [e];
    if |added| >= c && c > 0 {
      assert kept + [e] == added[|added| - c..] + [e];
      assert (kept + [e])[1..] == longer[|longer| - c..];
    }
  }

  /** The store keeps exactly the newest `maxSize` entries of everything added since it was created or cleared. */
  lemma {:induction false} ReplayKeepsNewest(entries: seq<LogEntry>, maxSize: int)
    ensures Replay(entries, maxSize) == HistoryCache.TakeLast(entries, Capacity(maxSize))
  {
    if entries != [] {
      var init := entries[..|entries| - 1];
      var e := entries[|entries| - 1];
      ReplayKeepsNewest(init, maxSize);
      AppendKeepsNewest(init, e, maxSize);
      assert init + [e] == entries;
    }
  }

  /** `DebugLogStore`. */
  class DebugLogStore {
    const maxSize: int
    var logs: seq<LogEntry>
    var nextId: int
    /** Every entry added since the store was created or last cleared, oldest first. */
    ghost var added: seq<LogEntry>

    ghost predicate Valid()
      reads this
    {
      logs == HistoryCache.TakeLast(added, Capacity(maxSize)) && IdsIncreasing(added) &&
      0 <= nextId && (forall i :: 0 <= i < |added| ==> 0 <= added[i].id < nextId)
    }

    constructor (maxSize: int)
      ensures Valid() && this.maxSize == maxSize
      ensures logs == [] && nextId == 0 && added == []
    {
      this.maxSize := maxSize;
      logs := [];
      nextId := 0;
      added := [];
    }

    /** `add`: the entry gets the next id; the list keeps its newest `maxSize` entries. */
    method Add(tag: string, message: string, logType: LogType, timestamp: int)
      requires Valid()
      modifies this
      ensures Valid()
      ensures nextId == old(nextId) + 1
      ensures var e := LogEntry(old(nextId), timestamp, tag, message, logType);
        logs == Append(old(logs), e, maxSize) && added == old(added) + [e]
    {
      var entry := LogEntry(nextId, timestamp, tag, message, logType);
      nextId := nextId + 1;
      var current := logs + [entry];
      if |current| > maxSize {
        current := current[1..];
      }
      AppendKeepsNewest(added, entry, maxSize);
      logs := current;
      added := added + [entry];
    }

    /** `clear`: the list is emptied and the id counter runs on. */
    method Clear()
      requires Valid()
      modifies this
      ensures Valid()
      ensures logs == [] && added == [] && nextId == old(nextId)
    {
      logs := [];
      added := [];
    }
  }
}

=== FILE: department.dfy ===
/** The `department.create`, `department.update` and `department.delete` handlers. */
module Departments {
  import opened Wrappers
  import opened Strings
  import opened Json
  import opened Protocol
  import opened Tables

  /** The columns `department.update` may set. */
  const DEPARTMENT_COLUMNS: set<string> := {"name", "parent_id", "sort_order"}

  /** `typeof sort_order === 'number' ? sort_order : 0`. */
  function SortOrderOf(v: Option<Json>): (r: Json)
    ensures r.JNum?
    ensures v.Some? && v.value.JNum? ==> r == v.value
    ensures !(v.Some? && v.value.JNum?) ==> r == JNum(0)
  {
    if v.Some? && v.value.JNum? then v.value else JNum(0)
  }

  /** What `handleDepartmentCreate` leaves behind, as its contract: the reply and the tables afterwards. */
  twostate predicate DepartmentCreateDone(ctx: ReqContext, db: Db, e: Entropy, o: Outcome)
    reads db
  {
    var name := NonEmptyString(ctx.payload, "name");
    var id := NewId("dept_", e.uuid1, 8);
    var parent := StringOrNull(Get(ctx.payload, "parent_id"));
    var order := SortOrderOf(Get(ctx.payload, "sort_order"));
    if name.None? then
      o == Returned(Fail(BAD_REQUEST, "Missing name")) && db.departments == old(db.departments)
    else if id in old(db.departments) then
      o == Threw && db.departments == old(db.departments)
    else
      db.departments == old(db.departments)[id := Department(JStr(name.value), parent, order)] &&
      o == Returned(Ok([("department_id", JStr(id)), ("name", JStr(name.value)), ("parent_id", parent),
                        ("sort_order", order), ("created_at", JStr(e.nowIso))]))
  }

  /**
   * `handleDepartmentCreate`: a name is required; the new department gets
   * "dept_" and 8 hex digits of a UUID, and the reply echoes the values it
   * was stored with. A generated id that is already taken makes the INSERT,
   * and so the handler, fail.
   */
  method HandleDepartmentCreate(ctx: ReqContext, db: Db, e: Entropy) returns (o: Outcome)
    modifies db`departments
    ensures DepartmentCreateDone(ctx, db, e, o)
  {
    var name := NonEmptyString(ctx.payload, "name");
    var parent := StringOrNull(Get(ctx.payload, "parent_id"));
    var order := SortOrderOf(Get(ctx.payload, "sort_order"));
    if name.None? {
      return Returned(Fail(BAD_REQUEST, "Missing name"));
    }
    var id := NewId("dept_", e.uuid1, 8);
    if id in db.departments {
      return Threw;
    }
    db.departments := db.departments[id := Department(JStr(name.value), parent, order)];
    o := Returned(Ok([("department_id", JStr(id)), ("name", JStr(name.value)), ("parent_id", parent),
                      ("sort_order", order), ("created_at", JStr(e.nowIso))]));
  }

  /** One `k = ?` assignment of the department UPDATE. */
  function SetDepartmentColumn(row: Department, kv: (string, Json)): Department {
    var (k, v) := kv;
    if k == "name" then row.(name := v)
    else if k == "parent_id" then row.(parentId := v)
    else if k == "sort_order" then row.(sortOrder := v)
    else row
  }

  /** The UPDATE statement's assignments, applied left to right. */
  function ApplyDepartment(row: Department, sets: Obj): Department
    decreases |sets|
  {
    if sets == [] then row else SetDepartmentColumn(ApplyDepartment(row, sets[..|sets| - 1]), sets[|sets| - 1])
  }

  lemma {:induction false} ApplyDepartmentColumns(row: Department, sets: Obj)
    ensures var r := ApplyDepartment(row, sets);
      r.name == Get(sets, "name").GetOr(row.name) &&
      r.parentId == Get(sets, "parent_id").GetOr(row.parentId) &&
      r.sortOrder == Get(sets, "sort_order").GetOr(row.sortOrder)
    decreases |sets|
  {
    if sets != [] {
      ApplyDepartmentColumns(row, sets[..|sets| - 1]);
    }
  }

  /** `department.update` sets exactly name, parent_id and sort_order when present, to the request's values as given. */
  lemma DepartmentUpdateColumns(row: Department, updates: Obj)
    ensures var r := ApplyDepartment(row, SetList(updates, DEPARTMENT_COLUMNS));
      r.name == Get(updates, "name").GetOr(row.name) &&
      r.parentId == Get(updates, "parent_id").GetOr(row.parentId) &&
      r.sortOrder == Get(updates, "sort_order").GetOr(row.sortOrder)
  {
    ApplyDepartmentColumns(row, SetList(updates, DEPARTMENT_COLUMNS));
    GetSetList(updates, DEPARTMENT_COLUMNS, "name");
    GetSetList(updates, DEPARTMENT_COLUMNS, "parent_id");
    GetSetList(updates, DEPARTMENT_COLUMNS, "sort_order");
  }

  /** What `handleDepartmentUpdate` leaves behind, as its contract: the reply and the tables afterwards. */
  twostate predicate DepartmentUpdateDone(ctx: ReqContext, db: Db, e: Entropy, r: RespPayload)
    reads db
  {
    var req := UpdateRequest(ctx.payload, "department_id");
    if req.None? then
      r == Fail(BAD_REQUEST, "Missing department_id or updates") && db.departments == old(db.departments)
    else if SetList(req.value.1, DEPARTMENT_COLUMNS) == [] then
      r == Fail(BAD_REQUEST, "No valid updates") && db.departments == old(db.departments)
    else
      var id := req.value.0;
      r == Ok([("department_id", JStr(id)), ("updated_at", JStr(e.nowIso))]) &&
      db.departments == if id in old(db.departments)
        then old(db.departments)[id := ApplyDepartment(old(db.departments)[id], SetList(req.value.1, DEPARTMENT_COLUMNS))]
        else old(db.departments)
  }

  /** `handleDepartmentUpdate`. */
  method HandleDepartmentUpdate(ctx: ReqContext, db: Db, e: Entropy) returns (r: RespPayload)
    modifies db`departments
    ensures DepartmentUpdateDone(ctx, db, e, r)
  {
    var req := UpdateRequest(ctx.payload, "department_id");
    if req.None? {
      return Fail(BAD_REQUEST, "Missing department_id or updates");
    }
    var (id, updates) := req.value;
    var sets := CollectSetList(updates, DEPARTMENT_COLUMNS);
    if sets == [] {
      return Fail(BAD_REQUEST, "No valid updates");
    }
    if id in db.departments {
      db.departments := db.departments[id := ApplyDepartment(db.departments[id], sets)];
    }
    r := Ok([("department_id", JStr(id)), ("updated_at", JStr(e.nowIso))]);
  }

  /** What `handleDepartmentDelete` leaves behind, as its contract: the reply and the tables afterwards. */
  twostate predicate DepartmentDeleteDone(ctx: ReqContext, db: Db, e: Entropy, r: RespPayload)
    reads db
  {
    var id := NonEmptyString(ctx.payload, "department_id");
    if id.None? then
      r == Fail(BAD_REQUEST, "Missing department_id") && db.departments == old(db.departments)
    else
      r == Ok([("department_id", JStr(id.value)), ("deleted_at", JStr(e.nowIso))]) &&
      db.departments == old(db.departments) - {id.value}
  }

  /** `handleDepartmentDelete`: succeeds for any non-empty id, whether or not such a department exists. */
  method HandleDepartmentDelete(ctx: ReqContext, db: Db, e: Entropy) returns (r: RespPayload)
    modifies db`departments
    ensures DepartmentDeleteDone(ctx, db, e, r)
  {
    var id := NonEmptyString(ctx.payload, "department_id");
    if id.None? {
      return Fail(BAD_REQUEST, "Missing department_id");
    }
    db.departments := db.departments - {id.value};
    r := Ok([("department_id", JStr(id.value)), ("deleted_at", JStr(e.nowIso))]);
  }
}

=== FILE: device_identity.dfy ===
/**
 * The Android `DeviceIdentityStore`: the device identity kept in memory
 * and in `moltbot/identity/device.json`, the check that rejects a stored
 * identity with a blank field, the repair of a device id that does not
 * match its public key, the raw key taken out of an Ed25519 SPKI
 * encoding, and the lower-case hex text of a digest.
 *
 * Base64 decoding and SHA-256 are given to the store as functions; key
 * generation, the clock and the random fallback id are parameters.
 */
module DeviceIdentities {
  import opened Wrappers
  import opened Strings
  import Protocol

  /** A byte, read as unsigned (what `%02x` prints for a Java `byte`). */
  type Byte = b: int | 0 <= b < 256

  /** `DeviceIdentity`. */
  datatype DeviceIdentity = DeviceIdentity(deviceId: string, publicKeyRawBase64: string, privateKeyPkcs8Base64: string, createdAtMs: int)

  /** `ED25519_SPKI_PREFIX`: the DER header in front of a 32-byte Ed25519 public key. */
  const SPKI_PREFIX: seq<Byte> := [0x30, 0x2a, 0x30, 0x05, 0x06, 0x03, 0x2b, 0x65, 0x70, 0x03, 0x21, 0x00]

  /** `stripSpkiPrefix`: the raw 32-byte key of an Ed25519 SPKI encoding; any other input as it is. */
  function StripSpkiPrefix(spki: seq<Byte>): (r: seq<Byte>)
    ensures |spki| == |SPKI_PREFIX| + 32 && spki[..|SPKI_PREFIX|] == SPKI_PREFIX ==> |r| == 32 && spki == SPKI_PREFIX + r
    ensures !(|spki| == |SPKI_PREFIX| + 32 && spki[..|SPKI_PREFIX|] == SPKI_PREFIX) ==> r == spki
  {
    if |spki| == |SPKI_PREFIX| + 32 && spki[..|SPKI_PREFIX|] == SPKI_PREFIX then spki[|SPKI_PREFIX|..] else spki
  }

  /** The header put back in front of a raw key is taken off again. */
  lemma StripWrapped(raw: seq<Byte>)
    requires |raw| == 32
    ensures StripSpkiPrefix(SPKI_PREFIX + raw) == raw
  {
    assert (SPKI_PREFIX + raw)[..|SPKI_PREFIX|] == SPKI_PREFIX;
  }

  function HexDigit(n: int): (c: char)
    requires 0 <= n < 16
    ensures Protocol.IsLowerHex(c) && HexValue(c) == n
  {
    if n < 10 then ('0' as int + n) as char else ('a' as int + n - 10) as char
  }

  function HexValue(c: char): int {
    if '0' <= c <= '9' then c as int - '0' as int
    else if 'a' <= c <= 'f' then c as int - 'a' as int + 10
    else -1
  }

  /** `String.format("%02x", byte)`: two lower-case hex digits, high nibble first. */
  function HexByte(b: Byte): (r: string)
    ensures |r| == 2 && Protocol.IsLowerHex(r[0]) && Protocol.IsLowerHex(r[1])
    ensures 16 * HexValue(r[0]) + HexValue(r[1]) == b
  {
    [HexDigit(b / 16), HexDigit(b % 16)]
  }

  /** The hex text of a byte string, two digits per byte. */
  function Hex(bytes: seq<Byte>): (r: string)
    ensures |r| == 2 * |bytes|
    ensures forall i :: 0 <= i < |r| ==> Protocol.IsLowerHex(r[i])
  {
    if bytes == [] then [] else Hex(bytes[..|bytes| - 1]) + HexByte(bytes[|bytes| - 1])
  }

  /** Reading hex text back: two digits per byte; `None` for an odd length or a character that is not a lower-case hex digit. */
  function Unhex(s: string): Option<seq<Byte>> {
    if s == [] then Some([])
    else if |s| < 2 then None
    else
      var hi := HexValue(s[|s| - 2]);
      var lo := HexValue(s[|s| - 1]);
      if hi < 0 || lo < 0 then None
      else match Unhex(s[..|s| - 2])
        case None => None
        case Some(init) => Some(init + [16 * hi + lo])
  }

  /** The hex text of a digest reads back as that digest. */
  lemma {:induction false} UnhexHex(bytes: seq<Byte>)
    ensures Unhex(Hex(bytes)) == Some(bytes)
  {
    if bytes != [] {
      var init := bytes[..|bytes| - 1];
      var s := Hex(bytes);
      UnhexHex(init);
      assert s[..|s| - 2] == Hex(init);
      assert s[|s| - 2..] == HexByte(bytes[|bytes| - 1]);
      assert init + [bytes[|bytes| - 1]] == bytes;
    }
  }

  /** `sha256Hex`'s loop: each digest byte appended to the builder as two hex digits. */
  method HexOf(digest: seq<Byte>) returns (out: string)
    ensures out == Hex(digest)
  {
    out := [];
    var i := 0;
    while i < |digest|
      invariant 0 <= i <= |digest|
      invariant out == Hex(digest[..i])
    {
      assert digest[..i + 1][..i] == digest[..i];
      out := out + HexByte(digest[i]);
      i := i + 1;
    }
    assert digest[..|digest|] == digest;
  }

  /** `load`'s check: an identity read from the file is kept only when its id and both keys are non-blank. */
  function Load(file: Option<DeviceIdentity>): (r: Option<DeviceIdentity>)
    ensures r.Some? <==> (file.Some? && !IsBlank(file.value.deviceId) &&
      !IsBlank(file.value.publicKeyRawBase64) && !IsBlank(file.value.privateKeyPkcs8Base64))
    ensures r.Some? ==> r == file
  {
    match file
    case None => None
    case Some(d) =>
      if IsBlank(d.deviceId) || IsBlank(d.publicKeyRawBase64) || IsBlank(d.privateKeyPkcs8Base64) then None
      else file
  }

  /** The identity `generate` falls back to when Ed25519 is unavailable: a random id and no keys. */
  function Fallback(randomId: string, nowMs: int): (r: DeviceIdentity)
    ensures r.deviceId == randomId && r.createdAtMs == nowMs
    ensures r.publicKeyRawBase64 == [] && r.privateKeyPkcs8Base64 == []
  {
    DeviceIdentity(randomId, "", "", nowMs)
  }

  /** A saved fallback identity is rejected when it is read back, so the next start generates again. */
  lemma FallbackNotReloaded(randomId: string, nowMs: int)
    ensures Load(Some(Fallback(randomId, nowMs))) == None
  {
  }

  /** `maybeFixDeviceId`'s decision: the derived id replaces the stored one when there is one. */
  function Fixed(identity: DeviceIdentity, derived: Option<string>): (r: DeviceIdentity)
    ensures r.deviceId == (if derived.Some? then derived.value else identity.deviceId)
    ensures r.publicKeyRawBase64 == identity.publicKeyRawBase64 && r.privateKeyPkcs8Base64 == identity.privateKeyPkcs8Base64
    ensures r.createdAtMs == identity.createdAtMs
    ensures r == identity <==> derived.None? || derived.value == identity.deviceId
  {
    if derived.Some? && derived.value != identity.deviceId then identity.(deviceId := derived.value) else identity
  }

  /** Fixing an identity twice changes nothing the second time. */
  lemma FixedIdempotent(identity: DeviceIdentity, derived: Option<string>)
    ensures Fixed(Fixed(identity, derived), derived) == Fixed(identity, derived)
  {
  }

  /** `DeviceIdentityStore`. */
  class DeviceIdentityStore {
    /** Base64 decoding of the stored public key; `None` where it throws. */
    const decode: string -> Option<seq<Byte>>
    /** The SHA-256 digest. */
    const sha256: seq<Byte> -> seq<Byte>
    /** `cachedIdentity`. */
    var cached: Option<DeviceIdentity>
    /** What the identity file decodes to; `None` when it is missing or unreadable. */
    var file: Option<DeviceIdentity>

    constructor (decode: string -> Option<seq<Byte>>, sha256: seq<Byte> -> seq<Byte>, file: Option<DeviceIdentity>)
      ensures this.decode == decode && this.sha256 == sha256
      ensures cached.None? && this.file == file
    {
      this.decode := decode;
      this.sha256 := sha256;
      cached := None;
      this.file := file;
    }

    /** `deriveDeviceId`: the hex SHA-256 of the decoded public key, or nothing when decoding fails. */
    function Derive(publicKeyRawBase64: string): (r: Option<string>)
      ensures r.Some? <==> decode(publicKeyRawBase64).Some?
      ensures r.Some? ==> Unhex(r.value) == Some(sha256(decode(publicKeyRawBase64).value))
    {
      match decode(publicKeyRawBase64)
      case None => None
      case Some(raw) =>
        UnhexHex(sha256(raw));
        Some(Hex(sha256(raw)))
    }

    /** `maybeFixDeviceId`: a changed identity is saved and returned; otherwise the identity is returned as it is. */
    method MaybeFixDeviceId(identity: DeviceIdentity) returns (r: DeviceIdentity)
      modifies this`file
      ensures r == Fixed(identity, Derive(identity.publicKeyRawBase64))
      ensures file == if r == identity then old(file) else Some(r)
    {
      var derived := Derive(identity.publicKeyRawBase64);
      if derived.Some? && derived.value != identity.deviceId {
        r := identity.(deviceId := derived.value);
        file := Some(r);
      } else {
        r := identity;
      }
    }

    /**
     * The locked second check of `loadOrCreate`: the cached identity if
     * another caller set one, else the identity on disk, else the newly
     * generated one, which is saved.
     */
    method Settle(generated: DeviceIdentity) returns (r: DeviceIdentity)
      modifies this`cached, this`file
      ensures cached == Some(r)
      ensures old(cached).Some? ==> r == old(cached).value && file == old(file)
      ensures old(cached).None? && Load(old(file)).Some? ==>
        var loaded := Load(old(file)).value;
        r == Fixed(loaded, Derive(loaded.publicKeyRawBase64)) && file == (if r == loaded then old(file) else Some(r))
      ensures old(cached).None? && Load(old(file)).None? ==> r == generated && file == Some(generated)
    {
      if cached.Some? {
        return cached.value;
      }
      var diskCheck := Load(file);
      if diskCheck.Some? {
        r := MaybeFixDeviceId(diskCheck.value);
        cached := Some(r);
        return;
      }
      file := Some(generated);
      cached := Some(generated);
      r := generated;
    }

    /**
     * `loadOrCreate`: the cached identity if there is one; else the
     * identity on disk, repaired and cached; else `generated`, made
     * before the locked re-check.
     */
    method LoadOrCreate(generated: DeviceIdentity) returns (r: DeviceIdentity)
      modifies this`cached, this`file
      ensures cached == Some(r)
      ensures old(cached).Some? ==> r == old(cached).value && file == old(file)
      ensures old(cached).None? && Load(old(file)).Some? ==>
        var loaded := Load(old(file)).value;
        r == Fixed(loaded, Derive(loaded.publicKeyRawBase64)) && file == (if r == loaded then old(file) else Some(r))
      ensures old(cached).None? && Load(old(file)).None? ==> r == generated && file == Some(generated)
    {
      if cached.Some? {
        return cached.value;
      }
      var existing := Load(file);
      if existing.Some? {
        r := MaybeFixDeviceId(existing.value);
        cached := Some(r);
        return;
      }
      r := Settle(generated);
    }
  }
}

=== FILE: employee.dfy ===
/** The `employee.create` and `employee.update` handlers. */
module Employees {
  import opened Wrappers
  import opened Strings
  import opened Json
  import opened Protocol
  import opened Tables
  import opened Config

  /** The columns `employee.update` may set. */
  const EMPLOYEE_COLUMNS: set<string> := {"name", "department_id", "manager_id", "agent_profile", "skills_badge", "status"}

  /**
   * `buildMqttConnection`: what a new employee needs to log in to the broker.
   * A broker without `useTls` gives no `use_tls` property, as `JSON.stringify`
   * drops an undefined value.
   */
  function MqttConnection(broker: BrokerSettings, employeeId: string, password: string): (r: Obj)
    ensures DistinctKeys(r)
    ensures Get(r, "mqtt_username") == Some(JStr(employeeId))
    ensures Get(r, "mqtt_password") == Some(JStr(password))
    ensures Get(r, "client_id_scheme") == Some(JStr(employeeId + "_{device_id}_{uuid}"))
    ensures Get(r, "broker_host") == Some(JStr(broker.host)) && Get(r, "broker_port") == Some(JNum(broker.port))
    ensures Get(r, "use_tls") == broker.useTls
  {
    var head := [("broker_host", JStr(broker.host)), ("broker_port", JNum(broker.port))];
    var tls := if broker.useTls.Some? then [("use_tls", broker.useTls.value)] else [];
    var tail := [("mqtt_username", JStr(employeeId)), ("mqtt_password", JStr(password)),
                 ("client_id_scheme", JStr(employeeId + "_{device_id}_{uuid}"))];
    var r := head + tls + tail;
    assert DistinctKeys(r);
    GetDistinct(r, 0);
    GetDistinct(r, 1);
    GetDistinct(r, |r| - 3);
    GetDistinct(r, |r| - 2);
    GetDistinct(r, |r| - 1);
    assert Get(r, "use_tls") == broker.useTls by {
      if broker.useTls.Some? {
        GetDistinct(r, 2);
      } else {
        assert !HasKey(r, "use_tls");
      }
    }
    r
  }

  /**
   * The row `employee.create` inserts: status 'active', an agent profile
   * only for an AI agent whose profile is a truthy object, a skills badge
   * whenever one is given, and the string columns taken only from strings.
   */
  function NewEmployee(payload: Obj, name: string, password: string): (row: Employee)
    ensures row.name == JStr(name) && row.status == JStr("active") && row.mqttPassword == password
    ensures row.isAiAgent <==> Truthy(Get(payload, "is_ai_agent"))
    ensures row.agentProfile.Some? <==>
      Truthy(Get(payload, "is_ai_agent")) && Truthy(Get(payload, "agent_profile")) && IsTypeofObject(Get(payload, "agent_profile"))
    ensures row.agentProfile.Some? ==> row.agentProfile.value == Encoded(Get(payload, "agent_profile").value)
    ensures row.skillsBadge.Some? <==> !IsNullish(Get(payload, "skills_badge"))
    ensures row.skillsBadge.Some? ==> row.skillsBadge.value == Encoded(Get(payload, "skills_badge").value)
    ensures row.departmentId == StringOrNull(Get(payload, "department_id"))
    ensures row.managerId == StringOrNull(Get(payload, "manager_id"))
  {
    var isAiAgent := Truthy(Get(payload, "is_ai_agent"));
    var profile := Get(payload, "agent_profile");
    var badge := Get(payload, "skills_badge");
    Employee(
      JStr(name),
      StringOrNull(Get(payload, "department_id")),
      StringOrNull(Get(payload, "manager_id")),
      isAiAgent,
      if isAiAgent && Truthy(profile) && IsTypeofObject(profile) then Some(Encoded(profile.value)) else None,
      if !IsNullish(badge) then Some(Encoded(badge.value)) else None,
      password,
      JStr("active"))
  }

  /** The employee id `employee.create` uses: the requested one, or "emp_" and 12 hex digits of a UUID. */
  function CreatedId(payload: Obj, e: Entropy): (id: string)
    ensures NonEmptyString(payload, "employee_id").Some? ==> Get(payload, "employee_id") == Some(JStr(id))
    ensures NonEmptyString(payload, "employee_id").None? ==> |id| == 16 && StartsWith(id, "emp_")
  {
    match NonEmptyString(payload, "employee_id")
    case Some(id) => id
    case None => NewId("emp_", e.uuid1, 12)
  }

  /** What `handleEmployeeCreate` leaves behind, as its contract: the reply and the tables afterwards. */
  twostate predicate EmployeeCreateDone(ctx: ReqContext, db: Db, broker: BrokerSettings, e: Entropy, o: Outcome)
    reads db
  {
    var name := NonEmptyString(ctx.payload, "name");
    var given := NonEmptyString(ctx.payload, "employee_id");
    var id := CreatedId(ctx.payload, e);
    var password := NewId("mqtt_", e.uuid2, 16);
    if name.None? then
      o == Returned(Fail(BAD_REQUEST, "Missing name")) && db.employees == old(db.employees)
    else if given.Some? && id in old(db.employees) then
      o == Returned(Fail(BAD_REQUEST, "employee_id already exists")) && db.employees == old(db.employees)
    else if id in old(db.employees) then
      o == Threw && db.employees == old(db.employees)
    else
      db.employees == old(db.employees)[id := NewEmployee(ctx.payload, name.value, password)] &&
      o == Returned(Ok([("employee_id", JStr(id)), ("name", JStr(name.value)), ("created_at", JStr(e.nowIso)),
                        ("mqtt_connection", JObj(MqttConnection(broker, id, password)))]))
  }

  /**
   * `handleEmployeeCreate`. A generated id that collides with an existing
   * row makes the INSERT, and so the handler, fail.
   */
  method HandleEmployeeCreate(ctx: ReqContext, db: Db, broker: BrokerSettings, e: Entropy) returns (o: Outcome)
    modifies db`employees
    ensures EmployeeCreateDone(ctx, db, broker, e, o)
  {
    var name := NonEmptyString(ctx.payload, "name");
    if name.None? {
      return Returned(Fail(BAD_REQUEST, "Missing name"));
    }
    var given := NonEmptyString(ctx.payload, "employee_id");
    var id := CreatedId(ctx.payload, e);
    if given.Some? && id in db.employees {
      return Returned(Fail(BAD_REQUEST, "employee_id already exists"));
    }
    var password := NewId("mqtt_", e.uuid2, 16);
    if id in db.employees {
      return Threw;
    }
    db.employees := db.employees[id := NewEmployee(ctx.payload, name.value, password)];
    o := Returned(Ok([("employee_id", JStr(id)), ("name", JStr(name.value)), ("created_at", JStr(e.nowIso)),
                      ("mqtt_connection", JObj(MqttConnection(broker, id, password)))]));
  }

  /** One `k = ?` assignment of the UPDATE; the two JSON text columns receive `JSON.stringify(v)`. */
  function SetColumn(row: Employee, kv: (string, Json)): Employee {
    var (k, v) := kv;
    if k == "name" then row.(name := v)
    else if k == "department_id" then row.(departmentId := v)
    else if k == "manager_id" then row.(managerId := v)
    else if k == "agent_profile" then row.(agentProfile := Some(Encoded(v)))
    else if k == "skills_badge" then row.(skillsBadge := Some(Encoded(v)))
    else if k == "status" then row.(status := v)
    else row
  }

  /** The UPDATE statement's assignments, applied left to right. */
  function ApplyEmployee(row: Employee, sets: Obj): Employee
    decreases |sets|
  {
    if sets == [] then row else SetColumn(ApplyEmployee(row, sets[..|sets| - 1]), sets[|sets| - 1])
  }

  /** Each plain column ends with the value assigned to it last, or keeps its old value. */
  lemma {:induction false} ApplyEmployeePlain(row: Employee, sets: Obj)
    ensures var r := ApplyEmployee(row, sets);
      r.name == Get(sets, "name").GetOr(row.name) &&
      r.departmentId == Get(sets, "department_id").GetOr(row.departmentId) &&
      r.managerId == Get(sets, "manager_id").GetOr(row.managerId) &&
      r.status == Get(sets, "status").GetOr(row.status)
    decreases |sets|
  {
    if sets != [] {
      ApplyEmployeePlain(row, sets[..|sets| - 1]);
    }
  }

  /**
   * The two JSON text columns end with the text of the value assigned last,
   * or keep their old text; the agent flag and the MQTT password are never
   * assigned.
   */
  lemma {:induction false} ApplyEmployeeEncoded(row: Employee, sets: Obj)
    ensures var r := ApplyEmployee(row, sets);
      r.agentProfile == (if HasKey(sets, "agent_profile") then Some(Encoded(Get(sets, "agent_profile").value)) else row.agentProfile) &&
      r.skillsBadge == (if HasKey(sets, "skills_badge") then Some(Encoded(Get(sets, "skills_badge").value)) else row.skillsBadge) &&
      r.isAiAgent == row.isAiAgent && r.mqttPassword == row.mqttPassword
    decreases |sets|
  {
    if sets != [] {
      ApplyEmployeeEncoded(row, sets[..|sets| - 1]);
    }
  }

  /**
   * `employee.update` sets exactly the allowed columns present in
   * `updates`, each to the request's value (JSON text for the profile and
   * the badge); every other column, including `is_ai_agent` and the MQTT
   * password, keeps its value.
   */
  lemma EmployeeUpdateColumns(row: Employee, updates: Obj)
    ensures var r := ApplyEmployee(row, SetList(updates, EMPLOYEE_COLUMNS));
      r.name == Get(updates, "name").GetOr(row.name) &&
      r.departmentId == Get(updates, "department_id").GetOr(row.departmentId) &&
      r.managerId == Get(updates, "manager_id").GetOr(row.managerId) &&
      r.status == Get(updates, "status").GetOr(row.status) &&
      r.agentProfile == (if HasKey(updates, "agent_profile") then Some(Encoded(Get(updates, "agent_profile").value)) else row.agentProfile) &&
      r.skillsBadge == (if HasKey(updates, "skills_badge") then Some(Encoded(Get(updates, "skills_badge").value)) else row.skillsBadge) &&
      r.isAiAgent == row.isAiAgent && r.mqttPassword == row.mqttPassword
  {
    var sets := SetList(updates, EMPLOYEE_COLUMNS);
    ApplyEmployeePlain(row, sets);
    ApplyEmployeeEncoded(row, sets);
    GetSetList(updates, EMPLOYEE_COLUMNS, "name");
    GetSetList(updates, EMPLOYEE_COLUMNS, "department_id");
    GetSetList(updates, EMPLOYEE_COLUMNS, "manager_id");
    GetSetList(updates, EMPLOYEE_COLUMNS, "status");
    GetSetList(updates, EMPLOYEE_COLUMNS, "agent_profile");
    GetSetList(updates, EMPLOYEE_COLUMNS, "skills_badge");
  }

  /** What `handleEmployeeUpdate` leaves behind, as its contract: the reply and the tables afterwards. */
  twostate predicate EmployeeUpdateDone(ctx: ReqContext, db: Db, e: Entropy, r: RespPayload)
    reads db
  {
    var req := UpdateRequest(ctx.payload, "employee_id");
    if req.None? then
      r == Fail(BAD_REQUEST, "Missing employee_id or updates") && db.employees == old(db.employees)
    else if SetList(req.value.1, EMPLOYEE_COLUMNS) == [] then
      r == Fail(BAD_REQUEST, "No valid updates") && db.employees == old(db.employees)
    else
      var id := req.value.0;
      r == Ok([("employee_id", JStr(id)), ("updated_at", JStr(e.nowIso))]) &&
      db.employees == if id in old(db.employees)
        then old(db.employees)[id := ApplyEmployee(old(db.employees)[id], SetList(req.value.1, EMPLOYEE_COLUMNS))]
        else old(db.employees)
  }

  /**
   * `handleEmployeeUpdate`: with no allowed key nothing is written; otherwise
   * the row, if it exists, receives the assignments (an absent row is no error).
   */
  method HandleEmployeeUpdate(ctx: ReqContext, db: Db, e: Entropy) returns (r: RespPayload)
    modifies db`employees
    ensures EmployeeUpdateDone(ctx, db, e, r)
  {
    var req := UpdateRequest(ctx.payload, "employee_id");
    if req.None? {
      return Fail(BAD_REQUEST, "Missing employee_id or updates");
    }
    var (id, updates) := req.value;
    var sets := CollectSetList(updates, EMPLOYEE_COLUMNS);
    if sets == [] {
      return Fail(BAD_REQUEST, "No valid updates");
    }
    if id in db.employees {
      db.employees := db.employees[id := ApplyEmployee(db.employees[id], sets)];
    }
    r := Ok([("employee_id", JStr(id)), ("updated_at", JStr(e.nowIso))]);
  }
}

=== FILE: gateway.dfy ===
/**
 * The MQTT gateway of the server: the subscription it takes, the checks
 * its message callback applies to a request before routing it, and the
 * response envelope it publishes.
 */
module Gateway {
  import opened Wrappers
  import opened Strings
  import opened Json
  import opened Protocol
  import opened Tables
  import opened Session
  import opened Config
  import opened Router
  import Agents

  /** The subscription filter for all requests: two single-level wildcards. */
  const REQ_FILTER := "mchat/msg/req/+/+"

  /** The topic a client publishes request `seqId` on. */
  function ReqTopic(clientId: string, seqId: string): string {
    REQ_TOPIC_PREFIX + clientId + "/" + seqId
  }

  /** `respTopic`: the request's topic with `req` replaced by `resp`. */
  function RespTopic(clientId: string, seqId: string): (r: string)
    ensures r == RESP_TOPIC_PREFIX + ReqTopic(clientId, seqId)[|REQ_TOPIC_PREFIX|..]
  {
    RESP_TOPIC_PREFIX + clientId + "/" + seqId
  }

  /**
   * The topic checks of the message callback: the request prefix, then
   * non-empty first and second segments of the rest, which are the client
   * id and the sequence id; further segments are ignored.
   */
  function ParseReqTopic(topic: string): (r: Option<(string, string)>)
    ensures r.Some? ==> StartsWith(topic, REQ_TOPIC_PREFIX)
    ensures r.Some? ==> r.value.0 != "" && r.value.1 != "" && '/' !in r.value.0 && '/' !in r.value.1
  {
    if !StartsWith(topic, REQ_TOPIC_PREFIX) then None
    else
      var parts := Split(topic[|REQ_TOPIC_PREFIX|..], '/');
      if parts[0] == "" || |parts| < 2 || parts[1] == "" then None
      else Some((parts[0], parts[1]))
  }

  /** A request topic gives back the client id and sequence id it was built from. */
  lemma ParseReqTopicRoundTrip(clientId: string, seqId: string)
    requires clientId != "" && seqId != "" && '/' !in clientId && '/' !in seqId
    ensures ParseReqTopic(ReqTopic(clientId, seqId)) == Some((clientId, seqId))
  {
    var t := ReqTopic(clientId, seqId);
    assert StartsWith(t, REQ_TOPIC_PREFIX);
    assert t[|REQ_TOPIC_PREFIX|..] == Join([clientId, seqId], '/');
    SplitJoin([clientId, seqId], '/');
  }

  /** Topic levels against filter levels, where `+` matches any one level (OASIS MQTT 3.1.1 section 4.7.1.3). */
  predicate LevelsMatch(filter: seq<string>, topic: seq<string>) {
    |filter| == |topic| && forall i :: 0 <= i < |filter| ==> filter[i] == "+" || filter[i] == topic[i]
  }

  predicate TopicMatches(filter: string, topic: string) {
    LevelsMatch(Split(filter, '/'), Split(topic, '/'))
  }

  lemma RequestFilterLevels()
    ensures Split(REQ_FILTER, '/') == ["mchat", "msg", "req", "+", "+"]
  {
    var levels := ["mchat", "msg", "req", "+", "+"];
    assert Join(levels, '/') == REQ_FILTER;
    assert forall k :: 0 <= k < |levels| ==> '/' !in levels[k];
    SplitJoin(levels, '/');
  }

  /** A request topic is its five levels joined by '/'. */
  lemma ReqTopicJoin(c: string, s: string)
    ensures Join(["mchat", "msg", "req", c, s], '/') == ReqTopic(c, s)
  {
    var levels := ["mchat", "msg", "req", c, s];
    assert levels[1..][1..][1..][1..] == [s];
    assert Join(levels[1..][1..][1..], '/') == c + "/" + s;
    assert Join(levels[1..][1..], '/') == "req/" + c + "/" + s;
    assert Join(levels[1..], '/') == "msg/req/" + c + "/" + s;
    assert Join(levels, '/') == "mchat/msg/req/" + c + "/" + s;
  }

  /** The levels of a request topic. */
  lemma ReqTopicLevels(c: string, s: string)
    requires '/' !in c && '/' !in s
    ensures Split(ReqTopic(c, s), '/') == ["mchat", "msg", "req", c, s]
  {
    var levels := ["mchat", "msg", "req", c, s];
    ReqTopicJoin(c, s);
    assert forall k :: 0 <= k < |levels| ==> '/' !in levels[k];
    SplitJoin(levels, '/');
  }

  /** The gateway answers a request topic exactly when its client and sequence levels are non-empty. */
  lemma ParseReqTopicLevels(c: string, s: string)
    requires '/' !in c && '/' !in s
    ensures ParseReqTopic(ReqTopic(c, s)).Some? <==> c != "" && s != ""
  {
    var t := ReqTopic(c, s);
    assert StartsWith(t, REQ_TOPIC_PREFIX);
    assert t[|REQ_TOPIC_PREFIX|..] == Join([c, s], '/');
    SplitJoin([c, s], '/');
  }

  /** A topic the request filter matches is a request topic. */
  lemma MatchedIsReqTopic(topic: string, parts: seq<string>)
    requires parts == Split(topic, '/')
    requires LevelsMatch(["mchat", "msg", "req", "+", "+"], parts)
    ensures |parts| == 5 && '/' !in parts[3] && '/' !in parts[4] && topic == ReqTopic(parts[3], parts[4])
  {
    var filter := ["mchat", "msg", "req", "+", "+"];
    assert |parts| == 5;
    assert parts[0] == filter[0] && parts[1] == filter[1] && parts[2] == filter[2];
    assert parts == ["mchat", "msg", "req", parts[3], parts[4]];
    JoinSplit(topic, '/');
    ReqTopicJoin(parts[3], parts[4]);
  }

  /** The request filter delivers every request topic whose two last levels hold no '/'. */
  lemma ReqTopicDelivered(c: string, s: string)
    requires '/' !in c && '/' !in s
    ensures TopicMatches(REQ_FILTER, ReqTopic(c, s))
  {
    RequestFilterLevels();
    ReqTopicLevels(c, s);
  }

  /**
   * Conversely, what the request filter delivers is `mchat/msg/req/<c>/<s>`
   * for the topic's fourth and fifth levels, and the gateway answers it
   * exactly when both are non-empty; otherwise it drops it without a reply.
   */
  lemma RequestFilterDelivers(topic: string)
    requires TopicMatches(REQ_FILTER, topic)
    ensures var parts := Split(topic, '/');
      |parts| == 5 && '/' !in parts[3] && '/' !in parts[4] && topic == ReqTopic(parts[3], parts[4]) &&
      (ParseReqTopic(topic).Some? <==> parts[3] != "" && parts[4] != "")
  {
    RequestFilterLevels();
    var parts := Split(topic, '/');
    MatchedIsReqTopic(topic, parts);
    ParseReqTopicLevels(parts[3], parts[4]);
  }

  /** The subscription: a shared one (`$share/<group>/…`, MQTT 5.0 section 4.8.2) when `shareSubscription` is truthy. */
  function SubscribeFilter(shareSubscription: Option<Json>): (r: string)
    ensures !Truthy(shareSubscription) ==> r == REQ_FILTER
  {
    if Truthy(shareSubscription) then "$share/" + JsString(shareSubscription.value) + "/" + REQ_FILTER else REQ_FILTER
  }

  /** The topic filter of a subscription once the `$share/<name>/` part is taken off (MQTT 5.0 section 4.8.2). */
  function EffectiveFilter(f: string): string {
    if StartsWith(f, "$share/") then
      match IndexOfFrom(f, '/', 7)
      case Some(i) => f[i + 1..]
      case None => f
    else f
  }

  /** Shared or not, the gateway receives the topics of the request filter. */
  lemma SharedSubscriptionFilter(group: string)
    requires group != [] && '/' !in group
    ensures EffectiveFilter(SubscribeFilter(Some(JStr(group)))) == REQ_FILTER
  {
    var f := SubscribeFilter(Some(JStr(group)));
    assert f == "$share/" + group + "/" + REQ_FILTER;
    assert StartsWith(f, "$share/");
    var i := 7 + |group|;
    assert f[i] == '/';
    assert forall j :: 7 <= j < i ==> f[j] == group[j - 7];
    assert IndexOfFrom(f, '/', 7) == Some(i);
    assert f[i + 1..] == REQ_FILTER;
  }

  /**
   * `publishResponse`'s body `{code, message, data: data ?? {}}`: `data`
   * is always present, an empty object when the result has none.
   */
  function Envelope(code: int, message: string, data: Option<Json>): (r: Json)
    ensures r.JObj? && HasKey(r.fields, "data")
    ensures Get(r.fields, "code") == Some(JNum(code)) && Get(r.fields, "message") == Some(JStr(message))
    ensures Get(r.fields, "data") == Some(if IsNullish(data) then JObj([]) else data.value)
  {
    var f := [("code", JNum(code)), ("message", JStr(message)), ("data", Coalesce(data, Some(JObj([]))).value)];
    assert DistinctKeys(f);
    GetDistinct(f, 0);
    GetDistinct(f, 1);
    GetDistinct(f, 2);
    JObj(f)
  }

  /**
   * The reply to a routed request: the router's result unchanged, or 500
   * when a handler threw. A result that is not a reply has neither `code`
   * nor `message`, which `JSON.stringify` leaves out, and `data` falls back to `{}`.
   */
  function Reply(o: Outcome): (r: Json)
    ensures o.Threw? ==> r == Envelope(SERVER_ERROR, "Server error", None)
    ensures o.Returned? ==> r == Envelope(o.resp.code, o.resp.message, o.resp.data)
    ensures o.NotAReply? ==> r.JObj? && !HasKey(r.fields, "code") && !HasKey(r.fields, "message") && Get(r.fields, "data") == Some(JObj([]))
  {
    match o
    case Threw => Envelope(SERVER_ERROR, "Server error", None)
    case Returned(resp) => Envelope(resp.code, resp.message, resp.data)
    case NotAReply => JObj([("data", JObj([]))])
  }

  /** What the message callback does with a request before routing it. */
  datatype Admission =
    | Drop
    | Answer(topic: string, envelope: Json)
    | Forward(clientId: string, seqId: string, action: string, body: Obj)

  /**
   * The callback's checks in order: the topic, then the JSON, then the
   * action. Reading `action` off a body that parsed to `null` throws,
   * which the callback turns into a 500.
   */
  function Admit(topic: string, payload: Raw): (a: Admission)
    ensures ParseReqTopic(topic).None? <==> a.Drop?
    ensures a.Answer? ==> a.topic == RespTopic(ParseReqTopic(topic).value.0, ParseReqTopic(topic).value.1)
    ensures a.Forward? ==> ParseReqTopic(topic) == Some((a.clientId, a.seqId))
    ensures ParseReqTopic(topic).Some? && payload.Malformed? ==> a.Answer? && a.envelope == Envelope(BAD_REQUEST, "Invalid JSON", None)
    ensures a.Forward? <==> ParseReqTopic(topic).Some? && payload.Parsed? && NonEmptyString(Entries(payload.value), "action").Some? && payload.value.JObj?
    ensures a.Forward? ==> payload == Parsed(JObj(a.body)) && Get(a.body, "action") == Some(JStr(a.action)) && a.action != ""
    ensures ParseReqTopic(topic).Some? && payload.Parsed? && payload.value.JObj? && NonEmptyString(payload.value.fields, "action").None? ==>
      a.Answer? && a.envelope == Envelope(BAD_REQUEST, "Missing action", None)
  {
    match ParseReqTopic(topic)
    case None => Drop
    case Some((c, s)) =>
      match payload
      case Malformed => Answer(RespTopic(c, s), Envelope(BAD_REQUEST, "Invalid JSON", None))
      case Parsed(body) =>
        if body.JNull? then Answer(RespTopic(c, s), Envelope(SERVER_ERROR, "Server error", None))
        else if !body.JObj? || NonEmptyString(body.fields, "action").None? then
          Answer(RespTopic(c, s), Envelope(BAD_REQUEST, "Missing action", None))
        else Forward(c, s, NonEmptyString(body.fields, "action").value, body.fields)
  }

  /**
   * A bound client that sends the action "toString" reaches an inherited
   * member through the table as written and gets a reply without a code;
   * looking up only the table's own entries gives the intended 400.
   */
  lemma InheritedActionFinding()
    ensures HandlerLookupAsWritten("toString") == Inherited("toString")
    ensures RouteAsWritten(Some("emp_1"), "toString") == CallInherited("toString")
    ensures var r := Reply(InheritedOutcome("toString")); r.JObj? && !HasKey(r.fields, "code")
    ensures Route(Some("emp_1"), "toString") == Reject(Fail(BAD_REQUEST, "Unknown action: toString"))
    ensures Reply(Returned(Route(Some("emp_1"), "toString").resp)) == Envelope(BAD_REQUEST, "Unknown action: toString", None)
  {
  }

  /** The server process: its tables, its session directory and its broker connection. */
  class Server {
    const settings: BrokerSettings
    const db: Db
    const sessions: SessionStore
    const broker: Broker

    constructor (settings: BrokerSettings)
      ensures this.settings == settings && fresh(db) && fresh(sessions) && fresh(broker)
      ensures broker.log == [] && sessions.rows == map[]
    {
      this.settings := settings;
      db := new Db();
      sessions := new SessionStore();
      broker := new Broker();
    }

    /**
     * The message callback. A dropped request gets no reply; an answered
     * one gets exactly its one reply; a forwarded one is routed, and the
     * router's result is published last, on the response topic, after
     * whatever the handler itself published, with the handler's own result
     * and effects. `routed` is the router's result; `accepted` is the
     * broker's answer to a handler's push.
     */
    method OnMessage(topic: string, payload: Raw, e: Entropy, accepted: bool, agentRows: seq<Agents.AgentRow>, elsewhere: Outcome)
      returns (routed: Option<Outcome>)
      modifies db, sessions, broker
      ensures match Admit(topic, payload)
        case Drop =>
          routed.None? && unchanged(db) && unchanged(sessions) && unchanged(broker)
        case Answer(t, envelope) =>
          routed.None? && unchanged(db) && unchanged(sessions) && broker.log == old(broker.log) + [Publication(t, envelope)]
        case Forward(c, s, action, body) =>
          routed.Some? &&
          |broker.log| > |old(broker.log)| && broker.log[..|old(broker.log)|] == old(broker.log) &&
          broker.log[|broker.log| - 1] == Publication(RespTopic(c, s), Reply(routed.value)) &&
          match RouteAsWritten(old(sessions.EmployeeIdOf(c)), action)
          case Reject(resp) =>
            routed.value == Returned(resp) && unchanged(db) && unchanged(sessions) && |broker.log| == |old(broker.log)| + 1
          case CallInherited(name) =>
            routed.value == InheritedOutcome(name) && unchanged(db) && unchanged(sessions) && |broker.log| == |old(broker.log)| + 1
          case Dispatch(h) =>
            HandlerDone(h, Context(c, s, action, body, old(sessions.EmployeeIdOf(c))), db, sessions, settings, e,
                        accepted, agentRows, elsewhere, old(broker.log), broker.log[..|broker.log| - 1], routed.value)
    {
      var a := Admit(topic, payload);
      match a {
        case Drop =>
          routed := None;
        case Answer(t, envelope) =>
          broker.Publish(t, envelope);
          routed := None;
        case Forward(c, s, action, body) =>
          var o := RouteRequest(db, sessions, broker, settings, c, s, action, body, e, accepted, agentRows, elsewhere);
          broker.Publish(RespTopic(c, s), Reply(o));
          routed := Some(o);
      }
    }
  }
}

=== FILE: group.dfy ===
/** The `group.create`, `group.dismiss`, `group.member_add` and `group.member_remove` handlers. */
module Group {
  import opened Wrappers
  import opened Json
  import opened Protocol
  import opened Tables

  /** The string elements of a JSON array, in order. */
  function StringItems(items: seq<Json>): (r: seq<string>)
    ensures |r| <= |items|
    ensures forall s :: s in r <==> JStr(s) in items
  {
    if items == [] then []
    else
      var rest := StringItems(items[..|items| - 1]);
      assert items == items[..|items| - 1] + [items[|items| - 1]];
      match items[|items| - 1]
      case JStr(s) => rest + [s]
      case _ => rest
  }

  /** `parseMemberIds`: the string elements of `member_ids`, or nothing when it is not an array. */
  function MemberIds(payload: Obj): (r: seq<string>)
    ensures forall s :: s in r <==> Get(payload, "member_ids").Some? && Get(payload, "member_ids").value.JArr? && JStr(s) in Get(payload, "member_ids").value.items
  {
    match Get(payload, "member_ids")
    case Some(JArr(items)) => StringItems(items)
    case _ => []
  }

  predicate NoDuplicates(xs: seq<string>) {
    forall i, j :: 0 <= i < j < |xs| ==> xs[i] != xs[j]
  }

  /** `[...new Set(xs)]`: each element once, at its first occurrence. */
  function Distinct(xs: seq<string>): (r: seq<string>)
    ensures NoDuplicates(r)
    ensures forall x :: x in r <==> x in xs
    ensures xs != [] ==> r != [] && r[0] == xs[0]
  {
    if xs == [] then []
    else
      var d := Distinct(xs[..|xs| - 1]);
      assert xs == xs[..|xs| - 1] + [xs[|xs| - 1]];
      if xs[|xs| - 1] in d then d else d + [xs[|xs| - 1]]
  }

  /** A sequence without duplicates has as many distinct elements as it has elements. */
  lemma {:induction false} DistinctCount(xs: seq<string>)
    requires NoDuplicates(xs)
    ensures |set x | x in xs| == |xs|
  {
    if xs != [] {
      var init := xs[..|xs| - 1];
      DistinctCount(init);
      assert xs[|xs| - 1] !in init;
      assert (set x | x in xs) == (set x | x in init) + {xs[|xs| - 1]};
    }
  }

  /** The `group_member` rows for `ids` in group `gid`; `owner` gets the owner role. */
  function Roles(gid: string, ids: seq<string>, owner: string): map<Member, Role> {
    map e | e in ids :: Member(gid, e) := if e == owner then Owner else Plain
  }

  lemma RolesStep(gid: string, all: seq<string>, i: nat)
    requires NoDuplicates(all) && i < |all|
    ensures Roles(gid, all[..i + 1], all[0]) ==
      Roles(gid, all[..i], all[0])[Member(gid, all[i]) := if i == 0 then Owner else Plain]
  {
    assert all[..i + 1] == all[..i] + [all[i]];
    assert all[i] == all[0] <==> i == 0;
  }

  lemma MergeUpdate(a: map<Member, Role>, b: map<Member, Role>, k: Member, v: Role)
    ensures (a + b)[k := v] == a + b[k := v]
  {
  }

  /**
   * The INSERT loop of `handleGroupCreate`: rows for `all` in order, the
   * first one as owner. A row that already exists stops the loop (the
   * INSERT fails); `inserted` says how many went in.
   */
  method InsertMembers(db: Db, gid: string, all: seq<string>) returns (inserted: nat)
    requires NoDuplicates(all)
    modifies db`members
    ensures inserted <= |all|
    ensures all != [] ==> db.members == old(db.members) + Roles(gid, all[..inserted], all[0])
    ensures all == [] ==> db.members == old(db.members)
    ensures forall j :: 0 <= j < inserted ==> Member(gid, all[j]) !in old(db.members)
    ensures inserted < |all| ==> Member(gid, all[inserted]) in old(db.members)
  {
    inserted := 0;
    while inserted < |all|
      invariant inserted <= |all|
      invariant all != [] ==> db.members == old(db.members) + Roles(gid, all[..inserted], all[0])
      invariant all == [] ==> db.members == old(db.members)
      invariant forall j :: 0 <= j < inserted ==> Member(gid, all[j]) !in old(db.members)
    {
      var m := Member(gid, all[inserted]);
      if m in db.members {
        assert all[inserted] !in all[..inserted];
        assert m !in Roles(gid, all[..inserted], all[0]);
        return;
      }
      RolesStep(gid, all, inserted);
      MergeUpdate(old(db.members), Roles(gid, all[..inserted], all[0]), m, if inserted == 0 then Owner else Plain);
      db.members := db.members[m := if inserted == 0 then Owner else Plain];
      inserted := inserted + 1;
    }
  }

  /** What `handleGroupCreate` leaves behind, as its contract: the reply and the tables afterwards. */
  twostate predicate GroupCreateDone(ctx: ReqContext, db: Db, e: Entropy, o: Outcome)
    requires ctx.employeeId.Some?
    reads db
  {
    var name := NonEmptyString(ctx.payload, "name");
    var gid := NewId("grp_", e.uuid1, 12);
    var all := Distinct([ctx.employeeId.value] + MemberIds(ctx.payload));
    if name.None? then
      o == Returned(Fail(BAD_REQUEST, "Missing name")) && db.groups == old(db.groups) && db.members == old(db.members)
    else if gid in old(db.groups) then
      o == Threw && db.groups == old(db.groups) && db.members == old(db.members)
    else
      db.groups == old(db.groups)[gid := Group(name.value, ctx.employeeId.value,
        AsString(Prop(Get(ctx.payload, "opts"), "description")), AsString(Prop(Get(ctx.payload, "opts"), "avatar")))] &&
      (o.Returned? ==>
        db.members == old(db.members) + Roles(gid, all, ctx.employeeId.value) &&
        o.resp == Ok([("group_id", JStr(gid)), ("name", JStr(name.value)),
          ("member_ids", JArr(seq(|all|, i requires 0 <= i < |all| => JStr(all[i])))), ("created_at", JStr(e.nowIso))])) &&
      (o.Threw? <==> exists m :: m in all && Member(gid, m) in old(db.members))
  }

  /**
   * `handleGroupCreate`: a new group whose creator is the caller, with the
   * caller as owner followed by the requested members, each once.
   */
  method HandleGroupCreate(ctx: ReqContext, db: Db, e: Entropy) returns (o: Outcome)
    requires ctx.employeeId.Some?
    modifies db`groups, db`members
    ensures GroupCreateDone(ctx, db, e, o)
  {
    var name := NonEmptyString(ctx.payload, "name");
    if name.None? {
      return Returned(Fail(BAD_REQUEST, "Missing name"));
    }
    var gid := NewId("grp_", e.uuid1, 12);
    if gid in db.groups {
      return Threw;
    }
    var opts := Get(ctx.payload, "opts");
    db.groups := db.groups[gid := Group(name.value, ctx.employeeId.value, AsString(Prop(opts, "description")), AsString(Prop(opts, "avatar")))];
    var all := Distinct([ctx.employeeId.value] + MemberIds(ctx.payload));
    var inserted := InsertMembers(db, gid, all);
    if inserted < |all| {
      return Threw;
    }
    assert all[..inserted] == all;
    o := Returned(Ok([("group_id", JStr(gid)), ("name", JStr(name.value)),
      ("member_ids", JArr(seq(|all|, i requires 0 <= i < |all| => JStr(all[i])))), ("created_at", JStr(e.nowIso))]));
  }

  /** Every `group_member` row of group `gid`. */
  function RowsOf(members: map<Member, Role>, gid: string): set<Member> {
    set m | m in members && m.groupId == gid
  }

  /** What `handleGroupDismiss` leaves behind, as its contract: the reply and the tables afterwards. */
  twostate predicate GroupDismissDone(ctx: ReqContext, db: Db, e: Entropy, r: RespPayload)
    reads db
  {
    var gid := NonEmptyString(ctx.payload, "group_id");
    if gid.None? then
      r == Fail(BAD_REQUEST, "Missing group_id") && db.groups == old(db.groups) && db.members == old(db.members)
    else if gid.value !in old(db.groups) then
      r == Fail(NOT_FOUND, "Group not found") && db.groups == old(db.groups) && db.members == old(db.members)
    else if Some(old(db.groups)[gid.value].creator) != ctx.employeeId then
      r == Fail(FORBIDDEN, "Only creator can dismiss") && db.groups == old(db.groups) && db.members == old(db.members)
    else
      db.members == old(db.members) - RowsOf(old(db.members), gid.value) &&
      db.groups == old(db.groups) - {gid.value} &&
      r == Ok([("group_id", JStr(gid.value)), ("dismissed_at", JStr(e.nowIso))])
  }

  /** `handleGroupDismiss`: only the creator can dismiss; the group and all its member rows go. */
  method HandleGroupDismiss(ctx: ReqContext, db: Db, e: Entropy) returns (r: RespPayload)
    modifies db`groups, db`members
    ensures GroupDismissDone(ctx, db, e, r)
  {
    var gid := NonEmptyString(ctx.payload, "group_id");
    if gid.None? {
      return Fail(BAD_REQUEST, "Missing group_id");
    }
    if gid.value !in db.groups {
      return Fail(NOT_FOUND, "Group not found");
    }
    if Some(db.groups[gid.value].creator) != ctx.employeeId {
      return Fail(FORBIDDEN, "Only creator can dismiss");
    }
    db.members := db.members - RowsOf(db.members, gid.value);
    db.groups := db.groups - {gid.value};
    r := Ok([("group_id", JStr(gid.value)), ("dismissed_at", JStr(e.nowIso))]);
  }

  /** The ids of `ids` that the add loop inserts, in order: those without a row yet, each once. */
  function Added(members: map<Member, Role>, gid: string, ids: seq<string>): (r: seq<string>)
    ensures NoDuplicates(r)
    ensures forall x :: x in r <==> x in ids && Member(gid, x) !in members
  {
    if ids == [] then []
    else
      var d := Added(members, gid, ids[..|ids| - 1]);
      var x := ids[|ids| - 1];
      assert ids == ids[..|ids| - 1] + [x];
      if x in d || Member(gid, x) in members then d else d + [x]
  }

  /** The rows the add loop inserts: the added ids, as plain members. */
  function AddedRows(gid: string, added: seq<string>): map<Member, Role> {
    map x | x in added :: Member(gid, x) := Plain
  }

  /**
   * The add loop: each id without a row is inserted as a plain member and
   * reported; ids that already have a row, including repeats within the
   * request, are skipped.
   */
  method AddMembers(db: Db, gid: string, ids: seq<string>) returns (added: seq<string>)
    modifies db`members
    ensures added == Added(old(db.members), gid, ids)
    ensures db.members == old(db.members) + AddedRows(gid, added)
  {
    added := [];
    var i := 0;
    while i < |ids|
      invariant i <= |ids|
      invariant added == Added(old(db.members), gid, ids[..i])
      invariant db.members == old(db.members) + AddedRows(gid, added)
    {
      var x := ids[i];
      assert ids[..i + 1][..i] == ids[..i];
      InAddedRows(old(db.members), gid, added, x);
      if Member(gid, x) !in db.members {
        AddedRowsSnoc(old(db.members), gid, added, x);
        db.members := db.members[Member(gid, x) := Plain];
        added := added + [x];
      }
      i := i + 1;
    }
    assert ids[..|ids|] == ids;
  }

  lemma InAddedRows(members: map<Member, Role>, gid: string, added: seq<string>, x: string)
    ensures Member(gid, x) in members + AddedRows(gid, added) <==> Member(gid, x) in members || x in added
  {
  }

  lemma AddedRowsSnoc(members: map<Member, Role>, gid: string, added: seq<string>, x: string)
    ensures members + AddedRows(gid, added + [x]) == (members + AddedRows(gid, added))[Member(gid, x) := Plain]
  {
  }

  lemma AddedRowsKeys(gid: string, added: seq<string>)
    ensures forall x :: Member(gid, x) in AddedRows(gid, added) <==> x in added
  {
    forall x | x in added ensures Member(gid, x) in AddedRows(gid, added) { }
  }

  /** After the add loop the group's members are the old ones plus every requested id. */
  lemma AddedMembers(members: map<Member, Role>, gid: string, ids: seq<string>)
    ensures MembersOf(members + AddedRows(gid, Added(members, gid, ids)), gid) == MembersOf(members, gid) + (set x | x in ids)
  {
    AddedRowsKeys(gid, Added(members, gid, ids));
  }

  /** The member count grows by exactly the number of ids the add loop reports as added. */
  lemma AddedCount(members: map<Member, Role>, gid: string, ids: seq<string>)
    ensures |MembersOf(members + AddedRows(gid, Added(members, gid, ids)), gid)| ==
      |MembersOf(members, gid)| + |Added(members, gid, ids)|
  {
    var added := Added(members, gid, ids);
    var rows := AddedRows(gid, added);
    var before := MembersOf(members, gid);
    var after := MembersOf(members + rows, gid);
    var newOnes := set x | x in added;
    AddedRowsKeys(gid, added);
    forall x ensures x in after <==> x in before || x in newOnes {
      assert x in after <==> Member(gid, x) in members + rows;
    }
    assert after == before + newOnes;
    forall x | x in newOnes ensures x !in before {
      assert x in added;
    }
    assert before * newOnes == {};
    DistinctCount(added);
  }

  /** What `handleGroupMemberAdd` leaves behind, as its contract: the reply and the tables afterwards. */
  twostate predicate MemberAddDone(ctx: ReqContext, db: Db, r: RespPayload)
    reads db
  {
    var gid := NonEmptyString(ctx.payload, "group_id");
    var ids := MemberIds(ctx.payload);
    if gid.None? || ids == [] then
      r == Fail(BAD_REQUEST, "Missing group_id or member_ids") && db.members == old(db.members)
    else if ctx.employeeId.None? || Member(gid.value, ctx.employeeId.value) !in old(db.members) then
      r == Fail(FORBIDDEN, "Not a member") && db.members == old(db.members)
    else
      var added := Added(old(db.members), gid.value, ids);
      db.members == old(db.members) + AddedRows(gid.value, added) &&
      r == Ok([("group_id", JStr(gid.value)), ("added_ids", JArr(seq(|added|, i requires 0 <= i < |added| => JStr(added[i])))),
               ("current_member_count", JNum(|MembersOf(db.members, gid.value)|))])
  }

  /** `handleGroupMemberAdd`: a member of the group may add others; the count is read after the inserts. */
  method HandleGroupMemberAdd(ctx: ReqContext, db: Db) returns (r: RespPayload)
    modifies db`members
    ensures MemberAddDone(ctx, db, r)
  {
    var gid := NonEmptyString(ctx.payload, "group_id");
    var ids := MemberIds(ctx.payload);
    if gid.None? || ids == [] {
      return Fail(BAD_REQUEST, "Missing group_id or member_ids");
    }
    if ctx.employeeId.None? || Member(gid.value, ctx.employeeId.value) !in db.members {
      return Fail(FORBIDDEN, "Not a member");
    }
    var added := AddMembers(db, gid.value, ids);
    var count := |MembersOf(db.members, gid.value)|;
    r := Ok([("group_id", JStr(gid.value)), ("added_ids", JArr(seq(|added|, i requires 0 <= i < |added| => JStr(added[i])))),
             ("current_member_count", JNum(count))]);
  }

  /** The rows the remove loop deletes: every requested id except the creator. */
  function Removed(gid: string, ids: seq<string>, creator: string): set<Member> {
    set x | x in ids && x != creator :: Member(gid, x)
  }

  /** What `handleGroupMemberRemove` leaves behind, as its contract: the reply and the tables afterwards. */
  twostate predicate MemberRemoveDone(ctx: ReqContext, db: Db, r: RespPayload)
    reads db
  {
    var gid := NonEmptyString(ctx.payload, "group_id");
    var ids := MemberIds(ctx.payload);
    if gid.None? || ids == [] then
      r == Fail(BAD_REQUEST, "Missing group_id or member_ids") && db.members == old(db.members)
    else if gid.value !in db.groups || db.groups[gid.value].creator == "" then
      r == Fail(NOT_FOUND, "Group not found") && db.members == old(db.members)
    else
      var creator := db.groups[gid.value].creator;
      db.members == old(db.members) - Removed(gid.value, ids, creator) &&
      (Member(gid.value, creator) in old(db.members) ==> Member(gid.value, creator) in db.members) &&
      r == Ok([("group_id", JStr(gid.value)), ("current_member_count", JNum(|MembersOf(db.members, gid.value)|))])
  }

  /**
   * `handleGroupMemberRemove`: removes the requested members except the
   * creator. Any bound caller may do so: the caller's own membership and
   * role are not consulted. A group whose creator is empty counts as missing.
   */
  method HandleGroupMemberRemove(ctx: ReqContext, db: Db) returns (r: RespPayload)
    modifies db`members
    ensures MemberRemoveDone(ctx, db, r)
  {
    var gid := NonEmptyString(ctx.payload, "group_id");
    var ids := MemberIds(ctx.payload);
    if gid.None? || ids == [] {
      return Fail(BAD_REQUEST, "Missing group_id or member_ids");
    }
    if gid.value !in db.groups || db.groups[gid.value].creator == "" {
      return Fail(NOT_FOUND, "Group not found");
    }
    var creator := db.groups[gid.value].creator;
    var i := 0;
    while i < |ids|
      invariant i <= |ids|
      invariant db.members == old(db.members) - Removed(gid.value, ids[..i], creator)
    {
      assert ids[..i + 1] == ids[..i] + [ids[i]];
      if ids[i] != creator {
        db.members := db.members - {Member(gid.value, ids[i])};
      }
      i := i + 1;
    }
    assert ids[..|ids|] == ids;
    r := Ok([("group_id", JStr(gid.value)), ("current_member_count", JNum(|MembersOf(db.members, gid.value)|))]);
  }
}

=== FILE: history_cache.dfy ===
/**
 * What the Android and iOS `ChatHistoryCache` share: the per-employee
 * cache file holding each peer's message list, the 500-message and
 * 100-peer limits, and the eviction of the peers whose newest message is
 * oldest. A peer map is kept as the list of its entries in iteration
 * order, which is the order the Kotlin `LinkedHashMap` keeps.
 */
module HistoryCache {
  import opened Wrappers
  import opened ChatModel

  const FILENAME_PREFIX := "mchat_history_"
  const FILENAME_SUFFIX := ".json"
  const LEGACY_FILENAME := "mchat_history.json"
  const MAX_MESSAGES_PER_PEER: nat := 500
  const MAX_PEERS: nat := 100

  /** A peer map: (peer id, messages) in iteration order. */
  type PeerLists = seq<(string, seq<ChatMessage>)>

  /** A cache file: unreadable (blank, or not a `CacheRoot`), or the peers it decodes to. */
  datatype Stored = Unreadable | Peers(entries: PeerLists)

  /** The app's files directory, by file name; a missing name is a missing file. */
  type Files = map<string, Stored>

  function KeySet(p: PeerLists): set<string> {
    if p == [] then {} else {p[0].0} + KeySet(p[1..])
  }

  /** No peer id appears twice, as in a decoded JSON object. */
  predicate UniqueKeys(p: PeerLists) {
    p == [] || (p[0].0 !in KeySet(p[1..]) && UniqueKeys(p[1..]))
  }

  /** Every decoded file is a map. */
  predicate WellFormed(files: Files) {
    forall f :: f in files && files[f].Peers? ==> UniqueKeys(files[f].entries)
  }

  /** `map[k]`. */
  function Lookup(p: PeerLists, k: string): (r: Option<seq<ChatMessage>>)
    ensures r.Some? <==> k in KeySet(p)
    ensures r.Some? ==> (k, r.value) in p
  {
    if p == [] then None else if p[0].0 == k then Some(p[0].1) else Lookup(p[1..], k)
  }

  /** The peer map as the dictionary a chat controller starts from; where an id repeats, the first entry counts, as in `Lookup`. */
  function AsMap(p: PeerLists): (m: ByPeer)
    ensures m.Keys == KeySet(p)
    ensures forall k :: k in m ==> Lookup(p, k) == Some(m[k])
  {
    if p == [] then map[] else AsMap(p[1..])[p[0].0 := p[0].1]
  }

  /** `map[k] = v`: an existing entry keeps its place, a new one goes last. */
  function Put(p: PeerLists, k: string, v: seq<ChatMessage>): (r: PeerLists)
    ensures KeySet(r) == KeySet(p) + {k}
    ensures Lookup(r, k) == Some(v)
    ensures forall k' :: k' != k ==> Lookup(r, k') == Lookup(p, k')
    ensures UniqueKeys(p) ==> UniqueKeys(r)
    ensures |r| == if k in KeySet(p) then |p| else |p| + 1
  {
    if p == [] then [(k, v)]
    else if p[0].0 == k then [(k, v)] + p[1..]
    else [p[0]] + Put(p[1..], k, v)
  }

  /** `map.remove(k)`. */
  function RemoveKey(p: PeerLists, k: string): (r: PeerLists)
    ensures KeySet(r) == KeySet(p) - {k}
    ensures forall k' :: k' != k ==> Lookup(r, k') == Lookup(p, k')
    ensures UniqueKeys(p) ==> UniqueKeys(r)
    ensures k !in KeySet(p) ==> r == p
    ensures UniqueKeys(p) && k in KeySet(p) ==> |r| == |p| - 1
  {
    if p == [] then []
    else if p[0].0 == k then RemoveKey(p[1..], k)
    else [p[0]] + RemoveKey(p[1..], k)
  }

  /** `ids.forEach { map.remove(it) }`. */
  function RemoveKeys(p: PeerLists, ids: seq<string>): (r: PeerLists)
    ensures forall k :: k in KeySet(r) <==> k in KeySet(p) && k !in ids
    ensures forall k :: k !in ids ==> Lookup(r, k) == Lookup(p, k)
    ensures UniqueKeys(p) ==> UniqueKeys(r)
    decreases |ids|
  {
    if ids == [] then p
    else
      var r := RemoveKeys(RemoveKey(p, ids[0]), ids[1..]);
      assert forall k :: k in ids <==> k == ids[0] || k in ids[1..];
      r
  }

  /** Removing distinct ids that are all present shortens a map by their number. */
  lemma {:induction false} RemoveKeysCount(p: PeerLists, ids: seq<string>)
    requires UniqueKeys(p)
    requires forall i :: 0 <= i < |ids| ==> ids[i] in KeySet(p)
    requires forall i, j :: 0 <= i < j < |ids| ==> ids[i] != ids[j]
    ensures |RemoveKeys(p, ids)| == |p| - |ids|
    decreases |ids|
  {
    if ids != [] {
      var q := RemoveKey(p, ids[0]);
      forall i | 0 <= i < |ids[1..]|
        ensures ids[1..][i] in KeySet(q)
      {
        assert ids[1..][i] == ids[i + 1] && ids[i + 1] != ids[0];
      }
      RemoveKeysCount(q, ids[1..]);
    }
  }

  /** `takeLast(n)` / `suffix(n)`: the last `min(n, |s|)` elements, in order. */
  function TakeLast<T>(s: seq<T>, n: nat): (r: seq<T>)
    ensures |r| == if |s| <= n then |s| else n
    ensures r == s[|s| - |r|..]
  {
    if |s| <= n then s else s[|s| - n..]
  }

  /** The index of the first smallest key. */
  function FirstMin(c: seq<(string, int)>): (m: nat)
    requires c != []
    ensures m < |c|
    ensures forall j :: 0 <= j < |c| ==> c[m].1 <= c[j].1
    ensures forall j :: 0 <= j < m ==> c[m].1 < c[j].1
  {
    if |c| == 1 then 0
    else
      var m' := FirstMin(c[1..]);
      assert forall j :: 1 <= j < |c| ==> c[j] == c[1..][j - 1];
      if c[0].1 <= c[1..][m'].1 then 0 else m' + 1
  }

  function Without<T>(c: seq<T>, m: nat): seq<T>
    requires m < |c|
  {
    c[..m] + c[m + 1..]
  }

  /**
   * `sortedBy { key }.take(k)`: the first smallest key, then the first
   * smallest of the rest, `k` times; a stable sort puts the same ones
   * first.
   */
  function Evicted(c: seq<(string, int)>, k: nat): seq<(string, int)>
    decreases k
  {
    if k == 0 || c == [] then []
    else
      var m := FirstMin(c);
      [c[m]] + Evicted(Without(c, m), k - 1)
  }

  function Ids(c: seq<(string, int)>): (r: seq<string>)
    ensures |r| == |c| && forall i :: 0 <= i < |c| ==> r[i] == c[i].0
  {
    seq(|c|, i requires 0 <= i < |c| => c[i].0)
  }

  /** A candidate whose key is smaller than that of every candidate with another id is evicted first. */
  lemma StrictMinEvictedFirst(c: seq<(string, int)>, id: string, t: int, k: nat)
    requires (id, t) in c && UniqueIds(c) && 0 < k
    requires forall x :: x in c && x.0 != id ==> t < x.1
    ensures Ids(Evicted(c, k)) != [] && Ids(Evicted(c, k))[0] == id
  {
    var m := FirstMin(c);
    var s :| 0 <= s < |c| && c[s] == (id, t);
    assert c[m] in c && c[m].1 <= t;
    assert Evicted(c, k)[0] == c[m];
  }

  /** Over the limit, such a candidate is among the evicted ids. */
  lemma StrictMinEvicted(p: PeerLists, c: seq<(string, int)>, id: string, t: int)
    requires (id, t) in c && UniqueIds(c) && |p| > MAX_PEERS
    requires forall x :: x in c && x.0 != id ==> t < x.1
    ensures id in EvictedIds(p, c)
  {
    StrictMinEvictedFirst(c, id, t, Excess(p));
  }

  predicate UniqueIds(c: seq<(string, int)>) {
    forall i, j :: 0 <= i < j < |c| ==> c[i].0 != c[j].0
  }

  lemma WithoutParts<T>(c: seq<T>, m: nat)
    requires m < |c|
    ensures |Without(c, m)| == |c| - 1
    ensures forall x :: x in c && x != c[m] ==> x in Without(c, m)
  {
    assert c == c[..m] + [c[m]] + c[m + 1..];
  }

  lemma WithoutIn<T>(c: seq<T>, m: nat)
    requires m < |c|
    ensures forall x :: x in Without(c, m) ==> x in c
  {
  }

  /** Eviction takes `min(k, |c|)` candidates. */
  lemma {:induction false} EvictedLength(c: seq<(string, int)>, k: nat)
    ensures |Evicted(c, k)| == if k <= |c| then k else |c|
    decreases k
  {
    if k != 0 && c != [] {
      var m := FirstMin(c);
      var rest := Without(c, m);
      assert |rest| == |c| - 1;
      EvictedLength(rest, k - 1);
    }
  }

  /** Eviction takes candidates only. */
  lemma {:induction false} EvictedFrom(c: seq<(string, int)>, k: nat)
    ensures forall e :: e in Evicted(c, k) ==> e in c
    decreases k
  {
    if k != 0 && c != [] {
      var m := FirstMin(c);
      var rest := Without(c, m);
      WithoutIn(c, m);
      EvictedFrom(rest, k - 1);
      assert Evicted(c, k) == [c[m]] + Evicted(rest, k - 1);
    }
  }

  /** Every evicted candidate's key is at most that of every candidate kept. */
  lemma {:induction false} EvictedSmallest(c: seq<(string, int)>, k: nat)
    ensures forall e, x :: e in Evicted(c, k) && x in c && x !in Evicted(c, k) ==> e.1 <= x.1
    decreases k
  {
    if k != 0 && c != [] {
      var m := FirstMin(c);
      var rest := Without(c, m);
      WithoutParts(c, m);
      EvictedSmallest(rest, k - 1);
      var tail := Evicted(rest, k - 1);
      assert Evicted(c, k) == [c[m]] + tail;
      forall e, x | e in Evicted(c, k) && x in c && x !in Evicted(c, k)
        ensures e.1 <= x.1
      {
        assert x != c[m] && x !in tail;
        if e == c[m] {
          var i :| 0 <= i < |c| && c[i] == x;
        } else {
          assert e in tail && x in rest;
        }
      }
    }
  }

  /** Distinct candidate ids give distinct evicted ids. */
  lemma {:induction false} EvictedUnique(c: seq<(string, int)>, k: nat)
    requires UniqueIds(c)
    ensures UniqueIds(Evicted(c, k))
    decreases k
  {
    if k != 0 && c != [] {
      var m := FirstMin(c);
      var rest := Without(c, m);
      WithoutParts(c, m);
      assert UniqueIds(rest) by {
        forall i, j | 0 <= i < j < |rest|
          ensures rest[i].0 != rest[j].0
        {
          var i' := if i < m then i else i + 1;
          var j' := if j < m then j else j + 1;
          assert rest[i] == c[i'] && rest[j] == c[j'];
        }
      }
      EvictedUnique(rest, k - 1);
      EvictedFrom(rest, k - 1);
      var ev := Evicted(rest, k - 1);
      forall j | 0 <= j < |ev|
        ensures c[m].0 != ev[j].0
      {
        assert ev[j] in rest;
        var t :| 0 <= t < |rest| && rest[t] == ev[j];
        var t' := if t < m then t else t + 1;
        assert rest[t] == c[t'] && t' != m;
      }
      var all := Evicted(c, k);
      assert all == [c[m]] + ev;
      forall i, j | 0 <= i < j < |all|
        ensures all[i].0 != all[j].0
      {
        assert all[j] == ev[j - 1];
        if i > 0 {
          assert all[i] == ev[i - 1];
        }
      }
    }
  }

  /**
   * What `save` does above `MAX_PEERS`: the first `|p| - MAX_PEERS`
   * candidates by smallest key are removed; at or below it, nothing is.
   */
  function EvictOver(p: PeerLists, candidates: seq<(string, int)>): (r: PeerLists)
    ensures |p| <= MAX_PEERS ==> r == p
  {
    RemoveKeys(p, EvictedIds(p, candidates))
  }

  /** How many peers `save` has to drop: as many as there are above `MAX_PEERS`. */
  function Excess(p: PeerLists): nat {
    if |p| > MAX_PEERS then |p| - MAX_PEERS else 0
  }

  /** The removed ids: none when at or below the limit. */
  function EvictedIds(p: PeerLists, candidates: seq<(string, int)>): seq<string> {
    if |p| > MAX_PEERS then Ids(Evicted(candidates, Excess(p))) else []
  }

  /** Candidates drawn from the map with distinct ids: the evicted ids are distinct and all in the map. */
  lemma EvictedIdsValid(p: PeerLists, candidates: seq<(string, int)>, k: nat)
    requires UniqueIds(candidates)
    requires forall i :: 0 <= i < |candidates| ==> candidates[i].0 in KeySet(p)
    ensures forall i :: 0 <= i < |Ids(Evicted(candidates, k))| ==> Ids(Evicted(candidates, k))[i] in KeySet(p)
    ensures forall i, j :: 0 <= i < j < |Ids(Evicted(candidates, k))| ==> Ids(Evicted(candidates, k))[i] != Ids(Evicted(candidates, k))[j]
  {
    var ev := Evicted(candidates, k);
    EvictedFrom(candidates, k);
    EvictedUnique(candidates, k);
    forall i | 0 <= i < |ev|
      ensures ev[i].0 in KeySet(p)
    {
      assert ev[i] in candidates;
      var t :| 0 <= t < |candidates| && candidates[t] == ev[i];
    }
  }

  /** Only candidates are evicted. */
  lemma EvictedIdsAreCandidates(p: PeerLists, candidates: seq<(string, int)>)
    ensures forall k :: k in EvictedIds(p, candidates) ==> exists x :: x in candidates && x.0 == k
  {
    if |p| > MAX_PEERS {
      var ev := Evicted(candidates, Excess(p));
      EvictedFrom(candidates, Excess(p));
      forall k | k in EvictedIds(p, candidates)
        ensures exists x :: x in candidates && x.0 == k
      {
        var i :| 0 <= i < |Ids(ev)| && Ids(ev)[i] == k;
        assert ev[i] in candidates;
      }
    }
  }

  /**
   * Over the limit, with candidates drawn from the map with distinct ids,
   * exactly `min(|p| - MAX_PEERS, |candidates|)` peers go.
   */
  lemma EvictOverCount(p: PeerLists, candidates: seq<(string, int)>)
    requires UniqueKeys(p) && UniqueIds(candidates)
    requires forall i :: 0 <= i < |candidates| ==> candidates[i].0 in KeySet(p)
    requires |p| > MAX_PEERS
    ensures |EvictOver(p, candidates)| == |p| - (if |p| - MAX_PEERS <= |candidates| then |p| - MAX_PEERS else |candidates|)
  {
    var k := Excess(p);
    var ids := Ids(Evicted(candidates, k));
    assert EvictedIds(p, candidates) == ids;
    EvictedLength(candidates, k);
    assert |ids| == if k <= |candidates| then k else |candidates|;
    EvictedIdsValid(p, candidates, k);
    RemoveKeysCount(p, ids);
    assert |EvictOver(p, candidates)| == |p| - |ids|;
  }

  /** Eviction removes exactly the evicted ids and leaves every other peer's list as it was. */
  lemma EvictOverKeeps(p: PeerLists, candidates: seq<(string, int)>)
    ensures UniqueKeys(p) ==> UniqueKeys(EvictOver(p, candidates))
    ensures forall k :: k !in EvictedIds(p, candidates) ==> Lookup(EvictOver(p, candidates), k) == Lookup(p, k)
    ensures forall k :: k in EvictedIds(p, candidates) ==> Lookup(EvictOver(p, candidates), k).None?
  {
  }

  /** Every evicted peer's key is at most that of every candidate that stays. */
  lemma EvictOverSmallest(p: PeerLists, candidates: seq<(string, int)>, e: (string, int), x: (string, int))
    requires |p| > MAX_PEERS
    requires e in Evicted(candidates, Excess(p)) && x in candidates && x.0 in KeySet(EvictOver(p, candidates))
    ensures e.1 <= x.1
  {
    KeptNotEvicted(p, candidates, x);
    EvictedSmallest(candidates, Excess(p));
  }

  /** A candidate whose id is still in the map after eviction was not evicted. */
  lemma KeptNotEvicted(p: PeerLists, candidates: seq<(string, int)>, x: (string, int))
    requires |p| > MAX_PEERS && x.0 in KeySet(EvictOver(p, candidates))
    ensures x !in Evicted(candidates, Excess(p))
  {
    var ids := EvictedIds(p, candidates);
    assert x.0 !in ids;
    var ev := Evicted(candidates, Excess(p));
    assert ids == Ids(ev);
    forall i | 0 <= i < |ev|
      ensures ev[i] != x
    {
      assert ids[i] == ev[i].0;
    }
  }
}

=== FILE: ios_chat.dfy ===
/**
 * The iOS `MChatChatController`. Swift's `JSONSerialization` with
 * `as? String` casts accepts only JSON strings, so every field that is
 * not a string reads as missing. `Dictionary(uniqueKeysWithValues:)`
 * traps on a repeated employee id; the model records the trap.
 */
module IosChat {
  import opened Wrappers
  import opened Strings
  import opened Json
  import opened ChatModel
  import AndroidChat

  /** `o[key] as? String`. */
  function StringField(o: Obj, key: string): (r: Option<string>)
    ensures r.Some? <==> Get(o, key).Some? && Get(o, key).value.JStr?
    ensures r.Some? ==> Get(o, key) == Some(JStr(r.value))
  {
    match Get(o, key)
    case Some(JStr(s)) => Some(s)
    case _ => None
  }

  /** The text of an inbox message: a string content, or the string `text` of an object content, else `""`. */
  function InboxText(content: Option<Json>): (r: string)
    ensures content.Some? && content.value.JStr? ==> r == content.value.s
    ensures content.Some? && content.value.JObj? && StringField(content.value.fields, "text").Some? ==>
      r == StringField(content.value.fields, "text").value
    ensures content.None? ==> r == ""
    ensures r != "" ==> content.Some? && (content.value.JStr? || content.value.JObj?)
    ensures content.Some? && content.value.JObj? && StringField(content.value.fields, "text").None? ==> r == ""
  {
    match content
    case Some(JStr(s)) => s
    case Some(JObj(f)) => StringField(f, "text").GetOr("")
    case _ => ""
  }

  /**
   * The message `handleInboxMessage` files, with its sender: `None`
   * unless the payload is an object with a string `from_employee_id`.
   * `freshId` stands for the UUID used without a string `msg_id`, `iso`
   * for the ISO-8601 parser and `nowMs` for the clock.
   */
  function InboxMessage(payload: Raw, freshId: string, nowMs: int, iso: string -> Option<int>): (r: Option<(string, ChatMessage)>)
    ensures r.Some? <==> payload.Parsed? && payload.value.JObj? && StringField(payload.value.fields, "from_employee_id").Some?
    ensures r.Some? ==> Get(payload.value.fields, "from_employee_id") == Some(JStr(r.value.0))
    ensures r.Some? ==> r.value.1.role == ASSISTANT && r.value.1.content == [MessageContent("text", InboxText(Get(payload.value.fields, "content")))]
    ensures r.Some? ==> r.value.1.id == StringField(payload.value.fields, "msg_id").GetOr(freshId)
  {
    if payload.Malformed? || !payload.value.JObj? then None
    else
      var o := payload.value.fields;
      match StringField(o, "from_employee_id")
      case None => None
      case Some(from) =>
        var sentAt := StringField(o, "sent_at").GetOr("");
        Some((from, TextMessage(StringField(o, "msg_id").GetOr(freshId), ASSISTANT, InboxText(Get(o, "content")), iso(sentAt).GetOr(nowMs))))
  }

  /** `(o["is_ai_agent"] as? String) == "true"`, as the controller reads it: a JSON `true` reads as false. */
  function IsAiAgentAsWritten(v: Option<Json>): (r: bool)
    ensures v == Some(JBool(true)) ==> !r
    ensures r ==> v.Some? && v.value.JStr?
  {
    v == Some(JStr("true"))
  }

  /** The flag as the server sends it (a JSON boolean) or as a string. */
  function IsAiAgent(v: Option<Json>): (r: bool)
    ensures v == Some(JBool(true)) ==> r
    ensures IsAiAgentAsWritten(v) ==> r
    ensures v.None? || v == Some(JBool(false)) || v == Some(JNull) ==> !r
  {
    v == Some(JBool(true)) || v == Some(JStr("true"))
  }

  /** The server's `"is_ai_agent": true` is read as not an agent by the cast as written, and as an agent once corrected. */
  lemma AgentFlagFinding()
    ensures !IsAiAgentAsWritten(Some(JBool(true)))
    ensures IsAiAgent(Some(JBool(true)))
  {
  }

  /** The corrected flag agrees with the Android reading on every value the server can send for it. */
  lemma AgentFlagAgrees(v: Option<Json>)
    requires v.None? || v.value.JNull? || v.value.JBool? || v.value.JStr?
    ensures IsAiAgent(v) == AndroidChat.IsAiAgentKt(v)
  {
    if v.Some? && v.value.JStr? {
      assert AndroidChat.Primitive(v) == AndroidChat.Content(v.value.s);
    }
  }

  /** The entry built from an `org.tree` element or `employee.get` data with the id `id`, the flag read by the cast as written. */
  function EntryOf(o: Obj, id: string): (r: EmployeeEntry)
    ensures r.employeeId == id && r.name == StringField(o, "name").GetOr("")
    ensures r.departmentId == StringField(o, "department_id") && r.isAiAgent == IsAiAgentAsWritten(Get(o, "is_ai_agent"))
  {
    EmployeeEntry(id, StringField(o, "name").GetOr(""), StringField(o, "department_id"), IsAiAgentAsWritten(Get(o, "is_ai_agent")))
  }

  /** The entries of the elements that have a string `employee_id`, in order. */
  function Employees(items: seq<Obj>): (r: seq<EmployeeEntry>)
    ensures |r| <= |items|
  {
    if items == [] then []
    else
      var last := items[|items| - 1];
      Employees(items[..|items| - 1]) + match StringField(last, "employee_id")
        case Some(eid) => [EntryOf(last, eid)]
        case None => []
  }

  /** The count of elements with a string `employee_id`. */
  function CountWithId(items: seq<Obj>): nat {
    if items == [] then 0
    else CountWithId(items[..|items| - 1]) + if StringField(items[|items| - 1], "employee_id").Some? then 1 else 0
  }

  /** Every element with a string `employee_id` gives one entry, and every entry comes from such an element. */
  lemma {:induction false} EmployeesKeep(items: seq<Obj>)
    ensures |Employees(items)| == CountWithId(items)
    ensures forall e :: e in Employees(items) ==>
      exists i :: 0 <= i < |items| && StringField(items[i], "employee_id") == Some(e.employeeId) && e == EntryOf(items[i], e.employeeId)
  {
    if items != [] {
      var init := items[..|items| - 1];
      EmployeesKeep(init);
      forall e | e in Employees(items)
        ensures exists i :: 0 <= i < |items| && StringField(items[i], "employee_id") == Some(e.employeeId) && e == EntryOf(items[i], e.employeeId)
      {
        if e in Employees(init) {
          var i :| 0 <= i < |init| && StringField(init[i], "employee_id") == Some(e.employeeId) && e == EntryOf(init[i], e.employeeId);
          assert items[i] == init[i];
        } else {
          assert StringField(items[|items| - 1], "employee_id") == Some(e.employeeId);
        }
      }
    }
  }

  /** The `for o in empArray` loop of `loadEmployees`. */
  method LoadEmployeeList(items: seq<Obj>) returns (list: seq<EmployeeEntry>)
    ensures list == Employees(items)
  {
    list := [];
    var i := 0;
    while i < |items|
      invariant 0 <= i <= |items|
      invariant list == Employees(items[..i])
    {
      var o := items[i];
      assert items[..i + 1][..i] == items[..i];
      match StringField(o, "employee_id") {
        case None =>
        case Some(eid) =>
          list := list + [EntryOf(o, eid)];
      }
      i := i + 1;
    }
    assert items[..i] == items;
  }

  /** `root["employees"] as? [[String: Any]]`: the elements, only when the list holds nothing but objects. */
  function EmployeeObjects(data: Raw): (r: Option<seq<Obj>>)
    ensures r.Some? ==> data.Parsed? && data.value.JObj? && Get(data.value.fields, "employees").Some?
    ensures r.Some? ==> Get(data.value.fields, "employees").value.JArr? && |r.value| == |Get(data.value.fields, "employees").value.items|
    ensures r.Some? ==> forall i :: 0 <= i < |r.value| ==> Get(data.value.fields, "employees").value.items[i] == JObj(r.value[i])
  {
    if data.Malformed? || !data.value.JObj? then None
    else
      match Get(data.value.fields, "employees")
      case Some(JArr(items)) =>
        if forall i :: 0 <= i < |items| ==> items[i].JObj? then Some(seq(|items|, i requires 0 <= i < |items| => items[i].fields))
        else None
      case _ => None
  }

  /** `getEmployee`: the entry, with the requested id when the data has no string `employee_id`; `None` on a non-zero code or data that is not an object. */
  function GetEmployee(requested: string, code: int, data: Option<Raw>): (r: Option<EmployeeEntry>)
    ensures r.Some? <==> code == 0 && data.Some? && data.value.Parsed? && data.value.value.JObj?
    ensures r.Some? ==> r.value.employeeId == StringField(data.value.value.fields, "employee_id").GetOr(requested)
    ensures r.Some? ==> r.value.isAiAgent == IsAiAgentAsWritten(Get(data.value.value.fields, "is_ai_agent"))
  {
    if code != 0 || data.None? || data.value.Malformed? || !data.value.value.JObj? then None
    else
      var o := data.value.value.fields;
      Some(EntryOf(o, StringField(o, "employee_id").GetOr(requested)))
  }

  /** `updateSessionsFromPeers`: the sessions, or `None` where building the name map traps on a repeated id. */
  function SwiftSessions(employees: seq<EmployeeEntry>, peerIds: set<string>): (r: Option<map<string, string>>)
    ensures r.None? <==> HasDuplicateIds(employees)
    ensures r.Some? ==> r.value.Keys == peerIds
    ensures r.Some? ==> forall i :: 0 <= i < |employees| && employees[i].employeeId in peerIds ==>
      r.value[employees[i].employeeId] == employees[i].name
  {
    if HasDuplicateIds(employees) then None
    else
      var s := Sessions(employees, peerIds);
      forall i | 0 <= i < |employees| && employees[i].employeeId in peerIds
        ensures s[employees[i].employeeId] == employees[i].name
      {
        SessionNameUnique(employees, peerIds, i);
      }
      Some(s)
  }

  /**
   * `MChatChatController` on iOS. `trapped` records that building the
   * sessions trapped; the process has then ended, so every method that
   * changes the controller requires `!trapped`.
   */
  class ChatController {
    const hasCache: bool
    var employees: seq<EmployeeEntry>
    var messagesByPeer: ByPeer
    var currentPeerId: Option<string>
    var errorText: Option<string>
    var sessions: map<string, string>
    var trapped: bool
    var cacheWrites: seq<(string, seq<ChatMessage>)>
    var requests: seq<(string, seq<(string, string)>)>

    /** Sessions follow the peers until a trap stops the controller. */
    ghost predicate Valid()
      reads this
    {
      !trapped ==> sessions.Keys == messagesByPeer.Keys
    }

    /** `init`: with initial lists, sessions for their peers; without, none. */
    constructor (initialMessagesByPeer: Option<ByPeer>, withCache: bool)
      ensures Valid() && !trapped
      ensures hasCache == withCache && employees == [] && currentPeerId.None? && errorText.None?
      ensures messagesByPeer == initialMessagesByPeer.GetOr(map[])
      ensures sessions == Sessions([], messagesByPeer.Keys)
      ensures cacheWrites == [] && requests == []
    {
      employees := [];
      messagesByPeer := initialMessagesByPeer.GetOr(map[]);
      currentPeerId := None;
      errorText := None;
      sessions := Sessions([], initialMessagesByPeer.GetOr(map[]).Keys);
      trapped := false;
      cacheWrites := [];
      requests := [];
      hasCache := withCache;
    }

    /** Rebuild the sessions from the peers, or trap. */
    method UpdateSessions()
      requires !trapped
      modifies this`sessions, this`trapped
      ensures SwiftSessions(employees, messagesByPeer.Keys).Some? ==>
        sessions == SwiftSessions(employees, messagesByPeer.Keys).value && trapped == old(trapped)
      ensures SwiftSessions(employees, messagesByPeer.Keys).None? ==> trapped && sessions == old(sessions)
    {
      match SwiftSessions(employees, messagesByPeer.Keys)
      case Some(s) =>
        sessions := s;
      case None =>
        trapped := true;
    }

    /**
     * The common tail of receiving and sending: `m` last in `peer`'s list,
     * then the sessions rebuilt, then a save requested; a trap while
     * rebuilding ends the process before the save.
     */
    method FileMessage(peer: string, m: ChatMessage)
      requires !trapped
      requires Valid()
      modifies this`messagesByPeer, this`sessions, this`trapped, this`cacheWrites
      ensures Valid()
      ensures messagesByPeer == AppendTo(old(messagesByPeer), peer, m)
      ensures !HasDuplicateIds(employees) ==> sessions == Sessions(employees, messagesByPeer.Keys) && trapped == old(trapped)
      ensures HasDuplicateIds(employees) ==> trapped
      ensures cacheWrites == old(cacheWrites) + if hasCache && !HasDuplicateIds(employees) then [(peer, messagesByPeer[peer])] else []
    {
      messagesByPeer := AppendTo(messagesByPeer, peer, m);
      UpdateSessions();
      if hasCache && !HasDuplicateIds(employees) {
        cacheWrites := cacheWrites + [(peer, messagesByPeer[peer])];
      }
    }

    /**
     * `handleInboxMessage`: an accepted message goes last in its sender's
     * list, then the sessions are rebuilt (or the process traps on
     * duplicate employee ids), then the list is saved when a cache is
     * attached; anything else changes nothing.
     */
    method HandleInboxMessage(payload: Raw, freshId: string, nowMs: int, iso: string -> Option<int>)
      requires !trapped
      requires Valid()
      modifies this`messagesByPeer, this`sessions, this`trapped, this`cacheWrites
      ensures Valid()
      ensures InboxMessage(payload, freshId, nowMs, iso).None? ==> unchanged(this)
      ensures InboxMessage(payload, freshId, nowMs, iso).Some? ==>
        var (from, m) := InboxMessage(payload, freshId, nowMs, iso).value;
        messagesByPeer == AppendTo(old(messagesByPeer), from, m)
        && (!HasDuplicateIds(employees) ==> sessions == Sessions(employees, messagesByPeer.Keys) && trapped == old(trapped))
        && (HasDuplicateIds(employees) ==> trapped)
        && cacheWrites == old(cacheWrites) + if hasCache && !HasDuplicateIds(employees) then [(from, messagesByPeer[from])] else []
    {
      match InboxMessage(payload, freshId, nowMs, iso)
      case None =>
      case Some((from, m)) =>
        FileMessage(from, m);
    }

    /** `loadEmployees` up to the request: the error is cleared and `org.tree` is requested. */
    method LoadEmployees()
      requires !trapped
      modifies this`errorText, this`requests
      ensures errorText.None? && requests == old(requests) + [("org.tree", [])]
    {
      errorText := None;
      requests := requests + [("org.tree", [])];
    }

    /**
     * The `org.tree` reply: a non-zero code shows its message; data whose
     * `employees` is not a list of objects changes nothing; otherwise the
     * list replaces the employees and the sessions are rebuilt, or the
     * process traps on duplicate employee ids.
     */
    method EmployeesAnswered(code: int, message: string, data: Option<Raw>)
      requires !trapped
      requires Valid()
      modifies this`errorText, this`employees, this`sessions, this`trapped
      ensures Valid()
      ensures code != 0 ==>
        errorText == Some(message) && employees == old(employees) && sessions == old(sessions) && trapped == old(trapped)
      ensures code == 0 && (data.None? || EmployeeObjects(data.value).None?) ==> unchanged(this)
      ensures code == 0 && data.Some? && EmployeeObjects(data.value).Some? ==>
        employees == Employees(EmployeeObjects(data.value).value) && errorText == old(errorText)
      ensures code == 0 && data.Some? && EmployeeObjects(data.value).Some? && !HasDuplicateIds(employees) ==>
        sessions == Sessions(employees, messagesByPeer.Keys) && trapped == old(trapped)
      ensures code == 0 && data.Some? && EmployeeObjects(data.value).Some? && HasDuplicateIds(employees) ==>
        trapped && sessions == old(sessions)
    {
      if code != 0 {
        errorText := Some(message);
        return;
      }
      if data.None? {
        return;
      }
      match EmployeeObjects(data.value)
      case None =>
      case Some(items) =>
        var list := LoadEmployeeList(items);
        employees := list;
        UpdateSessions();
    }

    /** `selectPeer`. */
    method SelectPeer(employeeId: Option<string>)
      requires !trapped
      modifies this`currentPeerId
      ensures currentPeerId == employeeId
    {
      currentPeerId := employeeId;
    }

    /**
     * `sendMessage`: blank text does nothing; otherwise the error is
     * cleared, a "user" message with the trimmed text goes last in the
     * peer's list, the sessions are rebuilt, the list is saved when a
     * cache is attached, and `msg.send_private` is requested with the peer
     * and the trimmed text. Duplicate employee ids trap while rebuilding,
     * and then neither the save nor the request happens.
     */
    method SendMessage(peer: string, text: string, freshId: string, nowMs: int)
      requires !trapped
      requires Valid()
      modifies this`errorText, this`messagesByPeer, this`sessions, this`trapped, this`cacheWrites, this`requests
      ensures Valid()
      ensures IsBlank(text) ==> unchanged(this)
      ensures !IsBlank(text) ==> errorText.None?
      ensures !IsBlank(text) ==> messagesByPeer == AppendTo(old(messagesByPeer), peer, TextMessage(freshId, USER, Trim(text), nowMs))
      ensures !IsBlank(text) && !HasDuplicateIds(employees) ==>
        sessions == Sessions(employees, messagesByPeer.Keys) && trapped == old(trapped)
      ensures !IsBlank(text) && HasDuplicateIds(employees) ==> trapped
      ensures !IsBlank(text) ==>
        cacheWrites == old(cacheWrites) + if hasCache && !HasDuplicateIds(employees) then [(peer, messagesByPeer[peer])] else []
      ensures !IsBlank(text) && HasDuplicateIds(employees) ==> requests == old(requests)
      ensures !IsBlank(text) && !HasDuplicateIds(employees) ==>
        requests == old(requests) + [("msg.send_private", [("to_employee_id", peer), ("content", Trim(text))])]
    {
      var trimmed := Trim(text);
      if trimmed == [] {
        return;
      }
      errorText := None;
      FileMessage(peer, TextMessage(freshId, USER, trimmed, nowMs));
      if HasDuplicateIds(employees) {
        return;
      }
      requests := requests + [("msg.send_private", [("to_employee_id", peer), ("content", trimmed)])];
    }

    /** The `msg.send_private` reply: a non-zero code shows its message. */
    method SendAnswered(code: int, message: string)
      requires !trapped
      modifies this`errorText
      ensures code != 0 ==> errorText == Some(message)
      ensures code == 0 ==> errorText == old(errorText)
    {
      if code != 0 {
        errorText := Some(message);
      }
    }
  }
}

=== FILE: ios_connection.dfy ===
/** The iOS client's `MChatConnection`: topics, reconnect backoff, the pending table and the reply scanners. */
module IosConnection {
  import opened Wrappers
  import opened Strings
  import opened Json
  import opened Protocol
  import opened Correlation
  import opened EnvelopeScan

  const REQUEST_TIMEOUT_S := 30
  const INITIAL_RECONNECT_S := 2
  const MAX_RECONNECT_S := 30
  const NUMBER_WINDOW := 10

  /** `getTopicPrefix`: `<serviceId>/mchat` for a non-blank service id (trimmed), else `mchat`. */
  function TopicPrefix(serviceId: Option<string>): string {
    var sid := Trim(serviceId.GetOr(""));
    if sid == [] then "mchat" else sid + "/mchat"
  }

  /** The prefix is `mchat` exactly when the service id is missing or blank, and then never starts with a blank. */
  lemma TopicPrefixCases(serviceId: Option<string>)
    ensures serviceId.None? || IsBlank(serviceId.value) ==> TopicPrefix(serviceId) == "mchat"
    ensures serviceId.Some? && !IsBlank(serviceId.value) ==> TopicPrefix(serviceId) == Trim(serviceId.value) + "/mchat"
    ensures !IsSpace(TopicPrefix(serviceId)[0])
  {
  }

  /** `MqttResponse`: what every `request` call ends with. */
  datatype Response = Response(code: int, message: string, data: Option<string>)

  datatype ConnState = Disconnected | Connecting | Connected | Failed(reason: string)

  // ------------------------------------------------------------ scanners

  /**
   * `parseCode` as written: after the first `"code"` and the colon that
   * follows, the digits and minus signs among the next ten characters,
   * read together as one integer; 500 when any step fails.
   */
  function ParseCodeAsWritten(payload: string): (r: int)
    ensures FindFrom(payload, CODE_KEY, 0).None? ==> r == 500
  {
    match FindFrom(payload, CODE_KEY, 0)
    case None => 500
    case Some(i) =>
      var after := payload[i + |CODE_KEY|..];
      match IndexOfFrom(after, ':', 0)
      case None => 500
      case Some(c) => ParseDecimal(KeepDigitsAndMinus(Take(after[c + 1..], NUMBER_WINDOW))).GetOr(500)
  }

  /** `parseCode` as evidently intended: the integer right after the colon, whatever follows it. */
  function ParseCode(payload: string): (r: int)
    ensures FindFrom(payload, CODE_KEY, 0).None? ==> r == 500
  {
    match FindFrom(payload, CODE_KEY, 0)
    case None => 500
    case Some(i) =>
      var after := payload[i + |CODE_KEY|..];
      match IndexOfFrom(after, ':', 0)
      case None => 500
      case Some(c) => LeadingInteger(after[c + 1..]).GetOr(500)
  }

  /** `parseMessage`: the text between the first two quotes after the first `"message"`, or "". */
  function ParseMessage(payload: string): (r: string)
    ensures FindFrom(payload, MESSAGE_KEY, 0).None? ==> r == ""
    ensures '"' !in r
  {
    match FindFrom(payload, MESSAGE_KEY, 0)
    case None => ""
    case Some(i) =>
      var after := payload[i + |MESSAGE_KEY|..];
      match IndexOfFrom(after, '"', 0)
      case None => ""
      case Some(q1) =>
        match IndexOfFrom(after, '"', q1 + 1)
        case None => ""
        case Some(q2) => after[q1 + 1..q2]
  }

  /**
   * Where `parseData` starts its scan: after the first `"data"`, blanks,
   * a colon and blanks. `None` when the key or colon is missing, the value
   * starts with `null`, or it is a scalar.
   */
  function DataStart(payload: string): (rest: Option<string>)
    ensures rest.Some? ==> rest.value != [] && IsOpener(rest.value[0])
    ensures FindFrom(payload, DATA_KEY, 0).None? ==> rest.None?
  {
    match FindFrom(payload, DATA_KEY, 0)
    case None => None
    case Some(i) =>
      var after := Trim(payload[i + |DATA_KEY|..]);
      if after == [] || after[0] != ':' then None
      else
        var rest := Trim(after[1..]);
        if StartsWith(rest, "null") then None
        else if rest != [] && IsOpener(rest[0]) then Some(rest)
        else None
  }

  /** `parseData`: the bracket-balanced prefix of the value, by the depth-counting loop. */
  method ParseData(payload: string) returns (r: Option<string>)
    ensures DataStart(payload).None? ==> r.None?
    ensures DataStart(payload).Some? ==> FirstBalanced(DataStart(payload).value, r)
    ensures r.Some? ==> Depth(r.value) == 0 && forall k :: 1 <= k < |r.value| ==> Depth(r.value[..k]) > 0
  {
    match DataStart(payload)
    case None =>
      r := None;
    case Some(rest) =>
      r := BalancedPrefix(rest);
      if r.Some? {
        ShortestBalanced(rest, r.value);
      }
  }

  // ----------------------------------------------------- about scanners

  /** The reply that shows the defect: a code followed by a field whose value is a digit. */
  const CODE_SAMPLE := "{\"code\":0,\"d\":1}"

  lemma CodeSampleKey()
    ensures FindFrom(CODE_SAMPLE, CODE_KEY, 0) == Some(1)
    ensures CODE_SAMPLE[1 + |CODE_KEY|..] == ":0,\"d\":1}"
  {
    var s := CODE_SAMPLE;
    assert s[1..7] == CODE_KEY;
    assert s[0..6] != CODE_KEY by { assert s[0..6][0] == s[0] == '{'; }
    assert FindFrom(s, CODE_KEY, 1) == Some(1);
  }

  lemma CodeSampleDigits()
    ensures KeepDigitsAndMinus("0,\"d\":1}") == "01"
  {
    CodeSampleTailDigits();
    assert ",\"d\":1}"[1..] == "\"d\":1}";
    assert KeepDigitsAndMinus(",\"d\":1}") == "1";
    assert "0,\"d\":1}"[1..] == ",\"d\":1}";
    assert KeepDigitsAndMinus("0,\"d\":1}") == "01";
  }

  lemma CodeSampleTailDigits()
    ensures KeepDigitsAndMinus("\"d\":1}") == "1"
  {
    assert KeepDigitsAndMinus("}") == [];
    assert "1}"[1..] == "}";
    assert KeepDigitsAndMinus("1}") == "1";
    assert ":1}"[1..] == "1}";
    assert KeepDigitsAndMinus(":1}") == "1";
    assert "\":1}"[1..] == ":1}";
    assert KeepDigitsAndMinus("\":1}") == "1";
    assert "d\":1}"[1..] == "\":1}";
    assert KeepDigitsAndMinus("d\":1}") == "1";
    assert "\"d\":1}"[1..] == "d\":1}";
  }

  lemma CodeSampleNumber()
    ensures ParseDecimal(KeepDigitsAndMinus(Take("0,\"d\":1}", NUMBER_WINDOW))) == Some(1)
  {
    var t := "0,\"d\":1}";
    assert |t| == 8 && Take(t, NUMBER_WINDOW) == t;
    CodeSampleDigits();
    LeadingZero();
  }

  lemma LeadingZero()
    ensures ParseDecimal("01") == Some(1)
  {
    assert "01"[0] == '0' && AllDigits("01");
    assert "01"[..1] == "0";
    assert DigitsValue("01") == 1;
  }

  lemma CodeSampleAsWritten()
    ensures ParseCodeAsWritten(CODE_SAMPLE) == 1
  {
    CodeSampleKey();
    var after := ":0,\"d\":1}";
    assert after[0] == ':' && after[1..] == "0,\"d\":1}";
    IndexOfFromAt(after, ':', 0, 0);
    CodeSampleNumber();
  }

  /** How the corrected scanner reads once the key and the colon after it are found. */
  lemma ParseCodeAt(payload: string, i: nat, c: nat)
    requires FindFrom(payload, CODE_KEY, 0) == Some(i)
    requires IndexOfFrom(payload[i + |CODE_KEY|..], ':', 0) == Some(c)
    ensures ParseCode(payload) == LeadingInteger(payload[i + |CODE_KEY|..][c + 1..]).GetOr(500)
  {
  }

  lemma CodeSampleColon()
    ensures IndexOfFrom(":0,\"d\":1}", ':', 0) == Some(0)
    ensures ":0,\"d\":1}"[1..] == "0" + ",\"d\":1}"
  {
  }

  lemma CodeSampleLeading()
    ensures LeadingInteger("0" + ",\"d\":1}") == Some(0)
  {
    var rest := ",\"d\":1}";
    assert AllDigits("0") && !IsDigit(rest[0]);
    LeadingDigits("0", rest);
    assert DigitsValue("0") == 0;
  }

  lemma CodeSampleCorrected(sample: string)
    requires sample == CODE_SAMPLE
    ensures ParseCode(sample) == 0
  {
    CodeSampleKey();
    CodeSampleColon();
    ParseCodeAt(sample, 1, 0);
    CodeSampleLeading();
  }

  /** The reply `{"code":0,"d":1}` reads as code 1 as written: the digit of the next field joins the code. */
  lemma ParseCodeFinding()
    ensures ParseCodeAsWritten(CODE_SAMPLE) == 1 && ParseCode(CODE_SAMPLE) == 0
  {
    CodeSampleAsWritten();
    CodeSampleCorrected(CODE_SAMPLE);
  }

  /** On a reply the server writes, the corrected scanner reads the code back. */
  lemma ReplyCodeRead(code: int, message: string, tail: string)
    requires Plain(message)
    ensures ParseCode(ReplyHead(code, message) + tail) == code
  {
    var s := ReplyHead(code, message) + tail;
    ReplyCodeKey(code, message, tail, s);
    ReplyCodeColon(code, message, tail, s);
    ParseCodeOfPrinted(s, code, s[8 + |IntToString(code)|..]);
  }

  /** A payload whose first code key is followed by a colon and a printed integer reads as that integer. */
  lemma ParseCodeOfPrinted(payload: string, n: int, rest: string)
    requires FindFrom(payload, CODE_KEY, 0) == Some(1)
    requires IndexOfFrom(payload[1 + |CODE_KEY|..], ':', 0) == Some(0)
    requires payload[1 + |CODE_KEY|..][1..] == IntToString(n) + rest
    requires rest != [] && rest[0] == ','
    ensures ParseCode(payload) == n
  {
    ParseCodeAt(payload, 1, 0);
    LeadingIntegerOf(n, rest);
  }

  /** After the code key of a reply: a colon, then the printed code, then a comma. */
  lemma ReplyCodeColon(code: int, message: string, tail: string, s: string)
    requires Plain(message) && s == ReplyHead(code, message) + tail
    ensures IndexOfFrom(s[1 + |CODE_KEY|..], ':', 0) == Some(0)
    ensures s[1 + |CODE_KEY|..][1..] == IntToString(code) + s[8 + |IntToString(code)|..]
    ensures s[8 + |IntToString(code)|..][0] == ','
  {
    var d := IntToString(code);
    ReplyLayout(code, message, tail, s);
    var after := s[1 + |CODE_KEY|..];
    assert after[0] == s[..8][7] == ':';
    assert after[1..] == s[8..8 + |d|] + s[8 + |d|..];
  }

  /** On a reply the server writes, the message scanner reads a plain message back. */
  lemma ReplyMessageRead(code: int, message: string, tail: string)
    requires Plain(message)
    ensures ParseMessage(ReplyHead(code, message) + tail) == message
  {
    var s := ReplyHead(code, message) + tail;
    ReplyMessageKey(code, message, tail, s);
    MessageQuotes(code, message, tail, s);
  }

  /** After the message key: the colon, then the quotes around the message. */
  lemma MessageQuotes(code: int, message: string, tail: string, s: string)
    requires Plain(message) && s == ReplyHead(code, message) + tail
    ensures var am := s[9 + |IntToString(code)| + 9..];
      IndexOfFrom(am, '"', 0) == Some(1) && IndexOfFrom(am, '"', 2) == Some(2 + |message|) &&
      am[2..2 + |message|] == message
  {
    var k := 9 + |IntToString(code)|;
    ReplyLayout(code, message, tail, s);
    var am := s[k + 9..];
    assert am[0] == ':' && am[1] == '"';
    IndexOfFromAt(am, '"', 0, 1);
    assert am[2..2 + |message|] == message && am[2 + |message|] == '"';
    forall j | 2 <= j < 2 + |message|
      ensures am[j] != '"'
    {
      assert am[j] == am[2..2 + |message|][j - 2] == message[j - 2];
    }
    IndexOfFromAt(am, '"', 2, 2 + |message|);
  }

  /** With a code of at most ten characters, the scanner as written reads a server reply correctly too. */
  lemma ReplyCodeAsWritten(code: int, message: string, tail: string)
    requires Plain(message) && |IntToString(code)| <= NUMBER_WINDOW
    ensures ParseCodeAsWritten(ReplyHead(code, message) + tail) == code
  {
    var s := ReplyHead(code, message) + tail;
    var d := IntToString(code);
    var k := 9 + |d|;
    ReplyLayout(code, message, tail, s);
    ReplyCodeKey(code, message, tail, s);
    IntToStringShape(code);
    var after := s[7..];
    assert after[0] == s[..8][7] == ':';
    var window := Take(after[1..], NUMBER_WINDOW);
    assert window == s[8..18];
    var gap := s[8 + |d|..18];
    assert window == d + gap;
    CodeGap(code, message, tail, s);
    KeepDigitsAndMinusAppend(d, gap);
    KeepDigitsAndMinusOfNumber(d);
    KeepDigitsAndMinusOfText(gap);
    assert d + [] == d;
    ParseIntToString(code);
  }

  /** Between the code and the end of the ten-character window: the comma and the message key, no digit or minus. */
  lemma CodeGap(code: int, message: string, tail: string, s: string)
    requires Plain(message) && s == ReplyHead(code, message) + tail && |IntToString(code)| <= NUMBER_WINDOW
    ensures var gap := s[8 + |IntToString(code)|..18];
      forall j :: 0 <= j < |gap| ==> !IsDigit(gap[j]) && gap[j] != '-'
  {
    var k := 9 + |IntToString(code)|;
    ReplyLayout(code, message, tail, s);
    var gap := s[8 + |IntToString(code)|..18];
    forall j | 0 <= j < |gap|
      ensures !IsDigit(gap[j]) && gap[j] != '-'
    {
      if j > 0 {
        assert gap[j] == s[k..k + 9][j - 1] == MESSAGE_KEY[j - 1];
      }
    }
  }

  // ------------------------------------------------------------ backoff

  /** The delay after `delay`: doubled, capped at `maxReconnect`. */
  function NextBackoff(delay: int): (r: int)
    ensures r <= MAX_RECONNECT_S
    ensures r == 2 * delay || r == MAX_RECONNECT_S
    ensures delay <= MAX_RECONNECT_S / 2 ==> r == 2 * delay
  {
    if delay * 2 < MAX_RECONNECT_S then delay * 2 else MAX_RECONNECT_S
  }

  /** The values the backoff can hold: 2, 4, 8, 16 and 30 seconds. */
  predicate BackoffStep(delay: int) {
    delay == 2 || delay == 4 || delay == 8 || delay == 16 || delay == 30
  }

  /** The delay before the reconnect after `n` failures in a row since the last successful bind. */
  function BackoffAfter(n: nat): int {
    if n == 0 then INITIAL_RECONNECT_S else NextBackoff(BackoffAfter(n - 1))
  }

  /** The reconnect delays run 2, 4, 8, 16 seconds, then stay at 30. */
  lemma {:induction false} BackoffSchedule(n: nat)
    ensures BackoffStep(BackoffAfter(n))
    ensures n < 4 ==> BackoffAfter(n) == [2, 4, 8, 16][n]
    ensures n >= 4 ==> BackoffAfter(n) == MAX_RECONNECT_S
    ensures BackoffAfter(n) <= BackoffAfter(n + 1)
  {
    if n > 0 {
      BackoffSchedule(n - 1);
    }
  }

  /** Doubling keeps the backoff among its five values. */
  lemma NextBackoffStep(delay: int)
    requires BackoffStep(delay)
    ensures BackoffStep(NextBackoff(delay)) && delay <= NextBackoff(delay)
  {
  }

  // --------------------------------------------------------- connection

  const NOT_CONNECTED_RESPONSE := Response(500, NOT_CONNECTED, None)
  const DISCONNECTED_RESPONSE := Response(500, DISCONNECTED, None)
  const TIMEOUT_RESPONSE := Response(504, REQUEST_TIMEOUT, None)

  /**
   * `MChatConnection`. The CocoaMQTT client is reduced to whether there is
   * one (`hasClient`) and whether its link is up (`linkUp`); each request
   * continuation is its sequence id while pending and the response it was
   * resumed with afterwards. The reconnect task is `armed` (its delay)
   * while it sleeps; a cancelled task wakes at once, so cancelled tasks
   * are counted in `earlyWakeups`.
   */
  class Connection {
    const employeeId: string
    const clientId: string
    const topicPrefix: string
    var hasClient: bool
    var linkUp: bool
    var pending: set<string>
    var resumed: map<string, Response>
    var backoff: int
    var userDisconnect: bool
    var armed: Option<int>
    var earlyWakeups: nat
    var state: ConnState
    var subscriptions: seq<string>
    var published: seq<Publication>

    ghost predicate Valid()
      reads this
    {
      pending !! resumed.Keys && BackoffStep(backoff) && (linkUp ==> hasClient)
    }

    /** `reqPrefix`. */
    function ReqPrefix(): string {
      topicPrefix + "/msg/req/"
    }

    /** `respTopicPrefix`: the response prefix followed by this client's id and a slash. */
    function RespTopicPrefix(): string
    {
      topicPrefix + "/msg/resp/" + clientId + "/"
    }

    /** The sequence id a topic names under `respTopicPrefix`, if it is under it. */
    function RespSeqId(topic: string): Option<string>
    {
      AfterPrefix(topic, RespTopicPrefix())
    }

    /** `inboxTopic`. */
    function InboxTopic(): string
    {
      topicPrefix + "/inbox/" + employeeId
    }

    /**
     * `init`: the employee id is trimmed; the client id is the trimmed,
     * non-blank override or `<employeeId>_ios_<uid8>` with the employee id
     * as given; the topic prefixes follow the service id.
     */
    constructor (employeeIdParam: string, clientIdOption: Option<string>, serviceId: Option<string>, uid8: string)
      ensures Valid()
      ensures employeeId == Trim(employeeIdParam)
      ensures clientId == ChooseClientId(clientIdOption, employeeIdParam + "_ios_" + uid8)
      ensures topicPrefix == TopicPrefix(serviceId)
      ensures !hasClient && !linkUp && pending == {} && resumed == map[]
      ensures backoff == INITIAL_RECONNECT_S && !userDisconnect && armed.None? && earlyWakeups == 0
      ensures state == Disconnected && subscriptions == [] && published == []
    {
      hasClient := false;
      linkUp := false;
      pending := {};
      resumed := map[];
      backoff := INITIAL_RECONNECT_S;
      userDisconnect := false;
      armed := None;
      earlyWakeups := 0;
      state := Disconnected;
      subscriptions := [];
      published := [];
      employeeId := Trim(employeeIdParam);
      clientId := ChooseClientId(clientIdOption, employeeIdParam + "_ios_" + uid8);
      topicPrefix := TopicPrefix(serviceId);
    }

    /** `reconnectTask?.cancel()`: a sleeping task is cancelled, which wakes it early. */
    method CancelReconnect()
      modifies this
      ensures armed.None?
      ensures earlyWakeups == if old(armed).Some? then old(earlyWakeups) + 1 else old(earlyWakeups)
      ensures unchanged(this`hasClient, this`linkUp, this`pending, this`resumed, this`backoff, this`userDisconnect)
      ensures unchanged(this`state, this`subscriptions, this`published)
    {
      if armed.Some? {
        earlyWakeups := earlyWakeups + 1;
        armed := None;
      }
    }

    /** `scheduleReconnect`: a new task sleeping for the current backoff, which then doubles up to 30 seconds. */
    method ScheduleReconnect()
      requires Valid()
      modifies this
      ensures Valid()
      ensures armed == Some(old(backoff)) && backoff == NextBackoff(old(backoff))
      ensures earlyWakeups == if old(armed).Some? then old(earlyWakeups) + 1 else old(earlyWakeups)
      ensures unchanged(this`hasClient, this`linkUp, this`pending, this`resumed, this`userDisconnect)
      ensures unchanged(this`state, this`subscriptions, this`published)
    {
      CancelReconnect();
      armed := Some(backoff);
      NextBackoffStep(backoff);
      backoff := NextBackoff(backoff);
    }

    /**
     * `performConnect`: a fresh client in the connecting state; when
     * `connect()` on it returns false (`started` false) the state is the
     * error "Connect failed" and a reconnect is scheduled.
     */
    method PerformConnect(started: bool)
      requires Valid()
      modifies this
      ensures Valid()
      ensures hasClient && !linkUp
      ensures started ==> state == Connecting && armed == old(armed) && backoff == old(backoff)
      ensures !started ==> state == Failed("Connect failed") && armed == Some(old(backoff)) && backoff == NextBackoff(old(backoff))
      ensures earlyWakeups == if !started && old(armed).Some? then old(earlyWakeups) + 1 else old(earlyWakeups)
      ensures unchanged(this`pending, this`resumed, this`userDisconnect, this`subscriptions, this`published)
    {
      state := Connecting;
      hasClient := true;
      linkUp := false;
      if !started {
        state := Failed("Connect failed");
        ScheduleReconnect();
      }
    }

    /** `connect`: clears the user-disconnect flag, cancels a pending reconnect and connects. */
    method Connect(started: bool)
      requires Valid()
      modifies this
      ensures Valid()
      ensures !userDisconnect && hasClient && !linkUp
      ensures earlyWakeups == if old(armed).Some? then old(earlyWakeups) + 1 else old(earlyWakeups)
      ensures started ==> state == Connecting && armed.None?
      ensures !started ==> state == Failed("Connect failed") && armed == Some(old(backoff))
      ensures unchanged(this`pending, this`resumed, this`subscriptions, this`published)
    {
      userDisconnect := false;
      CancelReconnect();
      PerformConnect(started);
    }

    /**
     * The reconnect task wakes, after its delay or early because it was
     * cancelled; unless the user disconnected it connects again. A
     * cancelled task reconnects too, which is what `try?` around the
     * sleep makes it do.
     */
    method ReconnectWake(early: bool, started: bool)
      requires Valid()
      requires if early then earlyWakeups > 0 else armed.Some?
      modifies this
      ensures Valid()
      ensures userDisconnect ==> state == old(state) && hasClient == old(hasClient) && linkUp == old(linkUp)
      ensures userDisconnect || started ==> earlyWakeups == if early then old(earlyWakeups) - 1 else old(earlyWakeups)
      ensures userDisconnect || started ==> backoff == old(backoff) && armed == if early then old(armed) else None
      ensures !userDisconnect ==> hasClient && !linkUp
      ensures !userDisconnect && started ==> state == Connecting
      ensures !userDisconnect && !started ==> state == Failed("Connect failed") && armed == Some(old(backoff)) && backoff == NextBackoff(old(backoff))
      ensures unchanged(this`pending, this`resumed, this`userDisconnect, this`subscriptions, this`published)
    {
      if early {
        earlyWakeups := earlyWakeups - 1;
      } else {
        armed := None;
      }
      if !userDisconnect {
        PerformConnect(started);
      }
    }

    /**
     * `didConnectAck`: a rejected acknowledgement leaves the error
     * "Connect rejected"; an accepted one (`didConnect`) brings the link
     * up and subscribes to the response wildcard and the inbox.
     */
    method ConnAck(accept: bool)
      requires Valid() && hasClient
      modifies this
      ensures Valid()
      ensures !accept ==> state == Failed("Connect rejected") && subscriptions == old(subscriptions) && linkUp == old(linkUp)
      ensures accept ==> linkUp && state == old(state)
      ensures accept ==> subscriptions == old(subscriptions) + [RespTopicPrefix() + "+", InboxTopic()]
      ensures unchanged(this`hasClient, this`pending, this`resumed, this`backoff, this`armed, this`published)
    {
      if !accept {
        state := Failed("Connect rejected");
      } else {
        linkUp := true;
        subscriptions := subscriptions + [RespTopicPrefix() + "+", InboxTopic()];
      }
    }

    /**
     * `request`: "Not connected" at once without a live link (`immediate`);
     * otherwise the call is pending under `seqId` and `{action, ...params}`
     * is published on `<reqPrefix><clientId>/<seqId>`.
     */
    method Request(action: string, params: Obj, seqId: string) returns (immediate: Option<Response>)
      requires Valid() && seqId !in pending && seqId !in resumed
      modifies this`pending, this`published
      ensures Valid()
      ensures !old(hasClient && linkUp) ==> immediate == Some(NOT_CONNECTED_RESPONSE) && pending == old(pending) && published == old(published)
      ensures old(hasClient && linkUp) ==> immediate.None? && pending == old(pending) + {seqId}
      ensures old(hasClient && linkUp) ==> published == old(published) + [Publication(ReqPrefix() + clientId + "/" + seqId, JObj(RequestBody(action, params)))]
    {
      if !(hasClient && linkUp) {
        return Some(NOT_CONNECTED_RESPONSE);
      }
      pending := pending + {seqId};
      published := published + [Publication(ReqPrefix() + clientId + "/" + seqId, JObj(RequestBody(action, params)))];
      immediate := None;
    }

    /** The 30-second timer of a request: a call still pending is resumed with 504 "Request timeout". */
    method TimeoutFired(seqId: string)
      requires Valid()
      modifies this`pending, this`resumed
      ensures Valid()
      ensures seqId in old(pending) ==> pending == old(pending) - {seqId} && resumed == old(resumed)[seqId := TIMEOUT_RESPONSE]
      ensures seqId !in old(pending) ==> pending == old(pending) && resumed == old(resumed)
    {
      if seqId in pending {
        pending := pending - {seqId};
        resumed := resumed[seqId := TIMEOUT_RESPONSE];
      }
    }

    /** Every pending call resumed with 500 "Disconnected". */
    method ResumeAllDisconnected()
      requires Valid()
      modifies this`pending, this`resumed
      ensures Valid() && pending == {}
      ensures resumed == old(resumed) + map s | s in old(pending) :: DISCONNECTED_RESPONSE
    {
      resumed := resumed + map s | s in pending :: DISCONNECTED_RESPONSE;
      pending := {};
    }

    /**
     * `disconnect`: marks the disconnect as the user's, cancels a pending
     * reconnect, drops the client, resumes every pending call with
     * "Disconnected" and ends disconnected.
     */
    method Disconnect()
      requires Valid()
      modifies this
      ensures Valid()
      ensures userDisconnect && !hasClient && !linkUp && state == Disconnected && armed.None?
      ensures pending == {} && resumed == old(resumed) + map s | s in old(pending) :: DISCONNECTED_RESPONSE
      ensures unchanged(this`backoff, this`subscriptions, this`published)
    {
      userDisconnect := true;
      CancelReconnect();
      hasClient := false;
      linkUp := false;
      ResumeAllDisconnected();
      state := Disconnected;
    }

    /**
     * `didDisconnect`: the link is gone; every pending call is resumed with
     * "Disconnected" and, unless the user asked for it, a reconnect is scheduled.
     */
    method DidDisconnect()
      requires Valid()
      modifies this
      ensures Valid()
      ensures !hasClient && !linkUp && state == Disconnected
      ensures pending == {} && resumed == old(resumed) + map s | s in old(pending) :: DISCONNECTED_RESPONSE
      ensures old(userDisconnect) ==> armed == old(armed) && backoff == old(backoff)
      ensures !old(userDisconnect) ==> armed == Some(old(backoff)) && backoff == NextBackoff(old(backoff))
      ensures unchanged(this`userDisconnect, this`subscriptions, this`published)
    {
      hasClient := false;
      linkUp := false;
      ResumeAllDisconnected();
      state := Disconnected;
      if !userDisconnect {
        ScheduleReconnect();
      }
    }

    /**
     * The delayed `auth.bind` of `didConnect` has answered: a non-zero code
     * is the error "auth.bind: <message>"; code 0 makes the connection
     * connected and resets the backoff to two seconds.
     */
    method BindAnswered(r: Response)
      requires Valid()
      modifies this`state, this`backoff
      ensures Valid()
      ensures r.code != 0 ==> state == Failed("auth.bind: " + r.message) && backoff == old(backoff)
      ensures r.code == 0 ==> state == Connected && backoff == INITIAL_RECONNECT_S
    {
      if r.code != 0 {
        state := Failed("auth.bind: " + r.message);
        return;
      }
      state := Connected;
      backoff := INITIAL_RECONNECT_S;
    }

    /**
     * `messageArrived`: the payload without NUL characters and surrounding
     * blanks; a blank one is dropped. On this client's response prefix it
     * resumes the pending call named by the rest of the topic with the code
     * as `parseCode` scans it (its ten-character window included), the
     * message, and as data the first balanced object or array after the
     * data key (none when there is no key or it never closes); on the inbox topic it is handed to
     * the inbox callback (`inbox`).
     */
    method MessageArrived(topic: string, payload: string) returns (inbox: Option<string>)
      requires Valid()
      modifies this`pending, this`resumed
      ensures Valid()
      ensures inbox.Some? <==> CleanPayload(payload) != [] && RespSeqId(topic).None? && topic == InboxTopic()
      ensures inbox.Some? ==> inbox.value == CleanPayload(payload)
      ensures CleanPayload(payload) == [] || RespSeqId(topic).None? || RespSeqId(topic).value !in old(pending) ==>
        pending == old(pending) && resumed == old(resumed)
      ensures CleanPayload(payload) != [] && RespSeqId(topic).Some? && RespSeqId(topic).value in old(pending) ==>
        var seqId := RespSeqId(topic).value;
        pending == old(pending) - {seqId} && seqId in resumed
        && resumed == old(resumed)[seqId := resumed[seqId]]
        && resumed[seqId].code == ParseCodeAsWritten(CleanPayload(payload))
        && resumed[seqId].message == ParseMessage(CleanPayload(payload))
        && (DataStart(CleanPayload(payload)).None? ==> resumed[seqId].data.None?)
        && (DataStart(CleanPayload(payload)).Some? ==> FirstBalanced(DataStart(CleanPayload(payload)).value, resumed[seqId].data))
    {
      inbox := None;
      var cleaned := CleanPayload(payload);
      if cleaned == [] {
        return;
      }
      var seqId := RespSeqId(topic);
      if seqId.Some? {
        if seqId.value in pending {
          pending := pending - {seqId.value};
          var data := ParseData(cleaned);
          resumed := resumed[seqId.value := Response(ParseCodeAsWritten(cleaned), ParseMessage(cleaned), data)];
        }
      } else if topic == InboxTopic() {
        inbox := Some(cleaned);
      }
    }
  }
}

=== FILE: ios_history.dfy ===
/**
 * The iOS `ChatHistoryCache`: the same per-employee file and limits as
 * on Android, with three differences kept here: the file-name sanitiser
 * keeps every Unicode alphanumeric (`alphanumeric` stands for
 * `CharacterSet.alphanumerics`); `loadAll` uses the employee's file only
 * when it holds peers; and `save` reads the file directly, with every
 * peer a candidate for eviction.
 */
module IosHistory {
  import opened Wrappers
  import opened Strings
  import opened ChatModel
  import opened HistoryCache
  import AndroidHistory

  /** `sanitizeEmployeeIdForFile`: trimmed, every scalar outside alphanumerics and `_.-` replaced by `_`, `"default"` when empty. */
  function SanitizeEmployeeId(employeeId: string, alphanumeric: char -> bool): (r: string)
    ensures r != [] && forall i :: 0 <= i < |r| ==> alphanumeric(r[i]) || r[i] in "_.-" || r == "default"
    ensures IsBlank(employeeId) ==> r == "default"
    ensures !IsBlank(employeeId) ==> |r| == |Trim(employeeId)|
  {
    var t := Trim(employeeId);
    if t == [] then "default" else ReplaceUnsafe(t, alphanumeric)
  }

  function ReplaceUnsafe(t: string, alphanumeric: char -> bool): (r: string)
    ensures |r| == |t| && forall i :: 0 <= i < |r| ==> alphanumeric(r[i]) || r[i] in "_.-"
    ensures forall i :: 0 <= i < |t| && (alphanumeric(t[i]) || t[i] in "_.-") ==> r[i] == t[i]
  {
    seq(|t|, i requires 0 <= i < |t| => if alphanumeric(t[i]) || t[i] in "_.-" then t[i] else '_')
  }

  /** On an ASCII id, where alphanumerics are the ASCII letters and digits, both platforms pick the same file name. */
  lemma SanitizeAgreesOnAscii(employeeId: string, alphanumeric: char -> bool)
    requires forall c :: c < '\U{80}' ==> (alphanumeric(c) <==> IsAsciiAlnum(c))
    requires forall i :: 0 <= i < |employeeId| ==> employeeId[i] < '\U{80}'
    ensures SanitizeEmployeeId(employeeId, alphanumeric) == AndroidHistory.SanitizeEmployeeId(employeeId)
  {
    var t := Trim(employeeId);
    if t != [] {
      assert forall i :: 0 <= i < |t| ==> t[i] in employeeId;
      assert forall i :: 0 <= i < |t| ==> (alphanumeric(t[i]) || t[i] in "_.-" <==> IsIdChar(t[i]));
    }
  }

  /** `fileURL(for:)`: never the legacy file's name. */
  function FileFor(employeeId: string, alphanumeric: char -> bool): (r: string)
    ensures r != LEGACY_FILENAME
  {
    FILENAME_PREFIX + SanitizeEmployeeId(employeeId, alphanumeric) + FILENAME_SUFFIX
  }

  /** `list.compactMap(\.timestampMs).max() ?? 0`: the largest timestamp present, 0 when none is. */
  function NewestOrZero(list: seq<ChatMessage>): (r: int)
    ensures forall i :: 0 <= i < |list| && list[i].timestampMs.Some? ==> list[i].timestampMs.value <= r
    ensures (exists i :: 0 <= i < |list| && list[i].timestampMs == Some(r)) || ((forall i :: 0 <= i < |list| ==> list[i].timestampMs.None?) && r == 0)
  {
    if list == [] then 0
    else
      var init := NewestOrZero(list[..|list| - 1]);
      var last := list[|list| - 1].timestampMs;
      assert forall i :: 0 <= i < |list| - 1 ==> list[..|list| - 1][i] == list[i];
      if last.None? then init
      else if (forall i :: 0 <= i < |list| - 1 ==> list[i].timestampMs.None?) || init <= last.value then last.value
      else init
  }

  /** `current.compactMap { ... }`: every peer with its newest timestamp, in map order. */
  function Candidates(p: PeerLists): (c: seq<(string, int)>)
    ensures |c| == |p| && forall i :: 0 <= i < |c| ==> c[i] == (p[i].0, NewestOrZero(p[i].1))
  {
    seq(|p|, i requires 0 <= i < |p| => (p[i].0, NewestOrZero(p[i].1)))
  }

  /** The map's distinct keys make distinct candidate ids. */
  lemma {:induction false} CandidatesUnique(p: PeerLists)
    requires UniqueKeys(p)
    ensures UniqueIds(Candidates(p))
    ensures forall i :: 0 <= i < |p| ==> p[i].0 in KeySet(p)
  {
    if p != [] {
      CandidatesUnique(p[1..]);
      var c := Candidates(p);
      forall i, j | 0 <= i < j < |c|
        ensures c[i].0 != c[j].0
      {
        if i == 0 {
          assert p[j].0 == p[1..][j - 1].0;
        } else {
          assert Candidates(p[1..])[i - 1].0 == c[i].0 && Candidates(p[1..])[j - 1].0 == c[j].0;
        }
      }
      forall i | 0 <= i < |p|
        ensures p[i].0 in KeySet(p)
      {
        if i > 0 {
          assert p[i] == p[1..][i - 1];
        }
      }
    }
  }

  datatype Loaded = Loaded(peers: PeerLists, files: Files)

  /**
   * `loadAll`: the employee's file when it decodes to some peers;
   * otherwise a legacy file with peers is written to the employee's file
   * and removed; otherwise no peers.
   */
  function LoadResult(files: Files, employeeId: string, alphanumeric: char -> bool): (r: Loaded)
    ensures WellFormed(files) ==> WellFormed(r.files) && UniqueKeys(r.peers)
    ensures r.peers != [] ==> FileFor(employeeId, alphanumeric) in r.files && r.files[FileFor(employeeId, alphanumeric)] == Peers(r.peers)
    ensures forall f :: f != FileFor(employeeId, alphanumeric) && f != LEGACY_FILENAME ==> (f in r.files <==> f in files) && (f in files ==> r.files[f] == files[f])
    ensures r.peers == [] ==> r.files == files
  {
    var mine := FileFor(employeeId, alphanumeric);
    if mine in files && files[mine].Peers? && files[mine].entries != [] then Loaded(files[mine].entries, files)
    else if LEGACY_FILENAME in files && files[LEGACY_FILENAME].Peers? && files[LEGACY_FILENAME].entries != [] then
      var peers := files[LEGACY_FILENAME].entries;
      var migrated := files[mine := Peers(peers)] - {LEGACY_FILENAME};
      assert mine in migrated && migrated[mine] == Peers(peers);
      Loaded(peers, migrated)
    else Loaded([], files)
  }

  /** The migration happens once: loading again returns the same peers and changes nothing. */
  lemma LoadTwice(files: Files, employeeId: string, alphanumeric: char -> bool)
    ensures LoadResult(LoadResult(files, employeeId, alphanumeric).files, employeeId, alphanumeric).peers == LoadResult(files, employeeId, alphanumeric).peers
    ensures LoadResult(LoadResult(files, employeeId, alphanumeric).files, employeeId, alphanumeric).files == LoadResult(files, employeeId, alphanumeric).files
  {
  }

  /** An employee file that decodes to no peers gives way to the legacy file on iOS; on Android it does not. */
  lemma EmptyFileDiffers(files: Files, employeeId: string, alphanumeric: char -> bool, legacy: PeerLists)
    requires FileFor(employeeId, alphanumeric) == AndroidHistory.FileFor(employeeId)
    requires FileFor(employeeId, alphanumeric) in files && files[FileFor(employeeId, alphanumeric)] == Peers([])
    requires LEGACY_FILENAME in files && files[LEGACY_FILENAME] == Peers(legacy) && legacy != []
    ensures LoadResult(files, employeeId, alphanumeric).peers == legacy
    ensures AndroidHistory.LoadResult(files, employeeId).peers == []
  {
  }

  /** What `save` starts from: the employee's file when it decodes, else nothing. */
  function StoredPeers(files: Files, employeeId: string, alphanumeric: char -> bool): (r: PeerLists)
    ensures WellFormed(files) ==> UniqueKeys(r)
  {
    var mine := FileFor(employeeId, alphanumeric);
    if mine in files && files[mine].Peers? then files[mine].entries else []
  }

  /** `current[peerId] = Array(messages.suffix(500))`. */
  function SaveCurrent(peers: PeerLists, peerId: string, messages: seq<ChatMessage>): PeerLists {
    Put(peers, peerId, TakeLast(messages, MAX_MESSAGES_PER_PEER))
  }

  /** The peer map `save` writes: the peer's last 500 messages put in, then eviction above 100 peers with every peer a candidate. */
  function Saved(peers: PeerLists, peerId: string, messages: seq<ChatMessage>): (r: PeerLists)
    ensures UniqueKeys(peers) ==> UniqueKeys(r)
  {
    var current := SaveCurrent(peers, peerId, messages);
    EvictOverKeeps(current, Candidates(current));
    EvictOver(current, Candidates(current))
  }

  function SaveEvicted(peers: PeerLists, peerId: string, messages: seq<ChatMessage>): seq<string> {
    var current := SaveCurrent(peers, peerId, messages);
    EvictedIds(current, Candidates(current))
  }

  /** `save`: nothing for an empty list; otherwise the employee's file holds the saved map. The legacy file is not consulted. */
  function SaveResult(files: Files, employeeId: string, alphanumeric: char -> bool, peerId: string, messages: seq<ChatMessage>): (r: Files)
    ensures messages == [] ==> r == files
    ensures messages != [] ==> r == files[FileFor(employeeId, alphanumeric) := Peers(Saved(StoredPeers(files, employeeId, alphanumeric), peerId, messages))]
    ensures WellFormed(files) ==> WellFormed(r)
  {
    if messages == [] then files
    else
      var saved := Saved(StoredPeers(files, employeeId, alphanumeric), peerId, messages);
      assert WellFormed(files) ==> UniqueKeys(saved);
      files[FileFor(employeeId, alphanumeric) := Peers(saved)]
  }

  /** The saved peer holds its last 500 messages unless evicted; other peers keep their lists unless evicted. */
  lemma SavedLists(peers: PeerLists, peerId: string, messages: seq<ChatMessage>)
    ensures peerId !in SaveEvicted(peers, peerId, messages) ==>
      Lookup(Saved(peers, peerId, messages), peerId) == Some(TakeLast(messages, MAX_MESSAGES_PER_PEER))
    ensures forall k :: k != peerId && k !in SaveEvicted(peers, peerId, messages) ==> Lookup(Saved(peers, peerId, messages), k) == Lookup(peers, k)
    ensures forall k :: k in SaveEvicted(peers, peerId, messages) ==> Lookup(Saved(peers, peerId, messages), k).None?
  {
    var current := SaveCurrent(peers, peerId, messages);
    EvictOverKeeps(current, Candidates(current));
  }

  /** Every peer is a candidate, so above 100 peers exactly 100 remain. */
  lemma SavedCount(peers: PeerLists, peerId: string, messages: seq<ChatMessage>)
    requires UniqueKeys(peers)
    ensures |SaveCurrent(peers, peerId, messages)| > MAX_PEERS ==> |Saved(peers, peerId, messages)| == MAX_PEERS
    ensures |SaveCurrent(peers, peerId, messages)| <= MAX_PEERS ==> Saved(peers, peerId, messages) == SaveCurrent(peers, peerId, messages)
  {
    var current := SaveCurrent(peers, peerId, messages);
    if |current| > MAX_PEERS {
      CandidatesUnique(current);
      EvictOverCount(current, Candidates(current));
    }
  }

  /** Every evicted peer's newest timestamp is no newer than any kept peer's. */
  lemma EvictedAreOldest(peers: PeerLists, peerId: string, messages: seq<ChatMessage>, current: PeerLists, candidates: seq<(string, int)>)
    requires current == SaveCurrent(peers, peerId, messages) && candidates == Candidates(current)
    requires |current| > MAX_PEERS
    ensures forall e, x :: e in Evicted(candidates, Excess(current)) && x in candidates && x.0 in KeySet(Saved(peers, peerId, messages)) ==> e.1 <= x.1
  {
    forall e, x | e in Evicted(candidates, Excess(current)) && x in candidates && x.0 in KeySet(Saved(peers, peerId, messages))
      ensures e.1 <= x.1
    {
      EvictOverSmallest(current, candidates, e, x);
    }
  }

  /** The files directory with the behaviour of the iOS `ChatHistoryCache`. */
  class ChatHistoryCache {
    const alphanumeric: char -> bool
    var files: Files

    ghost predicate Valid()
      reads this
    {
      WellFormed(files)
    }

    constructor (initial: Files, isAlphanumeric: char -> bool)
      requires WellFormed(initial)
      ensures Valid() && files == initial && alphanumeric == isAlphanumeric
    {
      files := initial;
      alphanumeric := isAlphanumeric;
    }

    /** `loadAll(myEmployeeId:)`. */
    method LoadAll(employeeId: string) returns (peers: PeerLists)
      requires Valid()
      modifies this
      ensures Valid()
      ensures peers == LoadResult(old(files), employeeId, alphanumeric).peers && files == LoadResult(old(files), employeeId, alphanumeric).files
    {
      var loaded := LoadResult(files, employeeId, alphanumeric);
      files := loaded.files;
      peers := loaded.peers;
    }

    /** `save`: the chosen peers are removed one by one, as `forEach` does. */
    method Save(employeeId: string, peerId: string, messages: seq<ChatMessage>)
      requires Valid()
      modifies this
      ensures Valid()
      ensures files == SaveResult(old(files), employeeId, alphanumeric, peerId, messages)
    {
      if messages == [] {
        return;
      }
      var current := Put(StoredPeers(files, employeeId, alphanumeric), peerId, TakeLast(messages, MAX_MESSAGES_PER_PEER));
      ghost var start := current;
      var toRemove := EvictedIds(current, Candidates(current));
      var i := 0;
      while i < |toRemove|
        invariant 0 <= i <= |toRemove|
        invariant RemoveKeys(current, toRemove[i..]) == RemoveKeys(start, toRemove)
      {
        assert toRemove[i..][1..] == toRemove[i + 1..];
        current := RemoveKey(current, toRemove[i]);
        i := i + 1;
      }
      assert current == EvictOver(start, Candidates(start));
      files := files[FileFor(employeeId, alphanumeric) := Peers(current)];
    }
  }
}

=== FILE: ios_runtime.dfy ===
/**
 * The iOS `MChatRuntime`: the same two guards as on Android in front of
 * `connect`, a broker URL parser that reads the port differently, and the
 * wiring of a new connection to a chat controller started from the
 * history cache. There is no automatic connect at start-up. The task
 * `connect` starts runs to its end inside `Connect`.
 */
module IosRuntime {
  import opened Wrappers
  import opened Strings
  import opened HistoryCache
  import Protocol
  import AndroidConnection
  import AndroidRuntime
  import IosConnection
  import IosHistory
  import IosChat

  /**
   * The host and port read from the trimmed text after the scheme: the text
   * before the first `:` is the host, and the decimal digits among the next
   * five characters, read together and clamped, are the port.
   */
  function HostPort(rest: string): (r: (Option<string>, Option<int>))
    requires Trimmed(rest)
    ensures r.0.Some? ==> r.0.value != [] && Trimmed(r.0.value) && ':' !in r.0.value
    ensures r.1.Some? ==> 1 <= r.1.value <= 65535 && ':' in rest
    ensures ':' !in rest ==> r == (AndroidRuntime.NonEmpty(rest), None)
  {
    var colon := IndexOfFrom(rest, ':', 0);
    if colon.None? then
      (AndroidRuntime.NonEmpty(rest), None)
    else
      var before := rest[..colon.value];
      var host := Trim(before);
      assert forall c :: c in host ==> c in before;
      var port := ParseDecimal(KeepDigits(Take(rest[colon.value + 1..], 5)));
      (AndroidRuntime.NonEmpty(host), if port.Some? then Some(Protocol.ClampPort(port.value)) else None)
  }

  /**
   * `parseBrokerUrl`: the scheme decides TLS as on Android; a host is the
   * trimmed text before the first `:`, which may leave a port without a host.
   */
  function ParseBrokerUrl(url: string): (r: AndroidRuntime.Address)
    ensures r.useTls <==> StartsWithIgnoreCase(Trim(url), "ssl://")
    ensures !StartsWithIgnoreCase(Trim(url), "ssl://") && !StartsWithIgnoreCase(Trim(url), "tcp://") ==>
      r == AndroidRuntime.Address(None, None, false)
    ensures r.host.Some? ==> r.host.value != [] && Trimmed(r.host.value) && ':' !in r.host.value
    ensures r.port.Some? ==> 1 <= r.port.value <= 65535
  {
    var trimmed := Trim(url);
    match AndroidRuntime.Scheme(trimmed)
    case None => AndroidRuntime.Address(None, None, false)
    case Some(useTls) =>
      var hp := HostPort(Trim(trimmed[6..]));
      AndroidRuntime.Address(hp.0, hp.1, useTls)
  }

  /** `connect`'s guards, with the same messages as on Android. */
  function Validate(prefs: AndroidRuntime.Prefs): AndroidRuntime.Validation {
    var url := Trim(prefs.brokerUrl);
    var username := Trim(prefs.username);
    var employeeId := Trim(prefs.employeeId);
    if url == [] || username == [] || employeeId == [] then AndroidRuntime.MissingField
    else
      var a := ParseBrokerUrl(url);
      if a.host.None? || a.port.None? then AndroidRuntime.BadUrl
      else AndroidRuntime.Ready(AndroidRuntime.Endpoint(a.host.value, a.port.value, a.useTls, username, prefs.password, employeeId))
  }

  /** A blank field is reported before the URL is looked at, exactly as on Android. */
  lemma ValidateMissing(prefs: AndroidRuntime.Prefs)
    ensures Validate(prefs).MissingField? <==> IsBlank(prefs.brokerUrl) || IsBlank(prefs.username) || IsBlank(prefs.employeeId)
    ensures Validate(prefs).MissingField? <==> AndroidRuntime.Validate(prefs).MissingField?
  {
  }

  /** An accepted connection gets the trimmed user name and employee id, the password as typed, a trimmed host without `:` and a port in range. */
  lemma ValidateReady(prefs: AndroidRuntime.Prefs)
    requires Validate(prefs).Ready?
    ensures var e := Validate(prefs).endpoint;
      e.username == Trim(prefs.username) && e.employeeId == Trim(prefs.employeeId) && e.password == prefs.password
    ensures var e := Validate(prefs).endpoint;
      e.host != [] && Trimmed(e.host) && ':' !in e.host && 1 <= e.port <= 65535
  {
  }

  /** A string of digits is kept whole by the digit filter. */
  lemma {:induction false} KeepAllDigits(d: string)
    requires AllDigits(d)
    ensures KeepDigits(d) == d
  {
    if d != [] {
      KeepAllDigits(d[1..]);
    }
  }

  function Pow10(k: nat): nat {
    if k == 0 then 1 else 10 * Pow10(k - 1)
  }

  /** A number below `10^k` has at most `k` digits. */
  lemma {:induction false} ShortNumber(n: nat, k: nat)
    requires 1 <= k && n < Pow10(k)
    ensures |NatToString(n)| <= k
  {
    if n >= 10 {
      assert Pow10(1) == 10;
      assert n / 10 < Pow10(k - 1);
      ShortNumber(n / 10, k - 1);
    }
  }

  /** A trimmed host without `:`, a colon and a port's digits read back as that host and port. */
  lemma HostPortOf(h: string, p: int)
    requires h != [] && Trimmed(h) && ':' !in h
    requires 1 <= p <= 65535
    ensures var rest := h + ":" + IntToString(p);
      Trimmed(rest) && HostPort(rest) == (Some(h), Some(p))
  {
    var d := IntToString(p);
    assert d == NatToString(p);
    ColonJoin(h, d);
    TrimUntouched(h);
    PortOf(p);
  }

  /** Host, colon and digits: the first colon is the one after the host, and the whole has no surrounding whitespace. */
  lemma ColonJoin(h: string, d: string)
    requires h != [] && Trimmed(h) && ':' !in h
    requires d != [] && IsDigit(d[|d| - 1])
    ensures var rest := h + ":" + d;
      Trimmed(rest) && IndexOfFrom(rest, ':', 0) == Some(|h|) && rest[..|h|] == h && rest[|h| + 1..] == d
  {
    var rest := h + ":" + d;
    assert rest[0] == h[0] && rest[|rest| - 1] == d[|d| - 1];
    assert forall j :: 0 <= j < |h| ==> rest[j] == h[j];
    IndexOfFromAt(rest, ':', 0, |h|);
    assert rest[..|h|] == h;
    assert rest[|h| + 1..] == d;
  }

  /** The printed port is read back whole: it has at most five digits. */
  lemma PortOf(p: int)
    requires 1 <= p <= 65535
    ensures ParseDecimal(KeepDigits(Take(IntToString(p), 5))) == Some(p)
  {
    var d := IntToString(p);
    assert d == NatToString(p);
    assert Pow10(5) == 100000;
    ShortNumber(p, 5);
    KeepAllDigits(d);
    ParseIntToString(p);
  }

  /** After a lower-case scheme, the parser reads host and port from the rest alone. */
  lemma ParseAfterScheme(useTls: bool, rest: string)
    requires rest != [] && Trimmed(rest)
    ensures var hp := HostPort(rest);
      ParseBrokerUrl((if useTls then "ssl://" else "tcp://") + rest) == AndroidRuntime.Address(hp.0, hp.1, useTls)
  {
    AndroidRuntime.SchemeSplit(useTls, rest);
  }

  /** Scheme, trimmed host without `:`, colon and port: the parser recovers all three, as the Android parser does. */
  lemma ParseOfParts(useTls: bool, h: string, p: int)
    requires h != [] && Trimmed(h) && ':' !in h
    requires 1 <= p <= 65535
    ensures var url := (if useTls then "ssl://" else "tcp://") + h + ":" + IntToString(p);
      ParseBrokerUrl(url) == AndroidRuntime.Address(Some(h), Some(p), useTls) &&
      ParseBrokerUrl(url) == AndroidRuntime.ParseBrokerUrl(url)
  {
    var scheme := if useTls then "ssl://" else "tcp://";
    var rest := h + ":" + IntToString(p);
    HostPortOf(h, p);
    ParseAfterScheme(useTls, rest);
    AndroidRuntime.Regroup(scheme, h, ":", IntToString(p));
    AndroidRuntime.ParseOfParts(useTls, h, p);
  }

  /**
   * Settings whose URL is written as scheme, host, colon and port are
   * accepted by both apps, with the same connection arguments.
   */
  lemma SameEndpointOnBothApps(useTls: bool, h: string, p: int, username: string, password: string, employeeId: string)
    requires h != [] && Trimmed(h) && ':' !in h
    requires 1 <= p <= 65535
    requires !IsBlank(username) && !IsBlank(employeeId)
    ensures var prefs := AndroidRuntime.Prefs((if useTls then "ssl://" else "tcp://") + h + ":" + IntToString(p), username, password, employeeId);
      Validate(prefs) == AndroidRuntime.Validate(prefs) &&
      Validate(prefs) == AndroidRuntime.Ready(AndroidRuntime.Endpoint(h, p, useTls, Trim(username), password, Trim(employeeId)))
  {
    var url := (if useTls then "ssl://" else "tcp://") + h + ":" + IntToString(p);
    ParseOfParts(useTls, h, p);
    CanonicalUrlTrimmed(useTls, h, p);
    ValidateParsed(AndroidRuntime.Prefs(url, username, password, employeeId), AndroidRuntime.Address(Some(h), Some(p), useTls));
  }

  /** Settings with a trimmed URL that both parsers read alike, as a host and a port, give both apps the same connection. */
  lemma ValidateParsed(prefs: AndroidRuntime.Prefs, a: AndroidRuntime.Address)
    requires prefs.brokerUrl != [] && Trim(prefs.brokerUrl) == prefs.brokerUrl
    requires !IsBlank(prefs.username) && !IsBlank(prefs.employeeId)
    requires ParseBrokerUrl(prefs.brokerUrl) == a && AndroidRuntime.ParseBrokerUrl(prefs.brokerUrl) == a
    requires a.host.Some? && a.port.Some?
    ensures Validate(prefs) == AndroidRuntime.Validate(prefs)
    ensures Validate(prefs) == AndroidRuntime.Ready(AndroidRuntime.Endpoint(a.host.value, a.port.value, a.useTls, Trim(prefs.username), prefs.password, Trim(prefs.employeeId)))
  {
  }

  lemma CanonicalUrlTrimmed(useTls: bool, h: string, p: int)
    requires h != [] && 1 <= p
    ensures var url := (if useTls then "ssl://" else "tcp://") + h + ":" + IntToString(p);
      url != [] && Trim(url) == url
  {
    var url := (if useTls then "ssl://" else "tcp://") + h + ":" + IntToString(p);
    assert IntToString(p) == NatToString(p);
    assert !IsSpace(url[0]) && IsDigit(url[|url| - 1]);
    TrimUntouched(url);
  }

  /** With the colon first after the scheme (`tcp://:1883`) there is no host, so the URL is refused; Android refuses it too, for want of a port. */
  lemma ColonFirst(useTls: bool, rest: string)
    requires rest != [] && rest[0] == ':' && Trimmed(rest)
    ensures ParseBrokerUrl((if useTls then "ssl://" else "tcp://") + rest).host.None?
    ensures AndroidRuntime.ParseBrokerUrl((if useTls then "ssl://" else "tcp://") + rest).port.None?
  {
    ParseAfterScheme(useTls, rest);
    AndroidRuntime.ColonFirst(useTls, rest);
    assert IndexOfFrom(rest, ':', 0) == Some(0);
  }

  /**
   * The two apps read a port differently: iOS keeps every digit among the
   * first five characters after the colon, Android stops at the first
   * non-digit. `tcp://h:1a2` names port 12 on iOS and port 1 on Android.
   */
  lemma PortReadingDiffers()
    ensures ParseBrokerUrl("tcp://" + "h:1a2") == AndroidRuntime.Address(Some("h"), Some(12), false)
    ensures AndroidRuntime.ParseBrokerUrl("tcp://" + "h:1a2") == AndroidRuntime.Address(Some("h"), Some(1), false)
  {
    var rest := "h:1a2";
    ParseAfterScheme(false, rest);
    AndroidRuntime.ParseAfterScheme(false, rest);
    SwiftPortExample();
    KotlinPortExample();
  }

  lemma SwiftPortExample()
    ensures HostPort("h:1a2") == (Some("h"), Some(12))
  {
    var rest := "h:1a2";
    assert IndexOfFrom(rest, ':', 0) == Some(1);
    assert rest[..1] == "h" && rest[2..] == "1a2";
    assert KeepDigits("1a2") == "12" by {
      assert KeepDigits("2") == "2";
      assert "1a2"[1..] == "a2" && "a2"[1..] == "2";
    }
    assert ParseDecimal("12") == Some(12) by {
      assert AllDigits("12") && "12"[..1] == "1";
      assert DigitsValue("12") == 10 * DigitsValue("1") + 2;
    }
  }

  lemma KotlinPortExample()
    ensures AndroidRuntime.HostPort("h:1a2") == (Some("h"), Some(1))
  {
    var rest := "h:1a2";
    assert IndexOfFrom(rest, ':', 0) == Some(1);
    assert rest[..1] == "h" && rest[2..] == "1a2";
    assert TakeDigits("1a2") == "1" by {
      assert "1a2"[1..] == "a2";
    }
    assert ParseDecimal("1") == Some(1);
  }

  /** `MChatRuntime`: the connection, its controller, the connection state shown to the UI and the history cache. */
  class Runtime {
    var connectionState: IosConnection.ConnState
    var isConnected: bool
    var connection: Option<AndroidRuntime.Endpoint>
    var controller: IosChat.ChatController?
    /** The connections `disconnect` was called on, oldest first. */
    var closed: seq<AndroidRuntime.Endpoint>
    const history: IosHistory.ChatHistoryCache

    ghost predicate Valid()
      reads this, history, controller
    {
      history.Valid() && (connection.Some? <==> controller != null) && (controller != null ==> controller.Valid())
    }

    /** `init`: nothing is connected until `connect` is called. */
    constructor (files: Files, isAlphanumeric: char -> bool)
      requires WellFormed(files)
      ensures Valid() && closed == [] && connection.None?
      ensures connectionState == IosConnection.Disconnected && !isConnected
      ensures history.files == files && history.alphanumeric == isAlphanumeric
    {
      connectionState := IosConnection.Disconnected;
      isConnected := false;
      connection := None;
      controller := null;
      closed := [];
      history := new IosHistory.ChatHistoryCache(files, isAlphanumeric);
    }

    /**
     * `connect`: a blank field or a URL without host and port sets the
     * matching error and keeps the current connection; otherwise the
     * current connection is closed, the state is `Connecting`, and a new
     * connection and a controller holding the cached history, if any,
     * replace them.
     */
    method Connect(saved: AndroidRuntime.Prefs)
      requires Valid()
      modifies this, history
      ensures Valid()
      ensures Validate(saved).MissingField? ==> connectionState == IosConnection.Failed(AndroidRuntime.MISSING_FIELDS)
      ensures Validate(saved).BadUrl? ==> connectionState == IosConnection.Failed(AndroidRuntime.MALFORMED_URL)
      ensures !Validate(saved).Ready? ==>
        connection == old(connection) && controller == old(controller) && closed == old(closed) &&
        history.files == old(history.files) && isConnected == old(isConnected)
      ensures Validate(saved).Ready? ==>
        connectionState == IosConnection.Connecting && connection == Some(Validate(saved).endpoint) &&
        closed == old(closed) + (if old(connection).Some? then [old(connection).value] else [])
      ensures Validate(saved).Ready? ==>
        var loaded := IosHistory.LoadResult(old(history.files), Validate(saved).endpoint.employeeId, history.alphanumeric);
        controller != null && fresh(controller) && controller.hasCache &&
        controller.messagesByPeer == AsMap(loaded.peers) && history.files == loaded.files
    {
      var v := Validate(saved);
      if v.MissingField? {
        connectionState := IosConnection.Failed(AndroidRuntime.MISSING_FIELDS);
      } else if v.BadUrl? {
        connectionState := IosConnection.Failed(AndroidRuntime.MALFORMED_URL);
      } else {
        Disconnect();
        connectionState := IosConnection.Connecting;
        Start(v.endpoint);
      }
    }

    /** The started task: the cached history is loaded and a controller holding it (none when it is empty) is attached with the new connection. */
    method Start(e: AndroidRuntime.Endpoint)
      requires Valid() && connection.None?
      modifies this`connection, this`controller, history
      ensures Valid() && connection == Some(e)
      ensures var loaded := IosHistory.LoadResult(old(history.files), e.employeeId, history.alphanumeric);
        controller != null && fresh(controller) && controller.hasCache &&
        controller.messagesByPeer == AsMap(loaded.peers) && history.files == loaded.files
    {
      var cached := history.LoadAll(e.employeeId);
      var initial := if |cached| == 0 then None else Some(AsMap(cached));
      controller := new IosChat.ChatController(initial, true);
      connection := Some(e);
    }

    /** `disconnect`: the current connection, if any, is closed and dropped with its controller. */
    method Disconnect()
      requires Valid()
      modifies this
      ensures Valid()
      ensures connection.None? && controller == null
      ensures closed == old(closed) + (if old(connection).Some? then [old(connection).value] else [])
      ensures connectionState == old(connectionState) && isConnected == old(isConnected)
    {
      if connection.Some? {
        closed := closed + [connection.value];
      }
      connection := None;
      controller := null;
    }

    /**
     * The state subscription: the state is shown, and on `connected` the
     * controller clears the peer and asks for the employees. A controller
     * that trapped has ended the process, so it runs no more.
     */
    method ConnectionStateChanged(s: IosConnection.ConnState)
      requires Valid() && controller != null && !controller.trapped
      modifies this`connectionState, this`isConnected, controller`currentPeerId, controller`errorText, controller`requests
      ensures Valid()
      ensures connectionState == s && (isConnected <==> s.Connected?)
      ensures s.Connected? ==>
        controller.currentPeerId.None? && controller.requests == old(controller.requests) + [("org.tree", [])]
      ensures !s.Connected? ==> controller.currentPeerId == old(controller.currentPeerId) && controller.requests == old(controller.requests)
    {
      connectionState := s;
      isConnected := s.Connected?;
      if s.Connected? {
        controller.SelectPeer(None);
        controller.LoadEmployees();
      }
    }
  }
}

=== FILE: json.dfy ===
/**
 * JSON values as the server and the clients see them once their JSON
 * library has parsed a payload, with the JavaScript operations the
 * server applies to them: property lookup, assignment, spread,
 * truthiness, `??`, optional chaining and `String(…)`. Numbers are
 * integers. Parsing itself belongs to the platform library; a payload
 * therefore arrives as a `Raw` value that says whether it parsed.
 */
module Json {
  import opened Wrappers
  import opened Strings

  datatype Json =
    | JNull
    | JBool(b: bool)
    | JNum(n: int)
    | JStr(s: string)
    | JArr(items: seq<Json>)
    | JObj(fields: seq<(string, Json)>)

  /** An object's own properties in order. */
  type Obj = seq<(string, Json)>

  /** What the platform's JSON parser made of a text. */
  datatype Raw = Malformed | Parsed(value: Json)

  predicate HasKey(o: Obj, k: string) {
    exists i :: 0 <= i < |o| && o[i].0 == k
  }

  /** Property lookup; when a key repeats, the last occurrence wins, as `JSON.parse` keeps it. */
  function Get(o: Obj, k: string): (r: Option<Json>)
    ensures r.Some? <==> HasKey(o, k)
    ensures r.Some? ==> (k, r.value) in o
  {
    if o == [] then None
    else if o[|o| - 1].0 == k then Some(o[|o| - 1].1)
    else
      var r := Get(o[..|o| - 1], k);
      assert HasKey(o, k) ==> HasKey(o[..|o| - 1], k) by {
        if HasKey(o, k) {
          var i :| 0 <= i < |o| && o[i].0 == k;
          assert o[..|o| - 1][i].0 == k;
        }
      }
      r
  }

  /** Two objects with the same keys at the same places and the same values under key `k` agree on `k`. */
  lemma {:induction false} GetAgree(o: Obj, p: Obj, k: string)
    requires |o| == |p|
    requires forall i :: 0 <= i < |o| ==> (o[i].0 == k <==> p[i].0 == k)
    requires forall i :: 0 <= i < |o| && o[i].0 == k ==> o[i] == p[i]
    ensures Get(o, k) == Get(p, k)
    decreases |o|
  {
    if o != [] && o[|o| - 1].0 != k {
      GetAgree(o[..|o| - 1], p[..|p| - 1], k);
    }
  }

  predicate DistinctKeys(o: Obj) {
    forall i, j :: 0 <= i < j < |o| ==> o[i].0 != o[j].0
  }

  /** In an object whose keys are distinct, each key finds its own value. */
  lemma {:induction false} GetDistinct(o: Obj, i: nat)
    requires DistinctKeys(o) && i < |o|
    ensures Get(o, o[i].0) == Some(o[i].1)
    decreases |o|
  {
    if i < |o| - 1 {
      GetDistinct(o[..|o| - 1], i);
    }
  }

  /** JavaScript property assignment `o[k] = v`: an existing property keeps its place, a new one goes last. */
  function Put(o: Obj, k: string, v: Json): (r: Obj)
    ensures Get(r, k) == Some(v)
    ensures forall k' :: k' != k ==> Get(r, k') == Get(o, k')
    ensures HasKey(o, k) ==> |r| == |o|
  {
    if HasKey(o, k) then
      var r := seq(|o|, i requires 0 <= i < |o| => if o[i].0 == k then (k, v) else o[i]);
      forall k' | k' != k ensures Get(r, k') == Get(o, k') {
        GetAgree(r, o, k');
      }
      assert HasKey(r, k) by {
        var i :| 0 <= i < |o| && o[i].0 == k;
        assert r[i].0 == k;
      }
      r
    else
      var r := o + [(k, v)];
      forall k' | k' != k ensures Get(r, k') == Get(o, k') {
        assert r[..|r| - 1] == o;
      }
      r
  }

  /** Object spread `{...o, ...extra}`: each property of `extra`, in order, is assigned onto `o`. */
  function Spread(o: Obj, extra: Obj): Obj
    decreases |extra|
  {
    if extra == [] then o else Spread(Put(o, extra[0].0, extra[0].1), extra[1..])
  }

  lemma {:induction false} GetFront(e: Obj, k: string)
    requires e != []
    decreases |e|
    ensures Get(e, k) == if Get(e[1..], k).Some? then Get(e[1..], k) else if e[0].0 == k then Some(e[0].1) else None
  {
    var n := |e| - 1;
    if n > 0 && e[n].0 != k {
      GetFront(e[..n], k);
      assert e[..n][1..] == e[1..][..n - 1];
    }
  }

  /** After a spread, a key of `extra` takes `extra`'s value and every other key keeps `o`'s. */
  lemma {:induction false} GetSpread(o: Obj, extra: Obj, k: string)
    decreases |extra|
    ensures Get(Spread(o, extra), k) == if Get(extra, k).Some? then Get(extra, k) else Get(o, k)
  {
    if extra != [] {
      var o' := Put(o, extra[0].0, extra[0].1);
      GetSpread(o', extra[1..], k);
      GetFront(extra, k);
    }
  }

  /** `x == null` in JavaScript (true of both `null` and `undefined`). */
  predicate IsNullish(v: Option<Json>) {
    v.None? || v.value.JNull?
  }

  /** `a ?? b`. */
  function Coalesce(a: Option<Json>, b: Option<Json>): (r: Option<Json>)
    ensures !IsNullish(a) ==> r == a
    ensures IsNullish(a) ==> r == b
  {
    if IsNullish(a) then b else a
  }

  /** JavaScript truthiness; `None` is `undefined`. */
  predicate Truthy(v: Option<Json>) {
    v.Some? &&
    match v.value
    case JNull => false
    case JBool(b) => b
    case JNum(n) => n != 0
    case JStr(s) => s != []
    case _ => true
  }

  /** `typeof v === 'object'`, which holds for `null` and arrays too. */
  predicate IsTypeofObject(v: Option<Json>) {
    v.Some? && (v.value.JNull? || v.value.JArr? || v.value.JObj?)
  }

  /** `typeof v === 'string' ? v : null`, as the handlers read their string parameters. */
  function AsString(v: Option<Json>): (r: Option<string>)
    ensures r.Some? <==> v.Some? && v.value.JStr?
  {
    if v.Some? && v.value.JStr? then Some(v.value.s) else None
  }

  /** `typeof v === 'string' ? v : null`. */
  function StringOrNull(v: Option<Json>): (r: Json)
    ensures r.JStr? || r.JNull?
    ensures r.JStr? <==> AsString(v).Some?
    ensures r.JStr? ==> v == Some(r)
  {
    match AsString(v)
    case Some(s) => JStr(s)
    case None => JNull
  }

  /** `typeof p.k === 'string' && p.k` — the parameter is a string and not empty. */
  function NonEmptyString(o: Obj, k: string): (r: Option<string>)
    ensures r.Some? ==> r.value != [] && Get(o, k) == Some(JStr(r.value))
    ensures r.None? ==> Get(o, k).None? || !Get(o, k).value.JStr? || Get(o, k).value.s == []
  {
    match AsString(Get(o, k))
    case Some(s) => if s == [] then None else Some(s)
    case None => None
  }

  /** Optional chaining `v?.k` for a property name: only objects have named properties. */
  function Prop(v: Option<Json>, k: string): (r: Option<Json>)
    ensures r.Some? ==> v.Some? && v.value.JObj?
  {
    if v.Some? && v.value.JObj? then Get(v.value.fields, k) else None
  }

  /** Optional chaining along a path `v?.k1?.k2…`. */
  function Path(v: Option<Json>, keys: seq<string>): Option<Json>
    decreases |keys|
  {
    if keys == [] then v else Path(Prop(v, keys[0]), keys[1..])
  }

  function IndexKeys<T>(xs: seq<T>, f: T -> Json): (r: Obj)
    ensures |r| == |xs|
    ensures forall i :: 0 <= i < |xs| ==> r[i] == (IntToString(i), f(xs[i]))
  {
    seq(|xs|, i requires 0 <= i < |xs| => (IntToString(i), f(xs[i])))
  }

  /** The own enumerable properties that `Object.entries` and object spread see. */
  function Entries(v: Json): (r: Obj)
    ensures v.JObj? ==> r == v.fields
    ensures v.JNull? || v.JBool? || v.JNum? ==> r == []
  {
    match v
    case JObj(f) => f
    case JArr(items) => IndexKeys(items, (x: Json) => x)
    case JStr(s) => IndexKeys(s, (c: char) => JStr([c]))
    case _ => []
  }

  /** JavaScript `String(v)`. */
  function JsString(v: Json): string
    decreases v
  {
    match v
    case JNull => "null"
    case JBool(b) => if b then "true" else "false"
    case JNum(n) => IntToString(n)
    case JStr(s) => s
    case JObj(_) => "[object Object]"
    case JArr(items) => JoinComma(seq(|items|, i requires 0 <= i < |items| => if items[i].JNull? then "" else JsString(items[i])))
  }

  function JoinComma(parts: seq<string>): string {
    if parts == [] then "" else if |parts| == 1 then parts[0] else parts[0] + "," + JoinComma(parts[1..])
  }

  // ---------------------------------------------------------------- text

  /** The lower-case hex digit of `d`. */
  function HexDigit(d: nat): (c: char)
    requires d < 16
    ensures IsHexDigit(c) && HexValue(c) == d
  {
    if d < 10 then ('0' as int + d) as char else ('a' as int + d - 10) as char
  }

  /** The escape that RFC 8259 section 7 requires or allows for one character of a string. */
  function EscapeChar(c: char): string {
    if c == '"' then "\\\""
    else if c == '\\' then "\\\\"
    else if c == '\n' then "\\n"
    else if c == '\r' then "\\r"
    else if c == '\t' then "\\t"
    else if c == '\U{8}' then "\\b"
    else if c == '\U{C}' then "\\f"
    else if c < ' ' then "\\u00" + [HexDigit(c as int / 16), HexDigit(c as int % 16)]
    else [c]
  }

  function EscapeBody(s: string): (r: string)
    ensures forall i :: 0 <= i < |r| ==> r[i] >= ' '
  {
    if s == [] then [] else EscapeChar(s[0]) + EscapeBody(s[1..])
  }

  /** A string literal as `JSON.stringify` writes it. */
  function Quote(s: string): (r: string)
    ensures |r| >= 2 && r[0] == '"' && r[|r| - 1] == '"'
  {
    "\"" + EscapeBody(s) + "\""
  }

  predicate IsHexDigit(c: char) { '0' <= c <= '9' || 'a' <= c <= 'f' || 'A' <= c <= 'F' }

  function HexValue(c: char): nat
    requires IsHexDigit(c)
    ensures HexValue(c) < 16
  {
    if '0' <= c <= '9' then c as int - '0' as int
    else if 'a' <= c <= 'f' then c as int - 'a' as int + 10
    else c as int - 'A' as int + 10
  }

  function SimpleUnescape(c: char): Option<char> {
    if c == '"' then Some('"')
    else if c == '\\' then Some('\\')
    else if c == '/' then Some('/')
    else if c == 'b' then Some('\U{8}')
    else if c == 'f' then Some('\U{C}')
    else if c == 'n' then Some('\n')
    else if c == 'r' then Some('\r')
    else if c == 't' then Some('\t')
    else None
  }

  /**
   * The characters a JSON string body denotes, or `None` when the body is
   * not valid under RFC 8259 section 7: an unescaped quote, a control
   * character below U+0020, or a broken escape. Surrogate-pair escapes are
   * not decoded.
   */
  function Unescape(t: string): (r: Option<string>)
    decreases |t|
  {
    if t == [] then Some([])
    else if t[0] == '\\' then
      if |t| >= 2 && SimpleUnescape(t[1]).Some? then
        match Unescape(t[2..])
        case Some(rest) => Some([SimpleUnescape(t[1]).value] + rest)
        case None => None
      else if |t| >= 6 && t[1] == 'u' && IsHexDigit(t[2]) && IsHexDigit(t[3]) && IsHexDigit(t[4]) && IsHexDigit(t[5]) then
        var v := ((HexValue(t[2]) * 16 + HexValue(t[3])) * 16 + HexValue(t[4])) * 16 + HexValue(t[5]);
        if 0xD800 <= v < 0xE000 then None
        else
          match Unescape(t[6..])
          case Some(rest) => Some([v as char] + rest)
          case None => None
      else None
    else if t[0] == '"' || t[0] < ' ' then None
    else
      match Unescape(t[1..])
      case Some(rest) => Some([t[0]] + rest)
      case None => None
  }

  /** A control character written as `\u00XX` decodes back to itself. */
  lemma UnescapeControl(c: char, rest: string)
    requires c < ' ' && c != '\n' && c != '\r' && c != '\t' && c != '\U{8}' && c != '\U{C}'
    ensures Unescape(EscapeChar(c) + rest) == match Unescape(rest) case Some(u) => Some([c] + u) case None => None
  {
    var hi, lo := c as int / 16, c as int % 16;
    var t := "\\u00" + [HexDigit(hi), HexDigit(lo)] + rest;
    assert EscapeChar(c) + rest == t;
    assert t[0] == '\\' && t[1] == 'u' && t[2] == '0' && t[3] == '0' && t[4] == HexDigit(hi) && t[5] == HexDigit(lo);
    assert t[6..] == rest;
  }

  /** A two-character escape decodes back to the character it stands for. */
  lemma UnescapeShort(c: char, rest: string)
    requires |EscapeChar(c)| == 2
    ensures Unescape(EscapeChar(c) + rest) == match Unescape(rest) case Some(u) => Some([c] + u) case None => None
  {
    assert (EscapeChar(c) + rest)[2..] == rest;
  }

  lemma UnescapeOne(c: char, rest: string)
    ensures Unescape(EscapeChar(c) + rest) == match Unescape(rest) case Some(u) => Some([c] + u) case None => None
  {
    var e := EscapeChar(c);
    if c < ' ' && c != '\n' && c != '\r' && c != '\t' && c != '\U{8}' && c != '\U{C}' {
      UnescapeControl(c, rest);
    } else if |e| == 2 {
      UnescapeShort(c, rest);
    } else {
      assert (e + rest)[1..] == rest;
    }
  }

  /** Decoding an escaped body gives the original characters back. */
  lemma {:induction false} UnescapeEscapeBody(s: string)
    ensures Unescape(EscapeBody(s)) == Some(s)
  {
    if s != [] {
      UnescapeEscapeBody(s[1..]);
      UnescapeOne(s[0], EscapeBody(s[1..]));
      assert [s[0]] + s[1..] == s;
    }
  }

  /** JSON text of a value, compact, as `JSON.stringify` and the Kotlin serialisation library write it. */
  function Stringify(v: Json): string
    decreases v
  {
    match v
    case JNull => "null"
    case JBool(b) => if b then "true" else "false"
    case JNum(n) => IntToString(n)
    case JStr(s) => Quote(s)
    case JArr(items) => "[" + JoinComma(seq(|items|, i requires 0 <= i < |items| => Stringify(items[i]))) + "]"
    case JObj(f) => "{" + JoinComma(seq(|f|, i requires 0 <= i < |f| => Quote(f[i].0) + ":" + Stringify(f[i].1))) + "}"
  }
}

=== FILE: mqtt_gateway.dfy ===
/**
 * The Android `MqttGatewayConnection`: one broker connection shared by
 * several role transports (operator, node). Each transport publishes its
 * frames on `moltbot/gw/<topicClientId>/<role>/req`, and an inbound
 * message is handed to the transport registered for the role named by
 * the fourth segment of its topic.
 */
module MqttGateway {
  import opened Wrappers
  import opened Strings

  const TOPIC_PREFIX := "moltbot/gw"
  const NOT_CONNECTED_REASON := "MQTT client not connected"
  const NOT_CONNECTED_AFTER_ENSURE := "MQTT client not connected after ensureConnected"
  const CONNECT_FAILED := "MQTT connect failed"

  /** `sanitizeMqttPayload`: every NUL removed, then trimmed. */
  function SanitizePayload(raw: string): (r: string)
    ensures '\0' !in r
    ensures r != [] ==> !IsSpace(r[0]) && !IsSpace(r[|r| - 1])
    ensures forall c :: c in r ==> c in raw
  {
    CleanPayload(raw)
  }

  /** `<TOPIC_PREFIX>/<topicClientId>/<role>/<kind>`, `kind` being `req`, `res` or `evt`. */
  function RoleTopic(topicClientId: string, role: string, kind: string): string {
    TOPIC_PREFIX + "/" + topicClientId + "/" + role + "/" + kind
  }

  /** A role topic is the five pieces joined by slashes. */
  lemma RoleTopicJoin(topicClientId: string, role: string, kind: string)
    ensures RoleTopic(topicClientId, role, kind) == Join(["moltbot", "gw", topicClientId, role, kind], '/')
  {
    var ps := ["moltbot", "gw", topicClientId, role, kind];
    assert ps[1..] == ["gw", topicClientId, role, kind];
    assert ["gw", topicClientId, role, kind][1..] == [topicClientId, role, kind];
    assert [topicClientId, role, kind][1..] == [role, kind];
    assert [role, kind][1..] == [kind];
    assert Join([kind], '/') == kind;
    var j3 := Join([role, kind], '/');
    assert j3 == [role, kind][0] + ['/'] + Join([role, kind][1..], '/');
    assert j3 == role + "/" + kind;
    var j2 := Join([topicClientId, role, kind], '/');
    assert j2 == topicClientId + "/" + j3;
    var j1 := Join(["gw", topicClientId, role, kind], '/');
    assert j1 == "gw" + "/" + j2;
    assert Join(ps, '/') == "moltbot" + "/" + j1;
    SlashChain(topicClientId, role, kind);
  }

  lemma SlashChain(a: string, b: string, c: string)
    ensures TOPIC_PREFIX + "/" + a + "/" + b + "/" + c == "moltbot" + "/" + ("gw" + "/" + (a + "/" + (b + "/" + c)))
  {
    assert TOPIC_PREFIX == "moltbot" + "/" + "gw";
  }

  /**
   * On a role topic built from slash-free ids, the fourth segment is the
   * role: a frame the bridge sends on a role's `res` or `evt` topic is
   * routed to that role's transport.
   */
  lemma RoleOfRoleTopic(topicClientId: string, role: string, kind: string)
    requires '/' !in topicClientId && '/' !in role && '/' !in kind
    ensures var parts := Split(RoleTopic(topicClientId, role, kind), '/');
      |parts| == 5 && parts[3] == role && parts[2] == topicClientId && parts[4] == kind
  {
    RoleTopicJoin(topicClientId, role, kind);
    SplitJoin(["moltbot", "gw", topicClientId, role, kind], '/');
  }

  /** The role an inbound message is addressed to: its topic's fourth `/`-segment, if it has four. */
  function TopicRole(topic: string): (r: Option<string>)
    ensures r.Some? <==> |Split(topic, '/')| >= 4
    ensures r.Some? ==> '/' !in r.value
  {
    var parts := Split(topic, '/');
    if |parts| >= 4 then Some(parts[3]) else None
  }

  /** What `messageArrived` would hand to a transport: the sanitised payload, if the topic and payload pass the filters. */
  function Inbound(topic: string, raw: string): (r: Option<(string, string)>)
    ensures r.Some? ==> StartsWith(topic, TOPIC_PREFIX)
    ensures r.Some? ==> r.value.1 == SanitizePayload(raw) && r.value.1 != [] && r.value.1[0] in "{["
    ensures r.Some? ==> TopicRole(topic) == Some(r.value.0)
    ensures !StartsWith(topic, TOPIC_PREFIX) || TopicRole(topic).None? ==> r.None?
  {
    if !StartsWith(topic, TOPIC_PREFIX) then None
    else
      var payload := SanitizePayload(raw);
      if payload == [] || (payload[0] != '{' && payload[0] != '[') then None
      else match TopicRole(topic)
        case None => None
        case Some(role) => Some((role, payload))
  }

  datatype State = Disconnected | Connecting | Connected | Error(message: string)

  /** The `connectionDeferred` of one connection attempt. */
  datatype Attempt = InProgress | Completed | Failed(error: string)

  /** How `ensureConnected` goes on: already connected, or awaiting an attempt (`started` when it began it). */
  datatype Ensure = AlreadyConnected | Await(attempt: nat, started: bool)

  /** How `open` ends. */
  datatype OpenResult = Opened | OpenThrew(error: string)

  /**
   * `MqttGatewayConnection`. Transports are numbered in creation order
   * and `roles[t]` is transport `t`'s role; `roleTransports` maps a role
   * to the transport registered for it. Connection attempts are
   * numbered: `client` is the attempt whose client is held, `linkUp`
   * whether it is connected. `openFired`, `closed` and `closeReason` record
   * the transports' `onOpen`, `closedDeferred` and last `onClose`;
   * `delivered` the frames handed to transports, in order.
   */
  class GatewayConnection {
    const brokerUrl: string
    const clientId: string
    const topicClientId: string
    var roles: seq<string>
    var roleTransports: map<string, nat>
    var client: Option<nat>
    var linkUp: bool
    var attempts: seq<Attempt>
    var connectionDeferred: Option<nat>
    var state: State
    var subscriptions: seq<string>
    var published: seq<(string, string)>
    var openFired: set<nat>
    var closed: set<nat>
    var closeReason: map<nat, string>
    var delivered: seq<(nat, string)>

    ghost predicate Valid()
      reads this
    {
      && (forall r :: r in roleTransports ==> roleTransports[r] < |roles| && roles[roleTransports[r]] == r)
      && (linkUp ==> client.Some?)
      && (client.Some? ==> client.value < |attempts|)
      && (connectionDeferred.Some? ==> connectionDeferred.value < |attempts|)
      && (forall t :: t in closeReason ==> t in closed)
    }

    /** The topic transport `t` publishes on. */
    function ReqTopic(t: nat): string
      requires t < |roles|
      reads this
    {
      RoleTopic(topicClientId, roles[t], "req")
    }

    /** The response and event topics of both roles. */
    function AllTopics(): seq<string> {
      [RoleTopic(topicClientId, "operator", "res"), RoleTopic(topicClientId, "operator", "evt"),
       RoleTopic(topicClientId, "node", "res"), RoleTopic(topicClientId, "node", "evt")]
    }

    constructor (brokerUrlParam: string, clientIdParam: string, topicClientIdParam: string)
      ensures Valid()
      ensures brokerUrl == brokerUrlParam && clientId == clientIdParam && topicClientId == topicClientIdParam
      ensures roles == [] && roleTransports == map[] && client.None? && !linkUp
      ensures attempts == [] && connectionDeferred.None? && state == Disconnected
      ensures subscriptions == [] && published == [] && openFired == {} && closed == {}
      ensures closeReason == map[] && delivered == []
    {
      roles := [];
      roleTransports := map[];
      client := None;
      linkUp := false;
      attempts := [];
      connectionDeferred := None;
      state := Disconnected;
      subscriptions := [];
      published := [];
      openFired := {};
      closed := {};
      closeReason := map[];
      delivered := [];
      brokerUrl := brokerUrlParam;
      clientId := clientIdParam;
      topicClientId := topicClientIdParam;
    }

    /** `createTransport`: a new transport for `role`, not yet registered. */
    method CreateTransport(role: string) returns (t: nat)
      requires Valid()
      modifies this`roles
      ensures Valid()
      ensures t == |old(roles)| && roles == old(roles) + [role]
    {
      t := |roles|;
      roles := roles + [role];
    }

    /** `transport.dispatchClose` / the close half of a failed `send`: the close signal completes and `onClose` gets `reason`. */
    method SignalClose(t: nat, reason: string)
      requires Valid()
      modifies this`closed, this`closeReason
      ensures Valid()
      ensures closed == old(closed) + {t} && closeReason == old(closeReason)[t := reason]
    {
      closed := closed + {t};
      closeReason := closeReason[t := reason];
    }

    /**
     * `ensureConnected`: a connected client returns at once; an attempt
     * in progress is awaited; otherwise a new attempt starts, held in
     * `connectionDeferred`, with a new client that is connecting.
     */
    method EnsureConnected() returns (r: Ensure)
      requires Valid()
      modifies this`client, this`linkUp, this`attempts, this`connectionDeferred, this`state
      ensures Valid()
      ensures old(client.Some? && linkUp) <==> r == AlreadyConnected
      ensures r == AlreadyConnected || (r.Await? && !r.started) ==> unchanged(this)
      ensures !old(client.Some? && linkUp) && old(connectionDeferred).Some? ==> r == Await(old(connectionDeferred).value, false)
      ensures !old(client.Some? && linkUp) && old(connectionDeferred).None? ==>
        r == Await(|old(attempts)|, true) && attempts == old(attempts) + [InProgress]
        && connectionDeferred == Some(r.attempt) && client == Some(r.attempt) && !linkUp && state == Connecting
    {
      if client.Some? && linkUp {
        return AlreadyConnected;
      }
      if connectionDeferred.Some? {
        return Await(connectionDeferred.value, false);
      }
      var a := |attempts|;
      attempts := attempts + [InProgress];
      connectionDeferred := Some(a);
      client := Some(a);
      linkUp := false;
      state := Connecting;
      r := Await(a, true);
    }

    /**
     * The first half of `open`: the transport is registered under its
     * role (replacing any other), then `ensureConnected` runs.
     */
    method OpenBegin(t: nat) returns (r: Ensure)
      requires Valid() && t < |roles|
      modifies this`roleTransports, this`client, this`linkUp, this`attempts, this`connectionDeferred, this`state
      ensures Valid()
      ensures roleTransports == old(roleTransports)[roles[t] := t]
      ensures old(client.Some? && linkUp) <==> r == AlreadyConnected
      ensures r == AlreadyConnected || (r.Await? && !r.started) ==>
        client == old(client) && linkUp == old(linkUp) && attempts == old(attempts)
        && connectionDeferred == old(connectionDeferred) && state == old(state)
      ensures !old(client.Some? && linkUp) && old(connectionDeferred).Some? ==> r == Await(old(connectionDeferred).value, false)
      ensures !old(client.Some? && linkUp) && old(connectionDeferred).None? ==>
        r == Await(|old(attempts)|, true) && attempts == old(attempts) + [InProgress]
        && connectionDeferred == Some(r.attempt) && client == Some(r.attempt) && !linkUp && state == Connecting
    {
      roleTransports := roleTransports[roles[t] := t];
      r := EnsureConnected();
    }

    /**
     * The second half of `open`, once the awaited attempt (if any) is
     * over: a failed attempt rethrows its error; without a connected
     * client it throws; either way the transport's role is unregistered.
     * Otherwise `onOpen` fires.
     */
    method OpenEnd(t: nat, awaited: Option<nat>) returns (r: OpenResult)
      requires Valid() && t < |roles|
      requires awaited.Some? ==> awaited.value < |attempts| && attempts[awaited.value] != InProgress
      modifies this`roleTransports, this`openFired
      ensures Valid()
      ensures awaited.Some? && attempts[awaited.value].Failed? ==> r == OpenThrew(attempts[awaited.value].error)
      ensures !(awaited.Some? && attempts[awaited.value].Failed?) ==>
        (r == Opened <==> client.Some? && linkUp) && (r != Opened ==> r == OpenThrew(NOT_CONNECTED_AFTER_ENSURE))
      ensures r == Opened ==> roleTransports == old(roleTransports) && openFired == old(openFired) + {t}
      ensures r != Opened ==> roleTransports == old(roleTransports) - {roles[t]} && openFired == old(openFired)
    {
      if awaited.Some? && attempts[awaited.value].Failed? {
        r := OpenThrew(attempts[awaited.value].error);
      } else if !(client.Some? && linkUp) {
        r := OpenThrew(NOT_CONNECTED_AFTER_ENSURE);
      } else {
        openFired := openFired + {t};
        return Opened;
      }
      roleTransports := roleTransports - {roles[t]};
    }

    /**
     * `send`: without a connected client the transport is closed with
     * "MQTT client not connected"; a payload blank after sanitising is
     * skipped; otherwise the sanitised payload is published on the
     * transport's request topic, or, when the publish throws
     * (`publishError`), the transport is closed with the error.
     */
    method Send(t: nat, json: string, publishError: Option<string>)
      requires Valid() && t < |roles|
      modifies this`published, this`closed, this`closeReason
      ensures Valid()
      ensures !old(client.Some? && linkUp) ==>
        published == old(published) && closed == old(closed) + {t} && closeReason == old(closeReason)[t := NOT_CONNECTED_REASON]
      ensures old(client.Some? && linkUp) && (SanitizePayload(json) == [] || publishError.None?) ==>
        closed == old(closed) && closeReason == old(closeReason)
      ensures old(client.Some? && linkUp) && SanitizePayload(json) == [] ==> published == old(published)
      ensures old(client.Some? && linkUp) && SanitizePayload(json) != [] && publishError.None? ==>
        published == old(published) + [(ReqTopic(t), SanitizePayload(json))]
      ensures old(client.Some? && linkUp) && SanitizePayload(json) != [] && publishError.Some? ==>
        published == old(published) && closed == old(closed) + {t}
        && closeReason == old(closeReason)[t := "MQTT publish failed: " + publishError.value]
    {
      if !(client.Some? && linkUp) {
        SignalClose(t, NOT_CONNECTED_REASON);
        return;
      }
      var safe := SanitizePayload(json);
      if safe == [] {
        return;
      }
      if publishError.Some? {
        SignalClose(t, "MQTT publish failed: " + publishError.value);
        return;
      }
      published := published + [(ReqTopic(t), safe)];
    }

    /** `close`: the transport's role is unregistered, whichever transport holds it, and its close signal completes. */
    method Close(t: nat)
      requires Valid() && t < |roles|
      modifies this`roleTransports, this`closed
      ensures Valid()
      ensures roleTransports == old(roleTransports) - {roles[t]} && closed == old(closed) + {t}
    {
      roleTransports := roleTransports - {roles[t]};
      closed := closed + {t};
    }

    /** The broker accepted attempt `a`: connected, and the client is up if it is still the one held. */
    method ConnectSucceeded(a: nat)
      requires Valid() && a < |attempts|
      modifies this`linkUp, this`state
      ensures Valid()
      ensures state == Connected && linkUp == (old(linkUp) || client == Some(a))
    {
      state := Connected;
      if client == Some(a) {
        linkUp := true;
      }
    }

    /**
     * The unified subscription of attempt `a` answered: on success the
     * four response and event topics are subscribed to; success or not,
     * `connectionDeferred` is cleared and the attempt completes.
     */
    method SubscribeAnswered(a: nat, subscribed: bool)
      requires Valid() && a < |attempts| && attempts[a] == InProgress
      modifies this`subscriptions, this`connectionDeferred, this`attempts
      ensures Valid()
      ensures connectionDeferred.None? && attempts == old(attempts)[a := Completed]
      ensures subscriptions == if subscribed then old(subscriptions) + AllTopics() else old(subscriptions)
    {
      if subscribed {
        subscriptions := subscriptions + AllTopics();
      }
      connectionDeferred := None;
      attempts := attempts[a := Completed];
    }

    /** The broker refused attempt `a`: the error `message`, no client, no attempt held, and the attempt fails. */
    method ConnectFailed(a: nat, message: Option<string>)
      requires Valid() && a < |attempts| && attempts[a] == InProgress
      modifies this`client, this`linkUp, this`connectionDeferred, this`attempts, this`state
      ensures Valid()
      ensures state == Error(message.GetOr(CONNECT_FAILED)) && client.None? && !linkUp && connectionDeferred.None?
      ensures attempts == old(attempts)[a := Failed(message.GetOr(CONNECT_FAILED))]
    {
      var msg := message.GetOr(CONNECT_FAILED);
      state := Error(msg);
      client := None;
      linkUp := false;
      connectionDeferred := None;
      attempts := attempts[a := Failed(msg)];
    }

    /**
     * `connectionLost`: disconnected, no client and no attempt held, and
     * every registered transport is closed with "MQTT connection lost:
     * <cause>"; the registrations stay.
     */
    method ConnectionLost(cause: Option<string>)
      requires Valid()
      modifies this`client, this`linkUp, this`connectionDeferred, this`state, this`closed, this`closeReason
      ensures Valid()
      ensures state == Disconnected && client.None? && !linkUp && connectionDeferred.None?
      ensures closed == old(closed) + roleTransports.Values
      ensures var reason := "MQTT connection lost: " + cause.GetOr("unknown");
        closeReason == old(closeReason) + map t | t in roleTransports.Values :: reason
    {
      state := Disconnected;
      client := None;
      linkUp := false;
      connectionDeferred := None;
      var reason := "MQTT connection lost: " + cause.GetOr("unknown");
      closed := closed + roleTransports.Values;
      closeReason := closeReason + map t | t in roleTransports.Values :: reason;
    }

    /**
     * `messageArrived`: a message that passes `Inbound` goes to the
     * transport registered for its role; anything else is dropped.
     */
    method MessageArrived(topic: string, raw: string)
      requires Valid()
      modifies this`delivered
      ensures Valid()
      ensures Inbound(topic, raw).None? || Inbound(topic, raw).value.0 !in roleTransports ==> delivered == old(delivered)
      ensures Inbound(topic, raw).Some? && Inbound(topic, raw).value.0 in roleTransports ==>
        var (role, payload) := Inbound(topic, raw).value;
        delivered == old(delivered) + [(roleTransports[role], payload)] && roles[roleTransports[role]] == role
    {
      match Inbound(topic, raw)
      case None =>
      case Some((role, payload)) =>
        if role in roleTransports {
          delivered := delivered + [(roleTransports[role], payload)];
        }
    }
  }

  /**
   * A frame the bridge publishes on a registered role's response topic
   * reaches that role's transport, sanitised.
   */
  lemma ResponseReachesRole(topicClientId: string, role: string, raw: string)
    requires '/' !in topicClientId && '/' !in role
    requires SanitizePayload(raw) != [] && SanitizePayload(raw)[0] in "{["
    ensures Inbound(RoleTopic(topicClientId, role, "res"), raw) == Some((role, SanitizePayload(raw)))
  {
    var topic := RoleTopic(topicClientId, role, "res");
    RoleOfRoleTopic(topicClientId, role, "res");
    assert topic[..|TOPIC_PREFIX|] == TOPIC_PREFIX;
  }
}

=== FILE: msg.dfy ===
/** The `msg.send_private`, `msg.send_group` and `msg.read_ack` handlers: messages are relayed, never stored. */
module Msg {
  import opened Wrappers
  import opened Json
  import opened Protocol
  import opened Tables

  /** `content ?? ''`. */
  function ContentOf(payload: Obj): (c: Json)
    ensures !IsNullish(Get(payload, "content")) ==> c == Get(payload, "content").value
    ensures IsNullish(Get(payload, "content")) ==> c == JStr("")
  {
    Coalesce(Get(payload, "content"), Some(JStr(""))).value
  }

  /** `quote_msg_id: … ?? undefined`: `JSON.stringify` leaves the property out when the request had none. */
  function QuoteField(payload: Obj): Obj {
    var q := Get(payload, "quote_msg_id");
    if IsNullish(q) then [] else [("quote_msg_id", q.value)]
  }

  /** The push for `mchat/inbox/<to>`. */
  function PrivatePush(msgId: string, from: string, payload: Obj, sentAt: string): Obj {
    [("msg_id", JStr(msgId)), ("type", JStr("private")), ("from_employee_id", JStr(from)),
     ("content", ContentOf(payload)), ("sent_at", JStr(sentAt))] + QuoteField(payload)
  }

  /** The push for `mchat/group/<gid>`. */
  function GroupPush(msgId: string, groupId: string, from: string, payload: Obj, sentAt: string): Obj {
    [("msg_id", JStr(msgId)), ("group_id", JStr(groupId)), ("from_employee_id", JStr(from)),
     ("content", ContentOf(payload)), ("sent_at", JStr(sentAt))] + QuoteField(payload)
  }

  lemma GetQuoteField(payload: Obj, head: Obj, k: string)
    requires forall i :: 0 <= i < |head| ==> head[i].0 != "quote_msg_id"
    requires k != "quote_msg_id"
    ensures Get(head + QuoteField(payload), k) == Get(head, k)
    ensures Get(head + QuoteField(payload), "quote_msg_id") ==
      (if IsNullish(Get(payload, "quote_msg_id")) then None else Get(payload, "quote_msg_id"))
  {
    var q := QuoteField(payload);
    if q != [] {
      assert (head + q)[..|head + q| - 1] == head;
    } else {
      assert head + q == head;
    }
    assert !HasKey(head, "quote_msg_id");
  }

  /**
   * A private push names the caller as its sender, carries the request's
   * content (an empty string when there was none) and its quoted message
   * only when the request had one.
   */
  lemma PrivatePushFields(msgId: string, from: string, payload: Obj, sentAt: string)
    ensures var p := PrivatePush(msgId, from, payload, sentAt);
      Get(p, "from_employee_id") == Some(JStr(from)) && Get(p, "msg_id") == Some(JStr(msgId)) &&
      Get(p, "content") == Some(ContentOf(payload)) && Get(p, "type") == Some(JStr("private")) &&
      Get(p, "quote_msg_id") == (if IsNullish(Get(payload, "quote_msg_id")) then None else Get(payload, "quote_msg_id"))
  {
    var h := [("msg_id", JStr(msgId)), ("type", JStr("private")), ("from_employee_id", JStr(from)), ("content", ContentOf(payload)), ("sent_at", JStr(sentAt))];
    assert PrivatePush(msgId, from, payload, sentAt) == h + QuoteField(payload);
    assert DistinctKeys(h);
    GetQuoteField(payload, h, "msg_id");
    GetQuoteField(payload, h, h[1].0);
    GetQuoteField(payload, h, "from_employee_id");
    GetQuoteField(payload, h, "content");
    GetDistinct(h, 0);
    GetDistinct(h, 1);
    GetDistinct(h, 2);
    GetDistinct(h, 3);
  }

  /** The same for a group push, which also names the group. */
  lemma GroupPushFields(msgId: string, groupId: string, from: string, payload: Obj, sentAt: string)
    ensures var g := GroupPush(msgId, groupId, from, payload, sentAt);
      Get(g, "from_employee_id") == Some(JStr(from)) && Get(g, "group_id") == Some(JStr(groupId)) &&
      Get(g, "content") == Some(ContentOf(payload)) && Get(g, "msg_id") == Some(JStr(msgId)) &&
      Get(g, "quote_msg_id") == (if IsNullish(Get(payload, "quote_msg_id")) then None else Get(payload, "quote_msg_id"))
  {
    var h := [("msg_id", JStr(msgId)), ("group_id", JStr(groupId)), ("from_employee_id", JStr(from)), ("content", ContentOf(payload)), ("sent_at", JStr(sentAt))];
    assert GroupPush(msgId, groupId, from, payload, sentAt) == h + QuoteField(payload);
    assert DistinctKeys(h);
    GetQuoteField(payload, h, "msg_id");
    GetQuoteField(payload, h, h[1].0);
    GetQuoteField(payload, h, "from_employee_id");
    GetQuoteField(payload, h, "content");
    GetDistinct(h, 0);
    GetDistinct(h, 1);
    GetDistinct(h, 2);
    GetDistinct(h, 3);
  }

  /** What `handleSendPrivate` leaves behind, as its contract: the reply and the tables afterwards. */
  predicate SendPrivateDone(ctx: ReqContext, db: Db, e: Entropy, accepted: bool, before: seq<Publication>, after: seq<Publication>, o: Outcome)
    requires ctx.employeeId.Some?
    reads db
  {
    var to := NonEmptyString(ctx.payload, "to_employee_id");
    if to.None? then
      o == Returned(Fail(BAD_REQUEST, "Missing to_employee_id")) && after == before
    else if !IsActive(db.employees, to.value) then
      o == Returned(Fail(NOT_FOUND, "Target employee not found")) && after == before
    else
      var msgId := NewId("msg_", e.uuid1, 12);
      after == before + [Publication(InboxTopic(to.value), JObj(PrivatePush(msgId, ctx.employeeId.value, ctx.payload, e.nowIso)))] &&
      o == (if accepted then Returned(Ok([("msg_id", JStr(msgId)), ("to_employee_id", JStr(to.value)), ("sent_at", JStr(e.nowIso))])) else Threw)
  }

  /**
   * `handleMsgSendPrivate`: one push to the target's inbox, only when the
   * target is an active employee. `accepted` is the broker's answer to the
   * publication; a refusal rejects the awaited publish, so the handler throws.
   */
  method HandleSendPrivate(ctx: ReqContext, db: Db, broker: Broker, e: Entropy, accepted: bool) returns (o: Outcome)
    requires ctx.employeeId.Some?
    modifies broker
    ensures SendPrivateDone(ctx, db, e, accepted, old(broker.log), broker.log, o)
  {
    var to := NonEmptyString(ctx.payload, "to_employee_id");
    if to.None? {
      return Returned(Fail(BAD_REQUEST, "Missing to_employee_id"));
    }
    if !IsActive(db.employees, to.value) {
      return Returned(Fail(NOT_FOUND, "Target employee not found"));
    }
    var msgId := NewId("msg_", e.uuid1, 12);
    broker.Publish(InboxTopic(to.value), JObj(PrivatePush(msgId, ctx.employeeId.value, ctx.payload, e.nowIso)));
    if !accepted {
      return Threw;
    }
    o := Returned(Ok([("msg_id", JStr(msgId)), ("to_employee_id", JStr(to.value)), ("sent_at", JStr(e.nowIso))]));
  }

  /** What `handleSendGroup` leaves behind, as its contract: the reply and the tables afterwards. */
  predicate SendGroupDone(ctx: ReqContext, db: Db, e: Entropy, accepted: bool, before: seq<Publication>, after: seq<Publication>, o: Outcome)
    requires ctx.employeeId.Some?
    reads db
  {
    var gid := NonEmptyString(ctx.payload, "group_id");
    if gid.None? then
      o == Returned(Fail(BAD_REQUEST, "Missing group_id")) && after == before
    else if Member(gid.value, ctx.employeeId.value) !in db.members then
      o == Returned(Fail(FORBIDDEN, "Not a group member")) && after == before
    else
      var msgId := NewId("msg_", e.uuid1, 12);
      after == before + [Publication(GroupTopic(gid.value), JObj(GroupPush(msgId, gid.value, ctx.employeeId.value, ctx.payload, e.nowIso)))] &&
      o == (if accepted then Returned(Ok([("msg_id", JStr(msgId)), ("group_id", JStr(gid.value)), ("sent_at", JStr(e.nowIso))])) else Threw)
  }

  /**
   * `handleMsgSendGroup`: one push to the group topic, only when the caller
   * is a member of the group; a refused publication makes the handler throw.
   */
  method HandleSendGroup(ctx: ReqContext, db: Db, broker: Broker, e: Entropy, accepted: bool) returns (o: Outcome)
    requires ctx.employeeId.Some?
    modifies broker
    ensures SendGroupDone(ctx, db, e, accepted, old(broker.log), broker.log, o)
  {
    var gid := NonEmptyString(ctx.payload, "group_id");
    if gid.None? {
      return Returned(Fail(BAD_REQUEST, "Missing group_id"));
    }
    if Member(gid.value, ctx.employeeId.value) !in db.members {
      return Returned(Fail(FORBIDDEN, "Not a group member"));
    }
    var msgId := NewId("msg_", e.uuid1, 12);
    broker.Publish(GroupTopic(gid.value), JObj(GroupPush(msgId, gid.value, ctx.employeeId.value, ctx.payload, e.nowIso)));
    if !accepted {
      return Threw;
    }
    o := Returned(Ok([("msg_id", JStr(msgId)), ("group_id", JStr(gid.value)), ("sent_at", JStr(e.nowIso))]));
  }

  /** `handleMsgReadAck`: acknowledges any non-empty string `msg_id` and stores nothing. */
  function HandleReadAck(ctx: ReqContext): (r: RespPayload)
    ensures r.code == OK <==> NonEmptyString(ctx.payload, "msg_id").Some?
    ensures r.code == OK ==> r.data == Some(JObj([]))
    ensures r.code != OK ==> r == Fail(BAD_REQUEST, "Missing msg_id")
  {
    if NonEmptyString(ctx.payload, "msg_id").None? then Fail(BAD_REQUEST, "Missing msg_id") else Ok([])
  }
}

=== FILE: node_client.dfy ===
/** The Node.js client `MChatClient`: request/response correlation and push delivery. */
module NodeClient {
  import opened Wrappers
  import opened Strings
  import opened Json
  import opened Protocol
  import opened Correlation

  const DEFAULT_TIMEOUT_MS := 30000

  /** What `handleMessage` passes to the listeners. */
  datatype Event = NoEvent | InboxEvent(body: Json) | GroupEvent(groupId: string, body: Json)

  /** The branch of `handleMessage` a topic takes. */
  datatype TopicKind = ResponseTo(seqId: string) | InboxOf | GroupOf(groupId: string) | Ignored

  /**
   * A reply is recognised by its prefix `mchat/msg/resp/<clientId>/`, and
   * everything after it is the sequence id; the inbox only by the exact
   * topic of this employee; any group topic names its group by its suffix.
   */
  function Classify(clientId: string, employeeId: string, topic: string): (k: TopicKind)
    ensures k.ResponseTo? <==> StartsWith(topic, RESP_TOPIC_PREFIX + clientId + "/")
    ensures k.ResponseTo? ==> topic == RESP_TOPIC_PREFIX + clientId + "/" + k.seqId
    ensures k.InboxOf? <==> !k.ResponseTo? && topic == InboxTopic(employeeId)
    ensures k.GroupOf? ==> topic == GroupTopic(k.groupId) && topic != InboxTopic(employeeId)
    ensures k.Ignored? ==> !StartsWith(topic, GROUP_TOPIC_PREFIX)
  {
    var respPrefix := RESP_TOPIC_PREFIX + clientId + "/";
    if StartsWith(topic, respPrefix) then
      assert topic == respPrefix + topic[|respPrefix|..];
      ResponseTo(topic[|respPrefix|..])
    else if StartsWith(topic, INBOX_TOPIC_PREFIX) && topic == InboxTopic(employeeId) then InboxOf
    else if StartsWith(topic, GROUP_TOPIC_PREFIX) then
      assert topic == GROUP_TOPIC_PREFIX + topic[|GROUP_TOPIC_PREFIX|..];
      assert topic[..|INBOX_TOPIC_PREFIX|] != INBOX_TOPIC_PREFIX by {
        assert topic[6] == GROUP_TOPIC_PREFIX[6] && INBOX_TOPIC_PREFIX[6] != GROUP_TOPIC_PREFIX[6];
      }
      GroupOf(topic[|GROUP_TOPIC_PREFIX|..])
    else Ignored
  }

  /**
   * `request`'s check of a settled reply: code 0 passes the body through;
   * any other code rejects with the message, or `code <code>` when the
   * message is falsy. Reading `code` off a `null` body throws.
   */
  function RequestOutcome(c: Completion): (r: Completion)
    ensures c.Rejected? ==> r == c
    ensures c.Resolved? && Prop(Some(c.body), "code") == Some(JNum(0)) ==> r == c
    ensures c.Resolved? && Prop(Some(c.body), "code") != Some(JNum(0)) ==> r.Rejected?
    ensures c.Resolved? && c.body.JObj? && Get(c.body.fields, "code") != Some(JNum(0)) && Truthy(Get(c.body.fields, "message")) ==>
      r == Rejected(JsString(Get(c.body.fields, "message").value))
  {
    match c
    case Rejected(_) => c
    case Resolved(body) =>
      if body.JNull? then Rejected("TypeError")
      else
        var code := Prop(Some(body), "code");
        var message := Prop(Some(body), "message");
        if code == Some(JNum(0)) then c
        else if Truthy(message) then Rejected(JsString(message.value))
        else Rejected("code " + (if code.Some? then JsString(code.value) else "undefined"))
  }

  class Client {
    const employeeId: string
    const deviceId: Option<string>
    const clientIdOption: Option<string>
    const timeoutMs: int
    const table: PromiseTable
    var clientId: string
    var connected: bool
    /** What the client handed to the broker, in order. */
    var published: seq<Publication>

    ghost predicate Valid()
      reads this, table
    {
      table.Valid()
    }

    /** The options object, with `requestTimeoutMs` defaulting to 30000. */
    constructor (employeeId: string, deviceId: Option<string>, clientIdOption: Option<string>, requestTimeoutMs: Option<int>)
      ensures Valid() && fresh(table) && table.pending == {} && table.settled == map[]
      ensures this.employeeId == employeeId && this.deviceId == deviceId && this.clientIdOption == clientIdOption
      ensures timeoutMs == requestTimeoutMs.GetOr(DEFAULT_TIMEOUT_MS)
      ensures clientId == "" && !connected && published == []
    {
      this.employeeId := employeeId;
      this.deviceId := deviceId;
      this.clientIdOption := clientIdOption;
      timeoutMs := requestTimeoutMs.GetOr(DEFAULT_TIMEOUT_MS);
      table := new PromiseTable();
      clientId := "";
      connected := false;
      published := [];
    }

    /**
     * `connect` once the broker accepts: picks the client id (`uid` is the
     * random part), announces the employee online, then, unless the
     * `skipAuthBind` option is set, sends `auth.bind` with the employee id
     * under the fresh sequence id `bindSeqId`.
     */
    method Connect(uid: string, skipAuthBind: bool, now: string, bindSeqId: string)
      requires Valid()
      requires !skipAuthBind ==> bindSeqId !in table.pending && bindSeqId !in table.settled
      modifies this, table
      ensures Valid()
      ensures clientId == ChooseClientId(clientIdOption, GeneratedClientId(employeeId, deviceId, "node", uid))
      ensures connected
      ensures skipAuthBind ==> published == old(published) + [OnlineStatus(employeeId, now)]
      ensures skipAuthBind ==> table.pending == old(table.pending) && table.settled == old(table.settled)
      ensures !skipAuthBind ==> published == old(published) + [OnlineStatus(employeeId, now),
        Publication(REQ_TOPIC_PREFIX + clientId + "/" + bindSeqId, JObj(RequestBody("auth.bind", [("employee_id", JStr(employeeId))])))]
      ensures !skipAuthBind ==> table.pending == old(table.pending) + {bindSeqId} && table.settled == old(table.settled)
    {
      clientId := ChooseClientId(clientIdOption, GeneratedClientId(employeeId, deviceId, "node", uid));
      connected := true;
      published := published + [OnlineStatus(employeeId, now)];
      if !skipAuthBind {
        RequestOnce("auth.bind", [("employee_id", JStr(employeeId))], bindSeqId);
      }
    }

    /** `requestOnce`: registers the request, then publishes `{action, ...params}` on its request topic. */
    method RequestOnce(action: string, params: Obj, seqId: string)
      requires Valid() && seqId !in table.pending && seqId !in table.settled
      modifies this, table
      ensures Valid()
      ensures table.pending == old(table.pending) + {seqId} && table.settled == old(table.settled)
      ensures published == old(published) + [Publication(REQ_TOPIC_PREFIX + clientId + "/" + seqId, JObj(RequestBody(action, params)))]
      ensures clientId == old(clientId) && connected == old(connected)
    {
      table.Register(seqId);
      published := published + [Publication(REQ_TOPIC_PREFIX + clientId + "/" + seqId, JObj(RequestBody(action, params)))];
    }

    /** `request`: refused at once with "Not connected" when not connected (`sent` false); otherwise `requestOnce`. */
    method Request(action: string, params: Obj, seqId: string) returns (sent: bool)
      requires Valid() && seqId !in table.pending && seqId !in table.settled
      modifies this, table
      ensures Valid()
      ensures sent == old(connected)
      ensures !sent ==> table.pending == old(table.pending) && table.settled == old(table.settled) && published == old(published)
      ensures sent ==> table.pending == old(table.pending) + {seqId} && table.settled == old(table.settled)
      ensures sent ==> published == old(published) + [Publication(REQ_TOPIC_PREFIX + clientId + "/" + seqId, JObj(RequestBody(action, params)))]
    {
      if !connected {
        return false;
      }
      RequestOnce(action, params, seqId);
      sent := true;
    }

    /** The timer of `seqId` fires: it rejects only a request still waiting. */
    method TimeoutFired(seqId: string)
      requires Valid()
      modifies table
      ensures Valid()
      ensures seqId in old(table.pending) ==>
        table.pending == old(table.pending) - {seqId} && table.settled == old(table.settled)[seqId := Rejected(REQUEST_TIMEOUT)]
      ensures seqId !in old(table.pending) ==> table.pending == old(table.pending) && table.settled == old(table.settled)
    {
      var _ := table.Settle(seqId, Rejected(REQUEST_TIMEOUT));
    }

    /** The broker refuses the publication: the entry goes, its timer is cleared and the call rejects with `err`. */
    method PublishFailed(seqId: string, err: string)
      requires Valid()
      modifies table
      ensures Valid()
      ensures seqId in old(table.pending) ==>
        table.pending == old(table.pending) - {seqId} && table.settled == old(table.settled)[seqId := Rejected(err)]
      ensures seqId !in old(table.pending) ==> table.pending == old(table.pending) && table.settled == old(table.settled)
    {
      var _ := table.Settle(seqId, Rejected(err));
    }

    /**
     * `handleMessage`. A reply settles its waiting request, and only that
     * one: with the parsed body, or with "Invalid response JSON". A reply
     * for an id not waiting is ignored. Pushes reach the listeners only
     * when they parse.
     */
    method HandleMessage(topic: string, payload: Raw) returns (ev: Event)
      requires Valid()
      modifies table
      ensures Valid()
      ensures match Classify(clientId, employeeId, topic)
        case ResponseTo(s) =>
          ev == NoEvent &&
          (s in old(table.pending) ==>
            table.pending == old(table.pending) - {s} &&
            table.settled == old(table.settled)[s := if payload.Parsed? then Resolved(payload.value) else Rejected(INVALID_RESPONSE)]) &&
          (s !in old(table.pending) ==> table.pending == old(table.pending) && table.settled == old(table.settled))
        case InboxOf =>
          ev == (if payload.Parsed? then InboxEvent(payload.value) else NoEvent) &&
          table.pending == old(table.pending) && table.settled == old(table.settled)
        case GroupOf(g) =>
          ev == (if payload.Parsed? then GroupEvent(g, payload.value) else NoEvent) &&
          table.pending == old(table.pending) && table.settled == old(table.settled)
        case Ignored =>
          ev == NoEvent && table.pending == old(table.pending) && table.settled == old(table.settled)
    {
      match Classify(clientId, employeeId, topic) {
        case ResponseTo(s) =>
          var c := if payload.Parsed? then Resolved(payload.value) else Rejected(INVALID_RESPONSE);
          var _ := table.Settle(s, c);
          ev := NoEvent;
        case InboxOf =>
          ev := if payload.Parsed? then InboxEvent(payload.value) else NoEvent;
        case GroupOf(g) =>
          ev := if payload.Parsed? then GroupEvent(g, payload.value) else NoEvent;
        case Ignored =>
          ev := NoEvent;
      }
    }

    /** `disconnect`: every waiting call rejects with "Disconnected", the table empties and the connection is dropped. */
    method Disconnect()
      requires Valid()
      modifies this, table
      ensures Valid() && !connected && published == old(published) && clientId == old(clientId)
      ensures table.pending == {}
      ensures table.settled.Keys == old(table.settled).Keys + old(table.pending)
      ensures forall s :: s in old(table.settled) ==> table.settled[s] == old(table.settled)[s]
      ensures forall s :: s in old(table.pending) ==> table.settled[s] == Rejected(DISCONNECTED)
    {
      table.RejectAll(DISCONNECTED);
      connected := false;
    }
  }
}

=== FILE: openclaw_plugin.dfy ===
/**
 * The OpenClaw channel plugin for MoltChat: where it finds its
 * configuration, the block-streaming switch it forces on, the accounts it
 * reports, the guards in front of starting the channel and sending, and
 * the addresses an inbound message is given. The plugin's module-level
 * state (`currentProvider`, `currentAccountId`) is a `Gateway` object.
 * The OpenClaw runtime calls `dispatchMoltChatInbound` makes are not
 * modelled; the inbound context is built up to the point where they start.
 */
module OpenClawPlugin {
  import opened Wrappers
  import opened Strings
  import opened Json

  /** `CHANNEL_ID`, the key under `channels` that names this channel. */
  const CHANNEL_ID := "moltchat"

  const NOT_CONNECTED := "MoltChat channel not connected"

  // ------------------------------------------------------------ streaming

  lemma PathTwo(v: Option<Json>, a: string, b: string)
    ensures Path(v, [a, b]) == Prop(Prop(v, a), b)
  {
    assert [a, b][1..] == [b];
    assert Path(v, [a, b]) == Path(Prop(v, a), [b]);
    assert [b][1..] == [];
    assert Path(Prop(v, a), [b]) == Path(Prop(Prop(v, a), b), []);
  }

  lemma PathThree(v: Option<Json>, a: string, b: string, c: string)
    ensures Path(v, [a, b, c]) == Prop(Prop(Prop(v, a), b), c)
  {
    assert [a, b, c][1..] == [b, c];
    assert Path(v, [a, b, c]) == Path(Prop(v, a), [b, c]);
    PathTwo(Prop(v, a), b, c);
  }

  /** `cfg.channels ?? {}`. */
  function ChannelsOf(cfg: Obj): Json {
    Coalesce(Get(cfg, "channels"), Some(JObj([]))).value
  }

  /** `channels[CHANNEL_ID] ?? {}`. */
  function ChannelOf(channels: Json): Json {
    Coalesce(Prop(Some(channels), CHANNEL_ID), Some(JObj([]))).value
  }

  /** The user switched block streaming off: `channels.moltchat.blockStreaming === false`. */
  predicate OptedOut(cfg: Obj) {
    Prop(Some(ChannelOf(ChannelsOf(cfg))), "blockStreaming") == Some(JBool(false))
  }

  /**
   * `mergeMoltChatChannelStreamingConfig`: unless the user switched it
   * off, a copy of the configuration with `channels.moltchat.blockStreaming`
   * set to `true`, built by object spread.
   */
  function MergeStreamingConfig(cfg: Obj): Obj {
    if OptedOut(cfg) then cfg
    else
      var channels := ChannelsOf(cfg);
      var moltchat := ChannelOf(channels);
      var merged := Put(Spread([], Entries(moltchat)), "blockStreaming", JBool(true));
      var mergedChannels := Put(Spread([], Entries(channels)), CHANNEL_ID, JObj(merged));
      Put(Spread([], cfg), "channels", JObj(mergedChannels))
  }

  /** A user's explicit `blockStreaming: false` is kept: the configuration comes back as it was. */
  lemma MergeKeepsOptOut(cfg: Obj)
    requires OptedOut(cfg)
    ensures MergeStreamingConfig(cfg) == cfg
  {
  }

  /** Otherwise the merged configuration has block streaming on for the channel. */
  lemma MergeTurnsOnStreaming(cfg: Obj)
    requires !OptedOut(cfg)
    ensures Path(Some(JObj(MergeStreamingConfig(cfg))), ["channels", CHANNEL_ID, "blockStreaming"]) == Some(JBool(true))
  {
    var r := MergeStreamingConfig(cfg);
    var channels := ChannelsOf(cfg);
    var merged := Put(Spread([], Entries(ChannelOf(channels))), "blockStreaming", JBool(true));
    var mergedChannels := Put(Spread([], Entries(channels)), CHANNEL_ID, JObj(merged));
    assert Get(r, "channels") == Some(JObj(mergedChannels));
    assert Get(mergedChannels, CHANNEL_ID) == Some(JObj(merged));
    assert Get(merged, "blockStreaming") == Some(JBool(true));
    PathThree(Some(JObj(r)), "channels", CHANNEL_ID, "blockStreaming");
  }

  /** Merging keeps every other top-level key of the configuration. */
  lemma MergeKeepsOtherKeys(cfg: Obj, k: string)
    requires k != "channels"
    ensures Get(MergeStreamingConfig(cfg), k) == Get(cfg, k)
  {
    if !OptedOut(cfg) {
      GetSpread([], cfg, k);
    }
  }

  /** Merging keeps every other channel, and every other setting of this channel, when they are objects. */
  lemma MergeKeepsOtherChannels(cfg: Obj, k: string)
    requires !OptedOut(cfg) && ChannelsOf(cfg).JObj?
    ensures k != CHANNEL_ID ==> Path(Some(JObj(MergeStreamingConfig(cfg))), ["channels", k]) == Get(ChannelsOf(cfg).fields, k)
    ensures ChannelOf(ChannelsOf(cfg)).JObj? && k != "blockStreaming" ==>
      Path(Some(JObj(MergeStreamingConfig(cfg))), ["channels", CHANNEL_ID, k]) == Get(ChannelOf(ChannelsOf(cfg)).fields, k)
  {
    var channels := ChannelsOf(cfg);
    var moltchat := ChannelOf(channels);
    var merged := Put(Spread([], Entries(moltchat)), "blockStreaming", JBool(true));
    var mergedChannels := Put(Spread([], Entries(channels)), CHANNEL_ID, JObj(merged));
    var r := MergeStreamingConfig(cfg);
    assert Get(r, "channels") == Some(JObj(mergedChannels));
    GetSpread([], Entries(channels), k);
    GetSpread([], Entries(moltchat), k);
    assert Get(mergedChannels, CHANNEL_ID) == Some(JObj(merged));
    PathTwo(Some(JObj(r)), "channels", k);
    PathThree(Some(JObj(r)), "channels", CHANNEL_ID, k);
  }

  // ------------------------------------------------------------ configuration

  /** The places `getConfigFromCtx` looks, in its order. */
  function ConfigCandidates(ctx: Obj): (cs: seq<Option<Json>>)
    ensures |cs| == 6
  {
    [ Get(ctx, "account"),
      Path(Get(ctx, "config"), ["channels", "moltchat"]),
      Path(Get(ctx, "config"), ["channels", "mchat"]),
      Path(Get(ctx, "cfg"), ["channels", "moltchat"]),
      Path(Get(ctx, "cfg"), ["channels", "mchat"]),
      Path(Get(ctx, "cfg"), ["plugins", "entries", "moltchat", "config"]) ]
  }

  /** `a ?? b ?? …`: the first value that is neither `null` nor `undefined`, else the last one. */
  function FirstDefined(cs: seq<Option<Json>>): (r: Option<Json>)
    requires cs != []
    ensures forall i :: 0 <= i < |cs| && !IsNullish(cs[i]) && (forall j :: 0 <= j < i ==> IsNullish(cs[j])) ==> r == cs[i]
    ensures (forall j :: 0 <= j < |cs| - 1 ==> IsNullish(cs[j])) ==> r == cs[|cs| - 1]
  {
    if |cs| == 1 then cs[0] else Coalesce(cs[0], FirstDefined(cs[1..]))
  }

  /** `getConfigFromCtx`. */
  function ConfigFromCtx(ctx: Obj): Option<Json> {
    Coalesce(Get(ctx, "account"),
    Coalesce(Path(Get(ctx, "config"), ["channels", "moltchat"]),
    Coalesce(Path(Get(ctx, "config"), ["channels", "mchat"]),
    Coalesce(Path(Get(ctx, "cfg"), ["channels", "moltchat"]),
    Coalesce(Path(Get(ctx, "cfg"), ["channels", "mchat"]),
    Path(Get(ctx, "cfg"), ["plugins", "entries", "moltchat", "config"]))))))
  }

  /**
   * The account wins, then `config.channels.moltchat`, `config.channels.mchat`,
   * `cfg.channels.moltchat`, `cfg.channels.mchat` and last
   * `cfg.plugins.entries.moltchat.config`.
   */
  lemma ConfigPrecedence(ctx: Obj)
    ensures ConfigFromCtx(ctx) == FirstDefined(ConfigCandidates(ctx))
    ensures forall i :: 0 <= i < 6 && !IsNullish(ConfigCandidates(ctx)[i]) && (forall j :: 0 <= j < i ==> IsNullish(ConfigCandidates(ctx)[j])) ==>
      ConfigFromCtx(ctx) == ConfigCandidates(ctx)[i]
  {
    var cs := ConfigCandidates(ctx);
    assert cs[1..][1..][1..][1..][1..] == [cs[5]];
  }

  /** `listAccountIds`. */
  function ListAccountIds(cfg: Obj): (ids: seq<string>)
    ensures ids == [] || ids == ["default"]
  {
    if !IsNullish(Path(Some(JObj(cfg)), ["channels", "moltchat"])) || !IsNullish(Path(Some(JObj(cfg)), ["plugins", "entries", "moltchat"])) then ["default"] else []
  }

  /** `resolveAccount`: the first of `channels.moltchat`, `channels.mchat` and the plugin entry's config that is set, else `{}`. */
  function ResolveAccount(cfg: Obj): (r: Json)
    ensures !r.JNull?
  {
    Coalesce(Path(Some(JObj(cfg)), ["channels", "moltchat"]),
    Coalesce(Path(Some(JObj(cfg)), ["channels", "mchat"]),
    Coalesce(Path(Some(JObj(cfg)), ["plugins", "entries", "moltchat", "config"]), Some(JObj([]))))).value
  }

  /** A configuration under `channels.mchat` alone is read by `resolveAccount` but lists no account. */
  lemma MchatOnlyListsNoAccount(cfg: Obj)
    requires IsNullish(Path(Some(JObj(cfg)), ["channels", "moltchat"])) && IsNullish(Path(Some(JObj(cfg)), ["plugins", "entries", "moltchat"]))
    requires !IsNullish(Path(Some(JObj(cfg)), ["channels", "mchat"]))
    ensures ListAccountIds(cfg) == []
    ensures ResolveAccount(cfg) == Path(Some(JObj(cfg)), ["channels", "mchat"]).value
  {
  }

  /** When an account is listed and `channels.moltchat` is set, `resolveAccount` returns it. */
  lemma ListedAccountResolves(cfg: Obj)
    requires !IsNullish(Path(Some(JObj(cfg)), ["channels", "moltchat"]))
    ensures ListAccountIds(cfg) == ["default"]
    ensures ResolveAccount(cfg) == Path(Some(JObj(cfg)), ["channels", "moltchat"]).value
  {
  }

  // ------------------------------------------------------------ inbound

  /** `MChatInboundMessage` as the plugin reads it. */
  datatype Inbound = Inbound(thread: string, isGroup: bool, fromEmployeeId: Option<string>, msgId: Option<string>, content: Option<Json>)

  const USER_PREFIX := "moltchat:user:"
  const GROUP_PREFIX := "moltchat:group:"

  /** The body text: a string as it is, any other value as JSON, nothing as `''`. */
  function BodyText(content: Option<Json>): (r: string)
    ensures content.Some? && content.value.JStr? ==> r == content.value.s
    ensures IsNullish(content) ==> r == ""
  {
    match content
    case None => ""
    case Some(v) => if v.JStr? then v.s else if v.JNull? then "" else Stringify(v)
  }

  /** `From`: the sender, or the thread when there is no sender, as a user. */
  function FromAddress(msg: Inbound): string {
    USER_PREFIX + msg.fromEmployeeId.GetOr(msg.thread)
  }

  /** `To` and `OriginatingTo`: the thread, as a group or as a user. */
  function ToAddress(msg: Inbound): string {
    (if msg.isGroup then GROUP_PREFIX else USER_PREFIX) + msg.thread
  }

  /** Reading an address back: whether it names a group, and the id after the prefix. */
  function ParseAddress(a: string): Option<(bool, string)> {
    if StartsWith(a, GROUP_PREFIX) then Some((true, a[|GROUP_PREFIX|..]))
    else if StartsWith(a, USER_PREFIX) then Some((false, a[|USER_PREFIX|..]))
    else None
  }

  /** Both addresses name what they were built from: the thread with its kind, and the sender (or thread) as a user. */
  lemma AddressRoundTrip(msg: Inbound)
    ensures ParseAddress(ToAddress(msg)) == Some((msg.isGroup, msg.thread))
    ensures ParseAddress(FromAddress(msg)) == Some((false, msg.fromEmployeeId.GetOr(msg.thread)))
  {
    var to := ToAddress(msg);
    var from := FromAddress(msg);
    assert from[..|USER_PREFIX|] == USER_PREFIX;
    assert !StartsWith(from, GROUP_PREFIX) by {
      assert from[9] == 'u';
    }
    if msg.isGroup {
      assert to[..|GROUP_PREFIX|] == GROUP_PREFIX;
    } else {
      assert to[..|USER_PREFIX|] == USER_PREFIX;
      assert !StartsWith(to, GROUP_PREFIX) by {
        assert to[9] == 'u';
      }
    }
  }

  /** The fields of the inbound context that the plugin computes itself. */
  datatype InboundContext = InboundContext(
    rawBody: string, from: string, to: string, chatType: string, conversationLabel: string,
    senderId: Option<string>, accountId: string, messageSid: Option<string>, originatingTo: string)

  /** `finalizeInboundContext`'s argument, without the envelope text and session key the runtime supplies. */
  function Context(msg: Inbound, accountId: string): (c: InboundContext)
    ensures c.originatingTo == c.to && c.conversationLabel == msg.thread
    ensures c.chatType == (if msg.isGroup then "group" else "direct")
    ensures ParseAddress(c.to) == Some((msg.isGroup, msg.thread))
    ensures ParseAddress(c.from) == Some((false, msg.fromEmployeeId.GetOr(msg.thread)))
  {
    AddressRoundTrip(msg);
    InboundContext(BodyText(msg.content), FromAddress(msg), ToAddress(msg), if msg.isGroup then "group" else "direct",
      msg.thread, msg.fromEmployeeId, accountId, msg.msgId, ToAddress(msg))
  }

  // ------------------------------------------------------------ gateway

  /** A channel provider created by the gateway: its configuration and whether it is connected. */
  datatype Provider = Provider(config: Json, connected: bool)

  /** The plugin's module-level state and what it has done: providers stopped and messages sent. */
  class Gateway {
    var currentProvider: Option<Provider>
    var currentAccountId: string
    var stopped: seq<Provider>
    /** `provider.send` calls: thread and text. */
    var sent: seq<(string, string)>

    constructor ()
      ensures currentProvider.None? && currentAccountId == "default" && stopped == [] && sent == []
    {
      currentProvider := None;
      currentAccountId := "default";
      stopped := [];
      sent := [];
    }

    /**
     * `startAccountWithConfig`: nothing happens when the configuration says
     * `enabled: false`; otherwise the account becomes current and the new,
     * started provider replaces the current one, which is not stopped.
     */
    method StartWithConfig(config: Json, accountId: string, connected: bool)
      modifies this`currentProvider, this`currentAccountId
      ensures Prop(Some(config), "enabled") == Some(JBool(false)) ==>
        currentProvider == old(currentProvider) && currentAccountId == old(currentAccountId)
      ensures Prop(Some(config), "enabled") != Some(JBool(false)) ==>
        currentProvider == Some(Provider(config, connected)) && currentAccountId == accountId
    {
      if Prop(Some(config), "enabled") == Some(JBool(false)) {
        return;
      }
      currentAccountId := accountId;
      currentProvider := Some(Provider(config, connected));
    }

    /** `gateway.start`: skipped without a (truthy) configuration; otherwise the `default` account starts. */
    method Start(ctx: Obj, connected: bool)
      modifies this`currentProvider, this`currentAccountId
      ensures !Truthy(ConfigFromCtx(ctx)) ==> currentProvider == old(currentProvider) && currentAccountId == old(currentAccountId)
      ensures Truthy(ConfigFromCtx(ctx)) && Prop(ConfigFromCtx(ctx), "enabled") != Some(JBool(false)) ==>
        currentProvider == Some(Provider(ConfigFromCtx(ctx).value, connected)) && currentAccountId == "default"
    {
      var config := ConfigFromCtx(ctx);
      if !Truthy(config) {
        return;
      }
      StartWithConfig(config.value, "default", connected);
    }

    /** `gateway.startAccount`: skipped unless the configuration has a string `brokerHost`; the account id defaults to `default`. */
    method StartAccount(ctx: Obj, connected: bool)
      modifies this`currentProvider, this`currentAccountId
      ensures !Truthy(ConfigFromCtx(ctx)) || AsString(Prop(ConfigFromCtx(ctx), "brokerHost")).None? ==>
        currentProvider == old(currentProvider) && currentAccountId == old(currentAccountId)
      ensures (Truthy(ConfigFromCtx(ctx)) && AsString(Prop(ConfigFromCtx(ctx), "brokerHost")).Some? &&
        Prop(ConfigFromCtx(ctx), "enabled") != Some(JBool(false))) ==>
        currentProvider == Some(Provider(ConfigFromCtx(ctx).value, connected)) &&
        currentAccountId == AsString(Get(ctx, "accountId")).GetOr("default")
    {
      var config := ConfigFromCtx(ctx);
      if !Truthy(config) || AsString(Prop(config, "brokerHost")).None? {
        return;
      }
      var accountId := AsString(Get(ctx, "accountId")).GetOr("default");
      StartWithConfig(config.value, accountId, connected);
    }

    /** `stopAccountInternal`: the current provider, if any, is stopped and dropped. */
    method Stop()
      modifies this`currentProvider, this`stopped
      ensures currentProvider.None?
      ensures stopped == old(stopped) + (if old(currentProvider).Some? then [old(currentProvider).value] else [])
    {
      if currentProvider.Some? {
        stopped := stopped + [currentProvider.value];
        currentProvider := None;
      }
    }

    /** `sendText`: fails without a connected provider; otherwise sends the text to the thread, `''` when none is given. */
    method SendText(text: string, thread: Option<string>) returns (error: Option<string>)
      modifies this`sent
      ensures error.Some? <==> currentProvider.None? || !currentProvider.value.connected
      ensures error.Some? ==> error.value == NOT_CONNECTED && sent == old(sent)
      ensures error.None? ==> sent == old(sent) + [(thread.GetOr(""), text)]
    {
      if currentProvider.None? || !currentProvider.value.connected {
        return Some(NOT_CONNECTED);
      }
      sent := sent + [(thread.GetOr(""), text)];
      error := None;
    }

    /** The reply dispatcher's `deliver`: a non-empty reply text goes to the inbound thread while the provider is connected. */
    method Deliver(thread: string, text: Option<string>)
      modifies this`sent
      ensures currentProvider.Some? && currentProvider.value.connected && text.Some? && text.value != [] ==>
        sent == old(sent) + [(thread, text.value)]
      ensures !(currentProvider.Some? && currentProvider.value.connected && text.Some? && text.value != []) ==>
        sent == old(sent)
    {
      if currentProvider.Some? && currentProvider.value.connected && text.Some? && text.value != [] {
        sent := sent + [(thread, text.value)];
      }
    }
  }
}

=== FILE: protocol.dfy ===
/**
 * The request/response protocol of the server: status codes, the handler
 * context and reply, the values the server draws from its clock and its
 * UUID generator, and the broker it publishes to.
 */
module Protocol {
  import opened Wrappers
  import opened Json
  import opened Strings

  // Status codes carried in every response (`Code` in the server's types).
  const OK := 0
  const BAD_REQUEST := 400
  const UNAUTHORIZED := 401
  const FORBIDDEN := 403
  const NOT_FOUND := 404
  const TOO_MANY_REQUESTS := 429
  const SERVER_ERROR := 500
  const GATEWAY_TIMEOUT := 504

  /** `ReqContext`: who asked for what. `employeeId` is the employee bound to the client, if any. */
  datatype ReqContext = ReqContext(clientId: string, seqId: string, action: string, employeeId: Option<string>, payload: Obj)

  /** `RespPayload`: what a handler answers; `data` is absent on most errors. */
  datatype RespPayload = RespPayload(code: int, message: string, data: Option<Json>)

  /**
   * A handler's promise either resolves with a reply or rejects (a database
   * or broker failure, a throwing `JSON.parse`); a function that is not a
   * handler can also resolve with a value that has no `code`, `message` or
   * `data` at all (`NotAReply`).
   */
  datatype Outcome = Returned(resp: RespPayload) | Threw | NotAReply

  function Fail(code: int, message: string): RespPayload {
    RespPayload(code, message, None)
  }

  function Ok(data: Obj): RespPayload {
    RespPayload(OK, "ok", Some(JObj(data)))
  }

  predicate IsLowerHex(c: char) { '0' <= c <= '9' || 'a' <= c <= 'f' }

  /** A version-4 UUID with its dashes removed: 32 lower-case hexadecimal digits. */
  type Hex32 = s: string | |s| == 32 && forall i :: 0 <= i < |s| ==> IsLowerHex(s[i])
    witness "00000000000000000000000000000000"

  /** The canonical dashed form 8-4-4-4-12 of a UUID. */
  function Dashed(h: Hex32): (r: string)
    ensures |r| == 36 && r[8] == '-' && r[13] == '-' && r[18] == '-' && r[23] == '-'
  {
    h[..8] + "-" + h[8..12] + "-" + h[12..16] + "-" + h[16..20] + "-" + h[20..]
  }

  /** Values a handler takes from `uuidv4()` and the clock: two UUIDs, the time in milliseconds and its ISO-8601 text. */
  datatype Entropy = Entropy(uuid1: Hex32, uuid2: Hex32, nowMs: nat, nowIso: string)

  /** A generated identifier: a prefix and the first `n` hex digits of a UUID (`prefix + uuidv4().replace(/-/g, '').slice(0, n)`). */
  function NewId(prefix: string, u: Hex32, n: nat): (r: string)
    requires n <= 32
    ensures |r| == |prefix| + n && StartsWith(r, prefix)
  {
    prefix + u[..n]
  }

  // Topic prefixes shared by the server and the clients.
  const REQ_TOPIC_PREFIX := "mchat/msg/req/"
  const RESP_TOPIC_PREFIX := "mchat/msg/resp/"
  const INBOX_TOPIC_PREFIX := "mchat/inbox/"
  const GROUP_TOPIC_PREFIX := "mchat/group/"
  const STATUS_TOPIC_PREFIX := "mchat/status/"

  /** Where pushes for one employee go. */
  function InboxTopic(employeeId: string): string {
    INBOX_TOPIC_PREFIX + employeeId
  }

  /** Where pushes for one group go. */
  function GroupTopic(groupId: string): string {
    GROUP_TOPIC_PREFIX + groupId
  }

  /** `min(max(p, 1), 65535)` / `coerceIn(1, 65535)`: a port number in the TCP range. */
  function ClampPort(p: int): (r: int)
    ensures 1 <= r <= 65535
    ensures 1 <= p <= 65535 ==> r == p
    ensures p < 1 ==> r == 1
    ensures p > 65535 ==> r == 65535
  {
    if p < 1 then 1 else if p > 65535 then 65535 else p
  }

  datatype Publication = Publication(topic: string, payload: Json)

  /** The retained `{status: "online", updated_at}` a client announces on `mchat/status/<employeeId>`; `now` is the clock's ISO text. */
  function OnlineStatus(employeeId: string, now: string): (p: Publication)
    ensures p.topic == STATUS_TOPIC_PREFIX + employeeId
    ensures p.payload.JObj? && Get(p.payload.fields, "status") == Some(JStr("online"))
    ensures p.payload.JObj? && Get(p.payload.fields, "updated_at") == Some(JStr(now))
  {
    Publication(STATUS_TOPIC_PREFIX + employeeId, JObj([("status", JStr("online")), ("updated_at", JStr(now))]))
  }

  /** The MQTT broker as the server sees it: the publications it has been handed, in order. */
  class Broker {
    var log: seq<Publication>

    constructor ()
      ensures log == []
    {
      log := [];
    }

    method Publish(topic: string, payload: Json)
      modifies this
      ensures log == old(log) + [Publication(topic, payload)]
    {
      log := log + [Publication(topic, payload)];
    }
  }
}

=== FILE: python_client.dfy ===
/**
 * The Python client `MChatClient`. A caller blocks in `_request_impl`
 * on a per-request event while the network thread delivers the reply;
 * each request's dict is shared between the two.
 */
module PythonClient {
  import opened Wrappers
  import opened Strings
  import opened Json
  import opened Protocol
  import opened Correlation
  import NodeClient

  const LISTENER_EVENTS := {"inbox", "group", "connect", "offline", "error"}
  const NO_RESPONSE := "No response"

  /**
   * One request's dict `{"event", "result", "error"}`: whether its event
   * is set, the reply body (`None` is JSON `null`) and the exception
   * stored for the caller.
   */
  datatype Slot = Slot(signalled: bool, result: Json, error: Option<string>)

  /** What a blocking call ends with: a body, or the message of the exception it raises. */
  datatype Reply = Answered(body: Json) | Raised(error: string)

  /** Reads the caller's dict once its event is set: a stored error wins; a `None` result is "No response". */
  function Collect(p: Slot): (r: Reply)
    ensures r.Answered? <==> p.error.None? && !p.result.JNull?
    ensures r.Answered? ==> r.body == p.result
    ensures r.Raised? ==> r.error == p.error.GetOr(NO_RESPONSE)
  {
    if p.error.Some? then Raised(p.error.value)
    else if !p.result.JNull? then Answered(p.result)
    else Raised(NO_RESPONSE)
  }

  /** The end of `_request_impl` as written: it looks the dict up again in `_pending`, where it may be gone. */
  function CollectAsWritten(p: Option<Slot>): (r: Reply)
    ensures p.None? ==> r == Raised(NO_RESPONSE)
    ensures p.Some? ==> r == Collect(p.value)
  {
    match p
    case None => Raised(NO_RESPONSE)
    case Some(s) => Collect(s)
  }

  /** Python truthiness of a JSON value; a missing key reads as `None`. */
  predicate PyTruthy(v: Option<Json>) {
    v.Some? &&
    match v.value
    case JNull => false
    case JBool(b) => b
    case JNum(n) => n != 0
    case JStr(s) => s != []
    case JArr(items) => items != []
    case JObj(f) => f != []
  }

  /** Python `str()` of a scalar JSON value; a missing key reads as `None`. */
  function PyStr(v: Option<Json>): (r: string)
    ensures v.None? || v.value.JNull? ==> r == "None"
    ensures v.Some? && v.value.JStr? ==> r == v.value.s
    ensures v.Some? && v.value.JBool? ==> r == if v.value.b then "True" else "False"
  {
    match v
    case None => "None"
    case Some(j) =>
      match j
      case JNull => "None"
      case JBool(b) => if b then "True" else "False"
      case JNum(n) => IntToString(n)
      case JStr(s) => s
      case _ => Stringify(j)
  }

  /** `x != 0` in Python is false for `0` and for `False`. */
  predicate PyIsZero(v: Option<Json>) {
    v == Some(JNum(0)) || v == Some(JBool(false))
  }

  /**
   * `request`'s check of a body: code 0 returns it; any other code raises
   * the message, or `code <code>` when the message is falsy. `r.get` on a
   * body that is not a dict raises `AttributeError`.
   */
  function Checked(r: Reply): (c: Reply)
    ensures r.Raised? ==> c == r
    ensures c.Answered? <==> r.Answered? && r.body.JObj? && PyIsZero(Get(r.body.fields, "code"))
    ensures c.Answered? ==> c == r
    ensures r.Answered? && r.body.JObj? && !PyIsZero(Get(r.body.fields, "code")) ==>
      c == Raised(if PyTruthy(Get(r.body.fields, "message")) then PyStr(Get(r.body.fields, "message"))
                  else "code " + PyStr(Get(r.body.fields, "code")))
  {
    match r
    case Raised(_) => r
    case Answered(body) =>
      if !body.JObj? then Raised("AttributeError")
      else
        var code := Get(body.fields, "code");
        var message := Get(body.fields, "message");
        if PyIsZero(code) then r
        else if PyTruthy(message) then Raised(PyStr(message))
        else Raised("code " + PyStr(code))
  }

  class Client {
    const employeeId: string
    const clientId: string
    const requestTimeoutMs: int
    /** `_client` is set and reports itself connected. */
    var connected: bool
    /** The keys of `_pending`. */
    var pending: set<string>
    /** Every request's dict, as its blocked caller still holds it. */
    var slots: map<string, Slot>
    var published: seq<Publication>
    /** How many callbacks `on` registered per event name. */
    var listeners: map<string, nat>

    /** A request still in `_pending` has not been signalled. */
    ghost predicate Valid()
      reads this
    {
      pending <= slots.Keys &&
      (forall s :: s in pending ==> !slots[s].signalled) &&
      listeners.Keys == LISTENER_EVENTS
    }

    /** `__init__`: a non-blank `client_id` (stripped) wins; else `<employee>_<device or "py">_<uid>`. */
    constructor (employeeId: string, clientIdOption: Option<string>, deviceId: Option<string>, uid: string, requestTimeoutMs: int)
      ensures Valid()
      ensures this.employeeId == employeeId && this.requestTimeoutMs == requestTimeoutMs
      ensures clientId == ChooseClientId(clientIdOption, GeneratedClientId(employeeId, deviceId, "py", uid))
      ensures !connected && pending == {} && slots == map[] && published == []
      ensures listeners == map e | e in LISTENER_EVENTS :: 0
    {
      this.employeeId := employeeId;
      this.requestTimeoutMs := requestTimeoutMs;
      clientId := ChooseClientId(clientIdOption, GeneratedClientId(employeeId, deviceId, "py", uid));
      connected := false;
      pending := {};
      slots := map[];
      published := [];
      listeners := map e | e in LISTENER_EVENTS :: 0;
    }

    /** `on`: a callback for one of the five known events is kept; any other name is ignored. */
    method On(event: string)
      requires Valid()
      modifies this
      ensures Valid()
      ensures event in LISTENER_EVENTS ==> listeners == old(listeners)[event := old(listeners)[event] + 1]
      ensures event !in LISTENER_EVENTS ==> listeners == old(listeners)
      ensures pending == old(pending) && slots == old(slots) && published == old(published) && connected == old(connected)
    {
      if event in listeners {
        listeners := listeners[event := listeners[event] + 1];
      }
    }

    /**
     * `connect` with `_on_connect` answered by return code `rc`: a refused
     * connection raises and leaves no client; an accepted one announces the
     * employee online and, unless `skip_auth_bind`, begins `auth.bind` with
     * the employee id under the fresh sequence id `bindSeqId`.
     */
    method Connect(rc: int, skipAuthBind: bool, now: string, bindSeqId: string)
      requires Valid()
      requires rc == 0 && !skipAuthBind ==> bindSeqId !in slots
      modifies this
      ensures Valid()
      ensures connected <==> rc == 0
      ensures rc != 0 ==> pending == old(pending) && slots == old(slots) && published == old(published)
      ensures rc == 0 && skipAuthBind ==> pending == old(pending) && slots == old(slots) && published == old(published) + [OnlineStatus(employeeId, now)]
      ensures rc == 0 && !skipAuthBind ==> pending == old(pending) + {bindSeqId} && slots == old(slots)[bindSeqId := Slot(false, JNull, None)]
      ensures rc == 0 && !skipAuthBind ==> published == old(published) + [OnlineStatus(employeeId, now),
        Publication(REQ_TOPIC_PREFIX + clientId + "/" + bindSeqId, JObj(RequestBody("auth.bind", [("employee_id", JStr(employeeId))])))]
      ensures listeners == old(listeners)
    {
      if rc != 0 {
        connected := false;
        return;
      }
      connected := true;
      published := published + [OnlineStatus(employeeId, now)];
      if !skipAuthBind {
        Begin("auth.bind", [("employee_id", JStr(employeeId))], bindSeqId);
      }
    }

    /** The first half of `_request_impl`: a fresh dict goes into `_pending`, then `{"action": action, **params}` is published. */
    method Begin(action: string, params: Obj, seqId: string)
      requires Valid() && seqId !in slots
      modifies this
      ensures Valid()
      ensures pending == old(pending) + {seqId}
      ensures slots == old(slots)[seqId := Slot(false, JNull, None)]
      ensures published == old(published) + [Publication(REQ_TOPIC_PREFIX + clientId + "/" + seqId, JObj(RequestBody(action, params)))]
      ensures connected == old(connected) && listeners == old(listeners)
    {
      pending := pending + {seqId};
      slots := slots[seqId := Slot(false, JNull, None)];
      published := published + [Publication(REQ_TOPIC_PREFIX + clientId + "/" + seqId, JObj(RequestBody(action, params)))];
    }

    /** `request` up to the wait: raises "Not connected" (`refused`) or begins the request. */
    method Request(action: string, params: Obj, seqId: string) returns (refused: bool)
      requires Valid() && seqId !in slots
      modifies this
      ensures Valid()
      ensures refused <==> !old(connected)
      ensures refused ==> pending == old(pending) && slots == old(slots) && published == old(published)
      ensures !refused ==> pending == old(pending) + {seqId} && slots == old(slots)[seqId := Slot(false, JNull, None)]
      ensures !refused ==> published == old(published) + [Publication(REQ_TOPIC_PREFIX + clientId + "/" + seqId, JObj(RequestBody(action, params)))]
      ensures connected == old(connected) && listeners == old(listeners)
    {
      refused := !connected;
      if !refused {
        Begin(action, params, seqId);
      }
    }

    /**
     * `_on_message`. A reply pops its dict from `_pending`, sets the event
     * and stores the body or "Invalid response JSON"; replies for ids no
     * longer pending are dropped. Pushes go to the listeners when they parse.
     */
    method OnMessage(topic: string, payload: Raw) returns (ev: NodeClient.Event)
      requires Valid()
      modifies this
      ensures Valid()
      ensures match NodeClient.Classify(clientId, employeeId, topic)
        case ResponseTo(s) =>
          ev == NodeClient.NoEvent &&
          (s in old(pending) ==>
            pending == old(pending) - {s} &&
            slots == old(slots)[s := if payload.Parsed? then Slot(true, payload.value, None) else Slot(true, JNull, Some(INVALID_RESPONSE))]) &&
          (s !in old(pending) ==> pending == old(pending) && slots == old(slots))
        case InboxOf =>
          ev == (if payload.Parsed? then NodeClient.InboxEvent(payload.value) else NodeClient.NoEvent) &&
          pending == old(pending) && slots == old(slots)
        case GroupOf(g) =>
          ev == (if payload.Parsed? then NodeClient.GroupEvent(g, payload.value) else NodeClient.NoEvent) &&
          pending == old(pending) && slots == old(slots)
        case Ignored =>
          ev == NodeClient.NoEvent && pending == old(pending) && slots == old(slots)
      ensures published == old(published) && connected == old(connected) && listeners == old(listeners)
    {
      ev := NodeClient.NoEvent;
      match NodeClient.Classify(clientId, employeeId, topic) {
        case ResponseTo(s) =>
          if s in pending {
            pending := pending - {s};
            slots := slots[s := if payload.Parsed? then Slot(true, payload.value, None) else Slot(true, JNull, Some(INVALID_RESPONSE))];
          }
        case InboxOf =>
          if payload.Parsed? {
            ev := NodeClient.InboxEvent(payload.value);
          }
        case GroupOf(g) =>
          if payload.Parsed? {
            ev := NodeClient.GroupEvent(g, payload.value);
          }
        case Ignored =>
      }
    }

    /** `self._pending.get(seq_id)`. */
    function PendingEntry(seqId: string): (p: Option<Slot>)
      reads this
      ensures p.Some? <==> seqId in pending && seqId in slots
    {
      if seqId in pending && seqId in slots then Some(slots[seqId]) else None
    }

    /**
     * The second half of `_request_impl` as written, once the wait ends
     * (the event is set, or the timeout passed). Whoever set the event
     * had already popped the dict from `_pending`, so the lookup there
     * always misses and every answered call raises "No response".
     */
    method AwaitAsWritten(seqId: string) returns (r: Reply)
      requires Valid() && seqId in slots
      modifies this
      ensures Valid()
      ensures !old(slots[seqId].signalled) ==> r == Raised(REQUEST_TIMEOUT) && pending == old(pending) - {seqId}
      ensures old(slots[seqId].signalled) ==> r == Raised(NO_RESPONSE) && pending == old(pending)
      ensures slots == old(slots) && published == old(published) && connected == old(connected) && listeners == old(listeners)
    {
      if !slots[seqId].signalled {
        pending := pending - {seqId};
        return Raised(REQUEST_TIMEOUT);
      }
      r := CollectAsWritten(PendingEntry(seqId));
    }

    /**
     * The second half of `_request_impl` reading the dict the caller
     * created, which the network thread filled in: an answered call
     * returns the reply body.
     */
    method Await(seqId: string) returns (r: Reply)
      requires Valid() && seqId in slots
      modifies this
      ensures Valid()
      ensures !old(slots[seqId].signalled) ==> r == Raised(REQUEST_TIMEOUT) && pending == old(pending) - {seqId}
      ensures old(slots[seqId].signalled) ==> r == Collect(old(slots[seqId])) && pending == old(pending)
      ensures slots == old(slots) && published == old(published) && connected == old(connected) && listeners == old(listeners)
    {
      if !slots[seqId].signalled {
        pending := pending - {seqId};
        return Raised(REQUEST_TIMEOUT);
      }
      r := Collect(slots[seqId]);
    }

    /** `disconnect`: every pending call is woken with "Disconnected", `_pending` empties and the client goes. */
    method Disconnect()
      requires Valid()
      modifies this
      ensures Valid() && !connected
      ensures old(connected) ==> pending == {}
      ensures old(connected) ==>
        slots == map s | s in old(slots) :: if s in old(pending) then Slot(true, old(slots)[s].result, Some(DISCONNECTED)) else old(slots)[s]
      ensures !old(connected) ==> slots == old(slots) && pending == old(pending)
      ensures published == old(published) && listeners == old(listeners)
    {
      if connected {
        slots := map s | s in slots :: if s in pending then Slot(true, slots[s].result, Some(DISCONNECTED)) else slots[s];
        pending := {};
        connected := false;
      }
    }
  }

  /** A reply stored by `OnMessage` is what the corrected wait returns. */
  lemma ParsedReplyAnswers(body: Json)
    requires !body.JNull?
    ensures Collect(Slot(true, body, None)) == Answered(body)
    ensures CollectAsWritten(None) == Raised(NO_RESPONSE)
  {
  }
}

=== FILE: router.dfy ===
/**
 * `routeRequest`: the session check and the static action table that
 * choose the handler for a request.
 */
module Router {
  import opened Wrappers
  import opened Json
  import opened Protocol
  import opened Tables
  import opened Session
  import opened Config
  import Auth
  import Employees
  import Departments
  import Group
  import Msg
  import Agents

  /** The entries of the action table. */
  datatype Handler =
    | AuthBind | AuthChallenge
    | EmployeeCreate | EmployeeUpdate | OrgTree
    | DepartmentCreate | DepartmentUpdate | DepartmentDelete
    | GroupCreate | GroupList | GroupDismiss | GroupMemberAdd | GroupMemberRemove
    | MsgSendPrivate | MsgSendGroup | MsgReadAck
    | ConfigStorage | AgentCapabilityList | FileUploadUrl | FileDownloadUrl

  /** The key under which the table lists a handler. */
  function ActionName(h: Handler): string {
    match h
    case AuthBind => "auth.bind"
    case AuthChallenge => "auth.challenge"
    case EmployeeCreate => "employee.create"
    case EmployeeUpdate => "employee.update"
    case OrgTree => "org.tree"
    case DepartmentCreate => "department.create"
    case DepartmentUpdate => "department.update"
    case DepartmentDelete => "department.delete"
    case GroupCreate => "group.create"
    case GroupList => "group.list"
    case GroupDismiss => "group.dismiss"
    case GroupMemberAdd => "group.member_add"
    case GroupMemberRemove => "group.member_remove"
    case MsgSendPrivate => "msg.send_private"
    case MsgSendGroup => "msg.send_group"
    case MsgReadAck => "msg.read_ack"
    case ConfigStorage => "config.storage"
    case AgentCapabilityList => "agent.capability_list"
    case FileUploadUrl => "file.upload_url"
    case FileDownloadUrl => "file.download_url"
  }

  /** The actions that need no bound session. */
  const NO_AUTH_ACTIONS: set<string> := {"auth.bind"}

  /** `getHandler`, reading only the table's own entries. */
  function HandlerFor(action: string): (r: Option<Handler>)
    ensures r.Some? ==> ActionName(r.value) == action
    ensures r.None? ==> forall h: Handler :: ActionName(h) != action
  {
    if action == "auth.bind" then Some(AuthBind)
    else if action == "auth.challenge" then Some(AuthChallenge)
    else if action == "employee.create" then Some(EmployeeCreate)
    else if action == "employee.update" then Some(EmployeeUpdate)
    else if action == "org.tree" then Some(OrgTree)
    else if action == "department.create" then Some(DepartmentCreate)
    else if action == "department.update" then Some(DepartmentUpdate)
    else if action == "department.delete" then Some(DepartmentDelete)
    else if action == "group.create" then Some(GroupCreate)
    else if action == "group.list" then Some(GroupList)
    else if action == "group.dismiss" then Some(GroupDismiss)
    else if action == "group.member_add" then Some(GroupMemberAdd)
    else if action == "group.member_remove" then Some(GroupMemberRemove)
    else if action == "msg.send_private" then Some(MsgSendPrivate)
    else if action == "msg.send_group" then Some(MsgSendGroup)
    else if action == "msg.read_ack" then Some(MsgReadAck)
    else if action == "config.storage" then Some(ConfigStorage)
    else if action == "agent.capability_list" then Some(AgentCapabilityList)
    else if action == "file.upload_url" then Some(FileUploadUrl)
    else if action == "file.download_url" then Some(FileDownloadUrl)
    else None
  }

  /** The members a plain object literal inherits from `Object.prototype` in Node.js. */
  const OBJECT_PROTOTYPE_NAMES: set<string> := {
    "constructor", "toString", "toLocaleString", "valueOf", "hasOwnProperty", "isPrototypeOf",
    "propertyIsEnumerable", "__proto__", "__defineGetter__", "__defineSetter__", "__lookupGetter__", "__lookupSetter__"}

  /** What `map[action] ?? null` yields on the object literal of `getHandler`. */
  datatype Lookup = Listed(handler: Handler) | Inherited(name: string) | NotListed

  /**
   * `getHandler` as written: property access on an object literal also
   * finds the members it inherits, so an action such as "toString" yields
   * a function that is not a handler instead of null.
   */
  function HandlerLookupAsWritten(action: string): (r: Lookup)
    ensures r.Listed? <==> HandlerFor(action).Some?
    ensures r.Listed? ==> r.handler == HandlerFor(action).value
    ensures r.Inherited? <==> HandlerFor(action).None? && action in OBJECT_PROTOTYPE_NAMES
  {
    match HandlerFor(action)
    case Some(h) => Listed(h)
    case None => if action in OBJECT_PROTOTYPE_NAMES then Inherited(action) else NotListed
  }

  /** The table has one entry per handler: looking up a handler's name finds that handler. */
  lemma HandlerForActionName(h: Handler)
    ensures HandlerFor(ActionName(h)) == Some(h)
  {
    assert ActionName(HandlerFor(ActionName(h)).value) == ActionName(h);
  }

  /** Actions the admin pages send that the table does not list. */
  lemma AdminOnlyActionsUnknown()
    ensures HandlerFor("employee.get").None? && HandlerFor("employee.delete").None?
    ensures HandlerFor("employee.list").None? && HandlerFor("config.server").None?
  {
  }

  /** What the router does with a request: answer it itself, run a handler, or call an inherited member. */
  datatype Decision = Reject(resp: RespPayload) | Dispatch(handler: Handler) | CallInherited(name: string)

  /** `!employee_id`: no session, or one naming the empty id. */
  predicate Unbound(employeeId: Option<string>) {
    employeeId.None? || employeeId.value == ""
  }

  /**
   * The decision of `routeRequest` with the table's own entries only. The
   * session check comes first, so an unbound client gets 401 for every
   * action but `auth.bind`, listed or not; a bound one gets 400 for an
   * action outside the table.
   */
  function Route(employeeId: Option<string>, action: string): (d: Decision)
    ensures d == Reject(Fail(UNAUTHORIZED, "Unauthorized")) <==> action !in NO_AUTH_ACTIONS && Unbound(employeeId)
    ensures d.Reject? && d.resp.code == BAD_REQUEST <==>
      (action in NO_AUTH_ACTIONS || !Unbound(employeeId)) && HandlerFor(action).None?
    ensures d.Reject? && d.resp.code == BAD_REQUEST ==> d.resp == Fail(BAD_REQUEST, "Unknown action: " + action)
    ensures !d.CallInherited?
    ensures d.Dispatch? ==> ActionName(d.handler) == action
    ensures d.Dispatch? && d.handler != AuthBind ==> employeeId.Some? && employeeId.value != ""
    ensures action == "auth.bind" ==> d == Dispatch(AuthBind)
  {
    if action !in NO_AUTH_ACTIONS && Unbound(employeeId) then Reject(Fail(UNAUTHORIZED, "Unauthorized"))
    else match HandlerFor(action)
      case None => Reject(Fail(BAD_REQUEST, "Unknown action: " + action))
      case Some(h) => Dispatch(h)
  }

  /**
   * The decision of `routeRequest` as written: it agrees with `Route`
   * except that a session-checked action naming an `Object.prototype`
   * member calls that member instead of getting 400.
   */
  function RouteAsWritten(employeeId: Option<string>, action: string): (d: Decision)
    ensures d.CallInherited? <==>
      (action in NO_AUTH_ACTIONS || !Unbound(employeeId)) && HandlerLookupAsWritten(action).Inherited?
    ensures d.CallInherited? ==> d.name == action && action in OBJECT_PROTOTYPE_NAMES && !Unbound(employeeId)
    ensures d.CallInherited? ==> Route(employeeId, action) == Reject(Fail(BAD_REQUEST, "Unknown action: " + action))
    ensures !d.CallInherited? ==> d == Route(employeeId, action)
  {
    if action !in NO_AUTH_ACTIONS && Unbound(employeeId) then Reject(Fail(UNAUTHORIZED, "Unauthorized"))
    else match HandlerLookupAsWritten(action)
      case NotListed => Reject(Fail(BAD_REQUEST, "Unknown action: " + action))
      case Inherited(name) => CallInherited(name)
      case Listed(h) => Dispatch(h)
  }

  /**
   * `handler(ctx, deps)` on an inherited member: `constructor` returns
   * `Object(ctx)` and `toString` a string, neither a reply; every other
   * member throws on its undefined receiver, or is not a function at all.
   */
  function InheritedOutcome(name: string): (o: Outcome)
    requires name in OBJECT_PROTOTYPE_NAMES
    ensures o.NotAReply? <==> name == "constructor" || name == "toString"
    ensures !o.Returned?
  {
    if name == "constructor" || name == "toString" then NotAReply else Threw
  }

  /**
   * The context the router hands to the handler: the request's own fields,
   * with the employee id exactly when the session lookup found one.
   */
  function Context(clientId: string, seqId: string, action: string, payload: Obj, employeeId: Option<string>): (ctx: ReqContext)
    ensures ctx.clientId == clientId && ctx.seqId == seqId && ctx.action == action && ctx.payload == payload
    ensures ctx.employeeId == employeeId
  {
    ReqContext(clientId, seqId, action, employeeId, payload)
  }

  /** The tables each handler may write. */
  function Writes(h: Handler): set<Table> {
    match h
    case AuthChallenge => {ChallengeTable}
    case EmployeeCreate | EmployeeUpdate => {EmployeeTable}
    case DepartmentCreate | DepartmentUpdate | DepartmentDelete => {DepartmentTable}
    case GroupCreate | GroupDismiss => {GroupTable, MemberTable}
    case GroupMemberAdd | GroupMemberRemove => {MemberTable}
    case _ => {}
  }

  /**
   * What running handler `h` leaves behind: the handler's own contract,
   * the tables it does not write unchanged, the sessions unchanged except
   * by `auth.bind`, and the broker log (`before`, then `after`) unchanged
   * except by the two send handlers. `accepted` is the broker's answer to
   * a push, `agentRows` what the agent query returned, and `elsewhere`
   * the result of a handler this model leaves out.
   */
  twostate predicate HandlerDone(h: Handler, ctx: ReqContext, db: Db, sessions: SessionStore, settings: BrokerSettings,
                                 e: Entropy, accepted: bool, agentRows: seq<Agents.AgentRow>, elsewhere: Outcome,
                                 before: seq<Publication>, after: seq<Publication>, o: Outcome)
    requires h != AuthBind ==> ctx.employeeId.Some?
    reads db, sessions
  {
    TablesKept(db, Writes(h)) &&
    (h != AuthBind ==> sessions.rows == old(sessions.rows)) &&
    (h != MsgSendPrivate && h != MsgSendGroup ==> after == before) &&
    match h
    case AuthBind => o.Returned? && Auth.AuthBindDone(ctx, db, sessions, e.nowMs, o.resp)
    case AuthChallenge => Auth.ChallengeDone(ctx, db, e, o)
    case EmployeeCreate => Employees.EmployeeCreateDone(ctx, db, settings, e, o)
    case EmployeeUpdate => o.Returned? && Employees.EmployeeUpdateDone(ctx, db, e, o.resp)
    case DepartmentCreate => Departments.DepartmentCreateDone(ctx, db, e, o)
    case DepartmentUpdate => o.Returned? && Departments.DepartmentUpdateDone(ctx, db, e, o.resp)
    case DepartmentDelete => o.Returned? && Departments.DepartmentDeleteDone(ctx, db, e, o.resp)
    case GroupCreate => Group.GroupCreateDone(ctx, db, e, o)
    case GroupDismiss => o.Returned? && Group.GroupDismissDone(ctx, db, e, o.resp)
    case GroupMemberAdd => o.Returned? && Group.MemberAddDone(ctx, db, o.resp)
    case GroupMemberRemove => o.Returned? && Group.MemberRemoveDone(ctx, db, o.resp)
    case MsgSendPrivate => Msg.SendPrivateDone(ctx, db, e, accepted, before, after, o)
    case MsgSendGroup => Msg.SendGroupDone(ctx, db, e, accepted, before, after, o)
    case MsgReadAck => o == Returned(Msg.HandleReadAck(ctx))
    case AgentCapabilityList => o == Agents.HandleAgentCapabilityList(ctx.payload, agentRows)
    case OrgTree | GroupList | ConfigStorage | FileUploadUrl | FileDownloadUrl => o == elsewhere
  }

  /**
   * `routeRequest` with the handlers behind it, looking actions up as
   * written. A rejected request, or one that reaches an inherited member,
   * touches no table and publishes nothing; a dispatched one returns
   * exactly its handler's result and has exactly its handler's effects.
   * `accepted` is the broker's answer to a push, `agentRows` what the
   * agent query returned, and `elsewhere` the result of a handler this
   * model leaves out.
   */
  method RouteRequest(db: Db, sessions: SessionStore, broker: Broker, settings: BrokerSettings,
                      clientId: string, seqId: string, action: string, payload: Obj,
                      e: Entropy, accepted: bool, agentRows: seq<Agents.AgentRow>, elsewhere: Outcome) returns (o: Outcome)
    modifies db, sessions, broker
    ensures old(broker.log) <= broker.log
    ensures var ctx := Context(clientId, seqId, action, payload, old(sessions.EmployeeIdOf(clientId)));
      match RouteAsWritten(ctx.employeeId, action)
      case Reject(resp) =>
        o == Returned(resp) && unchanged(db) && unchanged(sessions) && unchanged(broker)
      case CallInherited(name) =>
        o == InheritedOutcome(name) && unchanged(db) && unchanged(sessions) && unchanged(broker)
      case Dispatch(h) =>
        HandlerDone(h, ctx, db, sessions, settings, e, accepted, agentRows, elsewhere, old(broker.log), broker.log, o)
  {
    var ctx := Context(clientId, seqId, action, payload, sessions.EmployeeIdOf(clientId));
    var d := RouteAsWritten(ctx.employeeId, action);
    if d.Reject? {
      return Returned(d.resp);
    }
    if d.CallInherited? {
      return InheritedOutcome(d.name);
    }
    o := Handle(d.handler, ctx, db, sessions, broker, settings, e, accepted, agentRows, elsewhere);
  }

  /** The handlers that write only tables. */
  predicate TableHandler(h: Handler) {
    h in {AuthChallenge, EmployeeCreate, EmployeeUpdate, DepartmentCreate, DepartmentUpdate, DepartmentDelete} || GroupHandler(h)
  }

  /** The handlers that write the group and membership tables. */
  predicate GroupHandler(h: Handler) {
    h in {GroupCreate, GroupDismiss, GroupMemberAdd, GroupMemberRemove}
  }

  /** `handler(ctx, deps)`: runs the dispatched handler. */
  method Handle(h: Handler, ctx: ReqContext, db: Db, sessions: SessionStore, broker: Broker, settings: BrokerSettings,
                e: Entropy, accepted: bool, agentRows: seq<Agents.AgentRow>, elsewhere: Outcome) returns (o: Outcome)
    requires h != AuthBind ==> ctx.employeeId.Some?
    modifies db, sessions, broker
    ensures old(broker.log) <= broker.log
    ensures HandlerDone(h, ctx, db, sessions, settings, e, accepted, agentRows, elsewhere, old(broker.log), broker.log, o)
  {
    if TableHandler(h) {
      o := HandleTables(h, ctx, db, sessions, settings, e, accepted, agentRows, elsewhere, broker.log);
      return;
    }
    match h {
      case AuthBind =>
        var r := Auth.HandleAuthBind(ctx, db, sessions, e.nowMs);
        o := Returned(r);
      case MsgSendPrivate =>
        o := Msg.HandleSendPrivate(ctx, db, broker, e, accepted);
      case MsgSendGroup =>
        o := Msg.HandleSendGroup(ctx, db, broker, e, accepted);
      case MsgReadAck =>
        o := Returned(Msg.HandleReadAck(ctx));
      case AgentCapabilityList =>
        o := Agents.HandleAgentCapabilityList(ctx.payload, agentRows);
      case OrgTree =>
        o := elsewhere;
      case GroupList =>
        o := elsewhere;
      case ConfigStorage =>
        o := elsewhere;
      case FileUploadUrl =>
        o := elsewhere;
      case FileDownloadUrl =>
        o := elsewhere;
    }
  }

  /** The handlers that write only tables; `log` is the broker log, which they leave alone. */
  method HandleTables(h: Handler, ctx: ReqContext, db: Db, ghost sessions: SessionStore, settings: BrokerSettings,
                      e: Entropy, ghost accepted: bool, ghost agentRows: seq<Agents.AgentRow>, ghost elsewhere: Outcome,
                      ghost log: seq<Publication>) returns (o: Outcome)
    requires TableHandler(h) && ctx.employeeId.Some?
    modifies db
    ensures HandlerDone(h, ctx, db, sessions, settings, e, accepted, agentRows, elsewhere, log, log, o)
  {
    if GroupHandler(h) {
      o := HandleGroups(h, ctx, db, sessions, settings, e, accepted, agentRows, elsewhere, log);
      return;
    }
    match h {
      case AuthChallenge =>
        o := Auth.HandleAuthChallenge(ctx, db, e);
      case EmployeeCreate =>
        o := Employees.HandleEmployeeCreate(ctx, db, settings, e);
      case EmployeeUpdate =>
        var r := Employees.HandleEmployeeUpdate(ctx, db, e);
        o := Returned(r);
      case DepartmentCreate =>
        o := Departments.HandleDepartmentCreate(ctx, db, e);
      case DepartmentUpdate =>
        var r := Departments.HandleDepartmentUpdate(ctx, db, e);
        o := Returned(r);
      case DepartmentDelete =>
        var r := Departments.HandleDepartmentDelete(ctx, db, e);
        o := Returned(r);
    }
  }

  /** The handlers that write the group and membership tables. */
  method HandleGroups(h: Handler, ctx: ReqContext, db: Db, ghost sessions: SessionStore, ghost settings: BrokerSettings,
                      e: Entropy, ghost accepted: bool, ghost agentRows: seq<Agents.AgentRow>, ghost elsewhere: Outcome,
                      ghost log: seq<Publication>) returns (o: Outcome)
    requires GroupHandler(h) && ctx.employeeId.Some?
    modifies db
    ensures HandlerDone(h, ctx, db, sessions, settings, e, accepted, agentRows, elsewhere, log, log, o)
  {
    match h {
      case GroupCreate =>
        o := Group.HandleGroupCreate(ctx, db, e);
      case GroupDismiss =>
        var r := Group.HandleGroupDismiss(ctx, db, e);
        o := Returned(r);
      case GroupMemberAdd =>
        var r := Group.HandleGroupMemberAdd(ctx, db);
        o := Returned(r);
      case GroupMemberRemove =>
        var r := Group.HandleGroupMemberRemove(ctx, db);
        o := Returned(r);
    }
  }
}

=== FILE: scan.dfy ===
/**
 * What the hand-written reply scanners of the iOS and Android clients
 * share: the bracket-depth scan that cuts the `data` value out of a reply
 * text, and the layout of the replies the server writes.
 */
module EnvelopeScan {
  import opened Wrappers
  import opened Strings

  predicate IsOpener(c: char) { c == '{' || c == '[' }
  predicate IsCloser(c: char) { c == '}' || c == ']' }

  /** Openers minus closers in `s`; quotes are not special. */
  function Depth(s: string): int
    decreases |s|
  {
    if s == [] then 0
    else
      var c := s[|s| - 1];
      Depth(s[..|s| - 1]) + (if IsOpener(c) then 1 else if IsCloser(c) then -1 else 0)
  }

  /** The scan stops at `j`: a closer that brings the depth back to zero. */
  predicate ClosesAt(rest: string, j: int) {
    0 <= j < |rest| && IsCloser(rest[j]) && Depth(rest[..j + 1]) == 0
  }

  /** `r` is the prefix up to the first closer that balances the brackets, or `None` when there is none. */
  predicate FirstBalanced(rest: string, r: Option<string>) {
    match r
    case Some(p) =>
      0 < |p| <= |rest| && p == rest[..|p|] && ClosesAt(rest, |p| - 1) &&
      forall j :: 0 <= j < |p| - 1 ==> !ClosesAt(rest, j)
    case None =>
      forall j :: 0 <= j < |rest| ==> !ClosesAt(rest, j)
  }

  /** The depth-counting loop of `parseData` (`depth += 1` on `{`/`[`, `-= 1` on `}`/`]`). */
  method BalancedPrefix(rest: string) returns (r: Option<string>)
    ensures FirstBalanced(rest, r)
  {
    var depth := 0;
    var j := 0;
    while j < |rest|
      invariant 0 <= j <= |rest|
      invariant depth == Depth(rest[..j])
      invariant forall k :: 0 <= k < j ==> !ClosesAt(rest, k)
    {
      var c := rest[j];
      assert rest[..j + 1][..j] == rest[..j];
      if IsOpener(c) {
        depth := depth + 1;
      } else if IsCloser(c) {
        depth := depth - 1;
        if depth == 0 {
          return Some(rest[..j + 1]);
        }
      }
      j := j + 1;
    }
    return None;
  }

  /**
   * When the text starts with an opener, every non-empty prefix shorter
   * than the first stop has depth above zero: the prefix the scan returns
   * is the shortest one whose brackets balance.
   */
  lemma {:induction false} DepthPositiveBeforeStop(rest: string, j: nat)
    requires j < |rest| && IsOpener(rest[0])
    requires forall k :: 0 <= k < j ==> !ClosesAt(rest, k)
    ensures forall k :: 1 <= k <= j ==> Depth(rest[..k]) > 0
  {
    if j > 0 {
      DepthPositiveBeforeStop(rest, j - 1);
      assert rest[..j][..j - 1] == rest[..j - 1];
      if j == 1 {
        assert Depth(rest[..1]) == Depth(rest[..0]) + 1 by {
          assert rest[..1][..0] == rest[..0];
        }
      } else {
        assert !ClosesAt(rest, j - 1);
      }
    }
  }

  /** A prefix returned for a text opening with a bracket is balanced, and no shorter non-empty prefix is. */
  lemma ShortestBalanced(rest: string, p: string)
    requires rest != [] && IsOpener(rest[0])
    requires FirstBalanced(rest, Some(p))
    ensures Depth(p) == 0
    ensures forall k :: 1 <= k < |p| ==> Depth(p[..k]) > 0
  {
    DepthPositiveBeforeStop(rest, |p| - 1);
    assert rest[..|p|] == p;
    forall k | 1 <= k < |p|
      ensures Depth(p[..k]) > 0
    {
      assert p[..k] == rest[..k];
    }
  }

  /** `s` is a run of digits with an optional leading minus sign, such as `IntToString` writes. */
  lemma IntToStringShape(n: int)
    ensures var d := IntToString(n);
      d != [] && (forall i :: 0 <= i < |d| ==> IsDigit(d[i]) || (i == 0 && d[i] == '-')) &&
      IsDigit(d[|d| - 1])
  {
  }

  lemma {:induction false} KeepDigitsAndMinusAppend(a: string, b: string)
    ensures KeepDigitsAndMinus(a + b) == KeepDigitsAndMinus(a) + KeepDigitsAndMinus(b)
  {
    if a != [] {
      KeepDigitsAndMinusAppend(a[1..], b);
      assert (a + b)[0] == a[0] && (a + b)[1..] == a[1..] + b;
      var h := if IsDigit(a[0]) || a[0] == '-' then [a[0]] else [];
      calc {
        KeepDigitsAndMinus(a + b);
        h + KeepDigitsAndMinus(a[1..] + b);
        h + (KeepDigitsAndMinus(a[1..]) + KeepDigitsAndMinus(b));
        (h + KeepDigitsAndMinus(a[1..])) + KeepDigitsAndMinus(b);
      }
    } else {
      assert a + b == b;
    }
  }

  lemma {:induction false} KeepDigitsAndMinusOfNumber(d: string)
    requires forall i :: 0 <= i < |d| ==> IsDigit(d[i]) || d[i] == '-'
    ensures KeepDigitsAndMinus(d) == d
  {
    if d != [] {
      KeepDigitsAndMinusOfNumber(d[1..]);
    }
  }

  lemma {:induction false} KeepDigitsAndMinusOfText(t: string)
    requires forall i :: 0 <= i < |t| ==> !IsDigit(t[i]) && t[i] != '-'
    ensures KeepDigitsAndMinus(t) == []
  {
    if t != [] {
      KeepDigitsAndMinusOfText(t[1..]);
    }
  }

  // ------------------------------------------------ the server's replies

  /** A message text `JSON.stringify` writes as is: no quote, backslash or control character. */
  predicate Plain(m: string) {
    forall i :: 0 <= i < |m| ==> m[i] != '"' && m[i] != '\\' && m[i] >= ' '
  }

  /** The head of a reply as the server writes it: `{"code":<code>,"message":"<message>"`. */
  function ReplyHead(code: int, message: string): string {
    "{\"code\":" + IntToString(code) + ",\"message\":\"" + message + "\""
  }

  const CODE_KEY := "\"code\""
  const MESSAGE_KEY := "\"message\""
  const DATA_KEY := "\"data\""

  /** Where things sit in a reply head: the digits from 8, the message key right after the comma. */
  lemma ReplyLayout(code: int, message: string, tail: string, s: string)
    requires Plain(message) && s == ReplyHead(code, message) + tail
    ensures var d := IntToString(code);
      |s| >= 20 + |d| + |message| && s[..8] == "{\"code\":" && s[8..8 + |d|] == d && s[8 + |d|] == ','
    ensures var k := 9 + |IntToString(code)|;
      s[k..k + 9] == MESSAGE_KEY && s[k + 9] == ':' && s[k + 10] == '"'
    ensures var k := 9 + |IntToString(code)|;
      s[k + 11..k + 11 + |message|] == message && s[k + 11 + |message|..] == "\"" + tail
  {
    var d := IntToString(code);
    var k := 9 + |d|;
    assert s == "{\"code\":" + d + ",\"message\":\"" + message + "\"" + tail;
    assert s[..8] == "{\"code\":";
    assert s[8..8 + |d|] == d;
    assert s[k..k + 9] == MESSAGE_KEY;
    assert s[k + 11..k + 11 + |message|] == message;
    assert s[k + 11 + |message|..] == "\"" + tail;
  }

  /** The first `"code"` of a reply is the one at index 1. */
  lemma ReplyCodeKey(code: int, message: string, tail: string, s: string)
    requires Plain(message) && s == ReplyHead(code, message) + tail
    ensures FindFrom(s, CODE_KEY, 0) == Some(1)
  {
    ReplyLayout(code, message, tail, s);
    assert s[1..7] == s[..8][1..7];
    assert OccursAt(s, CODE_KEY, 1);
    assert !OccursAt(s, CODE_KEY, 0) by { assert s[0] == s[..8][0] == '{'; }
  }

  /** The first `"message"` of a reply is the one after the code. */
  lemma ReplyMessageKey(code: int, message: string, tail: string, s: string)
    requires Plain(message) && s == ReplyHead(code, message) + tail
    ensures FindFrom(s, MESSAGE_KEY, 0) == Some(9 + |IntToString(code)|)
  {
    var d := IntToString(code);
    var k := 9 + |d|;
    ReplyLayout(code, message, tail, s);
    IntToStringShape(code);
    assert OccursAt(s, MESSAGE_KEY, k);
    forall j | 0 <= j < k
      ensures !OccursAt(s, MESSAGE_KEY, j)
    {
      NoMessageKeyAt(d, s, j);
    }
  }

  /** Before the comma that ends the code's digits, no `"m` pair starts: the head is `{"code":` and the digits. */
  lemma NoMessageKeyAt(d: string, s: string, j: nat)
    requires forall i :: 0 <= i < |d| ==> IsDigit(d[i]) || (i == 0 && d[i] == '-')
    requires |s| >= 10 + |d| && s[..8] == "{\"code\":" && s[8..8 + |d|] == d && s[8 + |d|] == ','
    requires j < 9 + |d|
    ensures !OccursAt(s, MESSAGE_KEY, j)
  {
    var c0, c1 := s[j], s[j + 1];
    if j < 8 {
      assert c0 == s[..8][j];
      if j < 7 {
        assert c1 == s[..8][j + 1];
      }
    } else if j < 8 + |d| {
      assert c0 == s[8..8 + |d|][j - 8] == d[j - 8];
    }
    assert c0 != '"' || c1 != 'm';
    if j + 9 <= |s| {
      assert s[j..j + 9][0] == c0 && s[j..j + 9][1] == c1;
    }
  }
}

=== FILE: session.dfy ===
/** The `client_session` table: which employee each MQTT client is bound to. */
module Session {
  import opened Wrappers

  datatype SessionRow = SessionRow(employeeId: string, deviceInfo: Option<string>, connectedAtMs: int)

  class SessionStore {
    var rows: map<string, SessionRow>

    constructor ()
      ensures rows == map[]
    {
      rows := map[];
    }

    /** `getEmployeeIdByClientId`: the bound employee, or nothing for an unknown client. */
    function EmployeeIdOf(clientId: string): (r: Option<string>)
      reads this
      ensures r.None? <==> clientId !in rows
      ensures r.Some? ==> rows[clientId].employeeId == r.value
    {
      if clientId in rows then Some(rows[clientId].employeeId) else None
    }

    /** `upsertClientSession`: insert, or overwrite the row of a client that is already bound. */
    method Upsert(clientId: string, employeeId: string, deviceInfo: Option<string>, nowMs: int)
      modifies this
      ensures rows == old(rows)[clientId := SessionRow(employeeId, deviceInfo, nowMs)]
      ensures EmployeeIdOf(clientId) == Some(employeeId)
      ensures forall c :: c != clientId ==> EmployeeIdOf(c) == old(EmployeeIdOf(c))
    {
      rows := rows[clientId := SessionRow(employeeId, deviceInfo, nowMs)];
    }
  }
}

=== FILE: strings.dfy ===
/**
 * Character and string helpers shared by the server (TypeScript) and the
 * clients (Kotlin, Swift, Python): trimming, prefixes, searching,
 * splitting and decimal numbers. Strings are sequences of Unicode scalar
 * values; whitespace and case are the ASCII ones.
 */
module Strings {
  import opened Wrappers

  /** The whitespace the platforms' `trim`/`strip` functions remove (ASCII subset). */
  predicate IsSpace(c: char) {
    c == ' ' || c == '\t' || c == '\n' || c == '\r' || c == '\U{B}' || c == '\U{C}'
  }

  predicate IsDigit(c: char) { '0' <= c <= '9' }

  predicate IsAsciiLetter(c: char) { 'a' <= c <= 'z' || 'A' <= c <= 'Z' }

  predicate IsAsciiAlnum(c: char) { IsAsciiLetter(c) || IsDigit(c) }

  predicate IsBlank(s: string) {
    forall i :: 0 <= i < |s| ==> IsSpace(s[i])
  }

  function TrimStart(s: string): (r: string)
    ensures |r| <= |s|
    ensures r != [] ==> !IsSpace(r[0])
    ensures forall i :: 0 <= i < |s| - |r| ==> IsSpace(s[i])
  {
    if s != [] && IsSpace(s[0]) then TrimStart(s[1..]) else s
  }

  function TrimEnd(s: string): (r: string)
    ensures |r| <= |s|
    ensures r != [] ==> !IsSpace(r[|r| - 1])
    ensures forall i :: |r| <= i < |s| ==> IsSpace(s[i])
  {
    if s != [] && IsSpace(s[|s| - 1]) then TrimEnd(s[..|s| - 1]) else s
  }

  /** `trim()` / `strip()` / `trimmingCharacters(in: .whitespacesAndNewlines)`. */
  function Trim(s: string): (r: string)
    ensures r == [] <==> IsBlank(s)
    ensures r != [] ==> !IsSpace(r[0]) && !IsSpace(r[|r| - 1])
    ensures forall c :: c in r ==> c in s
  {
    var t := TrimStart(s);
    var r := TrimEnd(t);
    TrimStartIsSuffix(s);
    TrimEndIsPrefix(t);
    assert forall c :: c in r ==> c in t;
    assert r == [] ==> IsBlank(s) by {
      if r == [] {
        assert t == [];
      }
    }
    r
  }

  /** What `TrimStart` keeps is a suffix of its input (kept out of its contract, where nested trims would unfold it without end). */
  lemma {:induction false} TrimStartIsSuffix(s: string)
    ensures TrimStart(s) == s[|s| - |TrimStart(s)|..]
  {
    if s != [] && IsSpace(s[0]) {
      TrimStartIsSuffix(s[1..]);
    }
  }

  /** What `TrimEnd` keeps is a prefix of its input. */
  lemma {:induction false} TrimEndIsPrefix(s: string)
    ensures TrimEnd(s) == s[..|TrimEnd(s)|]
  {
    if s != [] && IsSpace(s[|s| - 1]) {
      TrimEndIsPrefix(s[..|s| - 1]);
    }
  }

  /** No whitespace at either end. */
  predicate Trimmed(s: string) {
    s != [] ==> !IsSpace(s[0]) && !IsSpace(s[|s| - 1])
  }

  /** A string with no surrounding whitespace is its own trim. */
  lemma TrimUntouched(s: string)
    requires s != [] ==> !IsSpace(s[0]) && !IsSpace(s[|s| - 1])
    ensures Trim(s) == s
  {
  }

  /** `replace("\u0000", "")` and then `trim()`: what the mobile clients do to every payload first. */
  function CleanPayload(s: string): (r: string)
    ensures '\0' !in r
    ensures r != [] ==> !IsSpace(r[0]) && !IsSpace(r[|r| - 1])
    ensures r == [] <==> IsBlank(Remove(s, '\0'))
  {
    Trim(Remove(s, '\0'))
  }

  predicate StartsWith(s: string, p: string) {
    |p| <= |s| && s[..|p|] == p
  }

  /** What follows the prefix `p` in `s`, when `s` starts with it (`removePrefix` after a `startsWith` check). */
  function AfterPrefix(s: string, p: string): (r: Option<string>)
    ensures r.Some? <==> StartsWith(s, p)
    ensures r.Some? ==> s == p + r.value
  {
    if StartsWith(s, p) then Some(s[|p|..]) else None
  }

  /** The first `n` characters, or all of them (`prefix(n)`, `slice(0, n)`, `take(n)`). */
  function Take(s: string, n: nat): (r: string)
    ensures |r| == if n < |s| then n else |s|
    ensures r == s[..|r|]
  {
    if n < |s| then s[..n] else s
  }

  /** Index of the first `c` at or after `from` (`indexOf(c, from)`). */
  function IndexOfFrom(s: string, c: char, from: nat): (r: Option<nat>)
    decreases |s| - from
    ensures r.Some? ==> from <= r.value < |s| && s[r.value] == c
    ensures forall j :: from <= j < |s| && (r.None? || j < r.value) ==> s[j] != c
  {
    if from >= |s| then None
    else if s[from] == c then Some(from)
    else IndexOfFrom(s, c, from + 1)
  }

  predicate OccursAt(s: string, sub: string, i: nat) {
    i + |sub| <= |s| && s[i..i + |sub|] == sub
  }

  /** Index of the first occurrence of `sub` at or after `from` (`indexOf(sub)`, `range(of:)`). */
  function FindFrom(s: string, sub: string, from: nat): (r: Option<nat>)
    decreases |s| - from
    ensures r.Some? ==> from <= r.value && OccursAt(s, sub, r.value)
    ensures forall j :: from <= j && (r.None? || j < r.value) ==> !OccursAt(s, sub, j)
  {
    if from + |sub| > |s| then None
    else if s[from..from + |sub|] == sub then Some(from)
    else FindFrom(s, sub, from + 1)
  }

  predicate Contains(s: string, sub: string) {
    exists i :: 0 <= i <= |s| && OccursAt(s, sub, i)
  }

  /** JavaScript `String.prototype.includes`. */
  function Includes(s: string, sub: string): (r: bool)
    ensures r <==> Contains(s, sub)
  {
    var f := FindFrom(s, sub, 0);
    assert f.None? ==> forall j :: 0 <= j <= |s| ==> !OccursAt(s, sub, j);
    f.Some?
  }

  /** Every character except `c` (`replace("\u0000", "")`). */
  function Remove(s: string, c: char): (r: string)
    ensures c !in r
    ensures forall x :: x in r <==> x in s && x != c
    ensures |r| <= |s|
  {
    if s == [] then []
    else (if s[0] == c then [] else [s[0]]) + Remove(s[1..], c)
  }

  /** JavaScript / Kotlin `split(sep)`: empty pieces are kept, so there is always one more piece than separators. */
  function Split(s: string, sep: char): (parts: seq<string>)
    decreases |s|
    ensures |parts| >= 1
    ensures forall k :: 0 <= k < |parts| ==> sep !in parts[k]
  {
    match IndexOfFrom(s, sep, 0)
    case None => [s]
    case Some(i) =>
      assert sep !in s[..i] by {
        forall j | 0 <= j < i ensures s[..i][j] != sep { }
      }
      [s[..i]] + Split(s[i + 1..], sep)
  }

  function Join(parts: seq<string>, sep: char): string
    requires |parts| >= 1
  {
    if |parts| == 1 then parts[0] else parts[0] + [sep] + Join(parts[1..], sep)
  }

  /** Splitting and re-joining on the same separator gives the string back. */
  lemma {:induction false} JoinSplit(s: string, sep: char)
    decreases |s|
    ensures Join(Split(s, sep), sep) == s
  {
    match IndexOfFrom(s, sep, 0)
    case None =>
    case Some(i) =>
      var parts := Split(s, sep);
      var rest := Split(s[i + 1..], sep);
      assert parts == [s[..i]] + rest;
      assert parts[0] == s[..i] && parts[1..] == rest;
      JoinSplit(s[i + 1..], sep);
      assert s == s[..i] + [sep] + s[i + 1..];
  }

  /** Splitting a joined sequence of separator-free pieces gives the pieces back. */
  lemma {:induction false} SplitJoin(parts: seq<string>, sep: char)
    requires |parts| >= 1
    requires forall k :: 0 <= k < |parts| ==> sep !in parts[k]
    ensures Split(Join(parts, sep), sep) == parts
  {
    if |parts| == 1 {
      assert forall j :: 0 <= j < |parts[0]| ==> parts[0][j] != sep;
      assert IndexOfFrom(parts[0], sep, 0).None?;
    } else {
      var s := Join(parts, sep);
      var p := parts[0];
      var tail := Join(parts[1..], sep);
      assert s == p + [sep] + tail;
      assert s[|p|] == sep;
      assert forall j :: 0 <= j < |p| ==> s[j] == p[j];
      assert forall j :: 0 <= j < |p| ==> s[j] != sep;
      var r := IndexOfFrom(s, sep, 0);
      assert r == Some(|p|);
      assert s[..|p|] == p;
      assert s[|p| + 1..] == tail;
      SplitJoin(parts[1..], sep);
    }
  }

  function DigitChar(d: nat): (c: char)
    requires d < 10
    ensures IsDigit(c) && DigitValue(c) == d
  {
    ('0' as int + d) as char
  }

  function DigitValue(c: char): nat
    requires IsDigit(c)
  {
    (c as int) - ('0' as int)
  }

  /** The decimal digits of `n`, most significant first, without leading zeros. */
  function NatToString(n: nat): (r: string)
    ensures |r| >= 1 && forall i :: 0 <= i < |r| ==> IsDigit(r[i])
    ensures |r| > 1 ==> r[0] != '0'
  {
    if n < 10 then [DigitChar(n)] else NatToString(n / 10) + [DigitChar(n % 10)]
  }

  /** The decimal text of an integer: a `-` sign for negatives (`${n}`, `"$n"`, `toString()`). */
  function IntToString(n: int): string {
    if n < 0 then "-" + NatToString(-n) else NatToString(n)
  }

  predicate AllDigits(s: string) {
    forall i :: 0 <= i < |s| ==> IsDigit(s[i])
  }

  /** The value of a non-empty run of decimal digits. */
  function DigitsValue(s: string): nat
    requires AllDigits(s)
  {
    if s == [] then 0 else 10 * DigitsValue(s[..|s| - 1]) + DigitValue(s[|s| - 1])
  }

  /** Decimal integer syntax: an optional `+` or `-` and at least one digit (Swift `Int(_:)`, Kotlin `toIntOrNull`, without range limits). */
  function ParseDecimal(s: string): (r: Option<int>)
    ensures r.Some? ==> s != [] && s[|s| - 1] != '-' && s[|s| - 1] != '+'
  {
    if s != [] && (s[0] == '-' || s[0] == '+') then
      var t := s[1..];
      if t != [] && AllDigits(t) then
        var v: int := DigitsValue(t);
        Some(if s[0] == '-' then -v else v)
      else None
    else if s != [] && AllDigits(s) then Some(DigitsValue(s))
    else None
  }

  lemma {:induction false} DigitsValueOfNat(n: nat)
    ensures DigitsValue(NatToString(n)) == n
  {
    if n >= 10 {
      DigitsValueOfNat(n / 10);
      var r := NatToString(n);
      assert r[..|r| - 1] == NatToString(n / 10);
    }
  }

  /** Printing an integer and parsing the text back gives the integer. */
  lemma ParseIntToString(n: int)
    ensures ParseDecimal(IntToString(n)) == Some(n)
  {
    if n < 0 {
      var t := NatToString(-n);
      DigitsValueOfNat(-n);
      var s := "-" + t;
      assert s[0] == '-' && s[1..] == t;
    } else {
      DigitsValueOfNat(n);
    }
  }

  /** The longest prefix made of decimal digits (`takeWhile { it.isDigit() }`). */
  function TakeDigits(s: string): (r: string)
    ensures AllDigits(r) && |r| <= |s| && r == s[..|r|]
    ensures |r| < |s| ==> !IsDigit(s[|r|])
  {
    if s != [] && IsDigit(s[0]) then [s[0]] + TakeDigits(s[1..]) else []
  }

  /** The digits and minus signs of `s`, in order (Swift `filter { $0.isNumber || $0 == "-" }`, ASCII digits). */
  function KeepDigitsAndMinus(s: string): (r: string)
    ensures |r| <= |s|
    ensures forall i :: 0 <= i < |r| ==> IsDigit(r[i]) || r[i] == '-'
  {
    if s == [] then []
    else (if IsDigit(s[0]) || s[0] == '-' then [s[0]] else []) + KeepDigitsAndMinus(s[1..])
  }

  /** The decimal digits of `s`, in order (Swift `filter { $0.isNumber }`, ASCII digits). */
  function KeepDigits(s: string): (r: string)
    ensures |r| <= |s| && AllDigits(r)
  {
    if s == [] then []
    else (if IsDigit(s[0]) then [s[0]] else []) + KeepDigits(s[1..])
  }

  function ToLowerAscii(c: char): char {
    if 'A' <= c <= 'Z' then ((c as int) + 32) as char else c
  }

  /** `lowercase()` / `lowercased()` on ASCII letters. */
  function LowerAscii(s: string): (r: string)
    ensures |r| == |s| && forall i :: 0 <= i < |s| ==> r[i] == ToLowerAscii(s[i])
  {
    if s == [] then [] else [ToLowerAscii(s[0])] + LowerAscii(s[1..])
  }

  /** Case-insensitive prefix test (`startsWith(p, ignoreCase = true)`), for a lower-case `p`. */
  predicate StartsWithIgnoreCase(s: string, p: string) {
    StartsWith(LowerAscii(s), p)
  }
  /** A character of the class `[A-Za-z0-9_.-]`. */
  predicate IsIdChar(c: char) {
    IsAsciiAlnum(c) || c == '_' || c == '.' || c == '-'
  }

  /** Every character outside `[A-Za-z0-9_.-]` replaced by '_'. */
  function SanitizeId(s: string): (r: string)
    ensures |r| == |s|
    ensures forall i :: 0 <= i < |s| ==> r[i] == if IsIdChar(s[i]) then s[i] else '_'
  {
    seq(|s|, i requires 0 <= i < |s| => if IsIdChar(s[i]) then s[i] else '_')
  }

  /** The value of the digits a text starts with, if there are any. */
  function ReadDigits(u: string): Option<nat> {
    var d := TakeDigits(u);
    if d == [] then None else Some(DigitsValue(d))
  }

  /** The integer a text starts with, after blanks: an optional minus sign and the digits that follow. */
  function LeadingInteger(t: string): Option<int> {
    var u := TrimStart(t);
    if u != [] && u[0] == '-' then
      match ReadDigits(u[1..])
      case Some(v) => Some(-(v as int))
      case None => None
    else
      match ReadDigits(u)
      case Some(v) => Some(v as int)
      case None => None
  }

  lemma {:induction false} TakeDigitsAppend(d: string, t: string)
    requires AllDigits(d) && (t == [] || !IsDigit(t[0]))
    ensures TakeDigits(d + t) == d
  {
    if d != [] {
      TakeDigitsAppend(d[1..], t);
      assert (d + t)[1..] == d[1..] + t;
    } else {
      assert d + t == t;
    }
  }

  lemma ReadDigitsOf(d: string, rest: string)
    requires d != [] && AllDigits(d) && (rest == [] || !IsDigit(rest[0]))
    ensures ReadDigits(d + rest) == Some(DigitsValue(d))
  {
    TakeDigitsAppend(d, rest);
  }

  /** The first `c` from `from` on is at `at`. */
  lemma IndexOfFromAt(s: string, c: char, from: nat, at: nat)
    requires from <= at < |s| && s[at] == c
    requires forall j :: from <= j < at ==> s[j] != c
    ensures IndexOfFrom(s, c, from) == Some(at)
  {
  }

  lemma TrimStartKeeps(t: string)
    requires t != [] && !IsSpace(t[0])
    ensures TrimStart(t) == t
  {
  }

  lemma LeadingDigits(d: string, rest: string)
    requires d != [] && AllDigits(d) && (rest == [] || !IsDigit(rest[0]))
    ensures LeadingInteger(d + rest) == Some(DigitsValue(d) as int)
  {
    var t := d + rest;
    assert t[0] == d[0];
    TrimStartKeeps(t);
    ReadDigitsOf(d, rest);
    assert t[0] != '-';
  }

  lemma LeadingMinusDigits(d: string, rest: string)
    requires d != [] && AllDigits(d) && (rest == [] || !IsDigit(rest[0]))
    ensures LeadingInteger("-" + (d + rest)) == Some(-(DigitsValue(d) as int))
  {
    var t := d + rest;
    var u := "-" + t;
    assert u[0] == '-';
    TrimStartKeeps(u);
    assert u[1..] == t;
    ReadDigitsOf(d, rest);
  }

  /** A printed integer followed by a non-digit reads back as that integer. */
  lemma LeadingIntegerOf(n: int, rest: string)
    requires rest == [] || !IsDigit(rest[0])
    ensures LeadingInteger(IntToString(n) + rest) == Some(n)
  {
    var m: nat := if n < 0 then -n else n;
    var d := NatToString(m);
    DigitsValueOfNat(m);
    assert d != [] && AllDigits(d);
    if n < 0 {
      assert IntToString(n) + rest == "-" + (d + rest);
      LeadingMinusDigits(d, rest);
    } else {
      LeadingDigits(d, rest);
    }
  }

}

=== FILE: tables.dfy ===
/**
 * The server's MySQL tables as maps from primary key to row. Columns the
 * handlers copy from a request without checking keep the request's JSON
 * value; text columns holding JSON are kept as what `JSON.parse` makes of
 * them.
 */
module Tables {
  import opened Wrappers
  import opened Json

  /** A text column holding JSON, modelled by the outcome of parsing it. */
  datatype Doc = Doc(parsed: Option<Json>)

  /** The `JSON.stringify(v)` text, which parses back to `v`. */
  function Encoded(v: Json): Doc {
    Doc(Some(v))
  }

  datatype Employee = Employee(
    name: Json,
    departmentId: Json,
    managerId: Json,
    isAiAgent: bool,
    agentProfile: Option<Doc>,
    skillsBadge: Option<Doc>,
    mqttPassword: string,
    status: Json)

  /** `status = 'active'`. */
  predicate IsActive(employees: map<string, Employee>, id: string) {
    id in employees && employees[id].status == JStr("active")
  }

  datatype Department = Department(name: Json, parentId: Json, sortOrder: Json)

  datatype Group = Group(name: string, creator: string, description: Option<string>, avatar: Option<string>)

  /** The primary key of `group_member`. */
  datatype Member = Member(groupId: string, employeeId: string)

  datatype Role = Owner | Plain

  /** A SHA-256 digest, kept symbolically as the text it was taken of. */
  datatype Digest = Sha256(of: string)

  datatype Challenge = Challenge(tokenHash: Digest, employeeId: string, expiresAtMs: int)

  /** The employees that have a `group_member` row for group `gid`. */
  function MembersOf(members: map<Member, Role>, gid: string): (r: set<string>)
    ensures forall e :: e in r <==> Member(gid, e) in members
  {
    set m | m in members && m.groupId == gid :: m.employeeId
  }

  /**
   * The `SET k = ?` list an update handler builds from `Object.entries(updates)`:
   * the entries whose key is an allowed column, in order.
   */
  function SetList(entries: Obj, allowed: set<string>): (r: Obj)
    ensures forall i :: 0 <= i < |r| ==> r[i].0 in allowed && r[i] in entries
    ensures r == [] <==> forall i :: 0 <= i < |entries| ==> entries[i].0 !in allowed
    ensures |r| <= |entries|
    decreases |entries|
  {
    if entries == [] then []
    else
      var init := SetList(entries[..|entries| - 1], allowed);
      var last := entries[|entries| - 1];
      if last.0 in allowed then init + [last] else init
  }

  /** A column set by the update takes the value the request gave it last; no other key is set. */
  lemma {:induction false} GetSetList(entries: Obj, allowed: set<string>, k: string)
    ensures Get(SetList(entries, allowed), k) == if k in allowed then Get(entries, k) else None
    decreases |entries|
  {
    if entries != [] {
      var init := entries[..|entries| - 1];
      GetSetList(init, allowed, k);
      var last := entries[|entries| - 1];
      if last.0 in allowed {
        assert (SetList(init, allowed) + [last])[..|SetList(init, allowed)|] == SetList(init, allowed);
      }
    }
  }

  /**
   * The two parameters every update handler checks first: a non-empty
   * string identifying the row, and an `updates` value that is truthy and
   * of type object; the result is that row's key and the updates' entries.
   */
  function UpdateRequest(payload: Obj, idKey: string): (r: Option<(string, Obj)>)
    ensures r.Some? <==>
      NonEmptyString(payload, idKey).Some? && Truthy(Get(payload, "updates")) && IsTypeofObject(Get(payload, "updates"))
    ensures r.Some? ==> Get(payload, idKey) == Some(JStr(r.value.0)) && r.value.1 == Entries(Get(payload, "updates").value)
  {
    var id := NonEmptyString(payload, idKey);
    var updates := Get(payload, "updates");
    if id.None? || !Truthy(updates) || !IsTypeofObject(updates) then None
    else Some((id.value, Entries(updates.value)))
  }

  /** The loop of an update handler that pushes each allowed entry onto the `SET` list. */
  method CollectSetList(entries: Obj, allowed: set<string>) returns (sets: Obj)
    ensures sets == SetList(entries, allowed)
  {
    sets := [];
    var i := 0;
    while i < |entries|
      invariant 0 <= i <= |entries|
      invariant sets == SetList(entries[..i], allowed)
    {
      assert entries[..i + 1][..i] == entries[..i];
      if entries[i].0 in allowed {
        sets := sets + [entries[i]];
      }
      i := i + 1;
    }
    assert entries[..i] == entries;
  }

  /** The tables of `Db`, by name. */
  datatype Table = EmployeeTable | DepartmentTable | GroupTable | MemberTable | ChallengeTable

  /** Every table outside `written` holds what it held before. */
  twostate predicate TablesKept(db: Db, written: set<Table>)
    reads db
  {
    (EmployeeTable !in written ==> db.employees == old(db.employees)) &&
    (DepartmentTable !in written ==> db.departments == old(db.departments)) &&
    (GroupTable !in written ==> db.groups == old(db.groups)) &&
    (MemberTable !in written ==> db.members == old(db.members)) &&
    (ChallengeTable !in written ==> db.challenges == old(db.challenges))
  }

  class Db {
    var employees: map<string, Employee>
    var departments: map<string, Department>
    var groups: map<string, Group>
    var members: map<Member, Role>
    var challenges: map<string, Challenge>

    constructor ()
      ensures employees == map[] && departments == map[] && groups == map[]
      ensures members == map[] && challenges == map[]
    {
      employees := map[];
      departments := map[];
      groups := map[];
      members := map[];
      challenges := map[];
    }
  }
}

=== FILE: wrappers.dfy ===
/** Optional values, used wherever the source has `null`, `undefined`, `nil` or `None`. */
module Wrappers {
  datatype Option<+T> = None | Some(value: T) {
    /** The value, or `d` when absent (the `??`, `?:` and `or` operators of the source languages). */
    function GetOr(d: T): T {
      if Some? then value else d
    }
  }
}
